=== FILE: README.md ===
# Sports_App decision core in Dafny

This project models the deterministic core of the Sports_App sports-prediction and betting service. It covers the Python backend and two pure helpers of the TypeScript frontend. That core holds:

- **Betting value.** Expected value and fractional Kelly sizing (`KellyCriterion`, `BettingAnalyzer`), the parlay calculator's arithmetic, the frontend betting calculator, best-odds selection across sportsbooks, and the positive-EV ranking of the bets router.
- **Prediction arithmetic.** Team strength, base win probability, weather shift, winner and confidence (`GamePredictor`). The player-prop matchup factor and step-table over-probability (`PlayerPropPredictor`). Injury aggregation, mental-health scoring, coaching tiers and head-to-head post-processing, and weather severity classification. The deterministic parts of the ML predictors. The player-prop step of the game-prediction endpoint, and the prop table with injury scaling.
- **Rational statistics.** Weighted win rate, trimmed and winsorized means, linear normalisation, the Beta posterior mean, regression to the mean, Kish's effective sample size, and the early returns of the helpers whose main branch needs exp or log.
- **Outcome tracking.** The in-memory prediction tracker, the learning analyser's error rules and patterns, the adaptive weights and confidence, and the frontend's list of locked predictions.
- **Normalisation and lookup.** `DataNormalizer`, the city-coordinate lookup, the NFL player directory, and the four schedule filters with their week labels.

There is one module per source file, plus shared helpers:

- `Wrappers`: `Option` and `Result`.
- `Num`: `min`, `max`, `abs` and the clamp idiom.
- `Seqs`: sums, products, Python's `s[:k]`, filtering, counting, and the stable descending sort behind `sorted(..., reverse=True)`.
- `Assoc`: dicts as ordered association lists.
- `Text`: ASCII `lower`, `upper`, `strip`, the substring test and `str(n)`.

Numbers are Dafny `real`. Dicts whose order matters are sequences of pairs. A missing dict key is `None` at the point where its `.get` default applies. A Python exception is a `Result` failure or an explicit skipped input.

The clock is always a parameter: `now` as a day ordinal, and the UTC offset behind `timestamp()`. So are any values the source fetches, simulates or draws at random.

Where the code does something its own comments or names evidently did not intend, the model keeps the code's behaviour in an "as written" member and proves the discrepancy. Beside it sits a corrected member with the intended property proved; the corrected members are used only by their own lemmas, and every operation of the model keeps the behaviour as written (see "## Findings").

## Model

| member | source | states |
|---|---|---|
| Betting.ExpectedValue | backend/app/models/betting_models.py:61-80 | -1 for odds at or below 1, otherwise `p·odds − 1`, which is `p·(odds−1) − (1−p)` |
| Betting.KellyPercentage | backend/app/models/betting_models.py:27-58 | 0 for odds at or below 1, and always within [0, 0.05] |
| Betting.KellyFromExpectedValue | backend/app/models/betting_models.py:48-58 | for odds above 1 the stake is `min(max(0, fraction·EV/(odds−1)), 0.05)`: the Kelly formula is the expected value over the net odds |
| Betting.KellyPositiveIffValue | backend/app/models/betting_models.py:48-80 | with a positive fraction, a stake is recommended exactly when the expected value is positive |
| Betting.ValueIffProbabilityBeatsImplied | backend/app/models/betting_models.py:75-80 | for odds above 1 the EV is positive exactly when `p > 1/odds` |
| Betting.KellyAtEvenMoneyWithEdge | backend/app/models/betting_models.py:48-58 | p = 0.6 at odds 2.0 with the quarter-Kelly default hits the 0.05 cap |
| Betting.FairCoinAtEvenMoneyHasNoValue | backend/app/models/betting_models.py:79 | p = 0.5 at odds 2.0 has EV exactly 0 |
| Betting.Tier | backend/app/models/betting_models.py:123-130 | strong iff EV > 0.10 and Kelly > 0.01; moderate iff not strong and EV > 0.05 and Kelly > 0.005; small iff EV > 0 and not moderate; avoid iff EV ≤ 0 |
| Betting.ImpliedProbability | backend/app/models/betting_models.py:112 | the reciprocal of positive odds, 0 for non-positive odds |
| Betting.AnalyzeBet | backend/app/models/betting_models.py:90-142 | copies odds, probability, bet type, selection and platform; carries the implied probability, EV, Kelly and tier of those inputs; avoid iff EV ≤ 0 |
| Betting.AvoidIffNoEdge | backend/app/models/betting_models.py:111-130 | for odds above 1 the analysis says avoid exactly when the model probability does not beat the implied one |
| Betting.CompareOdds | backend/app/models/betting_models.py:144-170 | one opportunity per platform entry, in order, each the analysis of that platform's odds |
| Betting.FindBestBet | backend/app/models/betting_models.py:172-194 | None iff no opportunity has positive EV; otherwise the first opportunity of maximal EV among the positive ones (Python's `max`) |
| Calculator.CalculateKelly | frontend/components/BettingCalculator.tsx:17-25 | 0 for odds at or below 1, and always within [0, 5] percent |
| Calculator.CalculateEV | frontend/components/BettingCalculator.tsx:28-33 | -100 for odds at or below 1 |
| Calculator.KellyMatchesBackend | frontend/components/BettingCalculator.tsx:17-25 | the frontend Kelly is 100 times the backend Kelly at probability prob/100 |
| Calculator.EvMatchesBackend | frontend/components/BettingCalculator.tsx:28-33 | the frontend EV is 100 times the backend EV at probability prob/100 |
| Calculator.ImpliedProbability | frontend/components/BettingCalculator.tsx:38 | `100/odds`, undefined (JavaScript's infinity) exactly for odds 0 |
| Calculator.Edge | frontend/components/BettingCalculator.tsx:39 | probability minus implied probability, undefined exactly for odds 0 |
| Calculator.EdgeIffPositiveEv | frontend/components/BettingCalculator.tsx:28-39 | for odds above 1 a positive edge is the same as a positive EV |
| Calculator.Recommendation | frontend/components/BettingCalculator.tsx:43-48 | Avoid iff EV < 0, Strong iff EV > 10, Good iff 5 < EV ≤ 10, Moderate iff 0 ≤ EV ≤ 5 |
| Calculator.BreakEvenAdviceDiffersFromBackend | frontend/components/BettingCalculator.tsx:43-48 | 50% at odds 2.0 is a "Moderate Bet" on the frontend while the backend tier is avoid |
| Calculator.Summarize | frontend/components/BettingCalculator.tsx:35-48 | bet amount is bankroll·Kelly/100, win and loss follow from it, and for a non-negative bankroll the bet stays within 5% of it |
| Parlay.Tier | backend/app/routers/parlays.py:88-99 | strong iff EV% > 15, moderate iff 5 < EV% ≤ 15, small iff 0 < EV% ≤ 5, avoid iff EV% ≤ 0 |
| Parlay.HitProbabilities | backend/app/routers/parlays.py:102-116 | n + 1 entries: all legs is the product of the probabilities, none is the product of the misses, every count in between is 0 |
| Parlay.Analyze | backend/app/routers/parlays.py:48-116 | combined probability and odds are the products over the legs; return = payout + stake; EV = stake·(P·odds − 1); EV% = 100·(P·odds − 1); Kelly ≥ 0; recommended bet = min(0.10·Kelly, 5) within [0, 5] |
| Parlay.CalculateParlay | backend/app/routers/parlays.py:41-116 | fewer than 2 legs fails first, then a non-positive stake; a probability failure names the first bad leg; an odds failure happens only when every probability is valid and names the first bad leg; success iff the request is valid |
| Parlay.CombinedBoundsEachLeg | backend/app/routers/parlays.py:49-66 | the combined probability is strictly below each leg's, and the parlay odds strictly above each leg's odds, which exceed 1 |
| Parlay.ParlayIsSingleBetOnCombinedEvent | backend/app/routers/parlays.py:73-85 | EV% and the Kelly stake are those of one bet on the combined event at the combined odds |
| Parlay.TwoFairLegsAreAvoided | backend/app/routers/parlays.py:73-99 | two (0.5, 2.0) legs with stake 100 give EV 0 and avoid_parlay |
| Prediction.TeamStrength | backend/app/models/prediction_models.py:111-127 | the strength lies in [0.1, 0.9] for any statistics, and equals the weighted sum `0.4·wr + 0.3·ppg/100 + 0.2·(1 − pa/100) + 0.1·form` whenever that sum is already in range |
| Prediction.BaseProbabilities | backend/app/models/prediction_models.py:68-77 | home and away sum to 1; for a positive total the home share times the total is the home strength plus the 0.03 advantage |
| Prediction.BaseProbabilityInUnitInterval | backend/app/models/prediction_models.py:68-77 | with clamped strengths both base probabilities lie strictly inside (0, 1), so the 0.5 fallback is never taken |
| Prediction.WeatherAdjustment | backend/app/models/prediction_models.py:138-157 | never positive, one of 0, −0.05, −0.08, −0.10, −0.15, −0.18, and 0 exactly when it is not cold (default 70), not windy and dry |
| Prediction.ApplyWeather | backend/app/models/prediction_models.py:129-175 | keeps the original probabilities, shifts home by the adjustment unclamped, sets away to 1 − home, and reports the defaulted readings |
| Prediction.WeatherPenaltiesOverwrite | backend/app/models/prediction_models.py:148-157 | cold and windy costs 0.08 rather than 0.13, adding rain gives 0.18, and no readings give 0 |
| Prediction.WeatherCanPushProbabilityBelowZero | backend/app/models/prediction_models.py:160-166 | the weakest home side against the strongest away side in cold, windy, wet weather gets a negative home probability and an away probability above 1 |
| Prediction.KeyFactors | backend/app/models/prediction_models.py:177-195 | at most three factors: the record factor iff the home win rate (default 0) beats the away one by more than 0.2, the wind and precipitation factors iff weather is given with wind > 20 or precipitation > 0 |
| Prediction.PredictGame | backend/app/models/prediction_models.py:44-109 | probabilities sum to 1; the winner is home iff its probability is strictly larger; confidence is their distance; home is the base probability, shifted by the weather adjustment when weather is given |
| Prediction.ExactTieGoesToAway | backend/app/models/prediction_models.py:89 | two sides with equal probabilities give the away team as predicted winner |
| Prediction.MatchupFactor | backend/app/models/prediction_models.py:256-269 | within [0.7, 1.3], and 1 when the opponent has no `defense_vs_` rating for the prop |
| Prediction.ZStep | backend/app/models/prediction_models.py:287-298 | one of 0.95, 0.80, 0.65, 0.35, 0.20, 0.05 |
| Prediction.ZStepNonIncreasing | backend/app/models/prediction_models.py:287-298 | a larger z never gives a larger over probability |
| Prediction.OverProbability | backend/app/models/prediction_models.py:271-298 | 0.5 when the predicted value (so the standard deviation) is 0, otherwise the step of `(line − pred)/(0.15·pred)` |
| Prediction.OverProbabilityNonIncreasingInLine | backend/app/models/prediction_models.py:278-298 | for a positive prediction a higher line never makes the over likelier |
| Prediction.LineAtPredictionIsNotEven | backend/app/models/prediction_models.py:284-294 | a line equal to the prediction gives 0.35, because z = 0 falls in the [0, 1) bucket |
| Prediction.PredictPlayerProp | backend/app/models/prediction_models.py:201-254 | the value is the `_avg` statistic (default the historical average) times the matchup factor; a falsy line gives 0.5/0.5; under = 1 − over; confidence = min(0.95, 0.9·consistency) |
| PredictionRouter.MatchupFactorFor | backend/app/routers/predictions.py:144-151 | at most one factor: the home one iff net > 0.02, the away one iff net < −0.02, none iff net lies in [−0.02, 0.02] |
| PredictionRouter.AdjustedResponse | backend/app/routers/predictions.py:122-166 | without prop data the prediction passes through; with it home becomes `clamp(home + net, 0.1, 0.9)`, away 1 − home, confidence their distance, and the factor is appended; the predicted winner is copied unchanged |
| PredictionRouter.AdjustmentKeepsProbabilitiesInRange | backend/app/routers/predictions.py:133-151 | after an adjustment both probabilities lie in [0.1, 0.9], confidence is at most 0.8, and at most one factor is added |
| PredictionRouter.WinnerCanContradictProbabilities | backend/app/routers/predictions.py:132-158 | a 55% home favourite shifted by −0.10 stays the predicted winner at 45% |
| PredictionRouter.AdjustedResponseCorrected | backend/app/models/prediction_models.py:89 | the same probabilities and factors as the response, with the winner re-derived by the predictor's strict rule after an adjustment |
| PredictionRouter.CorrectedWinnerLeads | backend/app/models/prediction_models.py:89 | in the corrected response the home side is named exactly when its probability exceeds one half |
| PropRouter.Catalogue | backend/app/routers/player_props.py:161-342 | NFL QB/RB/WR-TE props, none for other NFL positions; NBA points, assists for PG and SG, points, assists and rebounds for SF, points and rebounds for PF and C, nothing for another NBA position; MLB P strikeouts else hits and home runs; NHL G saves else points and shots; nothing for another sport; at most three |
| PropRouter.SmallForwardGetsThreeProps | backend/app/routers/player_props.py:231-268 | an NBA small forward gets points, assists and rebounds |
| PropRouter.StartProp | backend/app/routers/player_props.py:164-172 | a fresh prop has line and predicted value both equal to the season average or the listed default |
| PropRouter.StartProps | backend/app/routers/player_props.py:161-342 | one fresh prop per catalogue entry, in order |
| PropRouter.ApplyInjury | backend/app/routers/player_props.py:345-360 | with an injury every predicted value is scaled by `1 − m` for the status multiplier and the injury recorded; without one the props are unchanged |
| PropRouter.OutScalesToZero | backend/app/routers/player_props.py:347-358 | an "out" player's scaled values are all 0 |
| PropRouter.GeneratePlayerProps | backend/app/routers/player_props.py:148-395 | one prop per catalogue entry with the season-average line, the injury recorded, and the predictor's value for that line as the final predicted value |
| PropRouter.FinalValueIgnoresInjury | backend/app/routers/player_props.py:358-380 | the final predicted values, lines and over probabilities are the same with or without an injury |
| Injury.TypeImpact | backend/app/models/injury_analyzer.py:10-33 | every injury type's impact lies in [0.10, 0.40] |
| Injury.StatusMultiplier | backend/app/models/injury_analyzer.py:41-47 | within [0, 1]; 0 exactly for active and 1 exactly for out |
| Injury.PositionWeight | backend/app/models/injury_analyzer.py:83-96 | within [0.03, 0.30], the default 0.05 included |
| Injury.PlayerImpactNonNegative | backend/app/models/injury_analyzer.py:131-156 | a player's impact is never negative, and exactly 0 for an active player |
| Injury.AddImpactSpec | backend/app/models/injury_analyzer.py:161-163 | adding to a key updates it in place or appends it at the end; other keys keep their values, keys stay distinct and the values' sum grows by the amount |
| Injury.PositionImpactsSpec | backend/app/models/injury_analyzer.py:129-163 | one entry per injured position holding that position's summed impact; the entries add up to the uncapped total |
| Injury.RawTotalNonNegative | backend/app/models/injury_analyzer.py:125-158 | the uncapped running total is never negative |
| Injury.AnalyzeTeamInjuries | backend/app/models/injury_analyzer.py:98-182 | total = min(raw total, 0.5); key injuries are exactly those with impact > 0.05, in order; adjustment = −total·strength; no injuries give zeros and empty maps |
| Injury.TeamTotalBounds | backend/app/models/injury_analyzer.py:158-170 | the capped total lies in [0, 0.5], while the position entries sum to the uncapped total |
| Injury.SeverityLine | backend/app/models/injury_analyzer.py:194-199 | severe iff total > 0.3, moderate iff 0.15 < total ≤ 0.3, minor otherwise |
| Injury.Describe | backend/app/models/injury_analyzer.py:184-220 | exactly "No significant injuries" iff total is 0; otherwise the severity line, then the positions above 0.05 by impact descending, then the first three key injuries |
| Injury.DescriptionNamesAtMostThreePlayers | backend/app/models/injury_analyzer.py:213-218 | at most three player lines |
| Injury.InjuryAdjustedProbability | backend/app/models/injury_analyzer.py:222-261 | adjustment = 0.20·(away total − home total), reported before the clamp; home = clamp(base + adjustment, 0.1, 0.9); away = 1 − home |
| Injury.InjurySwingBounded | backend/app/models/injury_analyzer.py:243-253 | with capped totals the swing is at most 0.10 either way, and more home injuries never raise the home probability |
| MentalHealth.TrendOf | backend/app/models/mental_health_analyzer.py:76-97 | "improving" exactly when there are at least three recent games whose last-three mean beats 1.1 × the season average (0.5 when missing), "declining" exactly when it is instead below 0.9 ×, "stable" otherwise, including fewer than three games |
| MentalHealth.AnalyzePlayer | backend/app/models/mental_health_analyzer.py:47-188 | the four levels are the bases 0.7/0.3/0.75/0.8 plus the summed adjustments of the fired rules, clamped to [0, 1]; the overall score is their 0.3/0.25/0.25/0.2 mix with stress inverted, within [0, 1]; the impact is `(overall − 0.5)·0.3`, within ±0.15 |
| MentalHealth.NoFactorsIffNoAdjustments | backend/app/models/mental_health_analyzer.py:153-185 | the placeholder "No significant factors identified" is reported exactly when no rule adjusted any aspect |
| MentalHealth.DefaultPlayerScore | backend/app/models/mental_health_analyzer.py:67-70 | a player with no inputs in a non-pressure position scores 0.7325 overall, trend "stable", no factors |
| MentalHealth.ExperienceNeverChangesScores | backend/app/models/mental_health_analyzer.py:135-161 | experience adjusts only "pressure_handling", which the player scores never read, so veterans, young players and the rest get identical scores and impact |
| MentalHealth.HighPressurePositionAddsStress | backend/app/models/mental_health_analyzer.py:143-145 | a QB, PG or P carries exactly 0.1 more raw stress than the same player in any other position |
| MentalHealth.AnalyzeTeam | backend/app/models/mental_health_analyzer.py:249-343 | chemistry, morale and pressure handling are the bases 0.75/0.7/0.65 plus their adjustments, clamped; the team score mixes them with the mean key-player impact (0 for none) and is clamped; the impact is `(score − 0.5)·0.12 + mean·0.15` |
| MentalHealth.TeamScoresReadThreeAspects | backend/app/models/mental_health_analyzer.py:305-332 | two teams whose adjustments agree on chemistry, morale and pressure handling get the same score and impact, whatever else differs |
| MentalHealth.MediaFiring | backend/app/models/mental_health_analyzer.py:298-302 | media pressure above 0.6 appends exactly one "High media scrutiny" rule with a +0.1 stress adjustment after the other team rules |
| MentalHealth.MediaPressureHasNoEffect | backend/app/models/mental_health_analyzer.py:298-332 | heavy media scrutiny adds its factor but leaves the team score and impact exactly as without it, because team stress is never applied |
| MentalHealth.NoMediaFactorWithoutMedia | backend/app/models/mental_health_analyzer.py:298-302 | without a media-pressure value no "High media scrutiny" factor is reported, and the factors do not depend on the team name or player impacts |
| MentalHealth.TeamImpactBounded | backend/app/models/mental_health_analyzer.py:323-332 | with every key-player impact within ±0.15, the team's win-probability impact stays within ±0.0825 |
| Matchups.WinsPartitionGames | backend/app/data/historical_matchups.py:408-415 | every simulated game is won by exactly one coach, so the two win counts add up to the number of games |
| Matchups.TrailingRun | backend/app/data/historical_matchups.py:450-457 | the count is the length of the maximal run of games at the end won by the given coach: all of them were won by that coach, and the game before the run was not |
| Matchups.RecordRoundTrip | backend/app/data/historical_matchups.py:460-461 | the "W-L" record string reads back as exactly the two counts it was printed from |
| Matchups.Assess | backend/app/data/historical_matchups.py:439-447 | home advantage exactly when the home rate exceeds 0.60; away advantage exactly when it does not but the away rate does; "strong" exactly when the leading rate exceeds 0.70; no strength exactly for neutral |
| Matchups.CurrentStreak | backend/app/data/historical_matchups.py:450-457 | the streak belongs to the last game's winner, has length between 1 and the number of games, covers a maximal final run of that coach's wins, and carries a description exactly when it is longer than 1 |
| Matchups.SummarizeCoachHistory | backend/app/data/historical_matchups.py:408-483 | no history exactly for an empty game list; otherwise the wins partition the games, the rates are wins over games and sum to 1, the records are "home-away" and "away-home", the average differential is the mean winner margin rounded to one decimal (half to even), the advantage is the assessed one and the trend is the last winner |
| Matchups.RecordsAreMirrorImages | backend/app/data/historical_matchups.py:460-461 | the home record reads back as (home wins, away wins) and the away record as the same counts swapped |
| Matchups.PointDifferentialCanBeNegative | backend/app/data/historical_matchups.py:417-436 | scores are drawn apart from the winner, so a home win recorded 17-35 gives an average point differential of −18 |
| Matchups.BaseAdjustment | backend/app/data/historical_matchups.py:570-581 | positive exactly for a home-coach advantage, negative exactly for an away-coach advantage, and within ±0.05 |
| Matchups.CoachingAdjustment | backend/app/data/historical_matchups.py:570-590 | the base adjustment of the advantage, scaled by the margin tests on the stored one-decimal mean; it keeps the sign of the advantage and stays within ±0.06, so the ±0.08 cap never changes it |
| Matchups.RoundedMarginThresholds | backend/app/data/historical_matchups.py:473 | because the margin tests read the rounded mean, its absolute value exceeds 7 exactly when the exact mean exceeds 7.05, and lies below 3 exactly when the exact mean lies below 2.95 |
| Matchups.MeanJustAboveSevenIsNotScaled | backend/app/data/historical_matchups.py:585-588 | a mean margin of 176/25 = 7.04 is stored as 7.0, which is not above 7, so the adjustment is left unscaled |
| Num.NearestTenths | backend/app/data/historical_matchups.py:473 | the tenths of `round(x, 1)`: the integer within one half of 10·x, and the even one when 10·x lies exactly halfway |
| Matchups.CoachingInsight | backend/app/data/historical_matchups.py:602-626 | no-history text exactly when there are no games; a leader sentence exactly when one coach has the advantage, naming that coach (with the team when given), that coach's win rate, both records and the game count; otherwise the even sentence with both rates |
| Matchups.LeaderInsightQuotesWinningRate | backend/app/data/historical_matchups.py:439-447 | a leader sentence always quotes a win rate above 0.6, and says "strong" exactly when that rate exceeds 0.7 |
| Matchups.HeadCoach | backend/app/data/historical_matchups.py:277-373 | the sport's table gives the coach of the first matching team; a team missing from it gets the sport's "Unknown …" fallback |
| Matchups.UnknownSportUsesNflTable | backend/app/data/historical_matchups.py:372-373 | any other sport looks the team up in the NFL table, so "Kansas City Chiefs" in "cfl" gets "Andy Reid" |
| Matchups.AnalyzeCoachingMatchup | backend/app/data/historical_matchups.py:544-600 | both coaches are looked up by team and sport, and the history is summarised from the simulated games; the adjustment lies within ±0.06, is positive exactly for a home-coach advantage and negative exactly for an away-coach one; the insight is never the no-history text |
| Matchups.CalculateMatchupAdjustment | backend/app/data/historical_matchups.py:485-542 | the total is `0.6·(team factor − 1) + 0.4·(coach factor − 1)`, the prediction is scaled by `1 + total`, and the confidence boost is `0.02` per historical game up to seven games, then capped at 0.15 |
| Matchups.SimulatedAdjustmentBounds | backend/app/data/historical_matchups.py:519-528 | with the simulators' ranges the total adjustment is within ±0.17, the adjusted prediction lies within 0.83–1.17 of the base, and the boost lies in [0.10, 0.15] |
| Statistics.WeightedWinRate | backend/app/utils/statistics.py:125-137 | 0.5 for no observations, mismatched lists or zero weighted games; otherwise weighted wins over weighted games, with weights of one when none are given |
| Statistics.UnitWeightsGiveRawRate | backend/app/utils/statistics.py:128-137 | with the default weights the rate is total wins over total games |
| Statistics.WeightedWinRateIsFraction | backend/app/utils/statistics.py:125-137 | non-negative counts and weights always give a rate in [0, 1] |
| Statistics.NpSort | backend/app/utils/statistics.py:167 | `np.sort` gives an ascending permutation of the values |
| Statistics.TrimmedMean | backend/app/utils/statistics.py:164-173 | with nothing to trim it is the plain mean; with `k` to trim it is the mean of the sorted values without `k` at each end, and NaN exactly when that leaves nothing |
| Statistics.WinsorizedMean | backend/app/utils/statistics.py:174-185 | with nothing to cap it is the plain mean; otherwise it fails with an index error exactly when `k` reaches the length, and is the mean of the values clipped to the sorted `[k]` and `[−k]` entries |
| Statistics.RobustAverage | backend/app/utils/statistics.py:156-190 | 0 for no values; otherwise the median, the trimmed or the winsorised mean with `int(n·trim_percent)`, or the plain mean for any other method name |
| Statistics.TrimmedWithinRange | backend/app/utils/statistics.py:164-173 | any trimmed mean that is a number lies between the smallest and the largest value |
| Statistics.WinsorizedWithinRange | backend/app/utils/statistics.py:174-185 | any winsorised mean that is a number lies between the smallest and the largest value |
| Statistics.RobustAverageWithinRange | backend/app/utils/statistics.py:156-190 | every robust average that is a number lies between the smallest and the largest value |
| Statistics.WinsorizingIsAsymmetric | backend/app/utils/statistics.py:178-180 | the caps are the sorted `[k]` and `[−k]` entries, so with `k = 1` nothing is lowered while every value below the second smallest is raised to it |
| Statistics.NormalizeLinear | backend/app/utils/statistics.py:219-225 | the keys are kept in order; a zero total gives every key `1/n`, otherwise each value is divided by the total |
| Statistics.NormalizedSumsToOne | backend/app/utils/statistics.py:219-225 | a non-empty distribution normalises to values summing to exactly 1 |
| Statistics.PosteriorMean | backend/app/utils/statistics.py:92-96 | with `α = prior_wins·strength + wins` and `β = prior_losses·strength + losses`, the mean times `α + β` is `α` when `α + β` is positive, and 0.5 otherwise |
| Statistics.OneWinWithDefaultPrior | backend/app/utils/statistics.py:68-96 | with the default prior, one win and no loss give a posterior mean of 0.6 |
| Statistics.PosteriorBetweenPriorAndObserved | backend/app/utils/statistics.py:92-96 | with non-negative counts and a positive prior, the posterior mean lies between the prior mean and the observed win rate |
| Statistics.ShrinkageFactor | backend/app/utils/statistics.py:382-384 | with a positive sample size and population variance and a non-negative sample variance, the factor is defined and lies in (0, 1] |
| Statistics.RegressionToMean | backend/app/utils/statistics.py:374-392 | a zero sample size returns the population mean; otherwise, where the factor is defined, the estimate is `f·population mean + (1 − f)·observed`; a zero denominator is an error |
| Statistics.RegressionIsConvex | backend/app/utils/statistics.py:382-390 | with a positive sample size and variances the estimate is defined and lies between the observation and the population mean |
| Statistics.ShrinkageGrowsWithSampleSize | backend/app/utils/statistics.py:382-390 | as written, a larger sample puts more weight on the population mean |
| Statistics.RegressionToMeanCorrected | backend/app/utils/statistics.py:362-390 | the estimator the docstring describes: the same factor weighs the observation, so `(1 − f)·population mean + f·observed` |
| Statistics.CorrectedShrinksLessForLargerSamples | backend/app/utils/statistics.py:362 | in the corrected estimator a larger sample puts strictly less weight on the population mean |
| Statistics.EffectiveSampleSize | backend/app/utils/statistics.py:409-418 | 0 for no weights or an all-zero sum of squares; otherwise the size times `Σw²` is `(Σw)²` |
| Statistics.EffectiveSampleSizeBounds | backend/app/utils/statistics.py:395-418 | non-negative weights, not all zero, give an effective sample size between 1 and the number of weights |
| Statistics.EqualWeightsGiveCount | backend/app/utils/statistics.py:412-418 | equal positive weights give exactly the number of weights |
| Statistics.CombineProbabilitiesDegenerate | backend/app/utils/statistics.py:274-284 | the early 0.5 is returned exactly for no estimates or weights that sum to zero |
| Statistics.TimeWeightedDegenerate | backend/app/utils/statistics.py:38-39 | the early (0, 0) is returned exactly for no values or a date list of a different length |
| WeatherAnalysis.WindClass | backend/app/models/weather_analyzer.py:327-334 | the wind rule reports a factor exactly when the wind exceeds 15, and it is a wind factor |
| WeatherAnalysis.PrecipitationClass | backend/app/models/weather_analyzer.py:337-345 | the precipitation rule reports a factor exactly for positive precipitation |
| WeatherAnalysis.TemperatureClass | backend/app/models/weather_analyzer.py:348-354 | the temperature rule reports a factor exactly below 32 or above 90 |
| WeatherAnalysis.WindStep | backend/app/models/weather_analyzer.py:320-334 | from the initial analysis, the outlook turns "negative_passing" exactly above 25 mph, and the severity matches the factor reported |
| WeatherAnalysis.PrecipitationStep | backend/app/models/weather_analyzer.py:337-345 | appends the precipitation factor; the outlook is negative exactly when it already was or precipitation exceeds 0.5; the severity keeps tracking the last factor |
| WeatherAnalysis.TemperatureStep | backend/app/models/weather_analyzer.py:348-354 | appends the temperature factor, never changes the outlook, and the severity keeps tracking the last factor |
| WeatherAnalysis.AnalyzeWeatherImpact | backend/app/models/weather_analyzer.py:305-356 | the outlook is "negative_passing" exactly for wind above 25 or precipitation above 0.5; the factors are the wind, precipitation and temperature factors in that order, at most three; the severity is "low" exactly when no factor was reported and otherwise that of the last factor |
| WeatherAnalysis.FactorsFollowRuleOrder | backend/app/models/weather_analyzer.py:326-354 | there is at most one factor per category, listed wind, precipitation, temperature |
| WeatherAnalysis.CalmIffNeutral | backend/app/models/weather_analyzer.py:320-354 | the result is the initial "neutral, no factors, low" exactly when wind ≤ 15, precipitation ≤ 0 and 32 ≤ temperature ≤ 90 |
| WeatherAnalysis.EmptyWeatherIsNeutral | backend/app/models/weather_analyzer.py:327-348 | the defaults for missing keys (wind 0, precipitation 0, temperature 70) trigger no rule |
| WeatherAnalysis.SeverityIsNotMaximum | backend/app/models/weather_analyzer.py:328-354 | the severity is the last rule's, not the worst: a 30 mph wind on a 20° day is only "moderate", while the wind alone is "high" |
| WeatherAnalysis.ThresholdsAreStrict | backend/app/models/weather_analyzer.py:328-352 | winds of exactly 25 and 15, temperatures of exactly 32 and 90 and precipitation of exactly 0.5 fall on the milder side |
| MlModels.WeatherFeatures | backend/app/models/advanced_ml_models.py:90-104 | six weather features: the defaults `[0.7, 0, 0, 0, 0, 0]` without a weather dictionary, otherwise the scaled temperature, wind and precipitation followed by the three threshold indicators |
| MlModels.InjuryFeatures | backend/app/models/advanced_ml_models.py:107-118 | four injury features, all zero without injury data |
| MlModels.ExtractFeatures | backend/app/models/advanced_ml_models.py:41-123 | a 27-wide vector: home features at 0-5, away features at 6-11, differentials at 12-15 (the win-rate and form differences are home minus away), weather at 16-21, injuries at 22-25 and the 0.03 home advantage at 26 |
| MlModels.FeatureWidthIsFixed | backend/app/models/advanced_ml_models.py:60-123 | the vector never has the 28 features the synthetic training data uses, and the missing-data defaults fill the weather and injury slots |
| MlModels.WeatherIndicatorsFollowThresholds | backend/app/models/advanced_ml_models.py:99-101 | the cold, wind and precipitation indicators are 1 exactly for a temperature below 32, wind above 20 and positive precipitation |
| MlModels.FallbackPrediction | backend/app/models/advanced_ml_models.py:264-283 | with `h` the unclamped home strength plus 0.03 and `t = h +` the away strength, the result times `t` is `h` for positive `t`, and 0.5 otherwise |
| MlModels.FallbackAgreesWithPredictorInRange | backend/app/models/advanced_ml_models.py:264-283 | when both unclamped strengths lie in [0.1, 0.9] the fallback equals the statistical predictor's home probability |
| MlModels.FallbackCanExceedOne | backend/app/models/advanced_ml_models.py:266-283 | without the clamp, an away team conceding 300 points a game pushes the fallback "probability" above 1 |
| MlModels.HomeWinProbability | backend/app/models/advanced_ml_models.py:163-195 | the ensemble averages the member outputs and uses the fallback when no member answered; a single model uses its own output and fails when it has none |
| MlModels.EnsembleIsProbability | backend/app/models/advanced_ml_models.py:180-181 | the mean of member probabilities is itself a probability |
| MlModels.PredictGameMl | backend/app/models/advanced_ml_models.py:198-210 | the two probabilities sum to 1, the confidence is twice the distance of p from 0.5, the home team is named exactly when `p > 0.5`, and the feature count is reported |
| MlModels.MlConfidenceIsFraction | backend/app/models/advanced_ml_models.py:198-201 | for a probability the confidence is in [0, 1] and zero exactly at 0.5, where the away team is named |
| MlModels.OverProbabilityMl | backend/app/models/advanced_ml_models.py:353-370 | 0.5 without a truthy line; otherwise, with `z = (line − value)/(0.15·value)`, certain over below −6, certain under above 6, and the normal tail in between; a non-positive value is scored at z = 0 |
| MlModels.FarLinesAreCertain | backend/app/models/advanced_ml_models.py:355-365 | for a positive prediction a line at 5% of it is a certain over and a line at twice it a certain under |
| MlModels.PredictPlayerPropMl | backend/app/models/advanced_ml_models.py:313-383 | the prediction is the player's average (or the historical one) times the matchup factor, which lies in [0.7, 1.3]; over and under sum to 1; the confidence is `min(0.95, 0.9·consistency)` |
| Odds.Better | backend/app/data/odds_collector.py:247-263 | a candidate is taken over the current best only when it is strictly larger, so the best never decreases |
| Odds.PlatformCandidates | backend/app/data/odds_collector.py:238-263 | an available platform offers at most two candidates, its truthy home and away prices, each carrying the platform's name and data |
| Odds.ScanIsBestOfCandidates | backend/app/data/odds_collector.py:235-265 | the platform loop computes the best-so-far scan over the list of every available truthy price, platforms in order and home before away |
| Odds.BestOfIsFirstMax | backend/app/data/odds_collector.py:247-263 | the strict-improvement scan returns nothing exactly for no candidates, and otherwise the first candidate that is at least every other |
| Odds.FindBestOddsIsFirstMaximum | backend/app/data/odds_collector.py:220-265 | no result exactly when the bet type is not "team_win" or no available platform offers a truthy price; otherwise the first candidate whose odds are at least every other candidate's |
| Odds.UnavailablePlatformNeverContributes | backend/app/data/odds_collector.py:239-240 | inserting an unavailable platform anywhere in the dictionary never changes the result |
| Odds.HomeWinsTieWithinPlatform | backend/app/data/odds_collector.py:247-263 | with equal home and away prices on one platform the home side, seen first, is the best |
| BestBets.Rank | backend/app/routers/bets.py:153-158 | the total counts every opportunity; the kept entries are in descending key order; a non-negative limit keeps `min(limit, total)` of them |
| BestBets.RankIsTopOfAll | backend/app/routers/bets.py:153-158 | the kept entries are drawn from the opportunities, and every one left out ranks no higher than any kept one |
| BestBets.SideBet | backend/app/routers/bets.py:102-123 | a side yields a bet exactly when its price is truthy and the expected value is positive, and that bet is the analyser's verdict for that side and platform |
| BestBets.PlatformBets | backend/app/routers/bets.py:97-99 | an unavailable platform contributes nothing |
| BestBets.GameBets | backend/app/routers/bets.py:97-147 | every bet of a game has positive EV, is a team-win bet on one of the game's two teams and carries the game's id |
| BestBets.CollectBets | backend/app/routers/bets.py:44-150 | every collected opportunity has positive EV and comes from one of the examined games |
| BestBets.GetBestBets | backend/app/routers/bets.py:24-159 | the returned bets all have positive EV and are in descending EV order; the total counts the opportunities of the first `2·limit` games; the returned bets are drawn from those opportunities (as a multiset), number exactly `min(limit, total)` for a non-negative limit, and every opportunity left out has an EV no higher than every returned bet |
| BestBets.LaterGamesIgnored | backend/app/routers/bets.py:44 | games past the first `2·limit` never change the answer |
| BestBets.CollectBetsAppend | backend/app/routers/bets.py:44-150 | the opportunities of two game lists are those of each list, in order |
| BestBets.FailedGameContributesNothing | backend/app/routers/bets.py:148-150 | a game whose evaluation raised contributes nothing: dropping it leaves the collected opportunities unchanged |
| BestBets.PositiveHomeBetCollected | backend/app/routers/bets.py:97-123 | a truthy home price with positive EV on an available platform of an examined game is always collected |
| BestBets.FirstLine | backend/app/routers/bets.py:213-217 | no line exactly when no available platform offers a truthy one; otherwise a non-zero line offered by an available platform |
| BestBets.PropSideBet | backend/app/routers/bets.py:238-259 | at most one bet, with positive EV, the "<prop>_over"/"<prop>_under" bet type and the shared line |
| BestBets.PropPlatformsBets | backend/app/routers/bets.py:233-283 | every prop bet has positive EV, the shared line and the player's name |
| BestBets.PropBets | backend/app/routers/bets.py:213-220 | a prop without an available truthy line contributes nothing, and every prop bet has positive EV and names its player |
| BestBets.PlayerBets | backend/app/routers/bets.py:195-285 | every bet of a player has positive EV and names that player |
| BestBets.AllPlayerBets | backend/app/routers/bets.py:192-285 | every collected player bet has positive EV |
| BestBets.GetBestPlayerBets | backend/app/routers/bets.py:165-294 | a missing game is an error; otherwise the total counts every positive-EV player bet, and the returned ones have positive EV, come in descending EV order, are drawn from those bets (as a multiset), number exactly `min(limit, total)` for a non-negative limit, and outrank or tie every bet left out |
| Tracker.StorePrediction | backend/app/models/prediction_tracker.py:98-130 | the id is the game id, "_" and the timestamp; the store then maps it to a fresh PENDING record with the given fields and no outcome data, every other id keeps its record, and a new id is appended after the existing ones while a reused id keeps its place |
| Tracker.Resolve | backend/app/models/prediction_tracker.py:142-145 | the outcome is CORRECT exactly when the actual winner is the predicted one, never PENDING; the winner and score are recorded and nothing else changes |
| Tracker.RecordOutcome | backend/app/models/prediction_tracker.py:132-148 | an unknown id is an error; otherwise only that record is resolved, in place, and every other record is untouched |
| Tracker.LastOutcomeWins | backend/app/models/prediction_tracker.py:142-145 | recording an outcome twice leaves exactly the second result |
| Tracker.PredictionsByGame | backend/app/models/prediction_tracker.py:154-156 | exactly the records of that game, in store order |
| Tracker.RecentPredictions | backend/app/models/prediction_tracker.py:158-165 | newest first, drawn from the store, exactly `min(limit, n)` records for a non-negative limit of a store of `n`, and `max(0, n + limit)` for a negative one, as Python slicing gives |
| Tracker.RecentPredictionsAreNewest | backend/app/models/prediction_tracker.py:158-165 | every record of the store that is left out is no newer than any record returned |
| Tracker.Counted | backend/app/models/prediction_tracker.py:169-171 | the counted records are resolved, and of the requested sport when one is given |
| Tracker.ResolvedSplit | backend/app/models/prediction_tracker.py:181-182 | among resolved records the correct and incorrect counts add up to the total |
| Tracker.AccuracyStatsOf | backend/app/models/prediction_tracker.py:167-190 | pending records are left out; the total is correct plus incorrect; when something is counted, correct and incorrect are the numbers of correct and incorrect resolved records of the sport, the accuracy is their ratio in [0, 1], and the pending count is the number of pending records of the whole store; nothing counted gives all zeros without a pending count |
| Tracker.RecordingAnOutcomeCountsIt | backend/app/models/prediction_tracker.py:132-148 | recording the outcome of a pending prediction raises the unfiltered total by one, and raises correct by one when the actual winner is the predicted one and incorrect by one otherwise |
| Tracker.PendingIgnoresSport | backend/app/models/prediction_tracker.py:189 | the pending count is the same whichever sport is asked about |
| Learning.ProbabilityError | backend/app/models/learning_analyzer.py:36-43 | whichever team was predicted, the probability error is the absolute value of home + away − 1: it measures only how far the two stored probabilities are from complementary |
| Learning.FactorErrors | backend/app/models/learning_analyzer.py:63-119 | at most five factor errors (weather, home injuries, away injuries, coaching, mental health), none of them a probability or overconfidence error |
| Learning.Errors | backend/app/models/learning_analyzer.py:43-119 | a probability-miscalculation error with that severity exactly when the error exceeds 0.15, an overconfidence error with the confidence as severity exactly when the confidence exceeds 0.7, and at most seven errors in all |
| Learning.AnalyzePredictionError | backend/app/models/learning_analyzer.py:26-127 | an empty analysis exactly unless the prediction is INCORRECT; otherwise the severity is `min(error + 0.3·confidence when above 0.7, 1)` in [0, 1], every factor error names one contributing factor, and the suggestions are generated from the errors |
| Learning.ComplementaryProbabilitiesNeverMiscalculated | backend/app/models/learning_analyzer.py:43-60 | when the stored probabilities sum to 1 no miscalculation is ever reported, and only overconfidence adds severity |
| Learning.ZeroAdjustmentsAreTreatedUnevenly | backend/app/models/learning_analyzer.py:66-119 | a zero weather or coaching adjustment is falsy and never flagged, while a zero or missing mental-health adjustment is flagged |
| Learning.Suggested | backend/app/models/learning_analyzer.py:137-144 | the per-error suggestion respects its cap: weather 0.20, injuries 0.25, coaching 0.20, mental health 0.18 |
| Learning.ApplyError | backend/app/models/learning_analyzer.py:133-146 | one error sets only its own key to its suggestion (none for a miscalculation) and leaves every other key as it was |
| Learning.GenerateAdjustments | backend/app/models/learning_analyzer.py:129-148 | every weight respects its cap, and the last error of a kind decides that kind's key |
| Learning.AdjustmentPresentIffErrorKind | backend/app/models/learning_analyzer.py:133-146 | a suggestion key is present exactly when an error of its kind occurred |
| Learning.Bump | backend/app/models/learning_analyzer.py:169-172 | one more occurrence adds 1 to the count and its severity to the total, and its id is kept only while fewer than five examples are held |
| Learning.Tally | backend/app/models/learning_analyzer.py:167-172 | only the error's own pattern is bumped; every other pattern is unchanged |
| Learning.TalliesCountOccurrences | backend/app/models/learning_analyzer.py:162-172 | a pattern is tallied exactly when its kind occurs, and its count is the number of its occurrences |
| Learning.TalliesAreWellFormed | backend/app/models/learning_analyzer.py:162-172 | every tallied pattern has a positive count and at most five examples |
| Learning.PatternAdjustment | backend/app/models/learning_analyzer.py:183-193 | only "probability_miscalculation" suggests nothing; the weights respect the caps 0.25, 0.30, 0.25 and 0.20 |
| Learning.ToInsight | backend/app/models/learning_analyzer.py:178-201 | the frequency times the number of incorrect predictions is the count, the impact times the count is the total severity, and the suggestion is the pattern's adjustment for that impact |
| Learning.ExtractLearningPatterns | backend/app/models/learning_analyzer.py:150-205 | nothing without incorrect predictions; otherwise a permutation of the per-pattern insights ranked by impact × frequency, each with a positive frequency and at most five examples |
| Learning.PatternsAreTheOccurringKinds | backend/app/models/learning_analyzer.py:152-201 | an insight names a kind exactly when that kind of error occurred among the incorrect predictions |
| Adaptive.ApplyInsight | backend/app/models/adaptive_predictor.py:40-51 | a frequent insight (above 10%) replaces exactly the weights it suggests; every other weight and the home advantage stay |
| Adaptive.AdjustedWeights | backend/app/models/adaptive_predictor.py:15-53 | the home advantage is never adjusted and stays 0.03 |
| Adaptive.UnsuggestedWeightKeepsBase | backend/app/models/adaptive_predictor.py:37-51 | a weight no frequent insight suggests keeps its base value |
| Adaptive.LastOverrideWins | backend/app/models/adaptive_predictor.py:40-51 | the last frequent insight that suggests a weight decides it |
| Adaptive.AdjustedWeightsAreCapped | backend/app/models/adaptive_predictor.py:23-53 | whatever patterns were learned, the weights stay within 0.25, 0.30, 0.25 and 0.20 |
| Adaptive.ScaledConfidence | backend/app/models/adaptive_predictor.py:68-82 | under ten resolved predictions the confidence is unchanged; otherwise it is scaled by 0.8 below 50% accuracy, by 0.9 below 60%, raised by 5% (capped at 1) above 75%, and unchanged in between |
| Adaptive.ConfidenceAdjustment | backend/app/models/adaptive_predictor.py:55-82 | a confidence in [0, 1] stays in [0, 1]; it rises only when the accuracy exceeds 75%; with fewer than ten resolved predictions it is unchanged |
| Adaptive.ConfidenceMonotoneInAccuracy | backend/app/models/adaptive_predictor.py:73-82 | once ten predictions are resolved, a better accuracy never earns a lower confidence |
| Locked.FindIndex | frontend/utils/predictionStorage.ts:31 | the position found holds the game id and no earlier one does; none is found exactly when no entry holds it |
| Locked.GetLocked | frontend/utils/predictionStorage.ts:57-60 | nothing is found exactly when no entry holds the game; otherwise the result is the first entry that holds it |
| Locked.GetLockedIsFirstMatch | frontend/utils/predictionStorage.ts:59 | an entry holding the game with no earlier one holding it is the entry returned, even when later duplicates exist |
| Locked.IsLockedIffFound | frontend/utils/predictionStorage.ts:57-65 | a game counts as locked exactly when getting its locked prediction succeeds |
| Locked.Save | frontend/utils/predictionStorage.ts:27-45 | a new game is appended at the end; an existing game's first entry is replaced by the new data but keeps its original lock time, and every other entry is untouched |
| Locked.SaveKeepsGamesDistinct | frontend/utils/predictionStorage.ts:27-60 | saving never creates a second entry for a game, and reading the game back gives the saved data with the first lock time |
| Locked.Remove | frontend/utils/predictionStorage.ts:67-75 | afterwards the game is not locked, every entry of another game survives, and the survivors keep their order |
| Locked.RemoveUndoesSave | frontend/utils/predictionStorage.ts:27-75 | removing a game after saving it leaves the same list as removing it without the save |
| Locked.WithResult | frontend/utils/predictionStorage.ts:88-98 | the entry is marked analysed and correct exactly when its predicted winner is the actual winner; nothing but the result fields changes |
| Locked.UpdateResult | frontend/utils/predictionStorage.ts:77-105 | an unknown game leaves the list as it was; otherwise only the game's first entry takes the result |
| Locked.Percent | frontend/utils/predictionStorage.ts:121 | the accuracy lies in [0, 100], is 0 when nothing was analysed, and otherwise is the share of correct predictions times 100 |
| Locked.PredictionAccuracy | frontend/utils/predictionStorage.ts:107-123 | the total counts the analysed entries, the correct count the analysed and correct ones, the incorrect count is the rest of the total, and the accuracy is their percentage |
| Locked.RecordingAResultCountsIt | frontend/utils/predictionStorage.ts:77-123 | recording the result of a locked game not yet analysed adds one to the total, and one to the correct count exactly when the predicted winner won |
| Normalizer.ClampFloat | backend/app/utils/data_normalizer.py:321-337 | a number is clamped into [min, max] and kept when already inside; a value that is not a number gives the minimum |
| Normalizer.ClampFloatIdempotent | backend/app/utils/data_normalizer.py:333-335 | clamping an already clamped value changes nothing |
| Normalizer.FirstContained | backend/app/utils/data_normalizer.py:107-110 | the full name returned belongs to the first abbreviation, in table order, that occurs in the name; none is returned exactly when no abbreviation occurs |
| Normalizer.NormalizeTeamName | backend/app/utils/data_normalizer.py:86-113 | an empty name stays empty; the stripped, upper-cased name that is an abbreviation gives its full name; otherwise the first abbreviation inside the upper-cased name decides; otherwise the stripped name comes back |
| Normalizer.FirstContainedAt | backend/app/utils/data_normalizer.py:108-110 | when abbreviation k occurs and none before it does, the loop returns the full name of abbreviation k |
| Normalizer.AbbreviationsAreShort | backend/app/utils/data_normalizer.py:13-83 | every abbreviation of every sport has at most three letters |
| Normalizer.GiantsIsNoAbbreviation | backend/app/utils/data_normalizer.py:104 | "NEW YORK GIANTS" is not itself a key of any sport's table |
| Normalizer.GiantsBecomePatriots | backend/app/utils/data_normalizer.py:32-33 | as written, "New York Giants" in the NFL, in any case and with any surrounding whitespace, normalises to "New England Patriots", because "NE" inside "NEW" is found before "NYG" |
| Normalizer.NygIsGiants | backend/app/utils/data_normalizer.py:33 | the NFL abbreviation "NYG" maps to "New York Giants" |
| Normalizer.NormalizingTwiceChangesTeam | backend/app/utils/data_normalizer.py:86-113 | as written, normalisation is not idempotent: "NYG" gives the Giants, and normalising that again gives the Patriots |
| Normalizer.IsFullName | backend/app/utils/data_normalizer.py:13-83 | holds exactly when the name is one of the table's full team names |
| Normalizer.NormalizeTeamNameCorrected | backend/app/utils/data_normalizer.py:86-113 | the intended normalisation: a name that already is a full team name is kept as stripped; every other name is treated as written |
| Normalizer.FullNamesAreStripped | backend/app/utils/data_normalizer.py:13-83 | every full name in the tables is non-empty and has no surrounding whitespace |
| Normalizer.CorrectedNormalizationIsIdempotent | backend/app/utils/data_normalizer.py:86-113 | under the correction, normalising a normalised name gives it back |
| Normalizer.CorrectedKeepsFullNames | backend/app/utils/data_normalizer.py:13-113 | under the correction every full name in the tables is its own canonical form |
| Normalizer.Run | backend/app/utils/data_normalizer.py:354 | the length of the longest prefix whose characters all pass the test: all before it pass and the next one fails |
| Normalizer.GameIdShapeIffPattern | backend/app/utils/data_normalizer.py:354 | the recogniser accepts exactly the strings the pattern `[a-z]+_\d+(_\d+)?` matches in full |
| Normalizer.ValidateGameId | backend/app/utils/data_normalizer.py:340-355 | an empty id is invalid; otherwise the id is valid exactly when its lower-cased form matches the pattern, where `$` also admits one trailing newline |
| Normalizer.ScheduleIdsValidate | backend/app/utils/data_normalizer.py:353-355 | an id of the form sport_index_timestamp for a lower-case sport name validates |
| Normalizer.UpperCaseIdValidates | backend/app/utils/data_normalizer.py:355 | the id is judged after lower-casing, so "NFL_1" is valid |
| Normalizer.MissingNumberIsRejected | backend/app/utils/data_normalizer.py:354 | "nfl_" and "nfl1" are invalid: the underscore and at least one digit after it are required |
| Normalizer.TrailingNewlineIsAccepted | backend/app/utils/data_normalizer.py:354-355 | "nfl_1" followed by a newline is valid, as `re.match` with `$` allows |
| Normalizer.StateCode | backend/app/utils/data_normalizer.py:209 | the state is the first two characters (all of them when fewer) of the stripped state, each upper-cased, so it holds no lower-case letter |
| Normalizer.CountryCode | backend/app/utils/data_normalizer.py:210 | the country is the stripped country with every character upper-cased, so it holds no lower-case letter |
| Normalizer.UsIsItsOwnCode | backend/app/utils/data_normalizer.py:210 | the default country "US" normalises to itself |
| Normalizer.Coordinate | backend/app/utils/data_normalizer.py:213-217 | an absent coordinate stays absent; a present one converts exactly when it is a number, and keeps its value |
| Normalizer.NormalizeLocation | backend/app/utils/data_normalizer.py:197-219 | the call fails exactly when a present latitude or longitude is not a number; otherwise the city is stripped; the state is the first two characters of the stripped state ("" when absent), upper-cased; the country is the stripped country ("US" when absent), upper-cased; the coordinates are the converted ones when present |
| Normalizer.StateCodeIsStable | backend/app/utils/data_normalizer.py:209 | a state code whose last character is not whitespace is its own state code |
| Normalizer.CountryCodeIsStable | backend/app/utils/data_normalizer.py:210 | a country code is its own country code |
| Normalizer.NormalizedLocationIsStable | backend/app/utils/data_normalizer.py:197-219 | normalising a normalised location, with its coordinates fed back as numbers, gives it back, provided its state code does not end in whitespace |
| Normalizer.NonNegativeFloat | backend/app/utils/data_normalizer.py:239-240 | a number gives the larger of it and 0; anything else is the error `float()` raises |
| Normalizer.NonNegativeCount | backend/app/utils/data_normalizer.py:247-248 | a number gives `max(0, int(x))`, truncated toward zero and 0 below 1; anything else is the error `int()` raises |
| Normalizer.NormalizeRecord | backend/app/utils/data_normalizer.py:246-249 | a record normalises exactly when its wins and losses, 0 when absent, are numbers |
| Normalizer.NormalizeOptionalRecord | backend/app/utils/data_normalizer.py:245-255 | an absent record stays absent; a present one succeeds exactly when it normalises, and then holds the normalised record |
| Normalizer.NormalizeTeamStats | backend/app/utils/data_normalizer.py:222-263 | the call succeeds exactly when the points and the records are numbers; then the name is normalised by the rule as written, the win rate and recent form are the given values (0.5 when absent) clamped into [0, 1], the points for and against are the given values (0 when absent) raised to at least 0, the home and away records are the normalised given records, the strength of schedule is the given value clamped into [0, 1], and the optional fields are present exactly when given |
| Normalizer.GiantsStatsBecomePatriots | backend/app/utils/data_normalizer.py:234-237 | as written, the statistics of "New York Giants" in the NFL are filed under "New England Patriots" |
| Normalizer.InRangeStatsAreKept | backend/app/utils/data_normalizer.py:238-239 | a win rate in [0, 1] and non-negative points pass through unchanged |
| Normalizer.NormalizeWeather | backend/app/utils/data_normalizer.py:295-318 | the call succeeds exactly when the temperature, wind and precipitation are numbers; the temperature is kept and 70 when absent; wind and precipitation are the given values (0 when absent) raised to at least 0; the conditions are the given conditions ("clear" when absent) with every character lower-cased; humidity is the given humidity clamped into [0, 100] when present |
| Normalizer.NormalizeWeatherIsIdempotent | backend/app/utils/data_normalizer.py:295-318 | feeding normalised weather back in gives the same weather |
| Cities.Lookup | backend/app/data/city_coordinates.py:68-94 | an exact key wins; failing that the first key equal to the city ignoring case; failing that the first key that contains the city or is contained in it, ignoring case; any result is the coordinates of some entry |
| Cities.GetCityCoordinates | backend/app/data/city_coordinates.py:7-94 | a found result is the coordinates of an entry of the city table |
| Cities.EqualLowerOverlaps | backend/app/data/city_coordinates.py:84-92 | a key that equals the city ignoring case also passes the partial-match test |
| Cities.LookupFailsIffNoOverlap | backend/app/data/city_coordinates.py:79-94 | the lookup returns None exactly when no key contains the city or is contained in it, ignoring case |
| Cities.LookupIgnoresCase | backend/app/data/city_coordinates.py:84-92 | when no key is spelled exactly like either query, two queries equal ignoring case get the same result |
| Cities.EmptyQueryGetsFirstEntry | backend/app/data/city_coordinates.py:90-92 | the empty city is contained in every key, so a table of non-empty keys answers it with its first entry |
| Cities.CityNamesAreNonEmpty | backend/app/data/city_coordinates.py:7-65 | every key of the city table is non-empty |
| Cities.EmptyCityIsOrchardPark | backend/app/data/city_coordinates.py:9 | the empty city resolves to the coordinates of Orchard Park, the table's first entry |
| Players.TeamRecords | backend/app/data/nfl_players.py:453-461 | each of a team's entries becomes one record with the team attached, in listed order |
| Players.OffsetStep | backend/app/data/nfl_players.py:452-461 | a team's records start where the previous team's records end |
| Players.AllPlayers | backend/app/data/nfl_players.py:444-462 | the list holds every team's records, team after team, each team filling its own slice in listed order |
| Players.PlayerAt | backend/app/data/nfl_players.py:452-461 | record j of team k in the flattened list is entry j of team k with the team name attached |
| Players.ByType | backend/app/data/nfl_players.py:464-477 | "all" keeps every player; any other type keeps exactly the players of that type, in their order |
| Players.UnknownTypeSelectsNothing | backend/app/data/nfl_players.py:477 | a type that no player has, other than "all", selects nobody |
| Players.Search | backend/app/data/nfl_players.py:479-498 | an empty query returns the type filter's result; otherwise exactly the players whose lower-cased name or team contains the lower-cased query, in order, one entry for each matching record, so duplicates are kept |
| Players.SearchIgnoresCase | backend/app/data/nfl_players.py:494-498 | two non-empty queries equal ignoring case find the same players |
| Players.SearchFindsByName | backend/app/data/nfl_players.py:490-498 | a player of the selected type is found by searching for their own non-empty name |
| Schedules.Weekday | backend/app/data/nfl_schedule.py:70 | the weekday of a day ordinal lies in 0..6, Monday being 0 |
| Schedules.CalendarCheck | backend/app/data/nfl_schedule.py:70-72 | 14 December 2025 is a Sunday (weekday 6) under the calendar used here |
| Schedules.SportName | backend/app/data/nfl_schedule.py:105-106 | the sport prefix of an id is three lower-case letters |
| Schedules.GameNumberRoundTrip | backend/app/data/nfl_schedule.py:105 | the running number written into a game id is read back from it |
| Schedules.GameIdsDiffer | backend/app/data/nfl_schedule.py:105 | two games with different running numbers get different ids, whatever their times |
| Schedules.GameIdValidates | backend/app/data/nfl_schedule.py:105 | an id built for a game after 1970 passes `validate_game_id` |
| Schedules.DayLabelBands | backend/app/data/nba_schedule.py:71-80 | "Today" is exactly today; "This Week" is any other day up to two days ahead, earlier days included; "Next Week" is three to seven days ahead; "Week of" is anything later |
| Schedules.DayLabelMonotone | backend/app/data/nba_schedule.py:73-80 | from today on, a later game never gets a nearer label |
| Schedules.SundayOnOrBeforeIsSunday | backend/app/data/nfl_schedule.py:70-72 | the day a game's week is named after is a Sunday within the six days before it |
| Schedules.ThisWeekSundayIsSaturday | backend/app/data/nfl_schedule.py:74-79 | the day the source calls this week's Sunday is always a Saturday |
| Schedules.NflWeekLabelsUnreachable | backend/app/data/nfl_schedule.py:66-87 | as written, an NFL game is labelled "Today" or "Week of" its Sunday, never "This Week" or "Next Week" |
| Schedules.SameWeekday | backend/app/data/nfl_schedule.py:80 | a day and the day a week later share their weekday |
| Schedules.SundayOnOrBeforeIff | backend/app/data/nfl_schedule.py:70-72 | a day's week is named after the Sunday s exactly when the day lies in the seven days from s |
| Schedules.CorrectedNflLabelsAreWeeks | backend/app/data/nfl_schedule.py:66-87 | under the intended rule, "This Week" is any other day of today's Sunday-to-Saturday week and "Next Week" any day of the week after |
| Schedules.RowsOf | backend/app/data/nfl_schedule.py:104-113 | each game keeps its row's teams, date and city, one row per game in order |
| Schedules.Numbered | backend/app/data/nfl_schedule.py:104-113 | the games are built from the selected rows in order, the i-th with running number i + 1 |
| Schedules.GamesForPeriod | backend/app/data/nfl_schedule.py:47-118 | the games are exactly the rows dated within [start, end], in table order; each carries id sport_k_timestamp with k its position from 1, the sport, the venue suffix, the sport's week label (for the NFL as the code writes it) and a US location, with coordinates looked up for the NFL only |
| Schedules.GameIdsAreUnique | backend/app/data/nfl_schedule.py:105 | no two games of one call share an id |
| Schedules.NflGamesAreTodayOrWeekOf | backend/app/data/nfl_schedule.py:66-87 | as written, every NFL game of a period, on any table, is labelled "Today" when it is today and otherwise "Week of" the Sunday on or before it; "This Week" and "Next Week" never occur |
| Schedules.NflGamesForPeriod | backend/app/data/nfl_schedule.py:12-118 | the NFL games are the table rows in the window, at the home team's Stadium, with the city's coordinates, and the week labels as written: "Today" or "Week of" the game's Sunday |
| Schedules.NbaGamesForPeriod | backend/app/data/nba_schedule.py:12-100 | the NBA games are the table rows in the window, at the home team's Arena, in the US without coordinates, labelled by the day bands |
| Schedules.NhlGamesForPeriod | backend/app/data/nhl_schedule.py:11-99 | the NHL games are the table rows in the window, at the home team's Arena, in the US without coordinates, labelled by the day bands |
| Schedules.MlbGamesForPeriod | backend/app/data/mlb_schedule.py:12-95 | the MLB games are the table rows in the window, at the home team's Stadium, in the US without coordinates, labelled by the day bands |

## Left out

- JSON rounding (`round(..., 3)` and similar) in every response: the model reports the unrounded `real`. The one exception is the coaching history's mean point differential, whose rounding feeds a decision. IEEE float rounding is not modelled either.
- Num.RoundTenth: rounds the exact value half to even, whereas Python rounds the binary double. The two differ only at an exact tie x.x5, and only when its double lies on the other side. At the two ties the margin tests depend on, they agree: the double nearest 7.05 lies below it and rounds to 7.0, and the one nearest 2.95 lies above it and rounds to 3.0.
- Matchups.LeaderInsightQuotesWinningRate: the sentence quotes the win rate after `round(..., 3)`, and the model quotes the unrounded rate. A rate just above 0.6 can therefore be quoted as 0.600, which needs more than 400 games. The simulated histories have 2 to 8.
- BestBets.GetBestBets: the source sorts on the EV after `round(..., 3)`; the model sorts on the unrounded EV, so two bets whose rounded EVs tie may come out in a different order, and when such a tie straddles the `[:limit]` cut, which of them is kept may differ too.
- BestBets.GetBestPlayerBets: sorts on the unrounded EV too, so rounded-EV ties may be ordered, and cut at `limit`, differently.
- Fetching inside the bets router (upcoming games, predictions, odds): it arrives as input. A fetch that raised is an explicit failed input that is skipped.
- The `selection` text of a player bet ("Over 24.5" and the like) is not built: the model keeps the side and the line.
- Transcendental numerics: softmax and log-odds normalisation, log-odds and geometric combination, time-decay weights, the Beta credible interval, confidence intervals, and the standard deviations in `robust_average`. Exp, log, erf and sqrt cannot be stated over `real`. Only the early returns of the helpers that need them are modelled.
- MlModels.OverProbabilityMl: the erf-based normal tail used for z between −6 and 6 is a parameter; only its boundary branches are stated.
- ML training and inference (fitting, pickling, `predict_proba`): the trained models' probabilities are inputs.
- Randomness and mock data: the history simulators, their seeds from Python's per-process salted `hash()`, the mock odds and injury generators, the simulations router, and the random key players of the team mental-health analysis. Their outputs are inputs, and no cross-process determinism is claimed.
- `get_team_coach` and the player-versus-team history: their inputs come only from the simulators.
- Weather HTTP calls, caching, metrics, middleware, configuration, the database and load tests: I/O.
- The `sport_type` argument of `analyze_weather_impact`: it is never read.
- The `age` personal factor of the player mental-health analysis: it is read and never used.
- Injury dates: no computation reads them.
- Human-readable text that embeds formatted numbers is represented structurally, not as strings. This covers the learning analyser's descriptions, the coaching-insight percentages, the router's "(+x.x% advantage)" key factor, and the "Week of %B %d" label text.
- `get_improvement_recommendations` of the learning analyser: text generation only.
- The tracker's JSON file load and save: I/O. The model keeps the in-memory dict. `get_prediction` is the plain lookup `Assoc.Find`.
- The `error_analysis` field of a tracked prediction: the tracker never sets it.
- The `injury_impact` and `coaching_impact` response fields of the prediction endpoint: they come from the composed pipeline below.
- Composed router pipelines: `predict_game` with injuries and sport, `analyze_player_props_for_game`, and the nine-argument `predict_player_prop` call. These signatures do not exist in the predictor the repository shows, so each piece is modelled on its explicit inputs and the composition is a parameter.
- Thin routers (games, odds, learning, ML predictions, player comparison): they only forward calls.
- Locked predictions: the `weather_impact` field (never read), browser `localStorage` and the JSON round trip through it, and `getPredictionsBySport` (a plain filter that no other modelled operation uses).
- Text.Lower: upper- and lower-casing cover ASCII letters only. Python's Unicode case mapping is not modelled.
- Text.Upper: ASCII letters only, as for Text.Lower.
- Text.Strip: strips the ASCII whitespace of Text.IsSpace only. Python's `str.strip()` also removes the other Unicode whitespace: \x85, \xa0, \u1680, \u2000 to \u200a, \u2028, \u2029, \u202f, \u205f and \u3000.
- Normalizer.ClampFloat: NaN is not a `real`, so `float("nan")` has no `Value` of its own. `clamp_float` maps it to `max(min_val, max_val)`, because `nan < max_val` is false and `min` keeps `max_val`. The model gives that result for any `Numeric(x)` with `x >= hi`. Any other non-number is one that `float()` rejects.
- `normalize_game_data`, `normalize_date` and `normalize_player_stats`: they are not among the modelled normalisations.
- The location dict of `normalize_weather_data` is passed through unchanged and is not represented.
- Players.AllPlayers: the 400-line `NFL_PLAYERS` literal is a parameter (a sequence of team and roster pairs in dict order), not a constant.
- The `state` argument of `get_city_coordinates`: it is never read.
- The duplicate "Denver", "Phoenix" and "Detroit" keys of the city literal: the dict keeps each at its first position with the same coordinates, and so does the table.
- Schedules: the local UTC offset behind `datetime.timestamp()` is one parameter, so daylight-saving changes inside a window are not modelled.
- Schedules: the ISO `date` string is kept as its fields, and the table's date and time strings are given as numbers. A row `strptime` rejects is skipped, as the source's `except` branch does; the message it prints is not modelled.

## Findings

| source | as written | input that shows it | evidently intended | confidence | as-written member | corrected member |
|---|---|---|---|---|---|---|
| backend/app/utils/statistics.py:382-390 | the shrinkage factor `pv / (pv + sv/n)` weighs the population mean, so it grows with the sample size n | pv = sv = 1: n = 1 gives weight 0.5 on the population mean, n = 2 gives 2/3 | the comment's "more shrinkage when sample is small": the factor should weigh the observation, so small samples are pulled harder toward the mean | not executed | Statistics.ShrinkageGrowsWithSampleSize | Statistics.CorrectedShrinksLessForLargerSamples |
| backend/app/utils/data_normalizer.py:107-110 | the substring loop tests every abbreviation against the whole upper-cased name, and "NE" (New England) comes before "NYG" | "New York Giants" with sport "nfl" gives "New England Patriots"; "NYG" normalised twice gives the Patriots | a name that already is a full team name is kept, so normalisation is idempotent | not executed | Normalizer.NormalizingTwiceChangesTeam | Normalizer.CorrectedNormalizationIsIdempotent |
| backend/app/routers/predictions.py:132-158 | the home probability is shifted by the prop adjustment, but `predicted_winner` is not recomputed | home 0.55 with a net adjustment of −0.10: home is still the winner at 0.45 | the winner is re-derived from the adjusted probabilities by the predictor's rule | not executed | PredictionRouter.WinnerCanContradictProbabilities | PredictionRouter.CorrectedWinnerLeads |
| backend/app/data/nfl_schedule.py:74-87 | a game's Sunday is compared with `now + days_until_sunday − 1`, which is always a Saturday | any `now` and any game that is not today: the label is "Week of …", never "This Week" or "Next Week" | "This Week" for the current Sunday-to-Saturday week, "Next Week" for the one after | not executed | Schedules.NflWeekLabelsUnreachable | Schedules.CorrectedNflLabelsAreWeeks |

=== FILE: adaptive.dfy ===
/** `AdaptivePredictor`: the factor weights after applying the learned
    patterns, and the confidence scaled by the historical accuracy. */
module Adaptive {
  import opened Wrappers
  import opened Num
  import Tracker
  import Learning

  datatype Weights = Weights(weather: real, injury: real, coaching: real, mentalHealth: real, homeAdvantage: real)

  const BaseWeights := Weights(0.15, 0.15, 0.10, 0.12, 0.03)

  /** The error kinds that own a weight; overconfidence and probability
      errors own none. */
  predicate IsWeightKind(k: Learning.ErrorKind)
  {
    k == Learning.WeatherUnderestimated || k == Learning.InjuryImpactMissed
    || k == Learning.CoachingMismatch || k == Learning.MentalHealthUnderestimated
  }

  /** The weight a kind owns. */
  function Slot(w: Weights, k: Learning.ErrorKind): real
    requires IsWeightKind(k)
  {
    match k
    case WeatherUnderestimated => w.weather
    case InjuryImpactMissed => w.injury
    case CoachingMismatch => w.coaching
    case MentalHealthUnderestimated => w.mentalHealth
  }

  /** An insight overrides weight `k` when it is frequent (above 10%) and
      suggests a value for it. */
  predicate Overrides(i: Learning.LearningInsight, k: Learning.ErrorKind)
  {
    i.frequency > 0.1 && Learning.Entry(i.suggestedAdjustment, k).Some?
  }

  /** One insight's effect: each weight it suggests replaces the current
      one, the others and the home advantage stay. */
  function ApplyInsight(w: Weights, i: Learning.LearningInsight): (r: Weights)
    ensures r.homeAdvantage == w.homeAdvantage
    ensures forall k :: IsWeightKind(k) ==>
      Slot(r, k) == if Overrides(i, k) then Learning.Entry(i.suggestedAdjustment, k).value else Slot(w, k)
  {
    if i.frequency <= 0.1 then w
    else
      var a := i.suggestedAdjustment;
      Weights(a.weatherWeight.GetOr(w.weather), a.injuryWeight.GetOr(w.injury),
              a.coachingWeight.GetOr(w.coaching), a.mentalHealthWeight.GetOr(w.mentalHealth),
              w.homeAdvantage)
  }

  /** The insights applied in order to the base weights. */
  function AdjustedWeightsFrom(insights: seq<Learning.LearningInsight>): (r: Weights)
    ensures r.homeAdvantage == BaseWeights.homeAdvantage
    decreases |insights|
  {
    if |insights| == 0 then BaseWeights
    else ApplyInsight(AdjustedWeightsFrom(insights[..|insights| - 1]), insights[|insights| - 1])
  }

  /** `get_adjusted_weights`. */
  function AdjustedWeights(store: Tracker.Store, sport: Option<string>): (r: Weights)
    ensures r.homeAdvantage == 0.03
  {
    AdjustedWeightsFrom(Learning.ExtractLearningPatterns(store, sport))
  }

  /** A weight no frequent insight suggests keeps its base value. */
  lemma {:induction false} UnsuggestedWeightKeepsBase(insights: seq<Learning.LearningInsight>, k: Learning.ErrorKind)
    requires IsWeightKind(k)
    requires forall j :: 0 <= j < |insights| ==> !Overrides(insights[j], k)
    ensures Slot(AdjustedWeightsFrom(insights), k) == Slot(BaseWeights, k)
    decreases |insights|
  {
    if |insights| > 0 {
      UnsuggestedWeightKeepsBase(insights[..|insights| - 1], k);
    }
  }

  /** The last frequent insight that suggests a weight decides it. */
  lemma {:induction false} LastOverrideWins(insights: seq<Learning.LearningInsight>, k: Learning.ErrorKind, j: int)
    requires IsWeightKind(k)
    requires 0 <= j < |insights| && Overrides(insights[j], k)
    requires forall l :: j < l < |insights| ==> !Overrides(insights[l], k)
    ensures Slot(AdjustedWeightsFrom(insights), k) == Learning.Entry(insights[j].suggestedAdjustment, k).value
    decreases |insights|
  {
    if j < |insights| - 1 {
      LastOverrideWins(insights[..|insights| - 1], k, j);
    }
  }

  /** The caps a learned pattern's suggestion respects. */
  predicate WithinPatternCaps(w: Weights)
  {
    w.weather <= 0.25 && w.injury <= 0.30 && w.coaching <= 0.25 && w.mentalHealth <= 0.20
  }

  lemma {:induction false} SuggestionsKeepCaps(insights: seq<Learning.LearningInsight>)
    requires forall j :: 0 <= j < |insights| ==>
      insights[j].suggestedAdjustment == Learning.PatternAdjustment(insights[j].pattern, insights[j].impact)
    ensures WithinPatternCaps(AdjustedWeightsFrom(insights))
    decreases |insights|
  {
    if |insights| > 0 {
      SuggestionsKeepCaps(insights[..|insights| - 1]);
    }
  }

  /** However the patterns come out, the adjusted weights stay within the
      caps of the pattern suggestions. */
  lemma AdjustedWeightsAreCapped(store: Tracker.Store, sport: Option<string>)
    ensures WithinPatternCaps(AdjustedWeights(store, sport))
  {
    SuggestionsKeepCaps(Learning.ExtractLearningPatterns(store, sport));
  }

  /** The accuracy rule: below ten resolved predictions nothing changes;
      otherwise poor accuracy scales the confidence down and high accuracy
      scales it up, never past 1. */
  function ScaledConfidence(baseConfidence: real, stats: Tracker.AccuracyStats): (r: real)
    ensures stats.total < 10 ==> r == baseConfidence
    ensures stats.total >= 10 && stats.accuracy < 0.5 ==> r == baseConfidence * 0.8
    ensures stats.total >= 10 && 0.5 <= stats.accuracy < 0.6 ==> r == baseConfidence * 0.9
    ensures stats.total >= 10 && 0.6 <= stats.accuracy <= 0.75 ==> r == baseConfidence
    ensures stats.total >= 10 && stats.accuracy > 0.75 ==> r == Min(1.0, baseConfidence * 1.05)
  {
    if stats.total < 10 then baseConfidence
    else if stats.accuracy < 0.5 then baseConfidence * 0.8
    else if stats.accuracy < 0.6 then baseConfidence * 0.9
    else if stats.accuracy > 0.75 then Min(1.0, baseConfidence * 1.05)
    else baseConfidence
  }

  /** `get_confidence_adjustment`. */
  function ConfidenceAdjustment(baseConfidence: real, store: Tracker.Store, sport: Option<string>): (r: real)
    ensures 0.0 <= baseConfidence <= 1.0 ==> 0.0 <= r <= 1.0
    ensures 0.0 <= baseConfidence < r ==> Tracker.AccuracyStatsOf(store, sport).accuracy > 0.75
    ensures |Tracker.Counted(store, sport)| < 10 ==> r == baseConfidence
  {
    ScaledConfidence(baseConfidence, Tracker.AccuracyStatsOf(store, sport))
  }

  /** For a confidence in [0, 1], a better record never earns a lower
      confidence. */
  lemma ConfidenceMonotoneInAccuracy(baseConfidence: real, s1: Tracker.AccuracyStats, s2: Tracker.AccuracyStats)
    requires 0.0 <= baseConfidence <= 1.0
    requires s1.total >= 10 && s2.total >= 10 && s1.accuracy <= s2.accuracy
    ensures ScaledConfidence(baseConfidence, s1) <= ScaledConfidence(baseConfidence, s2)
  {
  }
}

=== FILE: assoc.dfy ===
/** Association lists: a Python dict literal or a JS object, kept as the
    sequence of its (key, value) entries in insertion order. */
module Assoc {
  import opened Wrappers

  /** `i` is the first position holding key `k`. */
  ghost predicate FirstKeyAt<K, V>(t: seq<(K, V)>, k: K, i: int)
  {
    0 <= i < |t| && t[i].0 == k && forall j :: 0 <= j < i ==> t[j].0 != k
  }

  /** The value of the first entry with key `k`: `dict.get(k)` when the keys
      are distinct, as they are in a literal. */
  function Find<K(==), V>(t: seq<(K, V)>, k: K): (r: Option<V>)
    ensures r.None? <==> forall i :: 0 <= i < |t| ==> t[i].0 != k
    ensures r.Some? ==> exists i :: FirstKeyAt(t, k, i) && t[i].1 == r.value
    decreases |t|
  {
    if |t| == 0 then None
    else if t[0].0 == k then
      assert FirstKeyAt(t, k, 0);
      Some(t[0].1)
    else
      var r := Find(t[1..], k);
      if r.Some? then
        ghost var i :| FirstKeyAt(t[1..], k, i) && t[1..][i].1 == r.value;
        assert FirstKeyAt(t, k, i + 1);
        r
      else
        r
  }

  /** The first entry with the key is the one found. */
  lemma {:induction false} FindFirstKey<K, V>(t: seq<(K, V)>, k: K, i: int)
    requires FirstKeyAt(t, k, i)
    ensures Find(t, k) == Some(t[i].1)
    decreases i
  {
    if i > 0 {
      assert t[0].0 != k;
      assert FirstKeyAt(t[1..], k, i - 1) by {
        forall j | 0 <= j < i - 1 ensures t[1..][j].0 != k {
          assert t[1..][j] == t[j + 1];
        }
      }
      FindFirstKey(t[1..], k, i - 1);
    }
  }

  /** `dict.get(k, default)`. */
  function GetOr<K(==), V>(t: seq<(K, V)>, k: K, default: V): (r: V)
    ensures (forall i :: 0 <= i < |t| ==> t[i].0 != k) ==> r == default
    ensures forall i :: FirstKeyAt(t, k, i) ==> r == t[i].1
  {
    match Find(t, k)
    case None => default
    case Some(v) => v
  }

  /** `i` is the first position whose key satisfies `p`. */
  ghost predicate FirstWhereAt<K, V>(t: seq<(K, V)>, p: K -> bool, i: int)
  {
    0 <= i < |t| && p(t[i].0) && forall j :: 0 <= j < i ==> !p(t[j].0)
  }

  /** The value of the first entry, in insertion order, whose key satisfies
      `p`: a loop over `d.items()` that returns on the first hit. */
  function FindWhere<K, V>(t: seq<(K, V)>, p: K -> bool): (r: Option<V>)
    ensures r.None? <==> forall i :: 0 <= i < |t| ==> !p(t[i].0)
    ensures r.Some? ==> exists i :: FirstWhereAt(t, p, i) && t[i].1 == r.value
    decreases |t|
  {
    if |t| == 0 then None
    else if p(t[0].0) then
      assert FirstWhereAt(t, p, 0);
      Some(t[0].1)
    else
      var r := FindWhere(t[1..], p);
      if r.Some? then
        ghost var i :| FirstWhereAt(t[1..], p, i) && t[1..][i].1 == r.value;
        assert FirstWhereAt(t, p, i + 1);
        r
      else
        r
  }

  /** The first entry whose key satisfies `p` is the one found. */
  lemma {:induction false} FindWhereFirst<K, V>(t: seq<(K, V)>, p: K -> bool, i: int)
    requires FirstWhereAt(t, p, i)
    ensures FindWhere(t, p) == Some(t[i].1)
    decreases i
  {
    if i > 0 {
      assert FirstWhereAt(t[1..], p, i - 1) by {
        forall j | 0 <= j < i - 1 ensures !p(t[1..][j].0) {
          assert t[1..][j] == t[j + 1];
        }
      }
      FindWhereFirst(t[1..], p, i - 1);
    }
  }

  function Keys<K, V>(t: seq<(K, V)>): (r: seq<K>)
    ensures |r| == |t| && forall i :: 0 <= i < |t| ==> r[i] == t[i].0
  {
    seq(|t|, i requires 0 <= i < |t| => t[i].0)
  }

  function Values<K, V>(t: seq<(K, V)>): (r: seq<V>)
    ensures |r| == |t| && forall i :: 0 <= i < |t| ==> r[i] == t[i].1
  {
    seq(|t|, i requires 0 <= i < |t| => t[i].1)
  }

  lemma KeysCons<K, V>(e: (K, V), t: seq<(K, V)>)
    ensures Keys([e] + t) == [e.0] + Keys(t)
  {
  }

  /** Replacing the first entry's value keeps the keys. */
  lemma KeysNewHeadValue<K, V>(t: seq<(K, V)>, v: V)
    requires |t| > 0
    ensures Keys([(t[0].0, v)] + t[1..]) == Keys(t)
  {
    KeysCons((t[0].0, v), t[1..]);
    KeysCons(t[0], t[1..]);
    assert [t[0]] + t[1..] == t;
  }

  /** `d[k] = v`: an existing key keeps its place and takes the new value, a
      new key goes at the end. */
  function Put<K(==), V>(t: seq<(K, V)>, k: K, v: V): (r: seq<(K, V)>)
    ensures Find(t, k).Some? ==> Keys(r) == Keys(t)
    ensures Find(t, k).None? ==> Keys(r) == Keys(t) + [k]
    decreases |t|
  {
    if |t| == 0 then [(k, v)]
    else if t[0].0 == k then
      KeysNewHeadValue(t, v);
      [(k, v)] + t[1..]
    else
      var rest := Put(t[1..], k, v);
      assert Find(t, k) == Find(t[1..], k);
      KeysCons(t[0], rest);
      KeysCons(t[0], t[1..]);
      assert [t[0]] + t[1..] == t;
      [t[0]] + rest
  }

  /** After `d[k] = v`, looking `k` up gives `v`. */
  lemma {:induction false} FindPutSame<K, V>(t: seq<(K, V)>, k: K, v: V)
    ensures Find(Put(t, k, v), k) == Some(v)
    decreases |t|
  {
    if |t| > 0 && t[0].0 != k {
      FindPutSame(t[1..], k, v);
      assert Put(t, k, v)[1..] == Put(t[1..], k, v);
    }
  }

  /** `d[k] = v` leaves every other key's lookup as it was. */
  lemma {:induction false} FindPutOther<K, V>(t: seq<(K, V)>, k: K, v: V, other: K)
    requires other != k
    ensures Find(Put(t, k, v), other) == Find(t, other)
    decreases |t|
  {
    if |t| > 0 {
      if t[0].0 == k {
        assert Put(t, k, v)[1..] == t[1..];
      } else if t[0].0 != other {
        FindPutOther(t[1..], k, v, other);
        assert Put(t, k, v)[1..] == Put(t[1..], k, v);
      }
    }
  }

  /** Every entry after `d[k] = v` is an old entry or the new one. */
  lemma {:induction false} PutEntries<K, V>(t: seq<(K, V)>, k: K, v: V)
    ensures forall x :: x in Put(t, k, v) ==> x in t || x == (k, v)
    decreases |t|
  {
    if |t| > 0 && t[0].0 != k {
      PutEntries(t[1..], k, v);
      assert Put(t, k, v) == [t[0]] + Put(t[1..], k, v);
    }
  }

  /** Updating past the head is updating the tail. */
  lemma UpdateBehindHead<T>(t: seq<T>, i: int, x: T)
    requires 0 < i < |t|
    ensures t[i := x] == [t[0]] + t[1..][i - 1 := x]
  {
    var a := t[i := x];
    var b := [t[0]] + t[1..][i - 1 := x];
    assert |a| == |b|;
    forall j | 0 <= j < |a| ensures a[j] == b[j] {
      if j > 0 {
        assert b[j] == t[1..][i - 1 := x][j - 1];
      }
    }
  }

  /** `d[k] = v` on a present key replaces the entry at the key's first
      position and leaves every other entry where it was. */
  lemma {:induction false} PutAt<K, V>(t: seq<(K, V)>, k: K, v: V, i: int)
    requires FirstKeyAt(t, k, i)
    ensures Put(t, k, v) == t[i := (k, v)]
    decreases |t|
  {
    if i > 0 {
      assert t[0].0 != k;
      assert FirstKeyAt(t[1..], k, i - 1);
      PutAt(t[1..], k, v, i - 1);
      UpdateBehindHead(t, i, (k, v));
    }
  }

  lemma ValuesUpdate<K, V>(t: seq<(K, V)>, i: int, e: (K, V))
    requires 0 <= i < |t|
    ensures Values(t[i := e]) == Values(t)[i := e.1]
  {
    var a := Values(t[i := e]);
    var b := Values(t)[i := e.1];
    forall j | 0 <= j < |t| ensures a[j] == b[j] {
      if j != i {
        assert a[j] == t[j].1;
      }
    }
  }
}

=== FILE: bestbets.dfy ===
/** The positive-EV ranking of the bets router (`get_best_bets` and
    `get_best_player_bets`). Everything the router fetches — upcoming games,
    predictions, odds dictionaries — arrives as input; a game or prop whose
    fetching raised is an explicit `Failed` input and is skipped. */
module BestBets {
  import opened Wrappers
  import opened Seqs
  import opened Betting
  import opened Odds

  // ---- Ranking shared by both endpoints ----

  datatype Ranking<T> = Ranking(totalOpportunities: nat, top: seq<T>)

  /** Sort by key descending (stable) and keep `list[:limit]`; the total counts
      the list before truncation. */
  function Rank<T>(all: seq<T>, key: T -> real, limit: int): (r: Ranking<T>)
    ensures r.totalOpportunities == |all|
    ensures SortedDesc(r.top, key)
    ensures 0 <= limit ==> |r.top| == if limit <= |all| then limit else |all|
  {
    var sorted := SortDesc(all, key);
    var top := PyTake(sorted, limit);
    assert SortedDesc(top, key) by {
      forall i, j | 0 <= i < j < |top| ensures key(top[i]) >= key(top[j]) {
        assert top[i] == sorted[i] && top[j] == sorted[j];
      }
    }
    Ranking(|all|, top)
  }

  /** The returned entries are a sub-multiset of all entries, and every entry
      left out ranks no higher than any returned one. */
  lemma RankIsTopOfAll<T>(all: seq<T>, key: T -> real, limit: int)
    ensures multiset(Rank(all, key, limit).top) <= multiset(all)
    ensures forall x :: x in multiset(all) - multiset(Rank(all, key, limit).top) ==>
      forall i :: 0 <= i < |Rank(all, key, limit).top| ==> key(x) <= key(Rank(all, key, limit).top[i])
  {
    var sorted := SortDesc(all, key);
    var top := Rank(all, key, limit).top;
    assert top == PyTake(sorted, limit);
    var m := |top|;
    assert top == sorted[..m];
    TakeOfSorted(sorted, m, key);
    assert multiset(sorted) == multiset(all);
    assert forall i :: 0 <= i < m ==> top[i] == sorted[i];
  }

  // ---- Team bets: `get_best_bets` ----

  datatype GameInput =
    | Failed
    | Evaluated(gameId: string, homeTeam: string, awayTeam: string,
                homeWinProbability: real, awayWinProbability: real,
                odds: seq<(string, PlatformOdds)>)

  datatype RankedBet = RankedBet(gameId: string, opportunity: BetOpportunity)

  function EvKey(b: RankedBet): real { b.opportunity.expectedValue }

  /** One side of one platform: analysed when the price is truthy, kept when
      its EV is positive. */
  function SideBet(gameId: string, p: real, o: Option<real>, team: string, platform: string): (r: seq<RankedBet>)
    ensures |r| <= 1
    ensures |r| == 1 <==> Truthy(o) && ExpectedValue(p, o.value) > 0.0
    ensures |r| == 1 ==> r[0] == RankedBet(gameId, AnalyzeBet(p, o.value, "team_win", team, platform, DefaultKellyFraction))
  {
    if Truthy(o) then
      var opp := AnalyzeBet(p, o.value, "team_win", team, platform, DefaultKellyFraction);
      if opp.expectedValue > 0.0 then [RankedBet(gameId, opp)] else []
    else []
  }

  function PlatformBets(g: GameInput, p: (string, PlatformOdds)): (r: seq<RankedBet>)
    requires g.Evaluated?
    ensures !p.1.available ==> r == []
  {
    if !p.1.available then []
    else
      SideBet(g.gameId, g.homeWinProbability, p.1.homeOdds, g.homeTeam, p.0)
      + SideBet(g.gameId, g.awayWinProbability, p.1.awayOdds, g.awayTeam, p.0)
  }

  /** Every kept bet has positive EV, is a team-win bet on one of the game's
      two teams, and carries the game's id. */
  ghost predicate WellFormed(g: GameInput, b: RankedBet)
  {
    g.Evaluated? && b.gameId == g.gameId
    && b.opportunity.expectedValue > 0.0 && b.opportunity.betType == "team_win"
    && (b.opportunity.selection == g.homeTeam || b.opportunity.selection == g.awayTeam)
  }

  function GameBets(g: GameInput, ps: seq<(string, PlatformOdds)>): (r: seq<RankedBet>)
    requires g.Evaluated?
    ensures forall i :: 0 <= i < |r| ==> WellFormed(g, r[i])
    decreases |ps|
  {
    if |ps| == 0 then [] else PlatformBets(g, ps[0]) + GameBets(g, ps[1..])
  }

  function CollectBets(games: seq<GameInput>): (r: seq<RankedBet>)
    ensures forall i :: 0 <= i < |r| ==> r[i].opportunity.expectedValue > 0.0
    ensures forall i :: 0 <= i < |r| ==> exists k :: 0 <= k < |games| && WellFormed(games[k], r[i])
    decreases |games|
  {
    if |games| == 0 then []
    else
      var here := if games[0].Failed? then [] else GameBets(games[0], games[0].odds);
      var rest := CollectBets(games[1..]);
      assert forall i :: 0 <= i < |here| ==> WellFormed(games[0], here[i]);
      assert forall i :: 0 <= i < |rest| ==> exists k :: 0 <= k < |games[1..]| && WellFormed(games[1..][k], rest[i]);
      assert forall k :: 0 <= k < |games[1..]| ==> games[1..][k] == games[k + 1];
      here + rest
  }

  function GetBestBets(games: seq<GameInput>, limit: int): (r: Ranking<RankedBet>)
    ensures forall i :: 0 <= i < |r.top| ==> r.top[i].opportunity.expectedValue > 0.0
    ensures SortedDesc(r.top, EvKey)
    ensures r.totalOpportunities == |CollectBets(PyTake(games, limit * 2))|
    ensures 0 <= limit ==> |r.top| <= limit
    ensures var all := CollectBets(PyTake(games, limit * 2));
      0 <= limit ==> |r.top| == if limit <= |all| then limit else |all|
    ensures multiset(r.top) <= multiset(CollectBets(PyTake(games, limit * 2)))
    ensures var all := CollectBets(PyTake(games, limit * 2));
      forall x :: x in multiset(all) - multiset(r.top) ==>
        forall i :: 0 <= i < |r.top| ==> EvKey(x) <= EvKey(r.top[i])
  {
    var all := CollectBets(PyTake(games, limit * 2));
    var r := Rank(all, EvKey, limit);
    RankIsTopOfAll(all, EvKey, limit);
    forall i | 0 <= i < |r.top| ensures r.top[i].opportunity.expectedValue > 0.0 {
      assert r.top[i] in multiset(all);
    }
    r
  }

  /** Only the first `2 * limit` games are looked at: games past them never
      change the answer. */
  lemma LaterGamesIgnored(games: seq<GameInput>, more: seq<GameInput>, limit: int)
    requires 0 <= limit && 2 * limit <= |games|
    ensures GetBestBets(games + more, limit) == GetBestBets(games, limit)
  {
    assert PyTake(games + more, limit * 2) == PyTake(games, limit * 2);
  }

  lemma {:induction false} CollectBetsAppend(a: seq<GameInput>, b: seq<GameInput>)
    ensures CollectBets(a + b) == CollectBets(a) + CollectBets(b)
    decreases |a|
  {
    if |a| == 0 {
      assert a + b == b;
    } else {
      assert (a + b)[1..] == a[1..] + b;
      assert (a + b)[0] == a[0];
      CollectBetsAppend(a[1..], b);
    }
  }

  /** A game whose evaluation raised contributes nothing: dropping it from the
      examined games leaves the collected opportunities unchanged. */
  lemma FailedGameContributesNothing(a: seq<GameInput>, b: seq<GameInput>)
    ensures CollectBets(a + [Failed] + b) == CollectBets(a + b)
  {
    var f := [Failed];
    assert f[1..] == [];
    assert CollectBets(f) == [];
    CollectBetsAppend(a, f);
    var af := CollectBets(a + f);
    assert af == CollectBets(a) + [];
    assert CollectBets(a) + [] == CollectBets(a);
    CollectBetsAppend(a + f, b);
    CollectBetsAppend(a, b);
    assert CollectBets(a + f + b) == af + CollectBets(b);
  }

  /** A home price with positive EV on an available platform of an examined
      game is among the collected opportunities. */
  lemma {:induction false} PositiveHomeBetCollected(games: seq<GameInput>, k: int, j: int)
    requires 0 <= k < |games| && games[k].Evaluated?
    requires 0 <= j < |games[k].odds|
    requires games[k].odds[j].1.available && Truthy(games[k].odds[j].1.homeOdds)
    requires ExpectedValue(games[k].homeWinProbability, games[k].odds[j].1.homeOdds.value) > 0.0
    ensures RankedBet(games[k].gameId,
              AnalyzeBet(games[k].homeWinProbability, games[k].odds[j].1.homeOdds.value, "team_win",
                         games[k].homeTeam, games[k].odds[j].0, DefaultKellyFraction)) in CollectBets(games)
    decreases |games|
  {
    var g := games[k];
    var b := RankedBet(g.gameId, AnalyzeBet(g.homeWinProbability, g.odds[j].1.homeOdds.value, "team_win",
                                            g.homeTeam, g.odds[j].0, DefaultKellyFraction));
    if k == 0 {
      GameBetsContains(g, g.odds, j, b);
    } else {
      assert games[1..][k - 1] == g;
      PositiveHomeBetCollected(games[1..], k - 1, j);
    }
  }

  lemma {:induction false} GameBetsContains(g: GameInput, ps: seq<(string, PlatformOdds)>, j: int, b: RankedBet)
    requires g.Evaluated? && 0 <= j < |ps|
    requires b in PlatformBets(g, ps[j])
    ensures b in GameBets(g, ps)
    decreases |ps|
  {
    if j > 0 {
      assert ps[1..][j - 1] == ps[j];
      GameBetsContains(g, ps[1..], j - 1, b);
    }
  }

  lemma HomeBetInPlatformBets(g: GameInput, p: (string, PlatformOdds))
    requires g.Evaluated? && p.1.available && Truthy(p.1.homeOdds)
    requires ExpectedValue(g.homeWinProbability, p.1.homeOdds.value) > 0.0
    ensures RankedBet(g.gameId, AnalyzeBet(g.homeWinProbability, p.1.homeOdds.value, "team_win",
                                           g.homeTeam, p.0, DefaultKellyFraction)) in PlatformBets(g, p)
  {
  }

  // ---- Player-prop bets: `get_best_player_bets` ----

  datatype PropPlatformOdds = PropPlatformOdds(available: bool, line: Option<real>,
                                               overOdds: Option<real>, underOdds: Option<real>)

  /** One prop of one player: the odds dictionary fetched for it and the
      predictor's (over, under) probabilities as a function of the line. */
  datatype PropInput =
    | PropFailed
    | PropEvaluated(propType: string, odds: seq<(string, PropPlatformOdds)>, predict: real -> (real, real))

  datatype PlayerInput = PlayerInput(name: string, props: seq<PropInput>)

  datatype PlayerBet = PlayerBet(
    gameId: string,
    playerName: string,
    betType: string,
    line: real,
    platform: string,
    odds: real,
    expectedValue: real,
    kellyPercentage: real,
    recommendation: Recommendation,
    trueProbability: real)

  datatype PlayerBetsError = GameNotFound

  function PlayerEvKey(b: PlayerBet): real { b.expectedValue }

  /** The line of the first available platform offering a truthy one. */
  function FirstLine(odds: seq<(string, PropPlatformOdds)>): (r: Option<real>)
    ensures r.None? <==> forall i :: 0 <= i < |odds| ==> !(odds[i].1.available && Truthy(odds[i].1.line))
    ensures r.Some? ==> r.value != 0.0
    ensures r.Some? ==> exists i :: 0 <= i < |odds| && odds[i].1.available && odds[i].1.line == r
    decreases |odds|
  {
    if |odds| == 0 then None
    else if odds[0].1.available && Truthy(odds[0].1.line) then odds[0].1.line
    else
      var r := FirstLine(odds[1..]);
      assert forall i :: 0 <= i < |odds[1..]| ==> odds[1..][i] == odds[i + 1];
      r
  }

  function PropSideBet(gameId: string, player: string, prop: string, line: real, p: real,
                       o: Option<real>, suffix: string, platform: string): (r: seq<PlayerBet>)
    ensures |r| <= 1
    ensures |r| == 1 ==> r[0].expectedValue > 0.0 && r[0].betType == prop + suffix && r[0].line == line
  {
    if Truthy(o) then
      var opp := AnalyzeBet(p, o.value, "player_" + prop + suffix, player + " " + prop, platform, DefaultKellyFraction);
      if opp.expectedValue > 0.0 then
        [PlayerBet(gameId, player, prop + suffix, line, platform, opp.odds, opp.expectedValue,
                   opp.kellyPercentage, opp.recommendation, opp.trueProbability)]
      else []
    else []
  }

  function PropPlatformsBets(gameId: string, player: string, prop: string, line: real, probs: (real, real),
                             odds: seq<(string, PropPlatformOdds)>): (r: seq<PlayerBet>)
    ensures forall i :: 0 <= i < |r| ==> r[i].expectedValue > 0.0 && r[i].line == line && r[i].playerName == player
    decreases |odds|
  {
    if |odds| == 0 then []
    else
      var (platform, po) := odds[0];
      var here := if !po.available then [] else
        PropSideBet(gameId, player, prop, line, probs.0, po.overOdds, "_over", platform)
        + PropSideBet(gameId, player, prop, line, probs.1, po.underOdds, "_under", platform);
      assert forall i :: 0 <= i < |here| ==> here[i].playerName == player;
      here + PropPlatformsBets(gameId, player, prop, line, probs, odds[1..])
  }

  /** A prop with no available truthy line is skipped; otherwise every
      available platform's over and under prices are analysed at that line. */
  function PropBets(gameId: string, player: string, prop: PropInput): (r: seq<PlayerBet>)
    ensures prop.PropEvaluated? && FirstLine(prop.odds).None? ==> r == []
    ensures forall i :: 0 <= i < |r| ==> r[i].expectedValue > 0.0 && r[i].playerName == player
  {
    match prop
    case PropFailed => []
    case PropEvaluated(propType, odds, predict) =>
      match FirstLine(odds)
      case None => []
      case Some(line) => PropPlatformsBets(gameId, player, propType, line, predict(line), odds)
  }

  function PlayerBets(gameId: string, player: string, props: seq<PropInput>): (r: seq<PlayerBet>)
    ensures forall i :: 0 <= i < |r| ==> r[i].expectedValue > 0.0 && r[i].playerName == player
    decreases |props|
  {
    if |props| == 0 then [] else PropBets(gameId, player, props[0]) + PlayerBets(gameId, player, props[1..])
  }

  function AllPlayerBets(gameId: string, players: seq<PlayerInput>): (r: seq<PlayerBet>)
    ensures forall i :: 0 <= i < |r| ==> r[i].expectedValue > 0.0
    decreases |players|
  {
    if |players| == 0 then []
    else PlayerBets(gameId, players[0].name, players[0].props) + AllPlayerBets(gameId, players[1..])
  }

  /** A missing game is an error; otherwise the positive-EV player bets are
      ranked exactly like team bets. */
  function GetBestPlayerBets(gameFound: bool, gameId: string, players: seq<PlayerInput>, limit: int)
    : (r: Result<Ranking<PlayerBet>, PlayerBetsError>)
    ensures r.Failure? <==> !gameFound
    ensures r.Success? ==> r.value.totalOpportunities == |AllPlayerBets(gameId, players)|
    ensures r.Success? ==> SortedDesc(r.value.top, PlayerEvKey)
    ensures r.Success? ==> forall i :: 0 <= i < |r.value.top| ==> r.value.top[i].expectedValue > 0.0
    ensures r.Success? && 0 <= limit ==> |r.value.top| <= limit
    ensures var all := AllPlayerBets(gameId, players);
      r.Success? && 0 <= limit ==> |r.value.top| == if limit <= |all| then limit else |all|
    ensures r.Success? ==> multiset(r.value.top) <= multiset(AllPlayerBets(gameId, players))
    ensures var all := AllPlayerBets(gameId, players);
      r.Success? ==> forall x :: x in multiset(all) - multiset(r.value.top) ==>
        forall i :: 0 <= i < |r.value.top| ==> PlayerEvKey(x) <= PlayerEvKey(r.value.top[i])
  {
    if !gameFound then Failure(GameNotFound)
    else
      var all := AllPlayerBets(gameId, players);
      var ranked := Rank(all, PlayerEvKey, limit);
      RankIsTopOfAll(all, PlayerEvKey, limit);
      forall i | 0 <= i < |ranked.top| ensures ranked.top[i].expectedValue > 0.0 {
        assert ranked.top[i] in multiset(all);
      }
      Success(ranked)
  }
}

=== FILE: betting.dfy ===
/** Expected value, fractional Kelly sizing and the recommendation tiers of
    the backend's betting analyser (`KellyCriterion` and `BettingAnalyzer`).
    Odds are decimal odds; probabilities are fractions in [0, 1]. */
module Betting {
  import opened Wrappers
  import opened Num

  datatype Recommendation = StrongBet | ModerateBet | SmallBet | Avoid

  datatype BetOpportunity = BetOpportunity(
    betType: string,
    selection: string,
    odds: real,
    impliedProbability: real,
    trueProbability: real,
    expectedValue: real,
    kellyPercentage: real,
    platform: string,
    recommendation: Recommendation)

  /** The analyser's default Kelly fraction (quarter Kelly). */
  const DefaultKellyFraction: real := 0.25

  /** Largest share of the bankroll ever recommended. */
  const KellyCap: real := 0.05

  /** Expected net return per unit staked; -1 when the odds cannot pay out. */
  function ExpectedValue(p: real, odds: real): (ev: real)
    ensures odds <= 1.0 ==> ev == -1.0
    ensures odds > 1.0 ==> ev == p * odds - 1.0
  {
    if odds <= 1.0 then -1.0 else p * (odds - 1.0) - (1.0 - p) * 1.0
  }

  /** Fractional Kelly stake as a share of the bankroll, floored at 0 and
      capped at `KellyCap`. */
  function KellyPercentage(p: real, odds: real, fraction: real): (k: real)
    ensures odds <= 1.0 ==> k == 0.0
    ensures 0.0 <= k <= KellyCap
  {
    if odds <= 1.0 then 0.0
    else
      var b := odds - 1.0;
      var q := 1.0 - p;
      var kelly := (b * p - q) / b;
      Min(Max(0.0, kelly * fraction), KellyCap)
  }

  /** The full Kelly fraction is the expected value divided by the net odds,
      so the stake is the scaled expected value, floored and capped. */
  lemma KellyFromExpectedValue(p: real, odds: real, fraction: real)
    requires odds > 1.0
    ensures KellyPercentage(p, odds, fraction)
         == Min(Max(0.0, fraction * ExpectedValue(p, odds) / (odds - 1.0)), KellyCap)
  {
    var b := odds - 1.0;
    var ev := ExpectedValue(p, odds);
    assert b * p - (1.0 - p) == ev;
    var x := ev / b;
    assert x * b == ev;
    assert (fraction * ev) / b == fraction * x by {
      assert fraction * x * b == fraction * ev;
    }
    assert (b * p - (1.0 - p)) / b * fraction == x * fraction;
    assert KellyPercentage(p, odds, fraction) == Min(Max(0.0, x * fraction), KellyCap);
    assert fraction * ExpectedValue(p, odds) / (odds - 1.0) == fraction * x;
  }

  /** With a positive fraction a stake is recommended exactly when the bet
      has positive expected value. */
  lemma KellyPositiveIffValue(p: real, odds: real, fraction: real)
    requires odds > 1.0 && fraction > 0.0
    ensures KellyPercentage(p, odds, fraction) > 0.0 <==> ExpectedValue(p, odds) > 0.0
  {
    KellyFromExpectedValue(p, odds, fraction);
    var ev := ExpectedValue(p, odds);
    var b := odds - 1.0;
    if ev > 0.0 {
      assert fraction * ev > 0.0;
      assert fraction * ev / b > 0.0;
    } else {
      assert fraction * ev <= 0.0;
      assert fraction * ev / b <= 0.0;
    }
  }

  /** A bet has positive expected value exactly when the model's probability
      beats the probability implied by the odds. */
  lemma ValueIffProbabilityBeatsImplied(p: real, odds: real)
    requires odds > 1.0
    ensures ExpectedValue(p, odds) > 0.0 <==> p > 1.0 / odds
  {
    assert (1.0 / odds) * odds == 1.0;
    if p > 1.0 / odds {
      assert p * odds > (1.0 / odds) * odds;
    }
    if p <= 1.0 / odds {
      assert p * odds <= (1.0 / odds) * odds;
    }
  }

  lemma KellyAtEvenMoneyWithEdge()
    ensures KellyPercentage(0.6, 2.0, DefaultKellyFraction) == 0.05
  {
  }

  lemma FairCoinAtEvenMoneyHasNoValue()
    ensures ExpectedValue(0.5, 2.0) == 0.0
  {
  }

  /** The recommendation ladder; "avoid" is exactly the non-positive EV case. */
  function Tier(ev: real, kelly: real): (r: Recommendation)
    ensures r == StrongBet <==> ev > 0.10 && kelly > 0.01
    ensures r == ModerateBet <==> !(ev > 0.10 && kelly > 0.01) && ev > 0.05 && kelly > 0.005
    ensures r == SmallBet <==> ev > 0.0 && !(ev > 0.05 && kelly > 0.005)
    ensures r == Avoid <==> ev <= 0.0
  {
    if ev > 0.10 && kelly > 0.01 then StrongBet
    else if ev > 0.05 && kelly > 0.005 then ModerateBet
    else if ev > 0.0 then SmallBet
    else Avoid
  }

  /** Implied probability of decimal odds, 0 for non-positive odds. */
  function ImpliedProbability(odds: real): (r: real)
    ensures odds > 0.0 ==> r * odds == 1.0
    ensures odds <= 0.0 ==> r == 0.0
  {
    if odds > 0.0 then 1.0 / odds else 0.0
  }

  function AnalyzeBet(p: real, odds: real, betType: string, selection: string,
                      platform: string, fraction: real): (r: BetOpportunity)
    ensures r.betType == betType && r.selection == selection && r.platform == platform
    ensures r.odds == odds && r.trueProbability == p
    ensures r.impliedProbability == ImpliedProbability(odds)
    ensures r.expectedValue == ExpectedValue(p, odds)
    ensures r.kellyPercentage == KellyPercentage(p, odds, fraction)
    ensures r.recommendation == Tier(r.expectedValue, r.kellyPercentage)
    ensures r.recommendation == Avoid <==> r.expectedValue <= 0.0
  {
    var ev := ExpectedValue(p, odds);
    var kelly := KellyPercentage(p, odds, fraction);
    BetOpportunity(betType, selection, odds, ImpliedProbability(odds), p, ev, kelly,
                   platform, Tier(ev, kelly))
  }

  /** For real odds the analyser advises against a bet exactly when the
      model's probability does not beat the implied one. */
  lemma AvoidIffNoEdge(p: real, odds: real, betType: string, selection: string,
                       platform: string, fraction: real)
    requires odds > 1.0
    ensures AnalyzeBet(p, odds, betType, selection, platform, fraction).recommendation == Avoid
        <==> p <= AnalyzeBet(p, odds, betType, selection, platform, fraction).impliedProbability
  {
    ValueIffProbabilityBeatsImplied(p, odds);
  }

  /** One opportunity per platform entry of the odds dictionary, in order. */
  function CompareOdds(oddsByPlatform: seq<(string, real)>, p: real, betType: string,
                       selection: string, fraction: real): (r: seq<(string, BetOpportunity)>)
    ensures |r| == |oddsByPlatform|
    ensures forall i :: 0 <= i < |r| ==>
      r[i].0 == oddsByPlatform[i].0
      && r[i].1 == AnalyzeBet(p, oddsByPlatform[i].1, betType, selection, oddsByPlatform[i].0, fraction)
    decreases |oddsByPlatform|
  {
    if |oddsByPlatform| == 0 then []
    else
      var (platform, odds) := oddsByPlatform[0];
      [(platform, AnalyzeBet(p, odds, betType, selection, platform, fraction))]
        + CompareOdds(oddsByPlatform[1..], p, betType, selection, fraction)
  }

  /** Entry `k` is the first among the positive-EV entries with the largest EV,
      the element Python's `max` returns. */
  ghost predicate IsFirstBest(opps: seq<(string, BetOpportunity)>, k: int)
  {
    0 <= k < |opps| && opps[k].1.expectedValue > 0.0
    && (forall j :: 0 <= j < |opps| && opps[j].1.expectedValue > 0.0 ==>
          opps[j].1.expectedValue <= opps[k].1.expectedValue)
    && (forall j :: 0 <= j < k ==> opps[j].1.expectedValue < opps[k].1.expectedValue)
  }

  method FindBestBet(opps: seq<(string, BetOpportunity)>) returns (best: Option<BetOpportunity>)
    ensures best.None? <==> forall j :: 0 <= j < |opps| ==> opps[j].1.expectedValue <= 0.0
    ensures best.Some? ==> exists k :: IsFirstBest(opps, k) && opps[k].1 == best.value
  {
    best := None;
    ghost var k := -1;
    for i := 0 to |opps|
      invariant best.None? <==> forall j :: 0 <= j < i ==> opps[j].1.expectedValue <= 0.0
      invariant best.Some? ==> 0 <= k < i && opps[k].1 == best.value && opps[k].1.expectedValue > 0.0
      invariant best.Some? ==> forall j :: 0 <= j < i && opps[j].1.expectedValue > 0.0 ==>
                  opps[j].1.expectedValue <= opps[k].1.expectedValue
      invariant best.Some? ==> forall j :: 0 <= j < k ==> opps[j].1.expectedValue < opps[k].1.expectedValue
    {
      var ev := opps[i].1.expectedValue;
      if ev > 0.0 && (best.None? || ev > best.value.expectedValue) {
        best := Some(opps[i].1);
        k := i;
      }
    }
    if best.Some? {
      assert IsFirstBest(opps, k);
    }
  }
}

=== FILE: calculator.dfy ===
/** The pure helpers of the frontend betting calculator. Probabilities are
    entered in percent (0-100); Kelly and EV are reported in percent. */
module Calculator {
  import opened Wrappers
  import opened Num
  import Betting

  datatype Advice = AvoidThisBet | StrongBet | GoodBet | ModerateBet

  datatype Summary = Summary(
    kellyPercent: real,
    betAmount: real,
    expectedValue: real,
    /** None where the browser would compute an infinite value (odds of 0). */
    impliedProbability: Option<real>,
    edge: Option<real>,
    potentialWin: real,
    potentialLoss: real,
    advice: Advice)

  /** Recommended stake in percent of the bankroll, capped at 5. */
  function CalculateKelly(prob: real, odds: real, fraction: real): (k: real)
    ensures odds <= 1.0 ==> k == 0.0
    ensures 0.0 <= k <= 5.0
  {
    if odds <= 1.0 then 0.0
    else
      var b := odds - 1.0;
      var p := prob / 100.0;
      var q := 1.0 - p;
      var kelly := (b * p - q) / b;
      Min(Max(0.0, kelly * fraction) * 100.0, 5.0)
  }

  /** Expected return in percent of the stake, -100 for odds that cannot pay. */
  function CalculateEV(prob: real, odds: real): (ev: real)
    ensures odds <= 1.0 ==> ev == -100.0
  {
    if odds <= 1.0 then -100.0
    else
      var p := prob / 100.0;
      (p * (odds - 1.0) - (1.0 - p) * 1.0) * 100.0
  }

  lemma ScaleMinMax(x: real)
    ensures Min(Max(0.0, x) * 100.0, 5.0) == 100.0 * Min(Max(0.0, x), 0.05)
  {
  }

  /** The frontend Kelly is the backend's, in percent. */
  lemma KellyMatchesBackend(prob: real, odds: real, fraction: real)
    ensures CalculateKelly(prob, odds, fraction)
         == 100.0 * Betting.KellyPercentage(prob / 100.0, odds, fraction)
  {
    if odds > 1.0 {
      var b := odds - 1.0;
      var p := prob / 100.0;
      ScaleMinMax((b * p - (1.0 - p)) / b * fraction);
    }
  }

  /** The frontend EV is the backend's, in percent. */
  lemma EvMatchesBackend(prob: real, odds: real)
    ensures CalculateEV(prob, odds) == 100.0 * Betting.ExpectedValue(prob / 100.0, odds)
  {
  }

  /** Implied probability in percent; JavaScript's `1 / 0` is infinite, which
      is the `None` case. */
  function ImpliedProbability(odds: real): (r: Option<real>)
    ensures r.None? <==> odds == 0.0
    ensures r.Some? ==> r.value * odds == 100.0
  {
    if odds == 0.0 then None else Some((1.0 / odds) * 100.0)
  }

  function Edge(prob: real, odds: real): (r: Option<real>)
    ensures r.None? <==> odds == 0.0
    ensures r.Some? ==> r.value == prob - ImpliedProbability(odds).value
  {
    match ImpliedProbability(odds)
    case None => None
    case Some(implied) => Some(prob - implied)
  }

  /** A positive edge over the implied probability is the same as a positive
      expected value, for odds that can pay out. */
  lemma EdgeIffPositiveEv(prob: real, odds: real)
    requires odds > 1.0
    ensures Edge(prob, odds).value > 0.0 <==> CalculateEV(prob, odds) > 0.0
  {
    EvMatchesBackend(prob, odds);
    Betting.ValueIffProbabilityBeatsImplied(prob / 100.0, odds);
    var p := prob / 100.0;
    assert (1.0 / odds) * 100.0 == 100.0 * (1.0 / odds);
    if p > 1.0 / odds {
      MulStrict(100.0, 1.0 / odds, p);
    }
    if prob > (1.0 / odds) * 100.0 {
      assert p > 1.0 / odds;
    }
  }

  function Recommendation(ev: real): (a: Advice)
    ensures a == AvoidThisBet <==> ev < 0.0
    ensures a == StrongBet <==> ev > 10.0
    ensures a == GoodBet <==> 5.0 < ev <= 10.0
    ensures a == ModerateBet <==> 0.0 <= ev <= 5.0
  {
    if ev < 0.0 then AvoidThisBet
    else if ev > 10.0 then StrongBet
    else if ev > 5.0 then GoodBet
    else ModerateBet
  }

  /** A break-even bet is a "Moderate Bet" here while the backend says avoid. */
  lemma BreakEvenAdviceDiffersFromBackend()
    ensures Recommendation(CalculateEV(50.0, 2.0)) == ModerateBet
    ensures Betting.Tier(Betting.ExpectedValue(0.5, 2.0),
                         Betting.KellyPercentage(0.5, 2.0, Betting.DefaultKellyFraction)) == Betting.Avoid
  {
  }

  /** Everything the calculator shows for its inputs. */
  function Summarize(bankroll: real, odds: real, prob: real, fraction: real): (s: Summary)
    ensures s.kellyPercent == CalculateKelly(prob, odds, fraction)
    ensures s.expectedValue == CalculateEV(prob, odds)
    ensures s.betAmount == bankroll * s.kellyPercent / 100.0
    ensures s.potentialWin == s.betAmount * (odds - 1.0) && s.potentialLoss == s.betAmount
    ensures s.impliedProbability == ImpliedProbability(odds) && s.edge == Edge(prob, odds)
    ensures s.advice == Recommendation(s.expectedValue)
    ensures bankroll >= 0.0 ==> 0.0 <= s.betAmount <= bankroll * 0.05
  {
    var kelly := CalculateKelly(prob, odds, fraction);
    var bet := (bankroll * kelly) / 100.0;
    assert bankroll >= 0.0 ==> bankroll * kelly <= bankroll * 5.0;
    var ev := CalculateEV(prob, odds);
    Summary(kelly, bet, ev, ImpliedProbability(odds), Edge(prob, odds), bet * (odds - 1.0), bet,
            Recommendation(ev))
  }
}

=== FILE: cities.dfy ===
/** `get_city_coordinates`: the coordinates of a venue city, looked up in
    three tiers — the exact name, then a case-insensitive equal name, then
    the first name that contains or is contained in the query. The `state`
    argument of the source is accepted there but never read, so it is not a
    parameter here. */
module Cities {
  import opened Wrappers
  import opened Text
  import Assoc

  datatype Coords = Coords(lat: real, lon: real)

  type Table = seq<(string, Coords)>

  /** The coordinate table in the dict's iteration order, in the source's
      four sections. The literal lists "Denver", "Phoenix" and "Detroit" a
      second time with the same coordinates; a dict keeps such a key at its
      first position, so each appears once. */
  const CityCoordinates: Table := NflCities + NbaCities + MlbCities + NhlCities

  const NflCities: Table := [
    ("Orchard Park", Coords(42.7678, -78.7870)), ("Seattle", Coords(47.6062, -122.3321)),
    ("East Rutherford", Coords(40.8135, -74.0744)), ("Pittsburgh", Coords(40.4406, -79.9959)),
    ("Chicago", Coords(41.8781, -87.6298)), ("Minneapolis", Coords(44.9778, -93.2650)),
    ("Cincinnati", Coords(39.1031, -84.5120)), ("Philadelphia", Coords(39.9526, -75.1652)),
    ("Foxborough", Coords(42.0654, -71.2478)), ("Atlanta", Coords(33.7490, -84.3880)),
    ("Inglewood", Coords(33.9617, -118.3531)), ("Las Vegas", Coords(36.1699, -115.1398)),
    ("Nashville", Coords(36.1627, -86.7816)), ("New Orleans", Coords(29.9511, -90.0715)),
    ("Indianapolis", Coords(39.7684, -86.1581)), ("Landover", Coords(38.9072, -76.8650)),
    ("Tampa", Coords(27.9506, -82.4572)), ("Kansas City", Coords(39.0997, -94.5786)),
    ("Miami", Coords(25.7617, -80.1918)), ("Baltimore", Coords(39.2904, -76.6122)),
    ("Green Bay", Coords(44.5133, -88.0133)), ("Detroit", Coords(42.3314, -83.0458)),
    ("Cleveland", Coords(41.4993, -81.6944)), ("Dallas", Coords(32.7767, -96.7970)),
    ("Denver", Coords(39.7392, -104.9903)), ("Jacksonville", Coords(30.3322, -81.6557)),
    ("Carolina", Coords(35.2271, -80.8431)), ("Houston", Coords(29.7604, -95.3698)),
    ("Phoenix", Coords(33.4484, -112.0740)), ("Oakland", Coords(37.8044, -122.2712)),
    ("Santa Clara", Coords(37.3541, -121.9552)), ("Arlington", Coords(32.7357, -97.1081)),
    ("Glendale", Coords(33.5387, -112.1860)), ("Charlotte", Coords(35.2271, -80.8431))]

  const NbaCities: Table := [
    ("Los Angeles", Coords(34.0522, -118.2437)), ("Boston", Coords(42.3601, -71.0589)),
    ("Golden State", Coords(37.7749, -122.4194)), ("Milwaukee", Coords(43.0389, -87.9065)),
    ("New York", Coords(40.7128, -74.0060))]

  const MlbCities: Table := [
    ("Bronx", Coords(40.8448, -73.8648)),
    ("St. Louis", Coords(38.6270, -90.1994)), ("San Francisco", Coords(37.7749, -122.4194))]

  const NhlCities: Table := [
    ("Toronto", Coords(43.6532, -79.3832)), ("Montreal", Coords(45.5017, -73.5673)),
    ("Edmonton", Coords(53.5461, -113.4938)), ("Vancouver", Coords(49.2827, -123.1207)),
    ("Washington", Coords(38.9072, -76.8650))]

  /** The second tier: the key equals the query once both are lower-cased. */
  function SameLower(city: string): string -> bool
  {
    (key: string) => Lower(key) == Lower(city)
  }

  /** The third tier: one lower-cased string contains the other. */
  function Overlaps(city: string): string -> bool
  {
    (key: string) => Contains(Lower(key), Lower(city)) || Contains(Lower(city), Lower(key))
  }

  /** The city lookup over any table, tier by tier. */
  function Lookup(t: Table, city: string): (r: Option<Coords>)
    ensures Assoc.Find(t, city).Some? ==> r == Assoc.Find(t, city)
    ensures Assoc.Find(t, city).None? && Assoc.FindWhere(t, SameLower(city)).Some? ==>
      r == Assoc.FindWhere(t, SameLower(city))
    ensures Assoc.Find(t, city).None? && Assoc.FindWhere(t, SameLower(city)).None? ==>
      r == Assoc.FindWhere(t, Overlaps(city))
    ensures r.Some? ==> exists i :: 0 <= i < |t| && t[i].1 == r.value
  {
    match Assoc.Find(t, city)
    case Some(c) => Some(c)
    case None =>
      match Assoc.FindWhere(t, SameLower(city))
      case Some(c) => Some(c)
      case None => Assoc.FindWhere(t, Overlaps(city))
  }

  /** `get_city_coordinates` on the repository's table. */
  function GetCityCoordinates(city: string): (r: Option<Coords>)
    ensures r.Some? ==> exists i :: 0 <= i < |CityCoordinates| && CityCoordinates[i].1 == r.value
  {
    Lookup(CityCoordinates, city)
  }

  /** An exact or case-insensitive match is also a partial match. */
  lemma EqualLowerOverlaps(city: string, key: string)
    requires Lower(key) == Lower(city)
    ensures Overlaps(city)(key)
  {
    StartsWithSelf(Lower(city));
  }

  /** The lookup fails exactly when no key overlaps the query in either
      direction once both are lower-cased. */
  lemma LookupFailsIffNoOverlap(t: Table, city: string)
    ensures Lookup(t, city).None? <==> forall i :: 0 <= i < |t| ==> !Overlaps(city)(t[i].0)
  {
    if Assoc.Find(t, city).Some? {
      var i :| Assoc.FirstKeyAt(t, city, i) && t[i].1 == Assoc.Find(t, city).value;
      EqualLowerOverlaps(city, t[i].0);
    } else if Assoc.FindWhere(t, SameLower(city)).Some? {
      var i :| Assoc.FirstWhereAt(t, SameLower(city), i) && t[i].1 == Assoc.FindWhere(t, SameLower(city)).value;
      EqualLowerOverlaps(city, t[i].0);
    }
  }

  /** Once no key is spelled exactly like the query, only its lower-cased
      form matters. */
  lemma LookupIgnoresCase(t: Table, a: string, b: string)
    requires Lower(a) == Lower(b)
    requires Assoc.Find(t, a).None? && Assoc.Find(t, b).None?
    ensures Lookup(t, a) == Lookup(t, b)
  {
    assert SameLower(a) == SameLower(b);
    assert Overlaps(a) == Overlaps(b);
  }

  predicate NonEmptyKeys(t: Table)
  {
    forall i :: 0 <= i < |t| ==> |t[i].0| > 0
  }

  /** The empty query is contained in every key, so it gets the first
      entry of a table whose keys are non-empty. */
  lemma EmptyQueryGetsFirstEntry(t: Table)
    requires |t| > 0 && NonEmptyKeys(t)
    ensures Lookup(t, "") == Some(t[0].1)
  {
    assert Lower("") == "";
    forall i | 0 <= i < |t| ensures !SameLower("")(t[i].0) {
      assert |Lower(t[i].0)| > 0;
    }
    EmptyIsContained(Lower(t[0].0));
    Assoc.FindWhereFirst(t, Overlaps(""), 0);
  }

  lemma NflCitiesAreNamed() ensures NonEmptyKeys(NflCities) {}
  lemma NbaCitiesAreNamed() ensures NonEmptyKeys(NbaCities) {}
  lemma MlbCitiesAreNamed() ensures NonEmptyKeys(MlbCities) {}
  lemma NhlCitiesAreNamed() ensures NonEmptyKeys(NhlCities) {}

  lemma NonEmptyKeysAppend(a: Table, b: Table)
    requires NonEmptyKeys(a) && NonEmptyKeys(b)
    ensures NonEmptyKeys(a + b)
  {
    forall i | 0 <= i < |a + b| ensures |(a + b)[i].0| > 0 {
      if i >= |a| { assert (a + b)[i] == b[i - |a|]; }
    }
  }

  lemma CityNamesAreNonEmpty()
    ensures NonEmptyKeys(CityCoordinates)
  {
    NflCitiesAreNamed();
    NbaCitiesAreNamed();
    MlbCitiesAreNamed();
    NhlCitiesAreNamed();
    NonEmptyKeysAppend(NflCities, NbaCities);
    NonEmptyKeysAppend(NflCities + NbaCities, MlbCities);
    NonEmptyKeysAppend(NflCities + NbaCities + MlbCities, NhlCities);
  }

  /** On the repository's table the empty city resolves to Orchard Park. */
  lemma EmptyCityIsOrchardPark(city: string)
    requires city == ""
    ensures GetCityCoordinates(city) == Some(Coords(42.7678, -78.7870))
  {
    CityNamesAreNonEmpty();
    EmptyQueryGetsFirstEntry(CityCoordinates);
  }
}

=== FILE: injury.dfy ===
/** Injury aggregation (`InjuryAnalyzer`): per-player impact from the injury
    type, status, recurrence, history and position; the team total with its
    cap; per-position totals in first-seen order; the description lines; and
    the injury-adjusted home probability. */
module Injury {
  import opened Num
  import opened Seqs
  import Text

  datatype InjuryType =
    | AnkleSprain | KneeInjury | Hamstring | Groin | Foot | Achilles
    | Shoulder | Elbow | Wrist | Hand | Rib
    | Concussion | Neck
    | Illness | General

  function TypeImpact(t: InjuryType): (r: real)
    ensures 0.10 <= r <= 0.40
  {
    match t
    case AnkleSprain => 0.15
    case KneeInjury => 0.35
    case Hamstring => 0.25
    case Groin => 0.20
    case Foot => 0.30
    case Achilles => 0.40
    case Shoulder => 0.25
    case Elbow => 0.20
    case Wrist => 0.15
    case Hand => 0.10
    case Rib => 0.30
    case Concussion => 0.35
    case Neck => 0.30
    case Illness => 0.20
    case General => 0.15
  }

  function TypeDescription(t: InjuryType): string
  {
    match t
    case AnkleSprain => "Lower body mobility"
    case KneeInjury => "Lower body mobility, speed"
    case Hamstring => "Speed, acceleration"
    case Groin => "Lateral movement"
    case Foot => "Balance, cutting"
    case Achilles => "Explosiveness, speed"
    case Shoulder => "Throwing, blocking"
    case Elbow => "Throwing accuracy"
    case Wrist => "Catching, ball handling"
    case Hand => "Catching, ball security"
    case Rib => "Breathing, contact tolerance"
    case Concussion => "Decision making, reaction time"
    case Neck => "Head movement, vision"
    case Illness => "Endurance, energy"
    case General => "Overall performance"
  }

  datatype InjuryStatus = Out | Doubtful | Questionable | Probable | Active

  function StatusCode(s: InjuryStatus): string
  {
    match s
    case Out => "out"
    case Doubtful => "doubtful"
    case Questionable => "questionable"
    case Probable => "probable"
    case Active => "active"
  }

  /** Share of the injury's effect that applies at each status. */
  function StatusMultiplier(s: InjuryStatus): (m: real)
    ensures 0.0 <= m <= 1.0
    ensures m == 0.0 <==> s == Active
    ensures m == 1.0 <==> s == Out
  {
    match s
    case Out => 1.0
    case Doubtful => 0.75
    case Questionable => 0.50
    case Probable => 0.25
    case Active => 0.0
  }

  /** The dates of the source record are not used by any computation. */
  datatype PlayerInjury = PlayerInjury(
    playerName: string,
    position: string,
    injuryType: InjuryType,
    status: InjuryStatus,
    isRecurring: bool,
    previousOccurrences: nat,
    historicalPerformanceImpact: real)

  const DefaultPositionWeight: real := 0.05

  function PositionWeight(position: string): (w: real)
    ensures 0.03 <= w <= 0.30
  {
    match position
    case "QB" => 0.30
    case "RB" => 0.15
    case "WR" => 0.12
    case "TE" => 0.08
    case "OL" => 0.10
    case "DL" => 0.08
    case "LB" => 0.08
    case "CB" => 0.06
    case "S" => 0.03
    case _ => DefaultPositionWeight
  }

  function PlayerImpact(inj: PlayerInjury): real
  {
    var base := TypeImpact(inj.injuryType);
    var recurring := if inj.isRecurring then 1.2 else 1.0;
    var historical := if inj.historicalPerformanceImpact > 0.0 then inj.historicalPerformanceImpact else base;
    base * StatusMultiplier(inj.status) * recurring * historical * PositionWeight(inj.position)
  }

  /** No injury lowers a team's impact below zero, and an active player
      contributes exactly nothing. */
  lemma PlayerImpactNonNegative(inj: PlayerInjury)
    ensures PlayerImpact(inj) >= 0.0
    ensures inj.status == Active ==> PlayerImpact(inj) == 0.0
  {
    var base := TypeImpact(inj.injuryType);
    var recurring := if inj.isRecurring then 1.2 else 1.0;
    var historical := if inj.historicalPerformanceImpact > 0.0 then inj.historicalPerformanceImpact else base;
    var m := StatusMultiplier(inj.status);
    var w := PositionWeight(inj.position);
    assert base * m >= 0.0;
    assert base * m * recurring >= 0.0;
    assert base * m * recurring * historical >= 0.0;
  }

  // ---- Per-position totals, in first-seen order ----

  /** A Python dict from position to impact, as (key, value) pairs in
      insertion order. */
  type PositionMap = seq<(string, real)>

  predicate HasKey(m: PositionMap, k: string)
    decreases |m|
  {
    |m| > 0 && (m[0].0 == k || HasKey(m[1..], k))
  }

  /** The value stored under `k`, 0 when absent. */
  function Get(m: PositionMap, k: string): real
    decreases |m|
  {
    if |m| == 0 then 0.0 else if m[0].0 == k then m[0].1 else Get(m[1..], k)
  }

  predicate DistinctKeys(m: PositionMap)
    decreases |m|
  {
    |m| == 0 || (!HasKey(m[1..], m[0].0) && DistinctKeys(m[1..]))
  }

  function ValuesSum(m: PositionMap): real
    decreases |m|
  {
    if |m| == 0 then 0.0 else m[0].1 + ValuesSum(m[1..])
  }

  /** `d[k] += v` after `if k not in d: d[k] = 0.0`. */
  function AddImpact(m: PositionMap, k: string, v: real): (r: PositionMap)
    decreases |m|
  {
    if |m| == 0 then [(k, v)]
    else if m[0].0 == k then [(k, m[0].1 + v)] + m[1..]
    else [m[0]] + AddImpact(m[1..], k, v)
  }

  lemma {:induction false} GetAbsent(m: PositionMap, k: string)
    requires !HasKey(m, k)
    ensures Get(m, k) == 0.0
    decreases |m|
  {
    if |m| > 0 {
      GetAbsent(m[1..], k);
    }
  }

  /** Adding to a key updates its entry in place, or appends a new entry at
      the end; every other key keeps its value. */
  lemma {:induction false} AddImpactSpec(m: PositionMap, k: string, v: real)
    requires DistinctKeys(m)
    ensures DistinctKeys(AddImpact(m, k, v))
    ensures ValuesSum(AddImpact(m, k, v)) == ValuesSum(m) + v
    ensures forall q :: Get(AddImpact(m, k, v), q) == Get(m, q) + (if q == k then v else 0.0)
    ensures forall q :: HasKey(AddImpact(m, k, v), q) <==> HasKey(m, q) || q == k
    ensures !HasKey(m, k) ==> AddImpact(m, k, v) == m + [(k, v)]
    decreases |m|
  {
    var r := AddImpact(m, k, v);
    if |m| == 0 {
      assert r[1..] == [];
    } else if m[0].0 == k {
      var t := m[1..];
      assert r[1..] == t;
      GetAbsent(t, k);
    } else {
      var t := m[1..];
      AddImpactSpec(t, k, v);
      assert r[1..] == AddImpact(t, k, v);
      if !HasKey(m, k) {
        assert r == [m[0]] + (t + [(k, v)]);
        assert m == [m[0]] + t;
      }
    }
  }

  /** The loop's running total before the cap. */
  function RawTotal(injuries: seq<PlayerInjury>): real
    decreases |injuries|
  {
    if |injuries| == 0 then 0.0 else RawTotal(injuries[..|injuries| - 1]) + PlayerImpact(injuries[|injuries| - 1])
  }

  /** Reference definition: the impacts of the injuries at one position. */
  function PositionTotal(injuries: seq<PlayerInjury>, position: string): real
    decreases |injuries|
  {
    if |injuries| == 0 then 0.0
    else
      var last := injuries[|injuries| - 1];
      PositionTotal(injuries[..|injuries| - 1], position) + (if last.position == position then PlayerImpact(last) else 0.0)
  }

  function PositionImpacts(injuries: seq<PlayerInjury>): PositionMap
    decreases |injuries|
  {
    if |injuries| == 0 then []
    else
      var last := injuries[|injuries| - 1];
      AddImpact(PositionImpacts(injuries[..|injuries| - 1]), last.position, PlayerImpact(last))
  }

  function Positions(injuries: seq<PlayerInjury>): (r: seq<string>)
    ensures |r| == |injuries| && forall i :: 0 <= i < |r| ==> r[i] == injuries[i].position
  {
    seq(|injuries|, i requires 0 <= i < |injuries| => injuries[i].position)
  }

  /** One entry per injured position, each holding that position's summed
      impact; together they add up to the uncapped total. */
  lemma {:induction false} PositionImpactsSpec(injuries: seq<PlayerInjury>)
    ensures DistinctKeys(PositionImpacts(injuries))
    ensures ValuesSum(PositionImpacts(injuries)) == RawTotal(injuries)
    ensures forall q :: Get(PositionImpacts(injuries), q) == PositionTotal(injuries, q)
    ensures forall q :: HasKey(PositionImpacts(injuries), q) <==> q in Positions(injuries)
    decreases |injuries|
  {
    if |injuries| > 0 {
      var init := injuries[..|injuries| - 1];
      var last := injuries[|injuries| - 1];
      PositionImpactsSpec(init);
      AddImpactSpec(PositionImpacts(init), last.position, PlayerImpact(last));
      assert Positions(injuries) == Positions(init) + [last.position];
    }
  }

  // ---- Team analysis ----

  datatype TeamInjuryImpact = TeamInjuryImpact(
    teamName: string,
    totalImpact: real,
    keyPlayerInjuries: seq<PlayerInjury>,
    positionImpacts: PositionMap,
    winProbabilityAdjustment: real)

  const TotalImpactCap: real := 0.5

  predicate IsKeyInjury(inj: PlayerInjury) { PlayerImpact(inj) > 0.05 }

  function AnalyzeTeamInjuries(teamName: string, injuries: seq<PlayerInjury>, teamStrength: real): (r: TeamInjuryImpact)
    ensures r.teamName == teamName
    ensures r.totalImpact == Min(RawTotal(injuries), TotalImpactCap)
    ensures r.keyPlayerInjuries == Filter(injuries, IsKeyInjury)
    ensures r.positionImpacts == PositionImpacts(injuries)
    ensures r.winProbabilityAdjustment == -r.totalImpact * teamStrength
    ensures |injuries| == 0 ==>
      r.totalImpact == 0.0 && r.keyPlayerInjuries == [] && r.positionImpacts == [] && r.winProbabilityAdjustment == 0.0
  {
    if |injuries| == 0 then TeamInjuryImpact(teamName, 0.0, [], [], 0.0)
    else
      var total := Min(RawTotal(injuries), TotalImpactCap);
      TeamInjuryImpact(teamName, total, Filter(injuries, IsKeyInjury), PositionImpacts(injuries), -total * teamStrength)
  }

  lemma {:induction false} RawTotalNonNegative(injuries: seq<PlayerInjury>)
    ensures RawTotal(injuries) >= 0.0
    decreases |injuries|
  {
    if |injuries| > 0 {
      RawTotalNonNegative(injuries[..|injuries| - 1]);
      PlayerImpactNonNegative(injuries[|injuries| - 1]);
    }
  }

  /** The capped total lies in [0, 0.5], while the position entries add up to
      the uncapped total. */
  lemma TeamTotalBounds(teamName: string, injuries: seq<PlayerInjury>, teamStrength: real)
    ensures 0.0 <= AnalyzeTeamInjuries(teamName, injuries, teamStrength).totalImpact <= TotalImpactCap
    ensures ValuesSum(AnalyzeTeamInjuries(teamName, injuries, teamStrength).positionImpacts) == RawTotal(injuries)
  {
    RawTotalNonNegative(injuries);
    PositionImpactsSpec(injuries);
  }

  // ---- Descriptions ----

  datatype DescriptionLine =
    | NoSignificantInjuries
    | SevereImpact
    | ModerateImpact
    | MinorImpact
    /** "{position} position significantly impacted ({impact:.1%} reduction)" */
    | PositionLine(position: string, impact: real)
    /** "{name} ({position}) - {STATUS}: {description}" */
    | PlayerLine(playerName: string, position: string, status: string, description: string)

  function PositionValue(e: (string, real)): real { e.1 }

  predicate SignificantPosition(e: (string, real)) { e.1 > 0.05 }

  function PlayerLineOf(inj: PlayerInjury): DescriptionLine
  {
    PlayerLine(inj.playerName, inj.position, Text.Upper(StatusCode(inj.status)), TypeDescription(inj.injuryType))
  }

  function PositionLines(es: PositionMap): (r: seq<DescriptionLine>)
    ensures |r| == |es|
    ensures forall i :: 0 <= i < |r| ==> r[i] == PositionLine(es[i].0, es[i].1)
  {
    seq(|es|, i requires 0 <= i < |es| => PositionLine(es[i].0, es[i].1))
  }

  function PlayerLines(injs: seq<PlayerInjury>): (r: seq<DescriptionLine>)
    ensures |r| == |injs|
    ensures forall i :: 0 <= i < |r| ==> r[i] == PlayerLineOf(injs[i])
  {
    seq(|injs|, i requires 0 <= i < |injs| => PlayerLineOf(injs[i]))
  }

  function SeverityLine(total: real): (l: DescriptionLine)
    ensures l == SevereImpact <==> total > 0.3
    ensures l == ModerateImpact <==> 0.15 < total <= 0.3
    ensures l == MinorImpact <==> total <= 0.15
  {
    if total > 0.3 then SevereImpact else if total > 0.15 then ModerateImpact else MinorImpact
  }

  function Describe(impact: TeamInjuryImpact): (r: seq<DescriptionLine>)
    ensures impact.totalImpact == 0.0 <==> r == [NoSignificantInjuries]
    ensures impact.totalImpact != 0.0 ==>
      |r| >= 1 && r[0] == SeverityLine(impact.totalImpact)
      && r[1..] == PositionLines(Filter(SortDesc(impact.positionImpacts, PositionValue), SignificantPosition))
                   + PlayerLines(PyTake(impact.keyPlayerInjuries, 3))
  {
    if impact.totalImpact == 0.0 then [NoSignificantInjuries]
    else
      var significant := Filter(SortDesc(impact.positionImpacts, PositionValue), SignificantPosition);
      var rest := PositionLines(significant) + PlayerLines(PyTake(impact.keyPlayerInjuries, 3));
      var r := [SeverityLine(impact.totalImpact)] + rest;
      assert r[1..] == rest;
      assert r[0] != NoSignificantInjuries;
      r
  }

  /** At most three player lines, each for a key injury. */
  lemma DescriptionNamesAtMostThreePlayers(impact: TeamInjuryImpact)
    requires impact.totalImpact != 0.0
    ensures |PlayerLines(PyTake(impact.keyPlayerInjuries, 3))| <= 3
  {
  }

  // ---- Injury-adjusted probability ----

  datatype AdjustedProbability = AdjustedProbability(
    homeProbability: real,
    awayProbability: real,
    injuryAdjustment: real,
    homeInjuryImpact: real,
    awayInjuryImpact: real)

  function InjuryAdjustedProbability(base: real, home: TeamInjuryImpact, away: TeamInjuryImpact): (r: AdjustedProbability)
    ensures r.injuryAdjustment == (away.totalImpact - home.totalImpact) * 0.20
    ensures r.homeProbability == Clamp(base + r.injuryAdjustment, 0.1, 0.9)
    ensures 0.1 <= r.homeProbability <= 0.9
    ensures r.homeProbability + r.awayProbability == 1.0
    ensures r.homeInjuryImpact == home.totalImpact && r.awayInjuryImpact == away.totalImpact
  {
    var adjustment := (away.totalImpact - home.totalImpact) * 0.20;
    var homeProb := Max(0.1, Min(0.9, base + adjustment));
    AdjustedProbability(homeProb, 1.0 - homeProb, adjustment, home.totalImpact, away.totalImpact)
  }

  /** With both totals within the cap the swing is at most 0.10 either way,
      and more home injuries never raise the home probability. */
  lemma InjurySwingBounded(base: real, home: TeamInjuryImpact, away: TeamInjuryImpact)
    requires 0.0 <= home.totalImpact <= TotalImpactCap && 0.0 <= away.totalImpact <= TotalImpactCap
    ensures -0.10 <= InjuryAdjustedProbability(base, home, away).injuryAdjustment <= 0.10
    ensures home.totalImpact >= away.totalImpact ==>
      InjuryAdjustedProbability(base, home, away).homeProbability <= Clamp(base, 0.1, 0.9)
  {
    var adj := InjuryAdjustedProbability(base, home, away).injuryAdjustment;
    if home.totalImpact >= away.totalImpact {
      ClampMonotone(base + adj, base, 0.1, 0.9);
    }
  }
}

=== FILE: learning.dfy ===
/** `LearningAnalyzer`: why an incorrect prediction went wrong, the weight
    changes each error suggests, and the error patterns across all incorrect
    predictions, ranked by impact times frequency. The human-readable
    descriptions (which embed formatted percentages) are not modelled. */
module Learning {
  import opened Wrappers
  import opened Num
  import opened Seqs
  import Assoc
  import Tracker

  datatype ErrorKind =
    | ProbabilityMiscalculation
    | Overconfidence
    | WeatherUnderestimated
    | InjuryImpactMissed
    | CoachingMismatch
    | MentalHealthUnderestimated

  function KindName(k: ErrorKind): string
  {
    match k
    case ProbabilityMiscalculation => "probability_miscalculation"
    case Overconfidence => "overconfidence"
    case WeatherUnderestimated => "weather_underestimated"
    case InjuryImpactMissed => "injury_impact_missed"
    case CoachingMismatch => "coaching_mismatch"
    case MentalHealthUnderestimated => "mental_health_underestimated"
  }

  datatype PredictionError = PredictionError(kind: ErrorKind, severity: real)

  /** The suggested-adjustment dictionary; an absent key is `None`. */
  datatype Adjustments = Adjustments(
    weatherWeight: Option<real>,
    injuryWeight: Option<real>,
    coachingWeight: Option<real>,
    mentalHealthWeight: Option<real>,
    confidencePenalty: Option<real>)

  const NoAdjustments := Adjustments(None, None, None, None, None)

  datatype ErrorAnalysis = ErrorAnalysis(
    predictionId: string,
    errorSeverity: real,
    errors: seq<PredictionError>,
    contributingFactors: seq<string>,
    suggestedAdjustments: Adjustments)

  // ---- Single-prediction analysis ----

  /** The probability given to the predicted side and to the other side. */
  function PredictedAndOther(p: Tracker.StoredPrediction): (real, real)
  {
    if p.predictedWinner == p.homeTeam then (p.homeWinProbability, p.awayWinProbability)
    else (p.awayWinProbability, p.homeWinProbability)
  }

  /** `|p_pred - (1 - p_other)|`: how far the two probabilities are from
      summing to one. */
  function ProbabilityError(p: Tracker.StoredPrediction): (e: real)
    ensures e == Abs(p.homeWinProbability + p.awayWinProbability - 1.0)
  {
    var (predicted, other) := PredictedAndOther(p);
    Abs(predicted - (1.0 - other))
  }

  function ProbabilityErrors(p: Tracker.StoredPrediction): seq<PredictionError>
  {
    if ProbabilityError(p) > 0.15 then [PredictionError(ProbabilityMiscalculation, ProbabilityError(p))] else []
  }

  function ConfidenceErrors(p: Tracker.StoredPrediction): seq<PredictionError>
  {
    if p.confidence > 0.7 then [PredictionError(Overconfidence, p.confidence)] else []
  }

  /** Weather is flagged for a truthy (non-zero) adjustment below 0.02. */
  predicate WeatherFlagged(f: Tracker.Factors)
  {
    f.weatherImpact.Some? && Truthy(f.weatherImpact.value.adjustment) && Abs(f.weatherImpact.value.adjustment.value) < 0.02
  }

  /** Coaching is flagged for a truthy adjustment factor below 0.01. */
  predicate CoachingFlagged(f: Tracker.Factors)
  {
    f.coachingImpact.Some? && Truthy(f.coachingImpact.value.adjustmentFactor)
    && Abs(f.coachingImpact.value.adjustmentFactor.value) < 0.01
  }

  /** Mental health is flagged for any adjustment below 0.01, a missing one
      (read as 0) included. */
  predicate MentalHealthFlagged(f: Tracker.Factors)
  {
    f.mentalHealthImpact.Some? && Abs(f.mentalHealthImpact.value.adjustment.GetOr(0.0)) < 0.01
  }

  function HomeInjuryFlagged(p: Tracker.StoredPrediction): bool
  {
    p.factors.injuryImpact.Some? && p.predictedWinner == p.homeTeam
    && p.factors.injuryImpact.value.homeInjuryImpact.GetOr(0.0) > 0.05
  }

  function AwayInjuryFlagged(p: Tracker.StoredPrediction): bool
  {
    p.factors.injuryImpact.Some? && p.predictedWinner == p.awayTeam
    && p.factors.injuryImpact.value.awayInjuryImpact.GetOr(0.0) > 0.05
  }

  /** The factor errors, in source order, each with its contributing
      factor name. */
  function FactorErrors(p: Tracker.StoredPrediction): (r: seq<(PredictionError, string)>)
    ensures |r| <= 5
    ensures forall i :: 0 <= i < |r| ==> r[i].0.kind != ProbabilityMiscalculation && r[i].0.kind != Overconfidence
  {
    var f := p.factors;
    (if WeatherFlagged(f) then [(PredictionError(WeatherUnderestimated, 0.2), "weather")] else [])
    + (if HomeInjuryFlagged(p)
       then [(PredictionError(InjuryImpactMissed, f.injuryImpact.value.homeInjuryImpact.GetOr(0.0)), "injuries")]
       else [])
    + (if AwayInjuryFlagged(p)
       then [(PredictionError(InjuryImpactMissed, f.injuryImpact.value.awayInjuryImpact.GetOr(0.0)), "injuries")]
       else [])
    + (if CoachingFlagged(f) then [(PredictionError(CoachingMismatch, 0.15), "coaching")] else [])
    + (if MentalHealthFlagged(f) then [(PredictionError(MentalHealthUnderestimated, 0.1), "mental_health")] else [])
  }

  /** The errors found, in the order the checks run: a probability error
      only beyond 0.15, overconfidence only above 0.7, and the factor errors
      after them. */
  function Errors(p: Tracker.StoredPrediction): (r: seq<PredictionError>)
    ensures HasKind(r, ProbabilityMiscalculation) <==> ProbabilityError(p) > 0.15
    ensures HasKind(r, Overconfidence) <==> p.confidence > 0.7
    ensures PredictionError(ProbabilityMiscalculation, ProbabilityError(p)) in r <==> ProbabilityError(p) > 0.15
    ensures PredictionError(Overconfidence, p.confidence) in r <==> p.confidence > 0.7
    ensures |r| <= 7
  {
    var head := ProbabilityErrors(p) + ConfidenceErrors(p);
    var tail := Assoc.Keys(FactorErrors(p));
    var r := head + tail;
    assert forall i :: |head| <= i < |r| ==> r[i] == tail[i - |head|];
    assert HasKind(r, ProbabilityMiscalculation) <==> ProbabilityError(p) > 0.15 by {
      if ProbabilityError(p) > 0.15 {
        assert r[0].kind == ProbabilityMiscalculation;
      }
    }
    assert HasKind(r, Overconfidence) <==> p.confidence > 0.7 by {
      if p.confidence > 0.7 {
        assert r[|ProbabilityErrors(p)|].kind == Overconfidence;
      }
    }
    r
  }

  /** `analyze_prediction_error`: `None` (the empty dictionary) unless the
      prediction is INCORRECT. The severity counts only the probability
      error and the overconfidence share, capped at 1; every factor error
      names one contributing factor. */
  function AnalyzePredictionError(p: Tracker.StoredPrediction): (r: Option<ErrorAnalysis>)
    ensures r.None? <==> p.outcome != Tracker.Incorrect
    ensures r.Some? ==>
      var a := r.value;
      a.predictionId == p.predictionId
      && a.errors == Errors(p)
      && 0.0 <= a.errorSeverity <= 1.0
      && a.errorSeverity == Min(ProbabilityError(p) + (if p.confidence > 0.7 then p.confidence * 0.3 else 0.0), 1.0)
      && |a.contributingFactors| == |a.errors| - |ProbabilityErrors(p)| - |ConfidenceErrors(p)|
      && a.suggestedAdjustments == GenerateAdjustments(a.errors)
  {
    if p.outcome != Tracker.Incorrect then None
    else
      var severity := ProbabilityError(p) + (if p.confidence > 0.7 then p.confidence * 0.3 else 0.0);
      var errors := Errors(p);
      Some(ErrorAnalysis(p.predictionId, Min(severity, 1.0), errors, Assoc.Values(FactorErrors(p)), GenerateAdjustments(errors)))
  }

  /** A prediction whose two probabilities sum to one never has its
      probability "miscalculated", so only overconfidence adds severity. */
  lemma ComplementaryProbabilitiesNeverMiscalculated(p: Tracker.StoredPrediction)
    requires p.outcome == Tracker.Incorrect && p.homeWinProbability + p.awayWinProbability == 1.0
    ensures !HasKind(AnalyzePredictionError(p).value.errors, ProbabilityMiscalculation)
    ensures AnalyzePredictionError(p).value.errorSeverity == if p.confidence > 0.7 then Min(p.confidence * 0.3, 1.0) else 0.0
  {
    assert ProbabilityError(p) == 0.0;
  }

  /** Zero is falsy: a zero weather or coaching adjustment is not flagged,
      while a zero (or missing) mental-health adjustment is. */
  lemma ZeroAdjustmentsAreTreatedUnevenly()
    ensures !WeatherFlagged(Tracker.Factors(Some(Tracker.WeatherFactors(Some(0.0))), None, None, None))
    ensures WeatherFlagged(Tracker.Factors(Some(Tracker.WeatherFactors(Some(0.01))), None, None, None))
    ensures !CoachingFlagged(Tracker.Factors(None, None, Some(Tracker.CoachingFactors(Some(0.0))), None))
    ensures MentalHealthFlagged(Tracker.Factors(None, None, None, Some(Tracker.MentalHealthFactors(Some(0.0)))))
    ensures MentalHealthFlagged(Tracker.Factors(None, None, None, Some(Tracker.MentalHealthFactors(None))))
  {
  }

  // ---- Suggested adjustments ----

  /** The weight an error of kind `k` and severity `s` suggests: each
      factor weight grows with the severity up to its cap. */
  function Suggested(k: ErrorKind, s: real): (w: real)
    ensures k == WeatherUnderestimated ==> w <= 0.20
    ensures k == InjuryImpactMissed ==> w <= 0.25
    ensures k == CoachingMismatch ==> w <= 0.20
    ensures k == MentalHealthUnderestimated ==> w <= 0.18
  {
    match k
    case WeatherUnderestimated => Min(0.20, 0.15 + s * 0.1)
    case InjuryImpactMissed => Min(0.25, 0.15 + s * 0.2)
    case CoachingMismatch => Min(0.20, 0.10 + s * 0.2)
    case MentalHealthUnderestimated => Min(0.18, 0.12 + s * 0.1)
    case Overconfidence => s * 0.1
    case ProbabilityMiscalculation => 0.0
  }

  /** The adjustment key an error kind writes; a probability error writes
      none. */
  function Entry(a: Adjustments, k: ErrorKind): Option<real>
  {
    match k
    case WeatherUnderestimated => a.weatherWeight
    case InjuryImpactMissed => a.injuryWeight
    case CoachingMismatch => a.coachingWeight
    case MentalHealthUnderestimated => a.mentalHealthWeight
    case Overconfidence => a.confidencePenalty
    case ProbabilityMiscalculation => None
  }

  /** One error's contribution: it sets its own key and no other. */
  function ApplyError(a: Adjustments, e: PredictionError): (r: Adjustments)
    ensures Entry(r, e.kind) == if e.kind == ProbabilityMiscalculation then None else Some(Suggested(e.kind, e.severity))
    ensures forall k :: k != e.kind ==> Entry(r, k) == Entry(a, k)
  {
    var w := Some(Suggested(e.kind, e.severity));
    match e.kind
    case WeatherUnderestimated => a.(weatherWeight := w)
    case InjuryImpactMissed => a.(injuryWeight := w)
    case CoachingMismatch => a.(coachingWeight := w)
    case MentalHealthUnderestimated => a.(mentalHealthWeight := w)
    case Overconfidence => a.(confidencePenalty := w)
    case ProbabilityMiscalculation => a
  }

  predicate HasKind(errors: seq<PredictionError>, k: ErrorKind)
  {
    exists i :: 0 <= i < |errors| && errors[i].kind == k
  }

  /** `_generate_adjustments`: the errors applied in order, so the last
      error of a kind decides its key; every weight respects its cap. */
  function GenerateAdjustments(errors: seq<PredictionError>): (r: Adjustments)
    ensures r.weatherWeight.Some? ==> r.weatherWeight.value <= 0.20
    ensures r.injuryWeight.Some? ==> r.injuryWeight.value <= 0.25
    ensures r.coachingWeight.Some? ==> r.coachingWeight.value <= 0.20
    ensures r.mentalHealthWeight.Some? ==> r.mentalHealthWeight.value <= 0.18
    ensures |errors| > 0 && errors[|errors| - 1].kind != ProbabilityMiscalculation ==>
      Entry(r, errors[|errors| - 1].kind) == Some(Suggested(errors[|errors| - 1].kind, errors[|errors| - 1].severity))
    decreases |errors|
  {
    if |errors| == 0 then NoAdjustments
    else
      var init := errors[..|errors| - 1];
      var last := errors[|errors| - 1];
      var before := GenerateAdjustments(init);
      var r := ApplyError(before, last);
      assert Entry(r, WeatherUnderestimated) == r.weatherWeight;
      assert Entry(r, InjuryImpactMissed) == r.injuryWeight;
      assert Entry(r, CoachingMismatch) == r.coachingWeight;
      assert Entry(r, MentalHealthUnderestimated) == r.mentalHealthWeight;
      r
  }

  lemma HasKindSnoc(errors: seq<PredictionError>, k: ErrorKind)
    requires |errors| > 0
    ensures HasKind(errors, k) <==> HasKind(errors[..|errors| - 1], k) || errors[|errors| - 1].kind == k
  {
    var init := errors[..|errors| - 1];
    if HasKind(init, k) {
      var i :| 0 <= i < |init| && init[i].kind == k;
      assert errors[i] == init[i];
    }
    if HasKind(errors, k) && errors[|errors| - 1].kind != k {
      var i :| 0 <= i < |errors| && errors[i].kind == k;
      assert i < |init| && init[i] == errors[i];
    }
  }

  /** A key is present exactly when an error of its kind occurred. */
  lemma {:induction false} AdjustmentPresentIffErrorKind(errors: seq<PredictionError>, k: ErrorKind)
    requires k != ProbabilityMiscalculation
    ensures Entry(GenerateAdjustments(errors), k).Some? <==> HasKind(errors, k)
    decreases |errors|
  {
    if |errors| > 0 {
      var init := errors[..|errors| - 1];
      var last := errors[|errors| - 1];
      AdjustmentPresentIffErrorKind(init, k);
      HasKindSnoc(errors, k);
      assert GenerateAdjustments(errors) == ApplyError(GenerateAdjustments(init), last);
    }
  }

  // ---- Patterns across predictions ----

  datatype PatternData = PatternData(count: nat, totalSeverity: real, examples: seq<string>)

  type Patterns = seq<(ErrorKind, PatternData)>

  const NoPattern := PatternData(0, 0.0, [])

  /** One more occurrence of a pattern, keeping at most five example ids. */
  function Bump(d: PatternData, id: string, severity: real): (r: PatternData)
    ensures r.count == d.count + 1 && r.totalSeverity == d.totalSeverity + severity
    ensures |d.examples| <= 5 ==> |r.examples| <= 5
    ensures |d.examples| < 5 ==> r.examples == d.examples + [id]
  {
    PatternData(d.count + 1, d.totalSeverity + severity, if |d.examples| < 5 then d.examples + [id] else d.examples)
  }

  /** Count one error for its kind; the other kinds keep their tallies. */
  function Tally(acc: Patterns, id: string, e: PredictionError): (r: Patterns)
    ensures Assoc.Find(r, e.kind) == Some(Bump(Assoc.GetOr(acc, e.kind, NoPattern), id, e.severity))
    ensures forall k :: k != e.kind ==> Assoc.Find(r, k) == Assoc.Find(acc, k)
    ensures forall x :: x in r ==> x in acc || x == (e.kind, Bump(Assoc.GetOr(acc, e.kind, NoPattern), id, e.severity))
  {
    var d := Bump(Assoc.GetOr(acc, e.kind, NoPattern), id, e.severity);
    Assoc.FindPutSame(acc, e.kind, d);
    forall k | k != e.kind ensures Assoc.Find(Assoc.Put(acc, e.kind, d), k) == Assoc.Find(acc, k) {
      Assoc.FindPutOther(acc, e.kind, d, k);
    }
    Assoc.PutEntries(acc, e.kind, d);
    Assoc.Put(acc, e.kind, d)
  }

  function OfKind(k: ErrorKind): ((string, PredictionError)) -> bool
  {
    (x: (string, PredictionError)) => x.1.kind == k
  }

  /** The `defaultdict` of patterns after every `(prediction id, error)`
      pair, in first-seen order. */
  function Tallies(entries: seq<(string, PredictionError)>): Patterns
    decreases |entries|
  {
    if |entries| == 0 then []
    else
      var last := entries[|entries| - 1];
      Tally(Tallies(entries[..|entries| - 1]), last.0, last.1)
  }

  /** One tally step adds one occurrence to its own kind only. */
  lemma TallyStepCount(acc: Patterns, id: string, e: PredictionError, k: ErrorKind, before: nat)
    requires Assoc.Find(acc, k).None? <==> before == 0
    requires Assoc.Find(acc, k).Some? ==> Assoc.Find(acc, k).value.count == before
    ensures var after := before + (if e.kind == k then 1 else 0);
      (Assoc.Find(Tally(acc, id, e), k).None? <==> after == 0)
      && (Assoc.Find(Tally(acc, id, e), k).Some? ==> Assoc.Find(Tally(acc, id, e), k).value.count == after)
  {
    if e.kind == k {
      assert Assoc.GetOr(acc, k, NoPattern).count == before;
    }
  }

  lemma CountSnocKind(init: seq<(string, PredictionError)>, last: (string, PredictionError), k: ErrorKind)
    ensures Count(init + [last], OfKind(k)) == Count(init, OfKind(k)) + (if last.1.kind == k then 1 else 0)
  {
    CountAppend(init, [last], OfKind(k));
    assert [last][1..] == [];
  }

  /** A kind is tallied exactly when it occurred, and its count is the
      number of its occurrences. */
  lemma {:induction false} TalliesCountOccurrences(entries: seq<(string, PredictionError)>, k: ErrorKind)
    ensures Assoc.Find(Tallies(entries), k).None? <==> Count(entries, OfKind(k)) == 0
    ensures Assoc.Find(Tallies(entries), k).Some? ==> Assoc.Find(Tallies(entries), k).value.count == Count(entries, OfKind(k))
    decreases |entries|
  {
    if |entries| > 0 {
      var init := entries[..|entries| - 1];
      var last := entries[|entries| - 1];
      assert entries == init + [last];
      CountSnocKind(init, last, k);
      TalliesCountOccurrences(init, k);
      TallyStepCount(Tallies(init), last.0, last.1, k, Count(init, OfKind(k)));
    }
  }

  /** Every tallied pattern occurred at least once and keeps at most five
      examples. */
  lemma {:induction false} TalliesAreWellFormed(entries: seq<(string, PredictionError)>)
    ensures forall x :: x in Tallies(entries) ==> x.1.count > 0 && |x.1.examples| <= 5
    decreases |entries|
  {
    if |entries| > 0 {
      var init := entries[..|entries| - 1];
      var last := entries[|entries| - 1];
      var acc := Tallies(init);
      TalliesAreWellFormed(init);
      var d := Assoc.GetOr(acc, last.1.kind, NoPattern);
      if Assoc.Find(acc, last.1.kind).Some? {
        var i :| Assoc.FirstKeyAt(acc, last.1.kind, i) && acc[i].1 == Assoc.Find(acc, last.1.kind).value;
        assert acc[i] in acc;
      }
      assert |d.examples| <= 5;
    }
  }

  /** Every error of one analysed prediction, tagged with its id. */
  function Tagged(p: Tracker.StoredPrediction): (r: seq<(string, PredictionError)>)
  {
    var a := AnalyzePredictionError(p);
    var errors := if a.Some? then a.value.errors else [];
    seq(|errors|, i requires 0 <= i < |errors| => (p.predictionId, errors[i]))
  }

  function AllTagged(ps: seq<Tracker.StoredPrediction>): seq<(string, PredictionError)>
    decreases |ps|
  {
    if |ps| == 0 then [] else AllTagged(ps[..|ps| - 1]) + Tagged(ps[|ps| - 1])
  }

  datatype LearningInsight = LearningInsight(
    pattern: ErrorKind,
    frequency: real,
    impact: real,
    suggestedAdjustment: Adjustments,
    examples: seq<string>)

  /** The adjustment a pattern suggests, chosen by the first of "weather",
      "injury", "coaching", "mental" and "confidence" its name contains;
      "probability_miscalculation" contains none of them. */
  function PatternAdjustment(k: ErrorKind, avgImpact: real): (r: Adjustments)
    ensures k == ProbabilityMiscalculation <==> r == NoAdjustments
    ensures r.weatherWeight.Some? ==> r.weatherWeight.value <= 0.25
    ensures r.injuryWeight.Some? ==> r.injuryWeight.value <= 0.30
    ensures r.coachingWeight.Some? ==> r.coachingWeight.value <= 0.25
    ensures r.mentalHealthWeight.Some? ==> r.mentalHealthWeight.value <= 0.20
  {
    match k
    case WeatherUnderestimated => NoAdjustments.(weatherWeight := Some(Min(0.25, 0.15 + avgImpact * 0.2)))
    case InjuryImpactMissed => NoAdjustments.(injuryWeight := Some(Min(0.30, 0.15 + avgImpact * 0.3)))
    case CoachingMismatch => NoAdjustments.(coachingWeight := Some(Min(0.25, 0.10 + avgImpact * 0.3)))
    case MentalHealthUnderestimated => NoAdjustments.(mentalHealthWeight := Some(Min(0.20, 0.12 + avgImpact * 0.15)))
    case Overconfidence => NoAdjustments.(confidencePenalty := Some(avgImpact * 0.15))
    case ProbabilityMiscalculation => NoAdjustments
  }

  /** One pattern's insight: frequency relative to the incorrect
      predictions, impact the mean severity (each 0 when its divisor is). */
  function ToInsight(k: ErrorKind, d: PatternData, incorrect: nat): (r: LearningInsight)
    ensures r.pattern == k && r.examples == d.examples
    ensures incorrect > 0 ==> r.frequency * incorrect as real == d.count as real
    ensures incorrect > 0 && d.count > 0 ==> r.frequency > 0.0
    ensures d.count > 0 ==> r.impact * d.count as real == d.totalSeverity
    ensures r.suggestedAdjustment == PatternAdjustment(k, r.impact)
  {
    var frequency := if incorrect > 0 then d.count as real / incorrect as real else 0.0;
    var impact := if d.count > 0 then d.totalSeverity / d.count as real else 0.0;
    LearningInsight(k, frequency, impact, PatternAdjustment(k, impact), d.examples)
  }

  function Insights(patterns: Patterns, incorrect: nat): (r: seq<LearningInsight>)
    ensures |r| == |patterns|
    ensures forall i :: 0 <= i < |r| ==> r[i] == ToInsight(patterns[i].0, patterns[i].1, incorrect)
  {
    seq(|patterns|, i requires 0 <= i < |patterns| => ToInsight(patterns[i].0, patterns[i].1, incorrect))
  }

  function Weight(i: LearningInsight): real { i.impact * i.frequency }

  /** The incorrect predictions the patterns are drawn from. */
  function Incorrect(store: Tracker.Store, sport: Option<string>): (r: seq<Tracker.StoredPrediction>)
    ensures forall i :: 0 <= i < |r| ==> r[i].outcome == Tracker.Incorrect
  {
    var wrong := Filter(Assoc.Values(store), Tracker.IsIncorrect);
    if Tracker.FiltersSport(sport) then Filter(wrong, (p: Tracker.StoredPrediction) => p.sport == sport.value) else wrong
  }

  /** The tallies the insights come from. */
  function StorePatterns(store: Tracker.Store, sport: Option<string>): Patterns
  {
    Tallies(AllTagged(Incorrect(store, sport)))
  }

  /** `extract_learning_patterns`: one insight per tallied pattern, ranked
      by impact times frequency (a stable sort, so ties keep first-seen
      order); every insight has a positive frequency and at most five
      examples. */
  function ExtractLearningPatterns(store: Tracker.Store, sport: Option<string>): (r: seq<LearningInsight>)
    ensures |Incorrect(store, sport)| == 0 ==> r == []
    ensures SortedDesc(r, Weight)
    ensures |Incorrect(store, sport)| > 0 ==>
      multiset(r) == multiset(Insights(StorePatterns(store, sport), |Incorrect(store, sport)|))
    ensures forall i :: 0 <= i < |r| ==> |r[i].examples| <= 5 && r[i].frequency > 0.0
    ensures forall i :: 0 <= i < |r| ==> r[i].suggestedAdjustment == PatternAdjustment(r[i].pattern, r[i].impact)
  {
    var wrong := Incorrect(store, sport);
    if |wrong| == 0 then []
    else
      var patterns := StorePatterns(store, sport);
      var insights := Insights(patterns, |wrong|);
      var r := SortDesc(insights, Weight);
      assert forall i :: 0 <= i < |r| ==>
        |r[i].examples| <= 5 && r[i].frequency > 0.0 && r[i].suggestedAdjustment == PatternAdjustment(r[i].pattern, r[i].impact)
      by {
        TalliesAreWellFormed(AllTagged(wrong));
        forall i | 0 <= i < |r| ensures |r[i].examples| <= 5 && r[i].frequency > 0.0
          && r[i].suggestedAdjustment == PatternAdjustment(r[i].pattern, r[i].impact) {
          assert r[i] in multiset(insights);
          var j :| 0 <= j < |insights| && insights[j] == r[i];
          assert patterns[j] in patterns;
        }
      }
      r
  }

  /** A permutation of the insights of `patterns` names exactly the kinds
      that are keys of `patterns`. */
  lemma InsightsNameTheKeys(patterns: Patterns, incorrect: nat, r: seq<LearningInsight>, k: ErrorKind)
    requires multiset(r) == multiset(Insights(patterns, incorrect))
    ensures (exists i :: 0 <= i < |r| && r[i].pattern == k) <==> (exists j :: 0 <= j < |patterns| && patterns[j].0 == k)
  {
    var insights := Insights(patterns, incorrect);
    if exists i :: 0 <= i < |r| && r[i].pattern == k {
      var i :| 0 <= i < |r| && r[i].pattern == k;
      assert r[i] in multiset(insights);
      var j :| 0 <= j < |insights| && insights[j] == r[i];
      assert patterns[j].0 == k;
    }
    if exists j :: 0 <= j < |patterns| && patterns[j].0 == k {
      var j :| 0 <= j < |patterns| && patterns[j].0 == k;
      assert insights[j] in multiset(r);
      var i :| 0 <= i < |r| && r[i] == insights[j];
    }
  }

  /** The insights name exactly the error kinds that occurred among the
      incorrect predictions. */
  lemma PatternsAreTheOccurringKinds(store: Tracker.Store, sport: Option<string>, k: ErrorKind)
    ensures (exists i :: 0 <= i < |ExtractLearningPatterns(store, sport)| && ExtractLearningPatterns(store, sport)[i].pattern == k)
      <==> Count(AllTagged(Incorrect(store, sport)), OfKind(k)) > 0
  {
    var wrong := Incorrect(store, sport);
    var patterns := StorePatterns(store, sport);
    TalliesCountOccurrences(AllTagged(wrong), k);
    if |wrong| == 0 {
      assert AllTagged(wrong) == [];
    } else {
      InsightsNameTheKeys(patterns, |wrong|, ExtractLearningPatterns(store, sport), k);
      if Count(AllTagged(wrong), OfKind(k)) > 0 {
        var i :| Assoc.FirstKeyAt(patterns, k, i) && patterns[i].1 == Assoc.Find(patterns, k).value;
      }
    }
  }
}

=== FILE: locked.dfy ===
/** The frontend's list of locked predictions, as the sequence kept under
    one storage key. Reading and writing the browser's storage (and the
    JSON round trip through it) is left out: every operation maps the list
    before to the list after. */
module Locked {
  import opened Wrappers
  import opened Seqs
  import Num

  /** A locked prediction; the optional result fields are `None` until the
      game is analysed. */
  datatype LockedPrediction = LockedPrediction(
    gameId: string,
    sport: string,
    homeTeam: string,
    awayTeam: string,
    gameDate: string,
    predictedWinner: string,
    homeWinProbability: real,
    awayWinProbability: real,
    confidence: real,
    keyFactors: seq<string>,
    lockedAt: string,
    actualWinner: Option<string>,
    actualHomeScore: Option<real>,
    actualAwayScore: Option<real>,
    isCorrect: Option<bool>,
    analyzed: Option<bool>)

  type Locks = seq<LockedPrediction>

  /** `findIndex` on the game id: the first position holding it. */
  function FindIndex(locks: Locks, gameId: string): (r: Option<nat>)
    ensures r.None? <==> forall i :: 0 <= i < |locks| ==> locks[i].gameId != gameId
    ensures r.Some? ==> r.value < |locks| && locks[r.value].gameId == gameId
    ensures r.Some? ==> forall j :: 0 <= j < r.value ==> locks[j].gameId != gameId
    decreases |locks|
  {
    if |locks| == 0 then None
    else if locks[0].gameId == gameId then Some(0)
    else match FindIndex(locks[1..], gameId)
      case None => None
      case Some(i) => Some(i + 1)
  }

  /** `getLockedPrediction`: the first entry for the game. */
  function GetLocked(locks: Locks, gameId: string): (r: Option<LockedPrediction>)
    ensures r.Some? ==> r.value in locks && r.value.gameId == gameId
    ensures r.None? <==> forall i :: 0 <= i < |locks| ==> locks[i].gameId != gameId
    ensures r.Some? ==>
      exists i :: 0 <= i < |locks| && locks[i] == r.value && forall j :: 0 <= j < i ==> locks[j].gameId != gameId
  {
    match FindIndex(locks, gameId)
    case None => None
    case Some(i) => Some(locks[i])
  }

  /** Whatever entries for the game follow, the first one is the one
      returned. */
  lemma GetLockedIsFirstMatch(locks: Locks, gameId: string, i: int)
    requires 0 <= i < |locks| && locks[i].gameId == gameId
    requires forall j :: 0 <= j < i ==> locks[j].gameId != gameId
    ensures GetLocked(locks, gameId) == Some(locks[i])
  {
    var k := FindIndex(locks, gameId);
    assert k.Some? && k.value == i;
  }

  /** `isPredictionLocked`: some entry holds the game id. */
  predicate IsLocked(locks: Locks, gameId: string)
  {
    exists i :: 0 <= i < |locks| && locks[i].gameId == gameId
  }

  /** The game is locked exactly when looking it up finds an entry. */
  lemma IsLockedIffFound(locks: Locks, gameId: string)
    ensures IsLocked(locks, gameId) <==> GetLocked(locks, gameId).Some?
  {
  }

  /** `saveLockedPrediction`: an upsert by game id. An existing entry is
      replaced but keeps its original lock time; a new game is appended. */
  function Save(locks: Locks, p: LockedPrediction): (r: Locks)
    ensures FindIndex(locks, p.gameId).None? ==> r == locks + [p]
    ensures FindIndex(locks, p.gameId).Some? ==>
      var i := FindIndex(locks, p.gameId).value;
      |r| == |locks| && r[i] == p.(lockedAt := locks[i].lockedAt)
      && forall j :: 0 <= j < |locks| && j != i ==> r[j] == locks[j]
  {
    match FindIndex(locks, p.gameId)
    case None => locks + [p]
    case Some(i) => locks[i := p.(lockedAt := locks[i].lockedAt)]
  }

  /** No two entries share a game id. */
  predicate DistinctGames(locks: Locks)
  {
    forall i, j :: 0 <= i < j < |locks| ==> locks[i].gameId != locks[j].gameId
  }

  /** Saving never creates a second entry for a game, and the saved game is
      then found with the new data and the first lock time. */
  lemma SaveKeepsGamesDistinct(locks: Locks, p: LockedPrediction)
    requires DistinctGames(locks)
    ensures DistinctGames(Save(locks, p))
    ensures GetLocked(Save(locks, p), p.gameId) ==
      Some(p.(lockedAt := if IsLocked(locks, p.gameId) then GetLocked(locks, p.gameId).value.lockedAt else p.lockedAt))
  {
    var r := Save(locks, p);
    match FindIndex(locks, p.gameId)
    case None =>
      assert forall j :: 0 <= j < |locks| ==> r[j] == locks[j];
      assert r[|locks|] == p;
      assert FindIndex(r, p.gameId) == Some(|locks|);
    case Some(i) =>
      forall a, b | 0 <= a < b < |r| ensures r[a].gameId != r[b].gameId {
        assert r[a].gameId == locks[a].gameId && r[b].gameId == locks[b].gameId;
      }
      assert FindIndex(r, p.gameId) == Some(i) by {
        assert forall j :: 0 <= j < i ==> r[j] == locks[j];
      }
  }

  function OtherGame(gameId: string): LockedPrediction -> bool
  {
    (p: LockedPrediction) => p.gameId != gameId
  }

  /** `removeLockedPrediction`: every entry for the game goes, the rest
      stay in order. */
  function Remove(locks: Locks, gameId: string): (r: Locks)
    ensures !IsLocked(r, gameId)
    ensures forall i :: 0 <= i < |locks| && locks[i].gameId != gameId ==> locks[i] in r
    ensures IsSubsequence(r, locks)
  {
    FilterIsSubsequence(locks, OtherGame(gameId));
    Filter(locks, OtherGame(gameId))
  }

  /** Filtering out an entry that is rejected anyway ignores its contents. */
  lemma {:induction false} FilterIgnoresRejectedUpdate(s: Locks, i: int, x: LockedPrediction, keep: LockedPrediction -> bool)
    requires 0 <= i < |s| && !keep(s[i]) && !keep(x)
    ensures Filter(s[i := x], keep) == Filter(s, keep)
    decreases |s|
  {
    if i > 0 {
      FilterIgnoresRejectedUpdate(s[1..], i - 1, x, keep);
      assert s[i := x][1..] == s[1..][i - 1 := x];
    } else {
      assert s[i := x][1..] == s[1..];
    }
  }

  /** Removing a game undoes saving it: the list is as if it had never
      been locked. */
  lemma RemoveUndoesSave(locks: Locks, p: LockedPrediction)
    ensures Remove(Save(locks, p), p.gameId) == Remove(locks, p.gameId)
  {
    match FindIndex(locks, p.gameId)
    case None =>
      FilterAppend(locks, [p], OtherGame(p.gameId));
      assert Filter([p], OtherGame(p.gameId)) == [];
      assert Filter(locks, OtherGame(p.gameId)) + [] == Filter(locks, OtherGame(p.gameId));
    case Some(i) =>
      FilterIgnoresRejectedUpdate(locks, i, p.(lockedAt := locks[i].lockedAt), OtherGame(p.gameId));
  }

  /** The entry with its result recorded and marked as analysed. */
  function WithResult(p: LockedPrediction, actualWinner: string, homeScore: Option<real>, awayScore: Option<real>): (r: LockedPrediction)
    ensures r.isCorrect == Some(p.predictedWinner == actualWinner) && r.analyzed == Some(true)
    ensures r.(actualWinner := p.actualWinner, actualHomeScore := p.actualHomeScore, actualAwayScore := p.actualAwayScore,
               isCorrect := p.isCorrect, analyzed := p.analyzed) == p
  {
    p.(actualWinner := Some(actualWinner), actualHomeScore := homeScore, actualAwayScore := awayScore,
       isCorrect := Some(p.predictedWinner == actualWinner), analyzed := Some(true))
  }

  /** `updatePredictionResult`: an unknown game changes nothing; otherwise
      only the first entry for the game takes the result. */
  function UpdateResult(locks: Locks, gameId: string, actualWinner: string,
                        homeScore: Option<real>, awayScore: Option<real>): (r: Locks)
    ensures FindIndex(locks, gameId).None? ==> r == locks
    ensures FindIndex(locks, gameId).Some? ==>
      var i := FindIndex(locks, gameId).value;
      |r| == |locks| && r[i] == WithResult(locks[i], actualWinner, homeScore, awayScore)
      && forall j :: 0 <= j < |locks| && j != i ==> r[j] == locks[j]
  {
    match FindIndex(locks, gameId)
    case None => locks
    case Some(i) => locks[i := WithResult(locks[i], actualWinner, homeScore, awayScore)]
  }

  predicate IsAnalyzed(p: LockedPrediction) { p.analyzed == Some(true) }
  predicate IsCorrect(p: LockedPrediction) { p.isCorrect == Some(true) }
  predicate AnalyzedAndCorrect(p: LockedPrediction) { IsAnalyzed(p) && IsCorrect(p) }

  datatype Accuracy = Accuracy(total: nat, correct: nat, incorrect: int, accuracy: real)

  /** Counting the accepted elements of a filtered list counts the elements
      both predicates accept. */
  lemma {:induction false} CountOfFilter<T>(s: seq<T>, p: T -> bool, q: T -> bool, both: T -> bool)
    requires forall x :: both(x) == (p(x) && q(x))
    ensures Count(Filter(s, p), q) == Count(s, both)
    decreases |s|
  {
    if |s| > 0 {
      CountOfFilter(s[1..], p, q, both);
      if p(s[0]) {
        assert Filter(s, p)[1..] == Filter(s[1..], p);
      }
    }
  }

  /** `correct / total * 100`, or 0 for an empty total. */
  function Percent(correct: nat, total: nat): (pct: real)
    requires correct <= total
    ensures 0.0 <= pct <= 100.0
    ensures total == 0 ==> pct == 0.0
    ensures total > 0 ==> pct * total as real == correct as real * 100.0
  {
    if total == 0 then 0.0
    else
      Num.DivMonotone(correct as real, total as real, total as real);
      Num.DivMonotone(0.0, correct as real, total as real);
      correct as real / total as real * 100.0
  }

  /** `getPredictionAccuracy`: only analysed entries count, the incorrect
      ones are the rest of them, and the percentage is in [0, 100]. */
  function PredictionAccuracy(locks: Locks): (r: Accuracy)
    ensures r.total == Count(locks, IsAnalyzed)
    ensures r.correct == Count(locks, AnalyzedAndCorrect)
    ensures 0 <= r.incorrect && r.total == r.correct + r.incorrect
    ensures r.accuracy == Percent(r.correct, r.total) && 0.0 <= r.accuracy <= 100.0
  {
    var analyzed := Filter(locks, IsAnalyzed);
    var correct := Count(analyzed, IsCorrect);
    var total := |analyzed|;
    var pct := Percent(correct, total);
    CountIsFilterLength(locks, IsAnalyzed);
    CountOfFilter(locks, IsAnalyzed, IsCorrect, AnalyzedAndCorrect);
    Accuracy(total, correct, total - correct, pct)
  }

  /** Replacing one element changes a count by that element's share only. */
  lemma {:induction false} CountUpdate<T>(s: seq<T>, i: int, x: T, p: T -> bool)
    requires 0 <= i < |s|
    ensures Count(s[i := x], p) == Count(s, p) - (if p(s[i]) then 1 else 0) + (if p(x) then 1 else 0)
    decreases |s|
  {
    if i > 0 {
      CountUpdate(s[1..], i - 1, x, p);
      assert s[i := x][1..] == s[1..][i - 1 := x];
    } else {
      assert s[i := x][1..] == s[1..];
    }
  }

  /** Recording the result of a locked game that was not yet analysed adds
      it to the total, and to the correct count exactly when its predicted
      winner won. */
  lemma RecordingAResultCountsIt(locks: Locks, gameId: string, actualWinner: string,
                                 homeScore: Option<real>, awayScore: Option<real>)
    requires IsLocked(locks, gameId) && !IsAnalyzed(GetLocked(locks, gameId).value)
    ensures var before := PredictionAccuracy(locks);
      var after := PredictionAccuracy(UpdateResult(locks, gameId, actualWinner, homeScore, awayScore));
      after.total == before.total + 1
      && after.correct == before.correct + (if GetLocked(locks, gameId).value.predictedWinner == actualWinner then 1 else 0)
  {
    var i := FindIndex(locks, gameId).value;
    var x := WithResult(locks[i], actualWinner, homeScore, awayScore);
    CountUpdate(locks, i, x, IsAnalyzed);
    CountUpdate(locks, i, x, AnalyzedAndCorrect);
  }
}

=== FILE: matchups.dfy ===
/** Head-to-head history post-processing (`HistoricalMatchupAnalyzer`).
    The simulators that invent game lists and per-player factors are not
    modelled: their output is an input here. */
module Matchups {
  import opened Wrappers
  import opened Num
  import Text
  import Assoc

  // ---- Coach versus coach ----

  datatype Winner = HomeCoach | AwayCoach

  /** One simulated meeting (the date is not modelled). */
  datatype CoachGame = CoachGame(homeScore: int, awayScore: int, winner: Winner)

  datatype Advantage = HomeCoachAdvantage | AwayCoachAdvantage | NeutralAdvantage
  datatype Strength = Strong | Moderate | NoStrength

  datatype Streak = Streak(coach: Winner, length: nat, description: Option<string>)

  datatype CoachHistory = CoachHistory(
    homeCoach: string,
    awayCoach: string,
    numGames: nat,
    homeCoachWins: nat,
    awayCoachWins: nat,
    homeCoachRecord: string,
    awayCoachRecord: string,
    homeCoachWinRate: real,
    awayCoachWinRate: real,
    avgPointDifferential: real,
    advantage: Advantage,
    advantageStrength: Strength,
    games: seq<CoachGame>,
    recentTrend: Winner,
    currentStreak: Streak)

  function WinCount(games: seq<CoachGame>, w: Winner): (n: nat)
    ensures n <= |games|
    decreases |games|
  {
    if |games| == 0 then 0 else (if games[0].winner == w then 1 else 0) + WinCount(games[1..], w)
  }

  lemma {:induction false} WinsPartitionGames(games: seq<CoachGame>)
    ensures WinCount(games, HomeCoach) + WinCount(games, AwayCoach) == |games|
    decreases |games|
  {
    if |games| > 0 {
      WinsPartitionGames(games[1..]);
    }
  }

  /** The winner's recorded score minus the loser's. Scores are drawn
      independently of the winner, so this can be negative. */
  function WinnerMargin(g: CoachGame): int
  {
    if g.winner == HomeCoach then g.homeScore - g.awayScore else g.awayScore - g.homeScore
  }

  function MarginSum(games: seq<CoachGame>): int
    decreases |games|
  {
    if |games| == 0 then 0 else WinnerMargin(games[0]) + MarginSum(games[1..])
  }

  /** Length of the run of games at the end won by `w`. */
  function TrailingRun(games: seq<CoachGame>, w: Winner): (n: nat)
    ensures n <= |games|
    ensures forall k :: |games| - n <= k < |games| ==> games[k].winner == w
    ensures n < |games| ==> games[|games| - n - 1].winner != w
    decreases |games|
  {
    if |games| == 0 || games[|games| - 1].winner != w then 0
    else TrailingRun(games[..|games| - 1], w) + 1
  }

  /** "W-L". */
  function Record(wins: nat, losses: nat): string
  {
    Text.NatToString(wins) + "-" + Text.NatToString(losses)
  }

  /** Position of the first `c` in `s`. */
  function IndexOf(s: string, c: char): (r: Option<nat>)
    ensures r.Some? ==> r.value < |s| && s[r.value] == c && forall j :: 0 <= j < r.value ==> s[j] != c
    ensures r.None? ==> forall j :: 0 <= j < |s| ==> s[j] != c
    decreases |s|
  {
    if |s| == 0 then None
    else if s[0] == c then Some(0)
    else match IndexOf(s[1..], c)
      case None => None
      case Some(i) => Some(i + 1)
  }

  predicate AllDigits(s: string) { forall i :: 0 <= i < |s| ==> Text.IsDigit(s[i]) }

  /** Reads a "W-L" string back into its two counts. */
  function ParseRecord(s: string): Option<(nat, nat)>
  {
    match IndexOf(s, '-')
    case None => None
    case Some(i) =>
      if AllDigits(s[..i]) && AllDigits(s[i + 1..]) then Some((Text.ParseDigits(s[..i]), Text.ParseDigits(s[i + 1..])))
      else None
  }

  lemma RecordRoundTrip(wins: nat, losses: nat)
    ensures ParseRecord(Record(wins, losses)) == Some((wins, losses))
  {
    var a := Text.NatToString(wins);
    var b := Text.NatToString(losses);
    var s := Record(wins, losses);
    assert forall j :: 0 <= j < |a| ==> s[j] == a[j] && s[j] != '-';
    assert s[|a|] == '-';
    assert IndexOf(s, '-') == Some(|a|);
    assert s[..|a|] == a;
    assert s[|a| + 1..] == b;
    Text.ParseNatToString(wins);
    Text.ParseNatToString(losses);
  }

  function Assess(homeRate: real, awayRate: real): (r: (Advantage, Strength))
    ensures r.0 == HomeCoachAdvantage <==> homeRate > 0.6
    ensures r.0 == AwayCoachAdvantage <==> homeRate <= 0.6 && awayRate > 0.6
    ensures r.1 == NoStrength <==> r.0 == NeutralAdvantage
    ensures r.1 == Strong <==>
      (r.0 == HomeCoachAdvantage && homeRate > 0.7) || (r.0 == AwayCoachAdvantage && awayRate > 0.7)
  {
    if homeRate > 0.6 then (HomeCoachAdvantage, if homeRate > 0.7 then Strong else Moderate)
    else if awayRate > 0.6 then (AwayCoachAdvantage, if awayRate > 0.7 then Strong else Moderate)
    else (NeutralAdvantage, NoStrength)
  }

  lemma RatesSumToOne(hw: nat, aw: nat)
    requires hw + aw > 0
    ensures hw as real / (hw + aw) as real + aw as real / (hw + aw) as real == 1.0
  {
    var n := (hw + aw) as real;
    assert hw as real / n + aw as real / n == (hw as real + aw as real) / n;
  }

  function CurrentStreak(homeCoach: string, awayCoach: string, games: seq<CoachGame>): (r: Streak)
    requires |games| > 0
    ensures r.coach == games[|games| - 1].winner
    ensures 1 <= r.length <= |games|
    ensures forall k :: |games| - r.length <= k < |games| ==> games[k].winner == r.coach
    ensures r.length < |games| ==> games[|games| - r.length - 1].winner != r.coach
    ensures r.description.Some? <==> r.length > 1
  {
    var last := games[|games| - 1].winner;
    var streak := TrailingRun(games, last);
    var leader := if last == HomeCoach then homeCoach else awayCoach;
    Streak(last, streak,
           if streak > 1 then Some(leader + " has won " + Text.NatToString(streak) + " in a row") else None)
  }

  /** The post-processing of `get_coach_vs_coach_history` over a simulated
      game list. An empty list makes the source fail on `games[-1]`, hence
      `None`. */
  function SummarizeCoachHistory(homeCoach: string, awayCoach: string, games: seq<CoachGame>): (r: Option<CoachHistory>)
    ensures r.None? <==> |games| == 0
    ensures r.Some? ==> r.value.homeCoach == homeCoach && r.value.awayCoach == awayCoach && r.value.games == games
    ensures r.Some? ==> r.value.numGames == |games| && r.value.homeCoachWins + r.value.awayCoachWins == |games|
    ensures r.Some? ==> r.value.homeCoachWins == WinCount(games, HomeCoach)
    ensures r.Some? ==> r.value.homeCoachWinRate == r.value.homeCoachWins as real / |games| as real
    ensures r.Some? ==> r.value.awayCoachWinRate == r.value.awayCoachWins as real / |games| as real
    ensures r.Some? ==> r.value.homeCoachWinRate + r.value.awayCoachWinRate == 1.0
    ensures r.Some? ==> r.value.homeCoachRecord == Record(r.value.homeCoachWins, r.value.awayCoachWins)
    ensures r.Some? ==> r.value.awayCoachRecord == Record(r.value.awayCoachWins, r.value.homeCoachWins)
    ensures r.Some? ==> r.value.avgPointDifferential == RoundTenth(MarginSum(games) as real / |games| as real)
    ensures r.Some? ==>
      (r.value.advantage, r.value.advantageStrength) == Assess(r.value.homeCoachWinRate, r.value.awayCoachWinRate)
    ensures r.Some? ==> r.value.recentTrend == games[|games| - 1].winner
    ensures r.Some? ==> r.value.currentStreak == CurrentStreak(homeCoach, awayCoach, games)
  {
    if |games| == 0 then None
    else
      WinsPartitionGames(games);
      var n := |games|;
      var hw := WinCount(games, HomeCoach);
      var aw := WinCount(games, AwayCoach);
      RatesSumToOne(hw, aw);
      var homeRate := hw as real / n as real;
      var awayRate := aw as real / n as real;
      var assessed := Assess(homeRate, awayRate);
      var avg := RoundTenth(MarginSum(games) as real / n as real);
      Some(CoachHistory(
        homeCoach, awayCoach, n, hw, aw, Record(hw, aw), Record(aw, hw), homeRate, awayRate,
        avg, assessed.0, assessed.1, games, games[n - 1].winner,
        CurrentStreak(homeCoach, awayCoach, games)))
  }

  /** The away record reads back as the home record with the counts swapped. */
  lemma RecordsAreMirrorImages(homeCoach: string, awayCoach: string, games: seq<CoachGame>)
    requires |games| > 0
    ensures var h := SummarizeCoachHistory(homeCoach, awayCoach, games).value;
      ParseRecord(h.homeCoachRecord) == Some((h.homeCoachWins, h.awayCoachWins))
      && ParseRecord(h.awayCoachRecord) == Some((h.awayCoachWins, h.homeCoachWins))
  {
    var h := SummarizeCoachHistory(homeCoach, awayCoach, games).value;
    RecordRoundTrip(h.homeCoachWins, h.awayCoachWins);
    RecordRoundTrip(h.awayCoachWins, h.homeCoachWins);
  }

  /** A home win recorded 17-35 yields a point differential of -18. */
  lemma PointDifferentialCanBeNegative()
    ensures SummarizeCoachHistory("H", "A", [CoachGame(17, 35, HomeCoach)]).value.avgPointDifferential == -18.0
  {
    assert MarginSum([CoachGame(17, 35, HomeCoach)]) == -18 + MarginSum([]);
    assert NearestTenths(-18.0) == -180;
  }

  // ---- Coaching adjustment ----

  function BaseAdjustment(advantage: Advantage, strength: Strength): (r: real)
    ensures r > 0.0 <==> advantage == HomeCoachAdvantage
    ensures r < 0.0 <==> advantage == AwayCoachAdvantage
    ensures -0.05 <= r <= 0.05
  {
    match advantage
    case HomeCoachAdvantage => if strength == Strong then 0.05 else 0.03
    case AwayCoachAdvantage => if strength == Strong then -0.05 else -0.03
    case NeutralAdvantage => 0.0
  }

  /** Large margins strengthen, close games weaken the adjustment. */
  function ScaleByMargin(adjustment: real, pointDifferential: real): real
  {
    if Abs(pointDifferential) > 7.0 then adjustment * 1.2
    else if Abs(pointDifferential) < 3.0 then adjustment * 0.8
    else adjustment
  }

  /** The margin tests read the stored one-decimal mean, so on the exact
      mean they fall at 7.05 and 2.95: above 7.05 strengthens, below 2.95
      weakens. */
  lemma RoundedMarginThresholds(x: real)
    ensures Abs(RoundTenth(x)) > 7.0 <==> Abs(x) > 7.05
    ensures Abs(RoundTenth(x)) < 3.0 <==> Abs(x) < 2.95
  {
    var k := NearestTenths(x);
    assert RoundTenth(x) == k as real / 10.0;
    assert Abs(RoundTenth(x)) > 7.0 <==> k > 70 || k < -70;
    assert Abs(RoundTenth(x)) < 3.0 <==> -30 < k < 30;
  }

  /** 25 games whose margins sum to 176 average 7.04, stored as 7.0, so
      the adjustment is not strengthened. */
  lemma MeanJustAboveSevenIsNotScaled(a: real)
    ensures RoundTenth(176.0 / 25.0) == 7.0
    ensures ScaleByMargin(a, RoundTenth(176.0 / 25.0)) == a
  {
    assert NearestTenths(176.0 / 25.0) == 70;
  }

  /** The adjustment to the home win probability `analyze_coaching_matchup`
      reports: its cap at ±0.08 never binds, since the scaled value is within
      ±0.06; its sign names the coach with the advantage. */
  function CoachingAdjustment(h: CoachHistory): (r: real)
    ensures r == ScaleByMargin(BaseAdjustment(h.advantage, h.advantageStrength), h.avgPointDifferential)
    ensures -0.06 <= r <= 0.06
    ensures r > 0.0 <==> h.advantage == HomeCoachAdvantage
    ensures r < 0.0 <==> h.advantage == AwayCoachAdvantage
  {
    Clamp(ScaleByMargin(BaseAdjustment(h.advantage, h.advantageStrength), h.avgPointDifferential), -0.08, 0.08)
  }

  // ---- Insight ----

  datatype Insight =
    | NoHeadToHead
    | LeaderInsight(coachDisplay: string, strong: bool, recordInfo: string, winRate: real, games: nat)
    | EvenInsight(recordInfo: string, homeWinRate: real, awayWinRate: real, games: nat)

  /** A coach named with the team in parentheses, when a team is given. */
  function CoachDisplay(coach: string, team: string): string
  {
    if team == "" then coach else coach + " (" + team + ")"
  }

  /** The sentence of `_generate_coaching_insight`, with its parts kept
      apart (the percentage formatting is not modelled). */
  function CoachingInsight(h: CoachHistory, homeTeam: string, awayTeam: string): (r: Insight)
    ensures r == NoHeadToHead <==> h.numGames == 0
    ensures r.LeaderInsight? <==> h.numGames > 0 && h.advantage != NeutralAdvantage
    ensures r.LeaderInsight? ==>
      r.strong == (h.advantageStrength == Strong)
      && r.games == h.numGames
      && r.recordInfo == " (" + h.homeCoachRecord + " vs " + h.awayCoachRecord + ")"
      && (h.advantage == HomeCoachAdvantage ==>
            r.coachDisplay == CoachDisplay(h.homeCoach, homeTeam) && r.winRate == h.homeCoachWinRate)
      && (h.advantage == AwayCoachAdvantage ==>
            r.coachDisplay == CoachDisplay(h.awayCoach, awayTeam) && r.winRate == h.awayCoachWinRate)
    ensures r.EvenInsight? ==> r.homeWinRate == h.homeCoachWinRate && r.awayWinRate == h.awayCoachWinRate
  {
    if h.numGames == 0 then NoHeadToHead
    else
      var info := " (" + h.homeCoachRecord + " vs " + h.awayCoachRecord + ")";
      match h.advantage
      case HomeCoachAdvantage =>
        LeaderInsight(CoachDisplay(h.homeCoach, homeTeam), h.advantageStrength == Strong, info, h.homeCoachWinRate, h.numGames)
      case AwayCoachAdvantage =>
        LeaderInsight(CoachDisplay(h.awayCoach, awayTeam), h.advantageStrength == Strong, info, h.awayCoachWinRate, h.numGames)
      case NeutralAdvantage => EvenInsight(info, h.homeCoachWinRate, h.awayCoachWinRate, h.numGames)
  }

  /** A leader insight always quotes a win rate above 0.6. */
  lemma LeaderInsightQuotesWinningRate(homeCoach: string, awayCoach: string, games: seq<CoachGame>,
                                       homeTeam: string, awayTeam: string)
    requires |games| > 0
    ensures var h := SummarizeCoachHistory(homeCoach, awayCoach, games).value;
      var i := CoachingInsight(h, homeTeam, awayTeam);
      i.LeaderInsight? ==> i.winRate > 0.6 && (i.strong <==> i.winRate > 0.7)
  {
  }

  // ---- Head coaches ----

  const NflHeadCoaches: seq<(string, string)> := [
    ("Kansas City Chiefs", "Andy Reid"), ("Buffalo Bills", "Sean McDermott"),
    ("Philadelphia Eagles", "Nick Sirianni"), ("Los Angeles Chargers", "Brandon Staley"),
    ("San Francisco 49ers", "Kyle Shanahan"), ("Seattle Seahawks", "Pete Carroll"),
    ("Miami Dolphins", "Mike McDaniel"), ("New York Jets", "Robert Saleh"),
    ("Baltimore Ravens", "John Harbaugh"), ("Pittsburgh Steelers", "Mike Tomlin"),
    ("Green Bay Packers", "Matt LaFleur"), ("Chicago Bears", "Matt Eberflus"),
    ("Detroit Lions", "Dan Campbell"), ("Minnesota Vikings", "Kevin O'Connell"),
    ("Cleveland Browns", "Kevin Stefanski"), ("Cincinnati Bengals", "Zac Taylor"),
    ("Dallas Cowboys", "Mike McCarthy"), ("New England Patriots", "Bill Belichick"),
    ("Tampa Bay Buccaneers", "Todd Bowles"), ("Atlanta Falcons", "Arthur Smith"),
    ("Los Angeles Rams", "Sean McVay"), ("Arizona Cardinals", "Jonathan Gannon"),
    ("Las Vegas Raiders", "Antonio Pierce"), ("Denver Broncos", "Sean Payton"),
    ("Tennessee Titans", "Mike Vrabel"), ("Jacksonville Jaguars", "Doug Pederson"),
    ("New Orleans Saints", "Dennis Allen"), ("Carolina Panthers", "Frank Reich"),
    ("Indianapolis Colts", "Shane Steichen"), ("Houston Texans", "DeMeco Ryans"),
    ("Washington Commanders", "Ron Rivera"), ("New York Giants", "Brian Daboll")
  ]

  const NbaHeadCoaches: seq<(string, string)> := [
    ("Los Angeles Lakers", "Darvin Ham"), ("Boston Celtics", "Joe Mazzulla"),
    ("Golden State Warriors", "Steve Kerr"), ("Milwaukee Bucks", "Doc Rivers"),
    ("Miami Heat", "Erik Spoelstra"), ("New York Knicks", "Tom Thibodeau"),
    ("Denver Nuggets", "Michael Malone"), ("Phoenix Suns", "Frank Vogel"),
    ("Dallas Mavericks", "Jason Kidd"), ("Chicago Bulls", "Billy Donovan")
  ]

  const MlbManagers: seq<(string, string)> := [
    ("New York Yankees", "Aaron Boone"), ("Boston Red Sox", "Alex Cora"),
    ("Los Angeles Dodgers", "Dave Roberts"), ("San Francisco Giants", "Bob Melvin"),
    ("Chicago Cubs", "Craig Counsell"), ("St. Louis Cardinals", "Oliver Marmol"),
    ("Houston Astros", "Joe Espada"), ("Texas Rangers", "Bruce Bochy"),
    ("Atlanta Braves", "Brian Snitker"), ("Philadelphia Phillies", "Rob Thomson")
  ]

  const NhlHeadCoaches: seq<(string, string)> := [
    ("Toronto Maple Leafs", "Sheldon Keefe"), ("Boston Bruins", "Jim Montgomery"),
    ("Montreal Canadiens", "Martin St. Louis"), ("New York Rangers", "Peter Laviolette"),
    ("Edmonton Oilers", "Kris Knoblauch"), ("Vancouver Canucks", "Rick Tocchet"),
    ("Chicago Blackhawks", "Luke Richardson"), ("Detroit Red Wings", "Derek Lalonde"),
    ("Pittsburgh Penguins", "Mike Sullivan"), ("Washington Capitals", "Spencer Carbery")
  ]

  /** The head coach table and fallback name for a sport; any sport other
      than nba, mlb and nhl uses the NFL table. */
  function CoachTable(sport: string): (seq<(string, string)>, string)
  {
    if sport == "nba" then (NbaHeadCoaches, "Unknown NBA Coach")
    else if sport == "mlb" then (MlbManagers, "Unknown MLB Manager")
    else if sport == "nhl" then (NhlHeadCoaches, "Unknown NHL Coach")
    else (NflHeadCoaches, "Unknown Head Coach")
  }

  function HeadCoach(team: string, sport: string): (r: string)
    ensures var (table, fallback) := CoachTable(sport);
      ((forall i :: 0 <= i < |table| ==> table[i].0 != team) ==> r == fallback)
      && (forall i :: Assoc.FirstKeyAt(table, team, i) ==> r == table[i].1)
  {
    var (table, fallback) := CoachTable(sport);
    Assoc.GetOr(table, team, fallback)
  }

  /** An unrecognised sport falls back to the NFL table rather than to an
      unknown coach. */
  lemma UnknownSportUsesNflTable()
    ensures HeadCoach("Kansas City Chiefs", "cfl") == "Andy Reid"
  {
    assert Assoc.FirstKeyAt(NflHeadCoaches, "Kansas City Chiefs", 0);
  }

  /** The coaching matchup for a game. `simulate` stands for
      `get_coach_vs_coach_history`'s random game generator. */
  datatype CoachingMatchup = CoachingMatchup(
    homeCoach: string,
    awayCoach: string,
    homeTeam: string,
    awayTeam: string,
    historicalRecord: CoachHistory,
    adjustmentFactor: real,
    keyInsight: Insight)

  function AnalyzeCoachingMatchup(homeTeam: string, awayTeam: string, sport: string,
                                  simulate: (string, string, string) -> seq<CoachGame>): (r: Option<CoachingMatchup>)
    ensures var hc := HeadCoach(homeTeam, sport);
            var ac := HeadCoach(awayTeam, sport);
      (r.None? <==> |simulate(hc, ac, sport)| == 0)
      && (r.Some? ==>
            r.value.homeCoach == hc && r.value.awayCoach == ac
            && r.value.homeTeam == homeTeam && r.value.awayTeam == awayTeam
            && r.value.historicalRecord.games == simulate(hc, ac, sport)
            && -0.06 <= r.value.adjustmentFactor <= 0.06
            && (r.value.adjustmentFactor > 0.0 <==> r.value.historicalRecord.advantage == HomeCoachAdvantage)
            && (r.value.adjustmentFactor < 0.0 <==> r.value.historicalRecord.advantage == AwayCoachAdvantage)
            && r.value.keyInsight != NoHeadToHead)
  {
    var hc := HeadCoach(homeTeam, sport);
    var ac := HeadCoach(awayTeam, sport);
    match SummarizeCoachHistory(hc, ac, simulate(hc, ac, sport))
    case None => None
    case Some(h) =>
      Some(CoachingMatchup(hc, ac, homeTeam, awayTeam, h, CoachingAdjustment(h), CoachingInsight(h, homeTeam, awayTeam)))
  }

  // ---- Player matchup adjustment ----

  /** The parts of a simulated player history the adjustment reads; `factor`
      is the team's matchup factor or the coach's scheme factor. */
  datatype PlayerHistory = PlayerHistory(numGames: nat, factor: real, averageValue: real, overRate: real)

  datatype MatchupAdjustment = MatchupAdjustment(
    basePrediction: real,
    adjustedPrediction: real,
    teamMatchupFactor: real,
    coachMatchupFactor: real,
    totalAdjustment: real,
    teamHistoryAvg: real,
    coachHistoryAvg: real,
    teamOverRate: real,
    coachOverRate: real,
    confidenceBoost: real,
    historicalGames: nat)

  /** Team history weighs 0.6 and coach history 0.4. */
  function TotalAdjustment(teamFactor: real, coachFactor: real): real
  {
    (teamFactor - 1.0) * 0.6 + (coachFactor - 1.0) * 0.4
  }

  function CalculateMatchupAdjustment(team: PlayerHistory, coach: PlayerHistory, basePrediction: real): (r: MatchupAdjustment)
    ensures r.historicalGames == team.numGames + coach.numGames
    ensures r.totalAdjustment == TotalAdjustment(team.factor, coach.factor)
    ensures r.adjustedPrediction == basePrediction * (1.0 + r.totalAdjustment)
    ensures 0.0 <= r.confidenceBoost <= 0.15
    ensures r.historicalGames <= 7 ==> r.confidenceBoost == r.historicalGames as real * 0.02
    ensures r.historicalGames >= 8 ==> r.confidenceBoost == 0.15
    ensures r.teamMatchupFactor == team.factor && r.coachMatchupFactor == coach.factor
    ensures r.teamHistoryAvg == team.averageValue && r.coachHistoryAvg == coach.averageValue
    ensures r.teamOverRate == team.overRate && r.coachOverRate == coach.overRate
  {
    var total := TotalAdjustment(team.factor, coach.factor);
    var games := team.numGames + coach.numGames;
    MatchupAdjustment(basePrediction, basePrediction * (1.0 + total), team.factor, coach.factor, total,
                      team.averageValue, coach.averageValue, team.overRate, coach.overRate,
                      Min(0.15, games as real * 0.02), games)
  }

  /** With the simulators' ranges (team factor in [0.85, 1.15], coach factor
      in [0.80, 1.20], 3-5 and 2-4 games) the total adjustment is within
      ±0.17 and the confidence boost within [0.10, 0.15]. */
  lemma SimulatedAdjustmentBounds(team: PlayerHistory, coach: PlayerHistory, basePrediction: real)
    requires 0.85 <= team.factor <= 1.15 && 0.80 <= coach.factor <= 1.20
    requires 3 <= team.numGames <= 5 && 2 <= coach.numGames <= 4
    requires basePrediction >= 0.0
    ensures var r := CalculateMatchupAdjustment(team, coach, basePrediction);
      -0.17 <= r.totalAdjustment <= 0.17
      && basePrediction * 0.83 <= r.adjustedPrediction <= basePrediction * 1.17
      && 0.10 <= r.confidenceBoost <= 0.15
  {
    var r := CalculateMatchupAdjustment(team, coach, basePrediction);
    var t := r.totalAdjustment;
    assert -0.17 <= t <= 0.17;
    assert basePrediction * (1.0 + t) - basePrediction * 0.83 == basePrediction * (t + 0.17);
    assert basePrediction * 1.17 - basePrediction * (1.0 + t) == basePrediction * (0.17 - t);
  }
}

=== FILE: mental_health.dfy ===
/** Psychological scoring of players and teams (`MentalHealthAnalyzer`).
    Each rule that fires contributes a factor and a list of (aspect, delta)
    adjustments; the scores start from fixed bases, add the deltas of their
    aspect, and are clamped to [0, 1]. The random mock inputs the team
    analysis generates for its key players are replaced by the players'
    impacts, given as input. */
module MentalHealth {
  import opened Wrappers
  import opened Num
  import opened Seqs
  import Text

  datatype Aspect = Confidence | Stress | Focus | Motivation | PressureHandling | Chemistry | Morale

  type Adjustments = seq<(Aspect, real)>

  /** The summed deltas recorded for one aspect. */
  function AspectTotal(adjs: Adjustments, a: Aspect): real
    decreases |adjs|
  {
    if |adjs| == 0 then 0.0 else (if adjs[0].0 == a then adjs[0].1 else 0.0) + AspectTotal(adjs[1..], a)
  }

  lemma {:induction false} AspectTotalAppend(x: Adjustments, y: Adjustments, a: Aspect)
    ensures AspectTotal(x + y, a) == AspectTotal(x, a) + AspectTotal(y, a)
    decreases |x|
  {
    if |x| == 0 {
      assert x + y == y;
    } else {
      assert (x + y)[1..] == x[1..] + y;
      AspectTotalAppend(x[1..], y, a);
    }
  }

  function Unit(x: real): real { Clamp(x, 0.0, 1.0) }

  // ---- Player analysis ----

  datatype PlayerFactor =
    | StrongRecentPerformance
    | RecentPerformanceDecline
    | ContractNegotiations
    | ContractYearMotivation
    | RecentlySignedContract
    | FamilyMatters
    | PositiveDevelopments
    | MediaAttention
    | VeteranExperience
    | YoungPlayer
    | HighPressurePosition
    | NoSignificantFactors

  function PlayerFactorText(f: PlayerFactor): string
  {
    match f
    case StrongRecentPerformance => "Strong recent performance boost"
    case RecentPerformanceDecline => "Recent performance decline"
    case ContractNegotiations => "Contract negotiations ongoing"
    case ContractYearMotivation => "Contract year motivation"
    case RecentlySignedContract => "Recently signed contract"
    case FamilyMatters => "Family matters affecting focus"
    case PositiveDevelopments => "Positive personal developments"
    case MediaAttention => "Increased media attention"
    case VeteranExperience => "Veteran experience"
    case YoungPlayer => "Young player, less experience"
    case HighPressurePosition => "High-pressure position"
    case NoSignificantFactors => "No significant factors identified"
  }

  datatype Trend = Improving | Declining | Stable

  /** A rule that fired: the factor it reports and the deltas it adds. The
      player and the team analyses share it, each with its own factors. */
  datatype Fired<F> = Fired(factor: F, deltas: Adjustments)
  type Firing = Fired<PlayerFactor>

  /** A non-empty recent-performance dictionary; a game without a score
      counts 0.5, a missing season average is 0.5. */
  datatype RecentPerformance = RecentPerformance(recentGames: seq<Option<real>>, seasonAvg: Option<real>)

  /** A non-empty personal-factors dictionary; life events carry their
      "type" (missing: ""). Age is read by the source but never used. */
  datatype PersonalFactors = PersonalFactors(
    contractStatus: Option<string>,
    lifeEvents: seq<Option<string>>,
    age: Option<int>,
    experienceYears: Option<int>)

  datatype PlayerMentalHealth = PlayerMentalHealth(
    playerName: string,
    team: string,
    position: string,
    overallScore: real,
    confidenceLevel: real,
    stressLevel: real,
    focusLevel: real,
    motivationLevel: real,
    factors: seq<PlayerFactor>,
    recentTrend: Trend,
    impactOnPerformance: real)

  /** Mean score of the last three games, when there are at least three. */
  function RecentAverage(games: seq<Option<real>>): real
    requires |games| >= 3
  {
    var n := |games|;
    (games[n - 3].GetOr(0.5) + games[n - 2].GetOr(0.5) + games[n - 1].GetOr(0.5)) / 3.0
  }

  function TrendOf(recent: Option<RecentPerformance>): (t: Trend)
    ensures t == Improving <==>
      recent.Some? && |recent.value.recentGames| >= 3
      && RecentAverage(recent.value.recentGames) > recent.value.seasonAvg.GetOr(0.5) * 1.1
    ensures t == Declining <==>
      recent.Some? && |recent.value.recentGames| >= 3
      && !(RecentAverage(recent.value.recentGames) > recent.value.seasonAvg.GetOr(0.5) * 1.1)
      && RecentAverage(recent.value.recentGames) < recent.value.seasonAvg.GetOr(0.5) * 0.9
  {
    if recent.None? || |recent.value.recentGames| < 3 then Stable
    else
      var avg := RecentAverage(recent.value.recentGames);
      var season := recent.value.seasonAvg.GetOr(0.5);
      if avg > season * 1.1 then Improving
      else if avg < season * 0.9 then Declining
      else Stable
  }

  function TrendFirings(t: Trend): seq<Firing>
  {
    match t
    case Improving => [Fired(StrongRecentPerformance, [(Confidence, 0.15), (Stress, -0.1)])]
    case Declining => [Fired(RecentPerformanceDecline, [(Confidence, -0.2), (Stress, 0.15)])]
    case Stable => []
  }

  function ContractFirings(personal: Option<PersonalFactors>): seq<Firing>
  {
    var status := if personal.Some? then personal.value.contractStatus.GetOr("stable") else "stable";
    if status == "negotiating" then [Fired(ContractNegotiations, [(Stress, 0.1), (Focus, -0.05)])]
    else if status == "expiring_soon" then [Fired(ContractYearMotivation, [(Motivation, 0.1)])]
    else if status == "recently_signed" then [Fired(RecentlySignedContract, [(Confidence, 0.1), (Stress, -0.05)])]
    else []
  }

  function EventFirings(events: seq<Option<string>>): seq<Firing>
    decreases |events|
  {
    if |events| == 0 then []
    else
      var t := events[0].GetOr("");
      var here :=
        if t == "family_issue" then [Fired(FamilyMatters, [(Focus, -0.15), (Stress, 0.2)])]
        else if t == "positive_life_event" then [Fired(PositiveDevelopments, [(Motivation, 0.1), (Confidence, 0.05)])]
        else if t == "media_scrutiny" then [Fired(MediaAttention, [(Stress, 0.15), (Focus, -0.1)])]
        else [];
      here + EventFirings(events[1..])
  }

  function ExperienceFirings(personal: Option<PersonalFactors>): seq<Firing>
  {
    var years := if personal.Some? then personal.value.experienceYears.GetOr(5) else 5;
    if years > 10 then [Fired(VeteranExperience, [(PressureHandling, 0.1)])]
    else if years < 3 then [Fired(YoungPlayer, [(PressureHandling, -0.1)])]
    else []
  }

  predicate IsHighPressurePosition(position: string) { position in ["QB", "PG", "P"] }

  function PositionFirings(position: string): seq<Firing>
  {
    if IsHighPressurePosition(position) then [Fired(HighPressurePosition, [(Stress, 0.1)])] else []
  }

  /** All rule firings, in the order the source evaluates the rules. */
  function PlayerFirings(position: string, recent: Option<RecentPerformance>, personal: Option<PersonalFactors>): seq<Firing>
  {
    TrendFirings(TrendOf(recent))
    + ContractFirings(personal)
    + (if personal.Some? then EventFirings(personal.value.lifeEvents) else [])
    + ExperienceFirings(personal)
    + PositionFirings(position)
  }

  function Deltas<F>(fs: seq<Fired<F>>): Adjustments
    decreases |fs|
  {
    if |fs| == 0 then [] else fs[0].deltas + Deltas(fs[1..])
  }

  function Factors<F>(fs: seq<Fired<F>>): (r: seq<F>)
    ensures |r| == |fs| && forall i :: 0 <= i < |fs| ==> r[i] == fs[i].factor
  {
    seq(|fs|, i requires 0 <= i < |fs| => fs[i].factor)
  }

  /** The weighted overall score of four unit-interval scores. */
  function OverallScore(confidence: real, stress: real, focus: real, motivation: real): real
  {
    confidence * 0.3 + (1.0 - stress) * 0.25 + focus * 0.25 + motivation * 0.2
  }

  /** The record a list of rule firings produces: each aspect starts from
      its baseline, adds the deltas aimed at it and is clamped to [0, 1]. */
  function PlayerFromFirings(playerName: string, team: string, position: string,
                             fs: seq<Firing>, trend: Trend): (r: PlayerMentalHealth)
    ensures r.playerName == playerName && r.team == team && r.position == position
    ensures 0.0 <= r.confidenceLevel <= 1.0 && 0.0 <= r.stressLevel <= 1.0
    ensures 0.0 <= r.focusLevel <= 1.0 && 0.0 <= r.motivationLevel <= 1.0
    ensures 0.0 <= r.overallScore <= 1.0
    ensures -0.15 <= r.impactOnPerformance <= 0.15
    ensures r.impactOnPerformance == (r.overallScore - 0.5) * 0.3
    ensures r.overallScore == OverallScore(r.confidenceLevel, r.stressLevel, r.focusLevel, r.motivationLevel)
    ensures r.recentTrend == trend
    ensures r.factors == if |fs| == 0 then [NoSignificantFactors] else Factors(fs)
    ensures var adjs := Deltas(fs);
      r.confidenceLevel == Unit(0.7 + AspectTotal(adjs, Confidence))
      && r.stressLevel == Unit(0.3 + AspectTotal(adjs, Stress))
      && r.focusLevel == Unit(0.75 + AspectTotal(adjs, Focus))
      && r.motivationLevel == Unit(0.8 + AspectTotal(adjs, Motivation))
  {
    var adjs := Deltas(fs);
    var confidence := Unit(0.7 + AspectTotal(adjs, Confidence));
    var stress := Unit(0.3 + AspectTotal(adjs, Stress));
    var focus := Unit(0.75 + AspectTotal(adjs, Focus));
    var motivation := Unit(0.8 + AspectTotal(adjs, Motivation));
    var overall := OverallScore(confidence, stress, focus, motivation);
    PlayerMentalHealth(playerName, team, position, overall, confidence, stress, focus, motivation,
                       if |fs| == 0 then [NoSignificantFactors] else Factors(fs),
                       trend, (overall - 0.5) * 0.3)
  }

  function AnalyzePlayer(playerName: string, team: string, position: string,
                         recent: Option<RecentPerformance>, personal: Option<PersonalFactors>): (r: PlayerMentalHealth)
    ensures r.playerName == playerName && r.team == team && r.position == position
    ensures 0.0 <= r.confidenceLevel <= 1.0 && 0.0 <= r.stressLevel <= 1.0
    ensures 0.0 <= r.focusLevel <= 1.0 && 0.0 <= r.motivationLevel <= 1.0
    ensures 0.0 <= r.overallScore <= 1.0
    ensures -0.15 <= r.impactOnPerformance <= 0.15
    ensures r.impactOnPerformance == (r.overallScore - 0.5) * 0.3
    ensures r.overallScore == OverallScore(r.confidenceLevel, r.stressLevel, r.focusLevel, r.motivationLevel)
    ensures r.recentTrend == TrendOf(recent)
    ensures var adjs := Deltas(PlayerFirings(position, recent, personal));
      r.confidenceLevel == Unit(0.7 + AspectTotal(adjs, Confidence))
      && r.stressLevel == Unit(0.3 + AspectTotal(adjs, Stress))
      && r.focusLevel == Unit(0.75 + AspectTotal(adjs, Focus))
      && r.motivationLevel == Unit(0.8 + AspectTotal(adjs, Motivation))
  {
    PlayerFromFirings(playerName, team, position, PlayerFirings(position, recent, personal), TrendOf(recent))
  }

  /** Every rule that fires adds at least one delta and reports a real
      factor, never the placeholder. */
  predicate AllFiringsAdjust(fs: seq<Firing>)
  {
    forall i :: 0 <= i < |fs| ==> |fs[i].deltas| > 0 && fs[i].factor != NoSignificantFactors
  }

  lemma {:induction false} EventFiringsAdjust(events: seq<Option<string>>)
    ensures AllFiringsAdjust(EventFirings(events))
    decreases |events|
  {
    if |events| > 0 {
      EventFiringsAdjust(events[1..]);
    }
  }

  lemma {:induction false} DeltasEmpty(fs: seq<Firing>)
    requires AllFiringsAdjust(fs)
    ensures |Deltas(fs)| == 0 <==> |fs| == 0
  {
    if |fs| > 0 {
      assert |fs[0].deltas| > 0;
    }
  }

  lemma AllFiringsAdjustAppend(x: seq<Firing>, y: seq<Firing>)
    requires AllFiringsAdjust(x) && AllFiringsAdjust(y)
    ensures AllFiringsAdjust(x + y)
  {
    forall i | 0 <= i < |x + y| ensures |(x + y)[i].deltas| > 0 && (x + y)[i].factor != NoSignificantFactors {
      if i >= |x| { assert (x + y)[i] == y[i - |x|]; }
    }
  }

  lemma RuleFiringsAdjust(position: string, recent: Option<RecentPerformance>, personal: Option<PersonalFactors>)
    ensures AllFiringsAdjust(TrendFirings(TrendOf(recent))) && AllFiringsAdjust(ContractFirings(personal))
    ensures AllFiringsAdjust(ExperienceFirings(personal)) && AllFiringsAdjust(PositionFirings(position))
  {
  }

  lemma PlayerFiringsAdjust(position: string, recent: Option<RecentPerformance>, personal: Option<PersonalFactors>)
    ensures AllFiringsAdjust(PlayerFirings(position, recent, personal))
  {
    var t := TrendFirings(TrendOf(recent));
    var c := ContractFirings(personal);
    var e := if personal.Some? then EventFirings(personal.value.lifeEvents) else [];
    var x := ExperienceFirings(personal);
    var p := PositionFirings(position);
    if personal.Some? {
      EventFiringsAdjust(personal.value.lifeEvents);
    }
    RuleFiringsAdjust(position, recent, personal);
    AllFiringsAdjustAppend(t, c);
    AllFiringsAdjustAppend(t + c, e);
    AllFiringsAdjustAppend(t + c + e, x);
    AllFiringsAdjustAppend(t + c + e + x, p);
  }

  /** The placeholder factor is reported exactly when no rule adjusted any
      aspect. */
  lemma NoFactorsIffNoAdjustments(playerName: string, team: string, position: string,
                                  recent: Option<RecentPerformance>, personal: Option<PersonalFactors>)
    ensures AnalyzePlayer(playerName, team, position, recent, personal).factors == [NoSignificantFactors]
        <==> |Deltas(PlayerFirings(position, recent, personal))| == 0
  {
    var fs := PlayerFirings(position, recent, personal);
    PlayerFiringsAdjust(position, recent, personal);
    DeltasEmpty(fs);
    var r := AnalyzePlayer(playerName, team, position, recent, personal);
    assert r.factors == if |fs| == 0 then [NoSignificantFactors] else Factors(fs);
    if |fs| > 0 {
      assert Factors(fs)[0] == fs[0].factor != NoSignificantFactors;
    }
  }

  /** Without inputs a player in a non-pressure position sits at the base
      scores, overall 0.7325. */
  lemma DefaultPlayerScore(playerName: string, team: string, position: string)
    requires !IsHighPressurePosition(position)
    ensures var r := AnalyzePlayer(playerName, team, position, None, None);
      r.overallScore == 0.7325 && r.factors == [NoSignificantFactors] && r.recentTrend == Stable
  {
    assert PlayerFirings(position, None, None) == [];
  }

  lemma {:induction false} DeltasAppend<F>(x: seq<Fired<F>>, y: seq<Fired<F>>)
    ensures Deltas(x + y) == Deltas(x) + Deltas(y)
    decreases |x|
  {
    if |x| == 0 {
      assert x + y == y;
    } else {
      assert (x + y)[1..] == x[1..] + y;
      DeltasAppend(x[1..], y);
    }
  }

  lemma {:induction false} AspectAbsent(adjs: Adjustments, a: Aspect)
    requires forall j :: 0 <= j < |adjs| ==> adjs[j].0 != a
    ensures AspectTotal(adjs, a) == 0.0
    decreases |adjs|
  {
    if |adjs| > 0 {
      AspectAbsent(adjs[1..], a);
    }
  }

  lemma {:induction false} PressureHandlingOnly(fs: seq<Firing>, a: Aspect)
    requires a != PressureHandling
    requires forall i :: 0 <= i < |fs| ==> forall j :: 0 <= j < |fs[i].deltas| ==> fs[i].deltas[j].0 == PressureHandling
    ensures AspectTotal(Deltas(fs), a) == 0.0
    decreases |fs|
  {
    if |fs| > 0 {
      PressureHandlingOnly(fs[1..], a);
      AspectTotalAppend(fs[0].deltas, Deltas(fs[1..]), a);
      AspectAbsent(fs[0].deltas, a);
    }
  }

  lemma ThreePartTotal(pre: seq<Firing>, mid: seq<Firing>, post: seq<Firing>, a: Aspect)
    ensures AspectTotal(Deltas(pre + mid + post), a)
         == AspectTotal(Deltas(pre), a) + AspectTotal(Deltas(mid), a) + AspectTotal(Deltas(post), a)
  {
    DeltasAppend(pre + mid, post);
    DeltasAppend(pre, mid);
    AspectTotalAppend(Deltas(pre) + Deltas(mid), Deltas(post), a);
    AspectTotalAppend(Deltas(pre), Deltas(mid), a);
  }

  /** Replacing the middle part of a firing list by one with the same total
      for an aspect keeps the whole list's total for it. */
  lemma SwapMiddleTotal(pre: seq<Firing>, m1: seq<Firing>, m2: seq<Firing>, post: seq<Firing>, a: Aspect)
    requires AspectTotal(Deltas(m1), a) == AspectTotal(Deltas(m2), a)
    ensures AspectTotal(Deltas(pre + m1 + post), a) == AspectTotal(Deltas(pre + m2 + post), a)
  {
    ThreePartTotal(pre, m1, post, a);
    ThreePartTotal(pre, m2, post, a);
  }

  /** The experience rules adjust pressure handling and nothing else. */
  lemma ExperienceTouchesOnlyPressure(personal: Option<PersonalFactors>, a: Aspect)
    requires a != PressureHandling
    ensures AspectTotal(Deltas(ExperienceFirings(personal)), a) == 0.0
  {
    PressureHandlingOnly(ExperienceFirings(personal), a);
  }

  /** The player scores read only the confidence, stress, focus and
      motivation totals of the adjustments. */
  lemma PlayerScoresReadFourAspects(position: string, recent: Option<RecentPerformance>,
                                    p1: Option<PersonalFactors>, p2: Option<PersonalFactors>)
    requires var x := Deltas(PlayerFirings(position, recent, p1));
             var y := Deltas(PlayerFirings(position, recent, p2));
      AspectTotal(x, Confidence) == AspectTotal(y, Confidence) && AspectTotal(x, Stress) == AspectTotal(y, Stress)
      && AspectTotal(x, Focus) == AspectTotal(y, Focus) && AspectTotal(x, Motivation) == AspectTotal(y, Motivation)
    ensures var r1 := AnalyzePlayer("", "", position, recent, p1);
            var r2 := AnalyzePlayer("", "", position, recent, p2);
      r1.confidenceLevel == r2.confidenceLevel && r1.stressLevel == r2.stressLevel
      && r1.focusLevel == r2.focusLevel && r1.motivationLevel == r2.motivationLevel
      && r1.overallScore == r2.overallScore && r1.impactOnPerformance == r2.impactOnPerformance
  {
  }

  /** Experience only reports a factor: a veteran, a young player and anyone
      in between get the same four scores. */
  lemma ExperienceNeverChangesScores(position: string, recent: Option<RecentPerformance>,
                                     contract: Option<string>, events: seq<Option<string>>,
                                     age: Option<int>, years1: Option<int>, years2: Option<int>)
    ensures var r1 := AnalyzePlayer("", "", position, recent, Some(PersonalFactors(contract, events, age, years1)));
            var r2 := AnalyzePlayer("", "", position, recent, Some(PersonalFactors(contract, events, age, years2)));
      r1.confidenceLevel == r2.confidenceLevel && r1.stressLevel == r2.stressLevel
      && r1.focusLevel == r2.focusLevel && r1.motivationLevel == r2.motivationLevel
      && r1.overallScore == r2.overallScore && r1.impactOnPerformance == r2.impactOnPerformance
  {
    var p1 := Some(PersonalFactors(contract, events, age, years1));
    var p2 := Some(PersonalFactors(contract, events, age, years2));
    var pre := TrendFirings(TrendOf(recent)) + ContractFirings(p1) + EventFirings(events);
    assert ContractFirings(p1) == ContractFirings(p2);
    var post := PositionFirings(position);
    var e1 := ExperienceFirings(p1);
    var e2 := ExperienceFirings(p2);
    assert PlayerFirings(position, recent, p1) == pre + e1 + post;
    assert PlayerFirings(position, recent, p2) == pre + e2 + post;
    forall a | a != PressureHandling
      ensures AspectTotal(Deltas(pre + e1 + post), a) == AspectTotal(Deltas(pre + e2 + post), a)
    {
      ExperienceTouchesOnlyPressure(p1, a);
      ExperienceTouchesOnlyPressure(p2, a);
      SwapMiddleTotal(pre, e1, e2, post, a);
    }
    PlayerScoresReadFourAspects(position, recent, p1, p2);
  }

  /** A quarterback, point guard or pitcher carries 0.1 more raw stress than
      the same player in any other position. */
  lemma HighPressurePositionAddsStress(pressured: string, other: string,
                                       recent: Option<RecentPerformance>, personal: Option<PersonalFactors>)
    requires IsHighPressurePosition(pressured) && !IsHighPressurePosition(other)
    ensures AspectTotal(Deltas(PlayerFirings(pressured, recent, personal)), Stress)
         == AspectTotal(Deltas(PlayerFirings(other, recent, personal)), Stress) + 0.1
  {
    var pre := TrendFirings(TrendOf(recent)) + ContractFirings(personal)
             + (if personal.Some? then EventFirings(personal.value.lifeEvents) else [])
             + ExperienceFirings(personal);
    var extra := [Fired(HighPressurePosition, [(Stress, 0.1)])];
    assert PlayerFirings(pressured, recent, personal) == pre + extra;
    assert PlayerFirings(other, recent, personal) == pre + [];
    assert pre + [] == pre;
    DeltasAppend(pre, extra);
    assert Deltas(extra) == [(Stress, 0.1)] + Deltas<PlayerFactor>([]);
    assert Deltas(extra) == [(Stress, 0.1)];
    assert AspectTotal([(Stress, 0.1)], Stress) == 0.1 + AspectTotal([], Stress);
    AspectTotalAppend(Deltas(pre), [(Stress, 0.1)], Stress);
  }

  // ---- Team analysis ----

  datatype TeamFactor =
    | WinningStreak(games: nat)
    | LosingStreak(games: nat)
    | HighPlayoffPressure
    | PlayoffMotivation
    | CoachingInstability
    | NewCoachingStaff
    | HighMediaScrutiny
    | NoSignificantTeamFactors

  function TeamFactorText(f: TeamFactor): string
  {
    match f
    case WinningStreak(n) => Text.NatToString(n) + "-game winning streak"
    case LosingStreak(n) => Text.NatToString(n) + "-game losing streak"
    case HighPlayoffPressure => "High playoff pressure"
    case PlayoffMotivation => "Playoff game motivation"
    case CoachingInstability => "Coaching instability"
    case NewCoachingStaff => "New coaching staff"
    case HighMediaScrutiny => "High media scrutiny"
    case NoSignificantTeamFactors => "No significant team factors"
  }

  type TeamFiring = Fired<TeamFactor>

  /** A non-empty recent team performance dictionary (streaks default to 0). */
  datatype TeamPerformance = TeamPerformance(winStreak: Option<nat>, lossStreak: Option<nat>)

  /** A non-empty team-factors dictionary. */
  datatype TeamFactors = TeamFactors(
    isPlayoffGame: Option<bool>,
    playoffPressure: Option<real>,
    coachingStability: Option<string>,
    mediaPressure: Option<real>)

  datatype TeamMentalHealth = TeamMentalHealth(
    team: string,
    overallScore: real,
    teamChemistry: real,
    morale: real,
    pressureHandling: real,
    keyPlayerImpacts: seq<real>,
    factors: seq<TeamFactor>,
    impactOnWinProbability: real)

  function StreakFirings(perf: Option<TeamPerformance>): seq<TeamFiring>
  {
    if perf.None? then []
    else
      var wins := perf.value.winStreak.GetOr(0);
      var losses := perf.value.lossStreak.GetOr(0);
      if wins >= 3 then [Fired(WinningStreak(wins), [(Morale, 0.15), (Chemistry, 0.1)])]
      else if losses >= 3 then [Fired(LosingStreak(losses), [(Morale, -0.2), (Confidence, -0.15)])]
      else []
  }

  function TeamFactorFirings(tf: Option<TeamFactors>): seq<TeamFiring>
  {
    if tf.None? then []
    else
      var f := tf.value;
      var playoff :=
        if f.isPlayoffGame.GetOr(false) then
          (if f.playoffPressure.GetOr(0.0) > 0.7 then [Fired(HighPlayoffPressure, [(PressureHandling, -0.15)])]
           else [Fired(PlayoffMotivation, [(Motivation, 0.1)])])
        else [];
      var stability := f.coachingStability.GetOr("stable");
      var coaching :=
        if stability == "unstable" then [Fired(CoachingInstability, [(Chemistry, -0.1), (Morale, -0.1)])]
        else if stability == "new_coach" then [Fired(NewCoachingStaff, [(Chemistry, -0.05)])]
        else [];
      var media := if f.mediaPressure.GetOr(0.0) > 0.6 then [Fired(HighMediaScrutiny, [(Stress, 0.1)])] else [];
      playoff + coaching + media
  }

  /** `np.mean`, with 0 for no players. */
  function MeanOrZero(xs: seq<real>): real
  {
    if |xs| == 0 then 0.0 else Sum(xs) / (|xs| as real)
  }

  /** Team score and impact from the three team aspects and the mean key
      player impact. */
  function TeamScore(chemistry: real, morale: real, pressure: real, avgKey: real): real
  {
    Unit(chemistry * 0.3 + morale * 0.3 + pressure * 0.2 + (1.0 + avgKey) * 0.2)
  }

  function AnalyzeTeam(team: string, keyPlayerImpacts: seq<real>, perf: Option<TeamPerformance>,
                       tf: Option<TeamFactors>): (r: TeamMentalHealth)
    ensures 0.0 <= r.teamChemistry <= 1.0 && 0.0 <= r.morale <= 1.0 && 0.0 <= r.pressureHandling <= 1.0
    ensures 0.0 <= r.overallScore <= 1.0
    ensures var adjs := Deltas(StreakFirings(perf) + TeamFactorFirings(tf));
      r.teamChemistry == Unit(0.75 + AspectTotal(adjs, Chemistry))
      && r.morale == Unit(0.7 + AspectTotal(adjs, Morale))
      && r.pressureHandling == Unit(0.65 + AspectTotal(adjs, PressureHandling))
    ensures r.overallScore == TeamScore(r.teamChemistry, r.morale, r.pressureHandling, MeanOrZero(keyPlayerImpacts))
    ensures r.impactOnWinProbability == (r.overallScore - 0.5) * 0.12 + MeanOrZero(keyPlayerImpacts) * 0.15
    ensures |keyPlayerImpacts| == 0 ==> r.impactOnWinProbability == (r.overallScore - 0.5) * 0.12
    ensures r.keyPlayerImpacts == keyPlayerImpacts
  {
    var fs := StreakFirings(perf) + TeamFactorFirings(tf);
    var adjs := Deltas(fs);
    var avgKey := MeanOrZero(keyPlayerImpacts);
    var chemistry := Unit(0.75 + AspectTotal(adjs, Chemistry));
    var morale := Unit(0.7 + AspectTotal(adjs, Morale));
    var pressure := Unit(0.65 + AspectTotal(adjs, PressureHandling));
    var score := TeamScore(chemistry, morale, pressure, avgKey);
    TeamMentalHealth(team, score, chemistry, morale, pressure, keyPlayerImpacts,
                     if |fs| == 0 then [NoSignificantTeamFactors] else Factors(fs),
                     (score - 0.5) * 0.12 + avgKey * 0.15)
  }

  /** The team scores read only the chemistry, morale and pressure-handling
      totals of the adjustments. */
  lemma TeamScoresReadThreeAspects(team: string, impacts: seq<real>, perf: Option<TeamPerformance>,
                                   tf1: Option<TeamFactors>, tf2: Option<TeamFactors>)
    requires var x := Deltas(StreakFirings(perf) + TeamFactorFirings(tf1));
             var y := Deltas(StreakFirings(perf) + TeamFactorFirings(tf2));
      AspectTotal(x, Chemistry) == AspectTotal(y, Chemistry)
      && AspectTotal(x, Morale) == AspectTotal(y, Morale)
      && AspectTotal(x, PressureHandling) == AspectTotal(y, PressureHandling)
    ensures AnalyzeTeam(team, impacts, perf, tf1).overallScore == AnalyzeTeam(team, impacts, perf, tf2).overallScore
    ensures AnalyzeTeam(team, impacts, perf, tf1).impactOnWinProbability
         == AnalyzeTeam(team, impacts, perf, tf2).impactOnWinProbability
  {
  }

  lemma MediaFiring(playoff: Option<bool>, pressure: Option<real>, coaching: Option<string>, media: real)
    requires media > 0.6
    ensures TeamFactorFirings(Some(TeamFactors(playoff, pressure, coaching, Some(media))))
         == TeamFactorFirings(Some(TeamFactors(playoff, pressure, coaching, None)))
          + [Fired(HighMediaScrutiny, [(Stress, 0.1)])]
  {
    var f2 := TeamFactorFirings(Some(TeamFactors(playoff, pressure, coaching, None)));
    assert f2 + [] == f2;
  }

  /** Team-level "stress" (from media pressure) has no effect: a team under
      heavy media scrutiny gets one more factor but scores exactly like one
      without it. */
  lemma MediaPressureHasNoEffect(team: string, impacts: seq<real>, perf: Option<TeamPerformance>,
                                 playoff: Option<bool>, pressure: Option<real>, coaching: Option<string>, media: real)
    requires media > 0.6
    ensures var r1 := AnalyzeTeam(team, impacts, perf, Some(TeamFactors(playoff, pressure, coaching, Some(media))));
            var r2 := AnalyzeTeam(team, impacts, perf, Some(TeamFactors(playoff, pressure, coaching, None)));
      r1.overallScore == r2.overallScore && r1.impactOnWinProbability == r2.impactOnWinProbability
      && HighMediaScrutiny in r1.factors && HighMediaScrutiny !in r2.factors
  {
    var tf1 := Some(TeamFactors(playoff, pressure, coaching, Some(media)));
    var tf2 := Some(TeamFactors(playoff, pressure, coaching, None));
    var extra := [Fired(HighMediaScrutiny, [(Stress, 0.1)])];
    var base := StreakFirings(perf) + TeamFactorFirings(tf2);
    MediaFiring(playoff, pressure, coaching, media);
    var fs1 := StreakFirings(perf) + TeamFactorFirings(tf1);
    assert fs1 == base + extra;
    DeltasAppend(base, extra);
    assert Deltas(extra) == [(Stress, 0.1)] + Deltas<TeamFactor>([]);
    assert Deltas(extra) == [(Stress, 0.1)];
    AspectTotalAppend(Deltas(base), [(Stress, 0.1)], Chemistry);
    AspectTotalAppend(Deltas(base), [(Stress, 0.1)], Morale);
    AspectTotalAppend(Deltas(base), [(Stress, 0.1)], PressureHandling);
    AspectAbsent([(Stress, 0.1)], Chemistry);
    AspectAbsent([(Stress, 0.1)], Morale);
    AspectAbsent([(Stress, 0.1)], PressureHandling);
    TeamScoresReadThreeAspects(team, impacts, perf, tf1, tf2);
    NoMediaFactorWithoutMedia(perf, tf2);
    var r1 := AnalyzeTeam(team, impacts, perf, tf1);
    assert r1.factors == Factors(fs1);
    assert r1.factors[|fs1| - 1] == HighMediaScrutiny;
  }

  lemma TeamFactorsListed(team: string, impacts: seq<real>, perf: Option<TeamPerformance>, tf: Option<TeamFactors>)
    ensures var fs := StreakFirings(perf) + TeamFactorFirings(tf);
      AnalyzeTeam(team, impacts, perf, tf).factors == if |fs| == 0 then [NoSignificantTeamFactors] else Factors(fs)
  {
  }

  lemma NoMediaRuleFires(perf: Option<TeamPerformance>, tf: Option<TeamFactors>)
    requires tf.Some? && tf.value.mediaPressure.None?
    ensures forall i :: 0 <= i < |StreakFirings(perf)| ==> StreakFirings(perf)[i].factor != HighMediaScrutiny
    ensures forall i :: 0 <= i < |TeamFactorFirings(tf)| ==> TeamFactorFirings(tf)[i].factor != HighMediaScrutiny
  {
  }

  /** Without media pressure no rule reports media scrutiny. */
  lemma NoMediaFactorWithoutMedia(perf: Option<TeamPerformance>, tf: Option<TeamFactors>)
    requires tf.Some? && tf.value.mediaPressure.None?
    ensures HighMediaScrutiny !in AnalyzeTeam("", [], perf, tf).factors
    ensures forall team, impacts :: AnalyzeTeam(team, impacts, perf, tf).factors == AnalyzeTeam("", [], perf, tf).factors
  {
    var s := StreakFirings(perf);
    var t := TeamFactorFirings(tf);
    var fs := s + t;
    NoMediaRuleFires(perf, tf);
    forall i | 0 <= i < |fs| ensures fs[i].factor != HighMediaScrutiny {
      if i >= |s| { assert fs[i] == t[i - |s|]; }
    }
    TeamFactorsListed("", [], perf, tf);
    forall team, impacts ensures AnalyzeTeam(team, impacts, perf, tf).factors == AnalyzeTeam("", [], perf, tf).factors {
      TeamFactorsListed(team, impacts, perf, tf);
    }
  }

  lemma {:induction false} SumBounded(xs: seq<real>, bound: real)
    requires forall i :: 0 <= i < |xs| ==> -bound <= xs[i] <= bound
    ensures -bound * (|xs| as real) <= Sum(xs) <= bound * (|xs| as real)
    decreases |xs|
  {
    if |xs| > 0 {
      SumBounded(xs[1..], bound);
      assert bound * (|xs| as real) == bound + bound * (|xs[1..]| as real);
    }
  }

  /** When every key player's impact is within the player bound of 0.15, the
      team's win-probability impact stays within 0.0825. */
  lemma TeamImpactBounded(team: string, impacts: seq<real>, perf: Option<TeamPerformance>, tf: Option<TeamFactors>)
    requires forall i :: 0 <= i < |impacts| ==> -0.15 <= impacts[i] <= 0.15
    ensures -0.0825 <= AnalyzeTeam(team, impacts, perf, tf).impactOnWinProbability <= 0.0825
  {
    var avg := MeanOrZero(impacts);
    if |impacts| > 0 {
      SumBounded(impacts, 0.15);
      var n := |impacts| as real;
      var total := Sum(impacts);
      DivMonotone(total, 0.15 * n, n);
      QuotientOfProduct(0.15, n, 0.15 * n);
      DivMonotone(-0.15 * n, total, n);
      QuotientOfProduct(-0.15, n, -0.15 * n);
      assert avg == total / n;
    }
  }
}

=== FILE: ml_models.dfy ===
/** The deterministic parts of `AdvancedMLPredictor` and
    `PlayerPropMLPredictor`: the 27-value feature vector, the heuristic
    fallback, how a home-win probability becomes a winner and a confidence,
    and the boundary branches of the prop probability. The trained models
    themselves are outside the model: their probabilities arrive as inputs,
    and so does the normal-tail approximation used between z = -6 and 6. */
module MlModels {
  import opened Wrappers
  import opened Num
  import Prediction
  import Statistics

  // ---- Feature extraction ----

  /** `{"wins": …, "losses": …}` for the home or away record. */
  datatype VenueRecord = VenueRecord(wins: Option<real>, losses: Option<real>)

  /** The team dictionary as the feature extractor reads it: the predictor's
      statistics plus the home and away records. */
  datatype MlTeamStats = MlTeamStats(
    core: Prediction.TeamStats,
    homeRecord: Option<VenueRecord>,
    awayRecord: Option<VenueRecord>)

  datatype InjuryCounts = InjuryCounts(keyPlayersOut: Option<real>, totalInjuries: Option<real>)

  /** The injury dictionary; `None` sides are missing keys. */
  datatype InjuryData = InjuryData(homeInjuries: Option<InjuryCounts>, awayInjuries: Option<InjuryCounts>)

  const FeatureCount: nat := 27

  /** The width the synthetic training data is generated with. */
  const TrainingFeatureCount: nat := 28

  const DefaultWeatherFeatures: seq<real> := [0.7, 0.0, 0.0, 0.0, 0.0, 0.0]
  const DefaultInjuryFeatures: seq<real> := [0.0, 0.0, 0.0, 0.0]

  function WinRate(s: MlTeamStats): real { s.core.winRate.GetOr(0.5) }
  function PointsFor(s: MlTeamStats): real { s.core.pointsPerGame.GetOr(0.0) }
  function PointsAgainst(s: MlTeamStats): real { s.core.pointsAllowedPerGame.GetOr(0.0) }
  function Form(s: MlTeamStats): real { s.core.recentForm.GetOr(0.5) }

  function RecordWins(r: Option<VenueRecord>): real { if r.Some? then r.value.wins.GetOr(0.0) else 0.0 }
  function RecordLosses(r: Option<VenueRecord>): real { if r.Some? then r.value.losses.GetOr(0.0) else 0.0 }

  function Indicator(b: bool): real { if b then 1.0 else 0.0 }

  /** The six team features; `venue` is the home record for the home side
      and the away record for the away side. */
  function TeamFeatures(s: MlTeamStats, venue: Option<VenueRecord>): (r: seq<real>)
    ensures |r| == 6
  {
    [WinRate(s), PointsFor(s) / 100.0, PointsAgainst(s) / 100.0, Form(s),
     RecordWins(venue) / 10.0, RecordLosses(venue) / 10.0]
  }

  function DifferentialFeatures(home: MlTeamStats, away: MlTeamStats): (r: seq<real>)
    ensures |r| == 4
  {
    [WinRate(home) - WinRate(away),
     (PointsFor(home) - PointsAgainst(away)) / 100.0,
     (PointsFor(away) - PointsAgainst(home)) / 100.0,
     Form(home) - Form(away)]
  }

  /** A present weather dictionary is scaled and thresholded; a missing or
      empty one gives the defaults. */
  function WeatherFeatures(weather: Option<Prediction.Weather>): (r: seq<real>)
    ensures |r| == 6
    ensures weather.None? ==> r == DefaultWeatherFeatures
    ensures weather.Some? ==>
      var w := weather.value;
      (r[3] == 1.0 <==> w.temp.GetOr(70.0) < 32.0)
      && (r[4] == 1.0 <==> w.windSpeed.GetOr(0.0) > 20.0)
      && (r[5] == 1.0 <==> w.precipitation.GetOr(0.0) > 0.0)
  {
    if weather.None? then DefaultWeatherFeatures
    else
      var temp := weather.value.temp.GetOr(70.0);
      var wind := weather.value.windSpeed.GetOr(0.0);
      var precip := weather.value.precipitation.GetOr(0.0);
      [temp / 100.0, wind / 50.0, precip / 10.0,
       Indicator(temp < 32.0), Indicator(wind > 20.0), Indicator(precip > 0.0)]
  }

  function CountsFeatures(c: Option<InjuryCounts>): (r: seq<real>)
    ensures |r| == 2
  {
    if c.None? then [0.0, 0.0]
    else [c.value.keyPlayersOut.GetOr(0.0) / 5.0, c.value.totalInjuries.GetOr(0.0) / 10.0]
  }

  function InjuryFeatures(injuries: Option<InjuryData>): (r: seq<real>)
    ensures |r| == 4
    ensures injuries.None? ==> r == DefaultInjuryFeatures
  {
    if injuries.None? then DefaultInjuryFeatures
    else CountsFeatures(injuries.value.homeInjuries) + CountsFeatures(injuries.value.awayInjuries)
  }

  /** `_extract_features`: home (0-5), away (6-11), differentials (12-15),
      weather (16-21), injuries (22-25) and the home advantage (26). */
  function ExtractFeatures(home: MlTeamStats, away: MlTeamStats, weather: Option<Prediction.Weather>,
                           injuries: Option<InjuryData>): (r: seq<real>)
    ensures |r| == FeatureCount
    ensures r[0] == WinRate(home) && r[6] == WinRate(away) && r[12] == r[0] - r[6]
    ensures r[3] == Form(home) && r[9] == Form(away) && r[15] == r[3] - r[9]
    ensures r[4] == RecordWins(home.homeRecord) / 10.0 && r[10] == RecordWins(away.awayRecord) / 10.0
    ensures r[16..22] == WeatherFeatures(weather) && r[22..26] == InjuryFeatures(injuries)
    ensures r[26] == Prediction.HomeAdvantage
  {
    TeamFeatures(home, home.homeRecord) + TeamFeatures(away, away.awayRecord)
    + DifferentialFeatures(home, away) + WeatherFeatures(weather) + InjuryFeatures(injuries)
    + [0.03]
  }

  /** The vector is 27 wide whatever is supplied, one short of the 28 the
      training data uses, and the missing-data defaults fill fixed slots. */
  lemma FeatureWidthIsFixed(home: MlTeamStats, away: MlTeamStats)
    ensures var bare := ExtractFeatures(home, away, None, None);
      |bare| != TrainingFeatureCount
      && bare[16..22] == [0.7, 0.0, 0.0, 0.0, 0.0, 0.0] && bare[22..26] == [0.0, 0.0, 0.0, 0.0]
  {
  }

  /** The three weather indicators are set exactly at their thresholds'
      far sides: freezing below 32, wind above 20, any precipitation. */
  lemma WeatherIndicatorsFollowThresholds(home: MlTeamStats, away: MlTeamStats, w: Prediction.Weather,
                                          injuries: Option<InjuryData>)
    ensures var f := ExtractFeatures(home, away, Some(w), injuries);
      (f[19] == 1.0 <==> w.temp.GetOr(70.0) < 32.0)
      && (f[20] == 1.0 <==> w.windSpeed.GetOr(0.0) > 20.0)
      && (f[21] == 1.0 <==> w.precipitation.GetOr(0.0) > 0.0)
  {
    var f := ExtractFeatures(home, away, Some(w), injuries);
    var ws := WeatherFeatures(Some(w));
    assert f[16..22] == ws;
    assert f[19] == ws[3] && f[20] == ws[4] && f[21] == ws[5];
  }

  // ---- Game prediction ----

  /** `_fallback_prediction`: the predictor's weighted strengths, NOT
      clamped, with the home advantage; 0.5 when the total is not positive. */
  function FallbackPrediction(home: Prediction.TeamStats, away: Prediction.TeamStats): (r: real)
    ensures var h := Prediction.WeightedStrength(home) + 0.03;
      var t := h + Prediction.WeightedStrength(away);
      (t <= 0.0 ==> r == 0.5) && (t > 0.0 ==> r * t == h)
  {
    var h := Prediction.WeightedStrength(home) + 0.03;
    var total := h + Prediction.WeightedStrength(away);
    if total > 0.0 then h / total else 0.5
  }

  /** When neither weighted strength leaves [0.1, 0.9] the fallback agrees
      with the statistical predictor's base probability. */
  lemma FallbackAgreesWithPredictorInRange(home: Prediction.TeamStats, away: Prediction.TeamStats)
    requires 0.1 <= Prediction.WeightedStrength(home) <= 0.9
    requires 0.1 <= Prediction.WeightedStrength(away) <= 0.9
    ensures FallbackPrediction(home, away)
         == Prediction.BaseProbabilities(Prediction.TeamStrength(home), Prediction.TeamStrength(away)).0
  {
  }

  /** Without the clamp a team that concedes 300 points a game has negative
      strength, and the fallback "probability" exceeds 1. */
  lemma FallbackCanExceedOne()
    ensures FallbackPrediction(Prediction.TeamStats(None, None, None, None),
                               Prediction.TeamStats(None, None, Some(300.0), None)) > 1.0
  {
    var h := Prediction.WeightedStrength(Prediction.TeamStats(None, None, None, None)) + 0.03;
    var a := Prediction.WeightedStrength(Prediction.TeamStats(None, None, Some(300.0), None));
    assert h == 0.48 && a == -0.15;
  }

  datatype ModelChoice = Ensemble | SingleModel(name: string)

  /** Where the home-win probability comes from: the mean of the ensemble
      members that produced one, the fallback when none did, or the single
      model's own output. */
  function HomeWinProbability(choice: ModelChoice, modelOutputs: seq<real>,
                              home: Prediction.TeamStats, away: Prediction.TeamStats): (r: Option<real>)
    ensures choice.SingleModel? ==> (r.Some? <==> |modelOutputs| > 0)
    ensures choice.SingleModel? && |modelOutputs| > 0 ==> r == Some(modelOutputs[0])
    ensures choice.Ensemble? && |modelOutputs| == 0 ==> r == Some(FallbackPrediction(home, away))
    ensures choice.Ensemble? && |modelOutputs| > 0 ==> r == Some(Statistics.Mean(modelOutputs))
  {
    if choice.Ensemble? then
      if |modelOutputs| > 0 then Some(Statistics.Mean(modelOutputs)) else Some(FallbackPrediction(home, away))
    else if |modelOutputs| > 0 then Some(modelOutputs[0])
    else None
  }

  /** An ensemble of probabilities averages to a probability. */
  lemma EnsembleIsProbability(modelOutputs: seq<real>, home: Prediction.TeamStats, away: Prediction.TeamStats)
    requires |modelOutputs| > 0
    requires forall i :: 0 <= i < |modelOutputs| ==> 0.0 <= modelOutputs[i] <= 1.0
    ensures var r := HomeWinProbability(Ensemble, modelOutputs, home, away);
      r.Some? && 0.0 <= r.value <= 1.0
  {
    Statistics.MeanBetween(modelOutputs, 0.0, 1.0);
  }

  datatype MlGamePrediction = MlGamePrediction(
    predictedWinner: string,
    homeWinProbability: real,
    awayWinProbability: real,
    confidence: real,
    modelType: string,
    featuresUsed: nat)

  /** The tail of `predict_game_ml`: the complement, the confidence on a
      0-1 scale and the winner, home only above one half. */
  function PredictGameMl(homeTeam: string, awayTeam: string, homeWinProb: real, modelType: string,
                         features: seq<real>): (r: MlGamePrediction)
    ensures r.homeWinProbability == homeWinProb
    ensures r.homeWinProbability + r.awayWinProbability == 1.0
    ensures r.confidence == 2.0 * Abs(homeWinProb - 0.5)
    ensures homeWinProb > 0.5 ==> r.predictedWinner == homeTeam
    ensures homeWinProb <= 0.5 ==> r.predictedWinner == awayTeam
    ensures r.featuresUsed == |features|
  {
    var confidence := Abs(homeWinProb - 0.5) * 2.0;
    MlGamePrediction(if homeWinProb > 0.5 then homeTeam else awayTeam,
                     homeWinProb, 1.0 - homeWinProb, confidence, modelType, |features|)
  }

  /** For a probability the confidence is a fraction, and it is zero exactly
      at an even call, which goes to the away team. */
  lemma MlConfidenceIsFraction(homeTeam: string, awayTeam: string, p: real, modelType: string, features: seq<real>)
    requires 0.0 <= p <= 1.0
    ensures var r := PredictGameMl(homeTeam, awayTeam, p, modelType, features);
      0.0 <= r.confidence <= 1.0 && (r.confidence == 0.0 <==> p == 0.5)
      && (p == 0.5 ==> r.predictedWinner == awayTeam)
  {
  }

  // ---- Player props ----

  /** The over probability for a line: even for a falsy line, certain
      beyond six standard deviations, and otherwise the normal tail
      `tail(z)`, which stands for `0.5 * (1 + erf(-z / sqrt 2))`. A
      non-positive prediction has no spread and is scored at z = 0. */
  function OverProbabilityMl(predictedValue: real, line: Option<real>, tail: real -> real): (p: real)
    ensures !Truthy(line) ==> p == 0.5
    ensures Truthy(line) && predictedValue <= 0.0 ==> p == tail(0.0)
    ensures Truthy(line) && predictedValue > 0.0 ==>
      var z := (line.value - predictedValue) / (predictedValue * 0.15);
      (z < -6.0 ==> p == 1.0) && (z > 6.0 ==> p == 0.0) && (-6.0 <= z <= 6.0 ==> p == tail(z))
  {
    if Truthy(line) then
      var stdDev := predictedValue * 0.15;
      var z := if stdDev > 0.0 then (line.value - predictedValue) / stdDev else 0.0;
      if z < -6.0 then 1.0 else if z > 6.0 then 0.0 else tail(z)
    else 0.5
  }

  /** A line far below a positive prediction is a certain over, and far
      above it a certain under. */
  lemma FarLinesAreCertain(predictedValue: real, tail: real -> real)
    requires predictedValue > 0.0
    ensures OverProbabilityMl(predictedValue, Some(predictedValue * 0.05), tail) == 1.0
    ensures OverProbabilityMl(predictedValue, Some(predictedValue * 2.0), tail) == 0.0
  {
    var sd := predictedValue * 0.15;
    var low := predictedValue * 0.05;
    var high := predictedValue * 2.0;
    assert (low - predictedValue) == sd * (-6.0 - 1.0 / 3.0);
    assert (low - predictedValue) / sd == -6.0 - 1.0 / 3.0;
    assert (high - predictedValue) == sd * (6.0 + 2.0 / 3.0);
    assert (high - predictedValue) / sd == 6.0 + 2.0 / 3.0;
  }

  /** `predict_player_prop_ml`; the matchup factor is the statistical
      predictor's, which the ML class repeats verbatim. */
  function PredictPlayerPropMl(playerName: string, propType: string, playerStats: map<string, real>,
                               opponentStats: map<string, real>, historicalAvg: real, line: Option<real>,
                               tail: real -> real): (r: Prediction.PropPrediction)
    ensures r.playerName == playerName && r.propType == propType && r.historicalAvg == historicalAvg
    ensures r.matchupFactor == Prediction.MatchupFactor(opponentStats, propType)
    ensures 0.7 <= r.matchupFactor <= 1.3
    ensures r.predictedValue == Prediction.Lookup(playerStats, propType + "_avg", historicalAvg) * r.matchupFactor
    ensures r.overProbability == OverProbabilityMl(r.predictedValue, line, tail)
    ensures r.underProbability == 1.0 - r.overProbability
    ensures r.confidence == Min(0.95, Prediction.Lookup(playerStats, "consistency", 0.7) * 0.9)
  {
    var factor := Prediction.MatchupFactor(opponentStats, propType);
    var predicted := Prediction.Lookup(playerStats, propType + "_avg", historicalAvg) * factor;
    var over := OverProbabilityMl(predicted, line, tail);
    Prediction.PropPrediction(playerName, propType, predicted, over, 1.0 - over,
                              Min(0.95, Prediction.Lookup(playerStats, "consistency", 0.7) * 0.9),
                              historicalAvg, factor)
  }
}

=== FILE: normalizer.dfy ===
/** `DataNormalizer`: team-name canonicalisation, game-id validation and
    the clamping of locations, team statistics and weather. A value the
    source passes through `float()` or `int()` is a `Value`: `Numeric(x)`
    when the conversion that field goes through accepts it, `NonNumeric`
    when it does not (which `clamp_float` maps to its minimum and every
    other conversion rejects with an error). The same raw value can be
    either: `"3.5"` is `Numeric(3.5)` for a rate, which goes through
    `float()`, but `NonNumeric` for a record's wins, which go through
    `int()`. */
module Normalizer {
  import opened Wrappers
  import opened Num
  import opened Text
  import Assoc

  datatype Value = Numeric(x: real) | NonNumeric

  // ---- clamp_float ----

  /** `clamp_float`: a number is clamped into [lo, hi], anything else
      becomes `lo`. */
  function ClampFloat(v: Value, lo: real, hi: real): (r: real)
    ensures lo <= hi ==> lo <= r <= hi
    ensures r >= lo
    ensures v.NonNumeric? ==> r == lo
    ensures v.Numeric? && lo <= v.x <= hi ==> r == v.x
  {
    match v
    case NonNumeric => lo
    case Numeric(x) => Max(lo, Min(hi, x))
  }

  /** Clamping a clamped value changes nothing. */
  lemma ClampFloatIdempotent(v: Value, lo: real, hi: real)
    requires lo <= hi
    ensures ClampFloat(Numeric(ClampFloat(v, lo, hi)), lo, hi) == ClampFloat(v, lo, hi)
  {
  }

  // ---- Team names ----

  type Mapping = seq<(string, string)>

  const NflTeams: Mapping := [
    ("KC", "Kansas City Chiefs"), ("BUF", "Buffalo Bills"), ("PHI", "Philadelphia Eagles"),
    ("LAR", "Los Angeles Rams"), ("SF", "San Francisco 49ers"), ("SEA", "Seattle Seahawks"),
    ("MIA", "Miami Dolphins"), ("NYJ", "New York Jets"), ("BAL", "Baltimore Ravens"),
    ("PIT", "Pittsburgh Steelers"), ("GB", "Green Bay Packers"), ("CHI", "Chicago Bears"),
    ("DET", "Detroit Lions"), ("MIN", "Minnesota Vikings"), ("CLE", "Cleveland Browns"),
    ("CIN", "Cincinnati Bengals"), ("DAL", "Dallas Cowboys"), ("NE", "New England Patriots"),
    ("NYG", "New York Giants"), ("TB", "Tampa Bay Buccaneers"), ("ATL", "Atlanta Falcons"),
    ("ARI", "Arizona Cardinals"), ("LV", "Las Vegas Raiders"), ("DEN", "Denver Broncos"),
    ("TEN", "Tennessee Titans"), ("JAX", "Jacksonville Jaguars"), ("NO", "New Orleans Saints"),
    ("CAR", "Carolina Panthers"), ("IND", "Indianapolis Colts"), ("HOU", "Houston Texans"),
    ("WAS", "Washington Commanders")]

  const NbaTeams: Mapping := [
    ("LAL", "Los Angeles Lakers"), ("BOS", "Boston Celtics"), ("GSW", "Golden State Warriors"),
    ("MIL", "Milwaukee Bucks"), ("DEN", "Denver Nuggets"), ("PHX", "Phoenix Suns"),
    ("MIA", "Miami Heat"), ("NYK", "New York Knicks"), ("DAL", "Dallas Mavericks"),
    ("CHI", "Chicago Bulls")]

  const MlbTeams: Mapping := [
    ("NYY", "New York Yankees"), ("BOS", "Boston Red Sox"), ("LAD", "Los Angeles Dodgers"),
    ("SF", "San Francisco Giants"), ("CHC", "Chicago Cubs"), ("STL", "St. Louis Cardinals"),
    ("HOU", "Houston Astros"), ("TEX", "Texas Rangers"), ("ATL", "Atlanta Braves"),
    ("PHI", "Philadelphia Phillies")]

  const NhlTeams: Mapping := [
    ("TOR", "Toronto Maple Leafs"), ("BOS", "Boston Bruins"), ("MTL", "Montreal Canadiens"),
    ("NYR", "New York Rangers"), ("EDM", "Edmonton Oilers"), ("VAN", "Vancouver Canucks"),
    ("CHI", "Chicago Blackhawks"), ("DET", "Detroit Red Wings"), ("PIT", "Pittsburgh Penguins"),
    ("WSH", "Washington Capitals")]

  /** The abbreviation table of a sport; an unknown sport has none. */
  function MappingFor(sport: string): Mapping
  {
    if sport == "nfl" then NflTeams
    else if sport == "nba" then NbaTeams
    else if sport == "mlb" then MlbTeams
    else if sport == "nhl" then NhlTeams
    else []
  }

  /** The full name of the first abbreviation, in table order, that occurs
      in `name`. */
  function FirstContained(m: Mapping, name: string): (r: Option<string>)
    ensures r.None? <==> forall i :: 0 <= i < |m| ==> !Contains(name, m[i].0)
    ensures r.Some? ==> exists i :: 0 <= i < |m| && Contains(name, m[i].0) && m[i].1 == r.value
                                    && forall j :: 0 <= j < i ==> !Contains(name, m[j].0)
    decreases |m|
  {
    if |m| == 0 then None
    else if Contains(name, m[0].0) then Some(m[0].1)
    else
      var r := FirstContained(m[1..], name);
      if r.Some? then
        ghost var i :| 0 <= i < |m[1..]| && Contains(name, m[1..][i].0) && m[1..][i].1 == r.value
                       && forall j :: 0 <= j < i ==> !Contains(name, m[1..][j].0);
        assert forall j :: 0 <= j < i + 1 ==> !Contains(name, m[j].0) by {
          forall j | 0 <= j < i + 1 ensures !Contains(name, m[j].0) {
            if j > 0 { assert m[j] == m[1..][j - 1]; }
          }
        }
        assert m[i + 1] == m[1..][i];
        r
      else
        r
  }

  /** `normalize_team_name` as written: empty stays empty; an exact
      abbreviation (any case) gives its full name; otherwise the first
      abbreviation occurring anywhere in the upper-cased name does, even
      inside a word; otherwise the stripped name is returned. */
  function NormalizeTeamName(name: string, sport: string): (r: string)
    ensures name == "" ==> r == ""
    ensures name != "" && Assoc.Find(MappingFor(sport), Upper(Strip(name))).Some? ==>
      r == Assoc.Find(MappingFor(sport), Upper(Strip(name))).value
    ensures name != "" && Assoc.Find(MappingFor(sport), Upper(Strip(name))).None? ==>
      r == FirstContained(MappingFor(sport), Upper(Strip(name))).GetOr(Strip(name))
  {
    if name == "" then ""
    else
      var t := Strip(name);
      var m := MappingFor(sport);
      match Assoc.Find(m, Upper(t))
      case Some(full) => full
      case None => FirstContained(m, Upper(t)).GetOr(t)
  }

  lemma UpperOfGiants(s: string)
    requires s == "New York Giants"
    ensures Upper(s) == "NEW YORK GIANTS" && Strip(s) == s
  {
    var r := Upper(s);
    var e := "NEW YORK GIANTS";
    forall i | 0 <= i < 15 ensures r[i] == e[i] {
      assert r[i] == UpperChar(s[i]);
    }
    StripOfTrimmed(s);
  }

  lemma GiantsMissesKcToLar(u: string)
    requires u == "NEW YORK GIANTS"
    ensures !Contains(u, "KC") && !Contains(u, "BUF") && !Contains(u, "PHI") && !Contains(u, "LAR")
  {
    NotContainedMissingChar(u, "KC", 1);
    NotContainedMissingChar(u, "BUF", 0);
    NotContainedMissingChar(u, "PHI", 0);
    NotContainedMissingChar(u, "LAR", 0);
  }

  lemma GiantsMissesSfToNyj(u: string)
    requires u == "NEW YORK GIANTS"
    ensures !Contains(u, "SF") && !Contains(u, "SEA") && !Contains(u, "MIA") && !Contains(u, "NYJ")
  {
    NotContainedMissingChar(u, "SF", 1);
    NotContainedNoStart(u, "SEA");
    NotContainedMissingChar(u, "MIA", 0);
    NotContainedMissingChar(u, "NYJ", 2);
  }

  lemma GiantsMissesBalToChi(u: string)
    requires u == "NEW YORK GIANTS"
    ensures !Contains(u, "BAL") && !Contains(u, "PIT") && !Contains(u, "GB") && !Contains(u, "CHI")
  {
    NotContainedMissingChar(u, "BAL", 0);
    NotContainedMissingChar(u, "PIT", 0);
    NotContainedMissingChar(u, "GB", 1);
    NotContainedMissingChar(u, "CHI", 0);
  }

  lemma GiantsMissesDetToDal(u: string)
    requires u == "NEW YORK GIANTS"
    ensures !Contains(u, "DET") && !Contains(u, "MIN") && !Contains(u, "CLE") && !Contains(u, "CIN")
    ensures !Contains(u, "DAL")
  {
    NotContainedMissingChar(u, "DET", 0);
    NotContainedMissingChar(u, "MIN", 0);
    NotContainedMissingChar(u, "CLE", 0);
    NotContainedMissingChar(u, "CIN", 0);
    NotContainedMissingChar(u, "DAL", 0);
  }

  /** Of the NFL abbreviations, "NE" is the first inside "NEW YORK GIANTS". */
  lemma GiantsFirstContains(u: string)
    requires u == "NEW YORK GIANTS"
    ensures forall j :: 0 <= j < 17 ==> !Contains(u, NflTeams[j].0)
    ensures Contains(u, NflTeams[17].0)
  {
    GiantsMissesKcToLar(u);
    GiantsMissesSfToNyj(u);
    GiantsMissesBalToChi(u);
    GiantsMissesDetToDal(u);
    assert StartsWith(u, "NE");
  }

  /** The first abbreviation that occurs decides `FirstContained`. */
  lemma {:induction false} FirstContainedAt(m: Mapping, name: string, k: int)
    requires 0 <= k < |m| && Contains(name, m[k].0)
    requires forall j :: 0 <= j < k ==> !Contains(name, m[j].0)
    ensures FirstContained(m, name) == Some(m[k].1)
    decreases k
  {
    if k > 0 {
      FirstContainedAt(m[1..], name, k - 1);
    }
  }

  /** Every abbreviation has at most three letters. */
  lemma AbbreviationsAreShort(sport: string)
    ensures forall i :: 0 <= i < |MappingFor(sport)| ==> |MappingFor(sport)[i].0| <= 3
  {
  }

  /** A key longer than every key of `m` is not found in it. */
  lemma LongKeyIsAbsent(m: Mapping, u: string)
    requires forall i :: 0 <= i < |m| ==> |m[i].0| < |u|
    ensures Assoc.Find(m, u).None?
  {
  }

  lemma GiantsIsNoAbbreviation(u: string, sport: string)
    requires u == "NEW YORK GIANTS"
    ensures Assoc.Find(MappingFor(sport), u).None?
  {
    AbbreviationsAreShort(sport);
    LongKeyIsAbsent(MappingFor(sport), u);
  }

  /** A name that is no abbreviation is named by its first contained one. */
  lemma NormalizedByContained(name: string, sport: string, full: string)
    requires name != "" && Assoc.Find(MappingFor(sport), Upper(Strip(name))).None?
    requires FirstContained(MappingFor(sport), Upper(Strip(name))) == Some(full)
    ensures NormalizeTeamName(name, sport) == full
  {
  }

  lemma PatriotsAtSeventeen()
    ensures NflTeams[17] == ("NE", "New England Patriots")
  {
  }

  /** "New York Giants", in any case and with any surrounding whitespace,
      is caught by the "NE" inside "NEW". */
  lemma GiantsBecomePatriots(name: string, sport: string)
    requires Upper(Strip(name)) == "NEW YORK GIANTS" && sport == "nfl"
    ensures NormalizeTeamName(name, sport) == "New England Patriots"
  {
    var u := Upper(Strip(name));
    var m := MappingFor(sport);
    GiantsIsNoAbbreviation(u, sport);
    GiantsFirstContains(u);
    FirstContainedAt(m, u, 17);
    PatriotsAtSeventeen();
    NormalizedByContained(name, sport, m[17].1);
  }

  /** As written, normalising is not idempotent: the canonical name of
      "NYG" normalises to another team. */
  lemma NygIsGiants(abbrev: string, sport: string)
    requires abbrev == "NYG" && sport == "nfl"
    ensures Assoc.Find(MappingFor(sport), abbrev) == Some("New York Giants")
  {
    var m := MappingFor(sport);
    forall j | 0 <= j < 18 ensures m[j].0 != abbrev {
      assert m[j].0[|m[j].0| - 1] != 'G' || m[j].0[0] != 'N';
    }
    Assoc.FindFirstKey(m, abbrev, 18);
  }

  lemma NygBecomesGiants(abbrev: string, sport: string)
    requires abbrev == "NYG" && sport == "nfl"
    ensures NormalizeTeamName(abbrev, sport) == "New York Giants"
  {
    assert Upper(abbrev) == abbrev by {
      assert Upper(abbrev)[0] == UpperChar(abbrev[0]);
      assert Upper(abbrev)[1] == UpperChar(abbrev[1]);
      assert Upper(abbrev)[2] == UpperChar(abbrev[2]);
    }
    StripOfTrimmed(abbrev);
    NygIsGiants(abbrev, sport);
  }

  lemma NormalizingTwiceChangesTeam(abbrev: string)
    requires abbrev == "NYG"
    ensures NormalizeTeamName(abbrev, "nfl") == "New York Giants"
    ensures NormalizeTeamName(NormalizeTeamName(abbrev, "nfl"), "nfl") == "New England Patriots"
  {
    NygBecomesGiants(abbrev, "nfl");
    var g := NormalizeTeamName(abbrev, "nfl");
    UpperOfGiants(g);
    GiantsBecomePatriots(g, "nfl");
  }

  /** Whether `name` is already one of the table's full names. */
  function IsFullName(m: Mapping, name: string): (r: bool)
    ensures r <==> exists i :: 0 <= i < |m| && m[i].1 == name
  {
    exists i :: 0 <= i < |m| && m[i].1 == name
  }

  /** The evidently intended normalisation: a name that already is a full
      team name is kept; the abbreviation rules apply to everything else. */
  function NormalizeTeamNameCorrected(name: string, sport: string): (r: string)
    ensures name == "" ==> r == ""
    ensures name != "" && IsFullName(MappingFor(sport), Strip(name)) ==> r == Strip(name)
    ensures name != "" && !IsFullName(MappingFor(sport), Strip(name)) ==> r == NormalizeTeamName(name, sport)
  {
    if name != "" && IsFullName(MappingFor(sport), Strip(name)) then Strip(name)
    else NormalizeTeamName(name, sport)
  }

  /** A non-empty name with no whitespace at either end. */
  predicate NameTrimmed(full: string)
  {
    |full| > 0 && !IsSpace(full[0]) && !IsSpace(full[|full| - 1])
  }

  /** Every full name in `m` is trimmed. */
  predicate FullNamesTrimmed(m: Mapping)
  {
    forall i :: 0 <= i < |m| ==> NameTrimmed(m[i].1)
  }

  lemma NflNamesTrimmedLow()
    ensures forall i :: 0 <= i < 16 ==> NameTrimmed(NflTeams[i].1)
  {
  }

  lemma NflNamesTrimmedHigh()
    ensures forall i :: 16 <= i < 31 ==> NameTrimmed(NflTeams[i].1)
  {
  }

  lemma NflNamesTrimmed() ensures FullNamesTrimmed(NflTeams)
  {
    NflNamesTrimmedLow();
    NflNamesTrimmedHigh();
  }
  lemma NbaNamesTrimmed() ensures FullNamesTrimmed(NbaTeams) {}
  lemma MlbNamesTrimmed() ensures FullNamesTrimmed(MlbTeams) {}
  lemma NhlNamesTrimmed() ensures FullNamesTrimmed(NhlTeams) {}

  lemma TablesAreTrimmed(sport: string)
    ensures FullNamesTrimmed(MappingFor(sport))
  {
    NflNamesTrimmed();
    NbaNamesTrimmed();
    MlbNamesTrimmed();
    NhlNamesTrimmed();
  }

  /** Every full name in the tables has no surrounding whitespace. */
  lemma FullNamesAreStripped(sport: string, i: int)
    requires 0 <= i < |MappingFor(sport)|
    ensures |MappingFor(sport)[i].1| > 0
    ensures Strip(MappingFor(sport)[i].1) == MappingFor(sport)[i].1
  {
    TablesAreTrimmed(sport);
    StripOfTrimmed(MappingFor(sport)[i].1);
  }

  /** The corrected normalisation is idempotent: its result, normalised
      again, stays the same. */
  lemma CorrectedNormalizationIsIdempotent(name: string, sport: string)
    ensures NormalizeTeamNameCorrected(NormalizeTeamNameCorrected(name, sport), sport)
         == NormalizeTeamNameCorrected(name, sport)
  {
    var m := MappingFor(sport);
    var r := NormalizeTeamNameCorrected(name, sport);
    if name != "" {
      var t := Strip(name);
      StripIdempotent(name);
      if IsFullName(m, t) {
      } else if Assoc.Find(m, Upper(t)).Some? || FirstContained(m, Upper(t)).Some? {
        var i :| 0 <= i < |m| && m[i].1 == r;
        FullNamesAreStripped(sport, i);
        assert IsFullName(m, Strip(r));
      } else {
        assert r == t;
      }
    }
  }

  /** Under the correction every full name is its own canonical form. */
  lemma CorrectedKeepsFullNames(sport: string, i: int)
    requires 0 <= i < |MappingFor(sport)|
    ensures NormalizeTeamNameCorrected(MappingFor(sport)[i].1, sport) == MappingFor(sport)[i].1
  {
    FullNamesAreStripped(sport, i);
  }

  // ---- Game ids ----

  predicate IsLetter(c: char) { IsAsciiLower(c) }

  /** The length of the longest prefix of `s` whose characters satisfy `p`. */
  function Run(s: string, p: char -> bool): (n: nat)
    ensures n <= |s|
    ensures forall i :: 0 <= i < n ==> p(s[i])
    ensures n < |s| ==> !p(s[n])
    decreases |s|
  {
    if |s| == 0 || !p(s[0]) then 0 else 1 + Run(s[1..], p)
  }

  /** A run is pinned down by where the first rejected character is. */
  lemma RunIsFirstRejected(s: string, p: char -> bool, k: nat)
    requires k <= |s| && (forall i :: 0 <= i < k ==> p(s[i])) && (k < |s| ==> !p(s[k]))
    ensures Run(s, p) == k
  {
  }

  predicate AllOf(s: string, p: char -> bool)
  {
    forall i :: 0 <= i < |s| ==> p(s[i])
  }

  /** The recogniser: letters, `_`, digits, optionally `_` and digits. */
  predicate HasGameIdShape(s: string)
  {
    var a := Run(s, IsLetter);
    0 < a < |s| && s[a] == '_'
    && var rest := s[a + 1..];
    var d := Run(rest, IsDigit);
    0 < d && (d == |rest| || (rest[d] == '_' && d + 1 < |rest| && AllOf(rest[d + 1..], IsDigit)))
  }

  /** The pattern `[a-z]+_\d+(_\d+)?` matching all of `s`, split at its
      underscores `a` and (when the optional group is present) `b`. */
  ghost predicate MatchesAt(s: string, a: int, b: int)
  {
    0 < a && a + 1 < b <= |s| && AllOf(s[..a], IsLetter) && s[a] == '_' && AllOf(s[a + 1..b], IsDigit)
    && (b == |s| || (s[b] == '_' && b + 1 < |s| && AllOf(s[b + 1..], IsDigit)))
  }

  ghost predicate MatchesGameIdPattern(s: string)
  {
    exists a, b :: MatchesAt(s, a, b)
  }

  lemma ShapeGivesPattern(s: string)
    requires HasGameIdShape(s)
    ensures MatchesGameIdPattern(s)
  {
    var a := Run(s, IsLetter);
    var rest := s[a + 1..];
    var d := Run(rest, IsDigit);
    assert s[a + 1..a + 1 + d] == rest[..d];
    if d < |rest| {
      assert s[a + 1 + d + 1..] == rest[d + 1..];
    }
    assert MatchesAt(s, a, a + 1 + d);
  }

  lemma PatternGivesShape(s: string, a: int, b: int)
    requires MatchesAt(s, a, b)
    ensures HasGameIdShape(s)
  {
    assert forall i :: 0 <= i < a ==> IsLetter(s[..a][i]);
    RunIsFirstRejected(s, IsLetter, a);
    var rest := s[a + 1..];
    assert forall i :: 0 <= i < b - a - 1 ==> rest[i] == s[a + 1..b][i];
    RunIsFirstRejected(rest, IsDigit, b - a - 1);
    if b < |s| {
      assert rest[b - a - 1 + 1..] == s[b + 1..];
    }
  }

  /** The recogniser accepts exactly the strings the pattern matches. */
  lemma GameIdShapeIffPattern(s: string)
    ensures HasGameIdShape(s) <==> MatchesGameIdPattern(s)
  {
    if HasGameIdShape(s) {
      ShapeGivesPattern(s);
    }
    if MatchesGameIdPattern(s) {
      var a, b :| MatchesAt(s, a, b);
      PatternGivesShape(s, a, b);
    }
  }

  /** `validate_game_id`: non-empty, and its lower-cased form matches the
      pattern; as with `re.match` and `$`, one trailing newline is allowed. */
  function ValidateGameId(gameId: string): (r: bool)
    ensures gameId == "" ==> !r
    ensures r <==> (gameId != "" && (HasGameIdShape(Lower(gameId))
                    || (Lower(gameId)[|gameId| - 1] == '\n' && HasGameIdShape(Lower(gameId)[..|gameId| - 1]))))
  {
    if gameId == "" then false
    else
      var s := Lower(gameId);
      HasGameIdShape(s) || (s[|s| - 1] == '\n' && HasGameIdShape(s[..|s| - 1]))
  }

  /** Lower-casing leaves a string without upper-case letters alone. */
  lemma LowerOfNoUpper(s: string)
    requires forall i :: 0 <= i < |s| ==> !IsAsciiUpper(s[i])
    ensures Lower(s) == s
  {
    assert forall i :: 0 <= i < |s| ==> Lower(s)[i] == LowerChar(s[i]);
  }

  predicate NoUpper(s: string)
  {
    forall i :: 0 <= i < |s| ==> !IsAsciiUpper(s[i])
  }

  lemma NoUpperAppend(a: string, b: string)
    requires NoUpper(a) && NoUpper(b)
    ensures NoUpper(a + b)
  {
    forall i | 0 <= i < |a + b| ensures !IsAsciiUpper((a + b)[i]) {
      if i >= |a| { assert (a + b)[i] == b[i - |a|]; }
    }
  }

  /** `s + "_" + t` splits at the underscore into `s` and `t`. */
  lemma UnderscoreSplit(s: string, t: string)
    ensures |s + "_" + t| == |s| + 1 + |t|
    ensures (s + "_" + t)[..|s|] == s && (s + "_" + t)[|s|] == '_' && (s + "_" + t)[|s| + 1..] == t
  {
    var x := s + "_" + t;
    assert x[..|s|] == s;
    assert x[|s| + 1..] == t;
  }

  /** The id `sport_k_ts` is already lower-case and splits at its two
      underscores. */
  lemma ScheduleIdMatches(sport: string, ks: string, tss: string)
    requires |sport| > 0 && AllOf(sport, IsLetter)
    requires |ks| > 0 && AllOf(ks, IsDigit) && |tss| > 0 && AllOf(tss, IsDigit)
    ensures MatchesAt(sport + "_" + ks + "_" + tss, |sport|, |sport| + 1 + |ks|)
    ensures Lower(sport + "_" + ks + "_" + tss) == sport + "_" + ks + "_" + tss
  {
    var l := sport + "_" + ks;
    var s := l + "_" + tss;
    assert s == sport + "_" + ks + "_" + tss;
    assert NoUpper(sport) && NoUpper(ks) && NoUpper(tss) && NoUpper("_");
    NoUpperAppend(sport, "_");
    NoUpperAppend(sport + "_", ks);
    NoUpperAppend(l, "_");
    NoUpperAppend(l + "_", tss);
    LowerOfNoUpper(s);
    var a := |sport|;
    var b := |l|;
    UnderscoreSplit(sport, ks);
    UnderscoreSplit(l, tss);
    assert s[..a] == l[..a];
    assert s[a] == l[a];
    assert s[a + 1..b] == l[a + 1..];
  }

  /** A schedule id `sport_k_ts` for a lower-case sport name validates. */
  lemma ScheduleIdsValidate(sport: string, k: nat, ts: nat)
    requires |sport| > 0 && AllOf(sport, IsLetter)
    ensures ValidateGameId(sport + "_" + NatToString(k) + "_" + NatToString(ts))
  {
    var ks := NatToString(k);
    var tss := NatToString(ts);
    var s := sport + "_" + ks + "_" + tss;
    ScheduleIdMatches(sport, ks, tss);
    GameIdShapeIffPattern(s);
  }

  /** The id is judged after lower-casing, so "NFL_1" passes. */
  lemma UpperCaseIdValidates(id: string)
    requires id == "NFL_1"
    ensures ValidateGameId(id)
  {
    var s := Lower(id);
    assert s == "nfl_1" by {
      forall i | 0 <= i < 5 ensures s[i] == "nfl_1"[i] {
        assert s[i] == LowerChar(id[i]);
      }
    }
    RunIsFirstRejected(s, IsLetter, 3);
    RunIsFirstRejected(s[4..], IsDigit, 1);
  }

  /** Without a number after the underscore, or without the underscore,
      an id fails. */
  lemma MissingNumberIsRejected(id: string)
    requires id == "nfl_" || id == "nfl1"
    ensures !ValidateGameId(id)
  {
    LowerOfNoUpper(id);
    RunIsFirstRejected(id, IsLetter, 3);
    RunIsFirstRejected(id[..3], IsLetter, 3);
    if id == "nfl_" {
      RunIsFirstRejected(id[4..], IsDigit, 0);
    }
  }

  /** As with `re.match` and `$`, one trailing newline is accepted. */
  lemma TrailingNewlineIsAccepted(id: string)
    requires id == "nfl_1\n"
    ensures ValidateGameId(id)
  {
    LowerOfNoUpper(id);
    var s := id[..5];
    RunIsFirstRejected(s, IsLetter, 3);
    RunIsFirstRejected(s[4..], IsDigit, 1);
  }

  // ---- Locations ----

  /** A raw location; an absent key is `None`. */
  datatype RawLocation = RawLocation(city: Option<string>, state: Option<string>, country: Option<string>,
                                     lat: Option<Value>, lon: Option<Value>)

  datatype Location = Location(city: string, state: string, country: string, lat: Option<real>, lon: Option<real>)

  /** At most the first two characters of `s`. */
  function TakeTwo(s: string): (r: string)
    ensures |r| == if |s| < 2 then |s| else 2
    ensures r == s[..|r|]
  {
    if |s| < 2 then s else s[..2]
  }

  /** The state code: stripped, upper-cased, cut to two characters. */
  function StateCode(s: string): (r: string)
    ensures |r| == if |Strip(s)| < 2 then |Strip(s)| else 2
    ensures forall i :: 0 <= i < |r| ==> r[i] == UpperChar(Strip(s)[i])
    ensures r == Upper(Strip(s))[..|r|]
    ensures forall i :: 0 <= i < |r| ==> !IsAsciiLower(r[i])
  {
    var u := Upper(Strip(s));
    var r := TakeTwo(u);
    assert forall i :: 0 <= i < |r| ==> r[i] == u[i];
    r
  }

  /** The country code: stripped and upper-cased. */
  function CountryCode(s: string): (r: string)
    ensures |r| == |Strip(s)|
    ensures forall i :: 0 <= i < |r| ==> r[i] == UpperChar(Strip(s)[i])
    ensures forall i :: 0 <= i < |r| ==> !IsAsciiLower(r[i])
  {
    Upper(Strip(s))
  }

  lemma UsIsItsOwnCode(s: string)
    requires s == "US"
    ensures CountryCode(s) == s
  {
    StripOfTrimmed(s);
    assert Upper(s)[0] == UpperChar(s[0]) && Upper(s)[1] == UpperChar(s[1]);
  }

  /** `normalize_location`: city stripped; state stripped, upper-cased and
      cut to two characters; country stripped and upper-cased, "US" when
      absent; coordinates kept when present. */
  /** An optional coordinate: absent stays absent, a present one goes
      through `float()`, which rejects a non-number. */
  function Coordinate(v: Option<Value>): (r: Result<Option<real>, string>)
    ensures v.None? ==> r == Success(None)
    ensures v.Some? && v.value.Numeric? ==> r == Success(Some(v.value.x))
    ensures v == Some(NonNumeric) ==> r.Failure?
  {
    match v
    case None => Success(None)
    case Some(NonNumeric) => Failure("could not convert to float")
    case Some(Numeric(x)) => Success(Some(x))
  }

  /** A coordinate as raw input again. */
  function RawCoordinate(c: Option<real>): Option<Value>
  {
    match c
    case None => None
    case Some(x) => Some(Numeric(x))
  }

  /** `normalize_location`: fails exactly when a present latitude or
      longitude is not a number. */
  function NormalizeLocation(loc: RawLocation): (r: Result<Location, string>)
    ensures r.Success? <==> (loc.lat.None? || loc.lat.value.Numeric?) && (loc.lon.None? || loc.lon.value.Numeric?)
    ensures r.Success? ==> r.value.city == Strip(loc.city.GetOr(""))
    ensures r.Success? ==> var st := Strip(loc.state.GetOr(""));
      |r.value.state| == (if |st| < 2 then |st| else 2)
      && forall i :: 0 <= i < |r.value.state| ==> r.value.state[i] == UpperChar(st[i])
    ensures r.Success? ==> var co := Strip(loc.country.GetOr("US"));
      |r.value.country| == |co| && forall i :: 0 <= i < |r.value.country| ==> r.value.country[i] == UpperChar(co[i])
    ensures r.Success? ==> forall i :: 0 <= i < |r.value.state| ==> !IsAsciiLower(r.value.state[i])
    ensures r.Success? ==> forall i :: 0 <= i < |r.value.country| ==> !IsAsciiLower(r.value.country[i])
    ensures r.Success? && loc.country.None? ==> r.value.country == "US"
    ensures r.Success? && loc.lat.None? ==> r.value.lat.None?
    ensures r.Success? && loc.lat.Some? && loc.lat.value.Numeric? ==> r.value.lat == Some(loc.lat.value.x)
    ensures r.Success? && loc.lon.None? ==> r.value.lon.None?
    ensures r.Success? && loc.lon.Some? && loc.lon.value.Numeric? ==> r.value.lon == Some(loc.lon.value.x)
  {
    UsIsItsOwnCode("US");
    var lat := Coordinate(loc.lat);
    var lon := Coordinate(loc.lon);
    if lat.Failure? then Failure(lat.error)
    else if lon.Failure? then Failure(lon.error)
    else
      Success(Location(Strip(loc.city.GetOr("")), StateCode(loc.state.GetOr("")), CountryCode(loc.country.GetOr("US")),
                       lat.value, lon.value))
  }

  /** Upper-casing keeps whitespace and non-whitespace apart. */
  lemma UpperCharKeepsSpace(c: char)
    ensures IsSpace(UpperChar(c)) <==> IsSpace(c)
  {
  }

  /** A state code whose last character is not whitespace is its own
      state code. */
  lemma StateCodeIsStable(s: string)
    requires var r := StateCode(s); |r| == 0 || !IsSpace(r[|r| - 1])
    ensures StateCode(StateCode(s)) == StateCode(s)
  {
    var r := StateCode(s);
    if |r| > 0 {
      var t := Strip(s);
      assert r[0] == Upper(t)[0] == UpperChar(t[0]);
      UpperCharKeepsSpace(t[0]);
    }
    StripOfTrimmed(r);
    assert Upper(r) == r by {
      forall i | 0 <= i < |r| ensures Upper(r)[i] == r[i] {
        assert Upper(r)[i] == UpperChar(r[i]);
      }
    }
  }

  /** A country code is its own country code. */
  lemma CountryCodeIsStable(s: string)
    ensures CountryCode(CountryCode(s)) == CountryCode(s)
  {
    var t := Strip(s);
    var r := CountryCode(s);
    if |r| > 0 {
      assert r[0] == UpperChar(t[0]) && r[|r| - 1] == UpperChar(t[|t| - 1]);
      UpperCharKeepsSpace(t[0]);
      UpperCharKeepsSpace(t[|t| - 1]);
    }
    StripOfTrimmed(r);
    UpperIdempotent(t);
  }

  /** Normalising a normalised location changes nothing once its state
      code has no trailing space (a cut such as "N " from "n y" keeps one). */
  lemma NormalizedLocationIsStable(loc: RawLocation)
    requires NormalizeLocation(loc).Success? ==>
      var s := NormalizeLocation(loc).value.state; |s| == 0 || !IsSpace(s[|s| - 1])
    ensures NormalizeLocation(loc).Success? ==>
      var r := NormalizeLocation(loc).value;
      NormalizeLocation(RawLocation(Some(r.city), Some(r.state), Some(r.country),
                                    RawCoordinate(r.lat), RawCoordinate(r.lon))) == Success(r)
  {
    if NormalizeLocation(loc).Failure? { return; }
    var city := loc.city.GetOr("");
    var state := loc.state.GetOr("");
    var country := loc.country.GetOr("US");
    var r := NormalizeLocation(loc).value;
    assert r == Location(Strip(city), StateCode(state), CountryCode(country), Coordinate(loc.lat).value, Coordinate(loc.lon).value);
    var again := RawLocation(Some(r.city), Some(r.state), Some(r.country), RawCoordinate(r.lat), RawCoordinate(r.lon));
    assert Coordinate(again.lat) == Success(r.lat) && Coordinate(again.lon) == Success(r.lon);
    assert NormalizeLocation(again) == Success(Location(Strip(r.city), StateCode(r.state), CountryCode(r.country), r.lat, r.lon));
    StripIdempotent(city);
    StateCodeIsStable(state);
    CountryCodeIsStable(country);
  }

  // ---- Team statistics ----

  datatype RawRecord = RawRecord(wins: Option<Value>, losses: Option<Value>)
  datatype Record = Record(wins: nat, losses: nat)

  /** The raw statistics; an absent key is `None`. */
  datatype RawTeamStats = RawTeamStats(
    teamName: Option<string>,
    winRate: Option<Value>,
    pointsPerGame: Option<Value>,
    pointsAllowedPerGame: Option<Value>,
    recentForm: Option<Value>,
    homeRecord: Option<RawRecord>,
    awayRecord: Option<RawRecord>,
    strengthOfSchedule: Option<Value>)

  datatype TeamStats = TeamStats(
    teamName: string,
    winRate: real,
    pointsPerGame: real,
    pointsAllowedPerGame: real,
    recentForm: real,
    homeRecord: Option<Record>,
    awayRecord: Option<Record>,
    strengthOfSchedule: Option<real>)

  /** `max(0.0, float(x))`; a non-number is a `ValueError`. */
  function NonNegativeFloat(v: Value): (r: Result<real, string>)
    ensures r.Success? <==> v.Numeric?
    ensures r.Success? ==> r.value == Max(0.0, v.x)
  {
    match v
    case NonNumeric => Failure("could not convert to float")
    case Numeric(x) => Success(Max(0.0, x))
  }

  /** `max(0, int(x))`, truncating toward zero. */
  function NonNegativeCount(v: Value): (r: Result<nat, string>)
    ensures r.Success? <==> v.Numeric?
    ensures r.Success? && v.x >= 0.0 ==> r.value as real <= v.x < r.value as real + 1.0
    ensures r.Success? && v.x < 1.0 ==> r.value == 0
  {
    match v
    case NonNumeric => Failure("invalid literal for int()")
    case Numeric(x) => Success(NonNegativeInt(x))
  }

  function NormalizeRecord(rec: RawRecord): (r: Result<Record, string>)
    ensures r.Success? <==> rec.wins.GetOr(Numeric(0.0)).Numeric? && rec.losses.GetOr(Numeric(0.0)).Numeric?
  {
    var w := NonNegativeCount(rec.wins.GetOr(Numeric(0.0)));
    var l := NonNegativeCount(rec.losses.GetOr(Numeric(0.0)));
    if w.Failure? then Failure(w.error)
    else if l.Failure? then Failure(l.error)
    else Success(Record(w.value, l.value))
  }

  function NormalizeOptionalRecord(rec: Option<RawRecord>): (r: Result<Option<Record>, string>)
    ensures rec.None? ==> r == Success(None)
    ensures rec.Some? ==> (r.Success? <==> NormalizeRecord(rec.value).Success?)
    ensures rec.Some? && r.Success? ==> r.value == Some(NormalizeRecord(rec.value).value)
  {
    match rec
    case None => Success(None)
    case Some(raw) =>
      var n := NormalizeRecord(raw);
      if n.Failure? then Failure(n.error) else Success(Some(n.value))
  }

  /** `normalize_team_stats`: the team name normalised as written (so
      "New York Giants" in the NFL becomes the Patriots), rates clamped into [0, 1] (0.5 when absent),
      points floored at 0 (0 when absent), records floored at 0; any value
      that `float()` or `int()` rejects makes the whole call fail. */
  function NormalizeTeamStats(stats: RawTeamStats, sport: string): (r: Result<TeamStats, string>)
    ensures r.Success? <==>
      stats.pointsPerGame.GetOr(Numeric(0.0)).Numeric? && stats.pointsAllowedPerGame.GetOr(Numeric(0.0)).Numeric?
      && NormalizeOptionalRecord(stats.homeRecord).Success? && NormalizeOptionalRecord(stats.awayRecord).Success?
    ensures r.Success? ==>
      var n := r.value;
      n.teamName == NormalizeTeamName(stats.teamName.GetOr(""), sport)
      && n.winRate == ClampFloat(stats.winRate.GetOr(Numeric(0.5)), 0.0, 1.0)
      && n.recentForm == ClampFloat(stats.recentForm.GetOr(Numeric(0.5)), 0.0, 1.0)
      && n.pointsPerGame == Max(0.0, stats.pointsPerGame.GetOr(Numeric(0.0)).x)
      && n.pointsAllowedPerGame == Max(0.0, stats.pointsAllowedPerGame.GetOr(Numeric(0.0)).x)
      && 0.0 <= n.winRate <= 1.0 && 0.0 <= n.recentForm <= 1.0
      && n.pointsPerGame >= 0.0 && n.pointsAllowedPerGame >= 0.0
      && (stats.winRate.None? ==> n.winRate == 0.5) && (stats.recentForm.None? ==> n.recentForm == 0.5)
      && (n.homeRecord.Some? <==> stats.homeRecord.Some?) && (n.awayRecord.Some? <==> stats.awayRecord.Some?)
      && (stats.homeRecord.Some? ==> n.homeRecord.value == NormalizeRecord(stats.homeRecord.value).value)
      && (stats.awayRecord.Some? ==> n.awayRecord.value == NormalizeRecord(stats.awayRecord.value).value)
      && (n.strengthOfSchedule.Some? <==> stats.strengthOfSchedule.Some?)
      && (stats.strengthOfSchedule.Some? ==>
            n.strengthOfSchedule.value == ClampFloat(stats.strengthOfSchedule.value, 0.0, 1.0))
      && (n.strengthOfSchedule.Some? ==> 0.0 <= n.strengthOfSchedule.value <= 1.0)
  {
    var ppg := NonNegativeFloat(stats.pointsPerGame.GetOr(Numeric(0.0)));
    var papg := NonNegativeFloat(stats.pointsAllowedPerGame.GetOr(Numeric(0.0)));
    var home := NormalizeOptionalRecord(stats.homeRecord);
    var away := NormalizeOptionalRecord(stats.awayRecord);
    if ppg.Failure? then Failure(ppg.error)
    else if papg.Failure? then Failure(papg.error)
    else if home.Failure? then Failure(home.error)
    else if away.Failure? then Failure(away.error)
    else
      Success(TeamStats(
        NormalizeTeamName(stats.teamName.GetOr(""), sport),
        ClampFloat(stats.winRate.GetOr(Numeric(0.5)), 0.0, 1.0),
        ppg.value, papg.value,
        ClampFloat(stats.recentForm.GetOr(Numeric(0.5)), 0.0, 1.0),
        home.value, away.value,
        match stats.strengthOfSchedule
        case None => None
        case Some(v) => Some(ClampFloat(v, 0.0, 1.0))))
  }

  /** In-range numbers pass through unchanged. */
  lemma InRangeStatsAreKept(stats: RawTeamStats, sport: string, w: real, ppg: real)
    requires 0.0 <= w <= 1.0 && ppg >= 0.0
    requires stats.winRate == Some(Numeric(w)) && stats.pointsPerGame == Some(Numeric(ppg))
    requires stats.pointsAllowedPerGame.None? && stats.homeRecord.None? && stats.awayRecord.None?
    ensures NormalizeTeamStats(stats, sport).Success?
    ensures NormalizeTeamStats(stats, sport).value.winRate == w
    ensures NormalizeTeamStats(stats, sport).value.pointsPerGame == ppg
  {
  }

  /** As written, the statistics of the Giants are filed under the
      Patriots. */
  lemma GiantsStatsBecomePatriots(stats: RawTeamStats, sport: string)
    requires stats.teamName == Some("New York Giants") && sport == "nfl"
    requires NormalizeTeamStats(stats, sport).Success?
    ensures NormalizeTeamStats(stats, sport).value.teamName == "New England Patriots"
  {
    var name := stats.teamName.value;
    UpperOfGiants(name);
    GiantsBecomePatriots(name, sport);
  }

  // ---- Weather ----

  /** The raw weather; an absent key is `None`. */
  datatype RawWeather = RawWeather(temp: Option<Value>, windSpeed: Option<Value>, precipitation: Option<Value>,
                                   conditions: Option<string>, humidity: Option<Value>)

  datatype Weather = Weather(temp: real, windSpeed: real, precipitation: real, conditions: string, humidity: Option<real>)

  /** `normalize_weather_data`: temperature 70 when absent, wind and
      precipitation floored at 0, conditions lower-cased ("clear" when
      absent), humidity clamped into [0, 100] when present; a non-number
      for the temperature, wind or precipitation is an error. */
  function NormalizeWeather(w: RawWeather): (r: Result<Weather, string>)
    ensures r.Success? <==> w.temp.GetOr(Numeric(70.0)).Numeric? && w.windSpeed.GetOr(Numeric(0.0)).Numeric?
                            && w.precipitation.GetOr(Numeric(0.0)).Numeric?
    ensures r.Success? ==>
      var n := r.value;
      n.temp == w.temp.GetOr(Numeric(70.0)).x
      && n.windSpeed == Max(0.0, w.windSpeed.GetOr(Numeric(0.0)).x)
      && n.precipitation == Max(0.0, w.precipitation.GetOr(Numeric(0.0)).x)
      && n.windSpeed >= 0.0 && n.precipitation >= 0.0
      && |n.conditions| == |w.conditions.GetOr("clear")|
      && (forall i :: 0 <= i < |n.conditions| ==> n.conditions[i] == LowerChar(w.conditions.GetOr("clear")[i]))
      && (forall i :: 0 <= i < |n.conditions| ==> !IsAsciiUpper(n.conditions[i]))
      && (w.conditions.None? ==> n.conditions == "clear")
      && (n.humidity.Some? <==> w.humidity.Some?)
      && (w.humidity.Some? ==> n.humidity.value == ClampFloat(w.humidity.value, 0.0, 100.0))
      && (n.humidity.Some? ==> 0.0 <= n.humidity.value <= 100.0)
  {
    var temp := w.temp.GetOr(Numeric(70.0));
    var wind := NonNegativeFloat(w.windSpeed.GetOr(Numeric(0.0)));
    var precipitation := NonNegativeFloat(w.precipitation.GetOr(Numeric(0.0)));
    if temp.NonNumeric? then Failure("could not convert to float")
    else if wind.Failure? then Failure(wind.error)
    else if precipitation.Failure? then Failure(precipitation.error)
    else
      Success(Weather(temp.x, wind.value, precipitation.value, Lower(w.conditions.GetOr("clear")),
                      match w.humidity
                      case None => None
                      case Some(h) => Some(ClampFloat(h, 0.0, 100.0))))
  }

  /** Feeding normalised weather back in gives it back unchanged. */
  lemma NormalizeWeatherIsIdempotent(w: RawWeather)
    requires NormalizeWeather(w).Success?
    ensures var n := NormalizeWeather(w).value;
      NormalizeWeather(RawWeather(Some(Numeric(n.temp)), Some(Numeric(n.windSpeed)), Some(Numeric(n.precipitation)),
                                  Some(n.conditions), if n.humidity.Some? then Some(Numeric(n.humidity.value)) else None))
      == Success(n)
  {
    LowerIdempotent(w.conditions.GetOr("clear"));
  }
}

=== FILE: num.dfy ===
/** Scalar helpers with Python's semantics for `min`, `max`, `abs` and the
    `max(lo, min(hi, x))` clamp idiom that appears throughout the backend. */
module Num {

  /** Python `min(a, b)`: the first argument unless the second is smaller. */
  function Min(a: real, b: real): (r: real)
    ensures r <= a && r <= b
    ensures r == a || r == b
  {
    if b < a then b else a
  }

  /** Python `max(a, b)`: the first argument unless the second is larger. */
  function Max(a: real, b: real): (r: real)
    ensures r >= a && r >= b
    ensures r == a || r == b
  {
    if b > a then b else a
  }

  function Abs(x: real): (r: real)
    ensures r >= 0.0
    ensures r == x || r == -x
  {
    if x < 0.0 then -x else x
  }

  /** The integer nearest to `10 * x`, an exact half going to the even
      neighbour: the tenths of Python's `round(x, 1)`. */
  function NearestTenths(x: real): (r: int)
    ensures (r as real) - 0.5 <= 10.0 * x <= (r as real) + 0.5
    ensures 10.0 * x == (r as real) - 0.5 || 10.0 * x == (r as real) + 0.5 ==> r % 2 == 0
  {
    var t := 10.0 * x;
    var f := t.Floor;
    var frac := t - f as real;
    if frac < 0.5 then f
    else if frac > 0.5 then f + 1
    else if f % 2 == 0 then f
    else f + 1
  }

  /** `round(x, 1)` on the exact value: the nearest tenth, ties to even. */
  function RoundTenth(x: real): (r: real)
    ensures -0.05 <= r - x <= 0.05
  {
    NearestTenths(x) as real / 10.0
  }

  /** `max(lo, min(hi, x))`; when `lo > hi` the lower bound wins, as in Python. */
  function Clamp(x: real, lo: real, hi: real): (r: real)
    ensures lo <= hi ==> lo <= r <= hi
    ensures lo <= x <= hi ==> r == x
    ensures lo <= hi && x < lo ==> r == lo
    ensures lo <= hi && x > hi ==> r == hi
  {
    Max(lo, Min(hi, x))
  }

  /** A clamp never reorders its arguments. */
  lemma ClampMonotone(x: real, y: real, lo: real, hi: real)
    requires x <= y
    ensures Clamp(x, lo, hi) <= Clamp(y, lo, hi)
  {
  }

  /** Python `int(x)` on a float: truncation toward zero. */
  function TruncateToInt(x: real): (r: int)
    ensures x >= 0.0 ==> r as real <= x < r as real + 1.0
    ensures x < 0.0 ==> r as real - 1.0 < x <= r as real
  {
    if x >= 0.0 then x.Floor else -((-x).Floor)
  }

  /** Python `max(0, int(x))`. */
  function NonNegativeInt(x: real): (r: nat)
    ensures x >= 0.0 ==> r == TruncateToInt(x)
    ensures x < 1.0 ==> r == 0
  {
    var t := TruncateToInt(x);
    if t < 0 then 0 else t
  }

  /** A non-zero number divides itself once and zero not at all. */
  lemma DivideBySelf(g: real)
    requires g != 0.0
    ensures g / g == 1.0 && 0.0 / g == 0.0
  {
  }

  /** Dividing by a positive number keeps a non-strict order. */
  lemma DivMonotone(a: real, b: real, c: real)
    requires c > 0.0 && a <= b
    ensures a / c <= b / c
  {
    var x := a / c;
    var y := b / c;
    assert x * c == a && y * c == b;
    if x > y {
      MulStrict(c, y, x);
      assert false;
    }
  }

  /** A quotient is the number that times the divisor gives the dividend. */
  lemma QuotientOfProduct(r: real, d: real, n: real)
    requires d != 0.0 && r * d == n
    ensures r == n / d
  {
  }

  /** Multiplying by a positive factor keeps a strict order. */
  lemma MulStrict(c: real, u: real, v: real)
    requires c > 0.0 && u < v
    ensures c * u < c * v
  {
  }

  /** A product of two positive reals is positive. */
  lemma PositiveProduct(a: real, b: real)
    requires a > 0.0 && b > 0.0
    ensures a * b > 0.0
  {
    MulStrict(a, 0.0, b);
  }
}

=== FILE: odds.dfy ===
/** Best-odds selection across sportsbooks (`OddsCollector.find_best_odds`).
    Platforms come in the order of the odds dictionary; a platform's home and
    away odds are optional, and only "truthy" (present and non-zero) odds take
    part. */
module Odds {
  import opened Wrappers

  datatype Side = Home | Away

  datatype PlatformOdds = PlatformOdds(available: bool, homeOdds: Option<real>, awayOdds: Option<real>)

  datatype BestOdds = BestOdds(platform: string, team: Side, odds: real, fullData: PlatformOdds)

  /** A candidate replaces the current best only when it is strictly larger. */
  function Better(best: Option<BestOdds>, c: BestOdds): (r: Option<BestOdds>)
    ensures r.Some?
    ensures best.Some? ==> r.value.odds >= best.value.odds
  {
    if best.None? || c.odds > best.value.odds then Some(c) else best
  }

  function ConsiderSide(best: Option<BestOdds>, name: string, side: Side, o: Option<real>, data: PlatformOdds): Option<BestOdds>
  {
    if Truthy(o) then Better(best, BestOdds(name, side, o.value, data)) else best
  }

  /** One iteration of the loop: an unavailable platform is skipped, otherwise
      the home odds are considered before the away odds. */
  function Visit(best: Option<BestOdds>, p: (string, PlatformOdds)): Option<BestOdds>
  {
    if !p.1.available then best
    else ConsiderSide(ConsiderSide(best, p.0, Home, p.1.homeOdds, p.1), p.0, Away, p.1.awayOdds, p.1)
  }

  /** The loop over platforms, stated on prefixes: the value after the last
      platform is `Visit` applied to the value after the others. */
  function ScanPlatforms(ps: seq<(string, PlatformOdds)>): Option<BestOdds>
    decreases |ps|
  {
    if |ps| == 0 then None else Visit(ScanPlatforms(ps[..|ps| - 1]), ps[|ps| - 1])
  }

  function FindBestOdds(ps: seq<(string, PlatformOdds)>, betType: string): Option<BestOdds>
  {
    if betType == "team_win" then ScanPlatforms(ps) else None
  }

  // ---- Reference specification: the candidate list and its first maximum ----

  function PlatformCandidates(p: (string, PlatformOdds)): (r: seq<BestOdds>)
    ensures |r| <= 2
    ensures forall i :: 0 <= i < |r| ==> r[i].platform == p.0 && r[i].fullData == p.1 && p.1.available
  {
    if !p.1.available then []
    else
      (if Truthy(p.1.homeOdds) then [BestOdds(p.0, Home, p.1.homeOdds.value, p.1)] else [])
      + (if Truthy(p.1.awayOdds) then [BestOdds(p.0, Away, p.1.awayOdds.value, p.1)] else [])
  }

  /** Every truthy home and away price of every available platform, platforms
      in order and home before away. */
  function Candidates(ps: seq<(string, PlatformOdds)>): seq<BestOdds>
    decreases |ps|
  {
    if |ps| == 0 then [] else Candidates(ps[..|ps| - 1]) + PlatformCandidates(ps[|ps| - 1])
  }

  /** The best so far over a list of candidates, in list order. */
  function BestOf(cs: seq<BestOdds>): Option<BestOdds>
    decreases |cs|
  {
    if |cs| == 0 then None else Better(BestOf(cs[..|cs| - 1]), cs[|cs| - 1])
  }

  /** `cs[k]` is a maximum and every earlier candidate is strictly smaller. */
  ghost predicate IsFirstMax(cs: seq<BestOdds>, k: int)
  {
    0 <= k < |cs|
    && (forall j :: 0 <= j < |cs| ==> cs[j].odds <= cs[k].odds)
    && (forall j :: 0 <= j < k ==> cs[j].odds < cs[k].odds)
  }

  lemma {:induction false} BestOfIsFirstMax(cs: seq<BestOdds>)
    ensures BestOf(cs).None? <==> |cs| == 0
    ensures BestOf(cs).Some? ==> exists k :: IsFirstMax(cs, k) && cs[k] == BestOf(cs).value
    decreases |cs|
  {
    if |cs| > 0 {
      var init := cs[..|cs| - 1];
      var x := cs[|cs| - 1];
      BestOfIsFirstMax(init);
      assert forall j :: 0 <= j < |init| ==> cs[j] == init[j];
      if BestOf(init).None? {
        assert IsFirstMax(cs, 0);
      } else {
        var k :| IsFirstMax(init, k) && init[k] == BestOf(init).value;
        if x.odds > BestOf(init).value.odds {
          assert IsFirstMax(cs, |cs| - 1);
        } else {
          assert IsFirstMax(cs, k);
        }
      }
    }
  }

  lemma ConsiderSideSnoc(best: Option<BestOdds>, name: string, side: Side, o: Option<real>, data: PlatformOdds, cs: seq<BestOdds>)
    requires best == BestOf(cs)
    ensures ConsiderSide(best, name, side, o, data)
      == BestOf(cs + (if Truthy(o) then [BestOdds(name, side, o.value, data)] else []))
  {
    if Truthy(o) {
      assert (cs + [BestOdds(name, side, o.value, data)])[..|cs|] == cs;
    } else {
      assert cs + [] == cs;
    }
  }

  /** The platform loop computes the first maximum of the candidate list. */
  lemma {:induction false} ScanIsBestOfCandidates(ps: seq<(string, PlatformOdds)>)
    ensures ScanPlatforms(ps) == BestOf(Candidates(ps))
    decreases |ps|
  {
    if |ps| > 0 {
      var init := ps[..|ps| - 1];
      var p := ps[|ps| - 1];
      ScanIsBestOfCandidates(init);
      var cs := Candidates(init);
      if p.1.available {
        var home := if Truthy(p.1.homeOdds) then [BestOdds(p.0, Home, p.1.homeOdds.value, p.1)] else [];
        var away := if Truthy(p.1.awayOdds) then [BestOdds(p.0, Away, p.1.awayOdds.value, p.1)] else [];
        ConsiderSideSnoc(ScanPlatforms(init), p.0, Home, p.1.homeOdds, p.1, cs);
        ConsiderSideSnoc(BestOf(cs + home), p.0, Away, p.1.awayOdds, p.1, cs + home);
        assert cs + home + away == cs + (home + away);
      } else {
        assert Candidates(ps) == cs + [];
        assert cs + [] == cs;
      }
    }
  }

  /** `find_best_odds` is None exactly when the bet type is not "team_win" or
      no available platform offers a truthy price; otherwise it is the first
      candidate whose odds are at least every other candidate's. */
  lemma FindBestOddsIsFirstMaximum(ps: seq<(string, PlatformOdds)>, betType: string)
    ensures FindBestOdds(ps, betType).None? <==> betType != "team_win" || |Candidates(ps)| == 0
    ensures FindBestOdds(ps, betType).Some? ==>
      exists k :: IsFirstMax(Candidates(ps), k) && Candidates(ps)[k] == FindBestOdds(ps, betType).value
  {
    ScanIsBestOfCandidates(ps);
    BestOfIsFirstMax(Candidates(ps));
  }

  lemma SnocOfAppend<T>(a: seq<T>, b: seq<T>)
    requires |b| > 0
    ensures (a + b)[..|a + b| - 1] == a + b[..|b| - 1] && (a + b)[|a + b| - 1] == b[|b| - 1]
  {
  }

  lemma CandidatesSnoc(ps: seq<(string, PlatformOdds)>)
    requires |ps| > 0
    ensures Candidates(ps) == Candidates(ps[..|ps| - 1]) + PlatformCandidates(ps[|ps| - 1])
  {
  }

  lemma AppendAssoc<T>(x: seq<T>, y: seq<T>, z: seq<T>)
    ensures x + y + z == x + (y + z)
  {
  }

  lemma CandidatesAppendStep(a: seq<(string, PlatformOdds)>, b: seq<(string, PlatformOdds)>)
    requires |b| > 0 && Candidates(a + b[..|b| - 1]) == Candidates(a) + Candidates(b[..|b| - 1])
    ensures Candidates(a + b) == Candidates(a) + Candidates(b)
  {
    SnocOfAppend(a, b);
    CandidatesSnoc(a + b);
    CandidatesSnoc(b);
    AppendAssoc(Candidates(a), Candidates(b[..|b| - 1]), PlatformCandidates(b[|b| - 1]));
  }

  lemma {:induction false} CandidatesAppend(a: seq<(string, PlatformOdds)>, b: seq<(string, PlatformOdds)>)
    ensures Candidates(a + b) == Candidates(a) + Candidates(b)
    decreases |b|
  {
    if |b| == 0 {
      assert a + b == a;
    } else {
      CandidatesAppend(a, b[..|b| - 1]);
      CandidatesAppendStep(a, b);
    }
  }

  /** Inserting an unavailable platform anywhere never changes the result. */
  lemma UnavailablePlatformNeverContributes(a: seq<(string, PlatformOdds)>, u: (string, PlatformOdds),
                                            b: seq<(string, PlatformOdds)>, betType: string)
    requires !u.1.available
    ensures FindBestOdds(a + [u] + b, betType) == FindBestOdds(a + b, betType)
  {
    CandidatesAppend(a + [u], b);
    CandidatesAppend(a, [u]);
    CandidatesAppend(a, b);
    assert Candidates([u]) == Candidates([]) + PlatformCandidates(u);
    assert Candidates(a + [u]) == Candidates(a);
    ScanIsBestOfCandidates(a + [u] + b);
    ScanIsBestOfCandidates(a + b);
  }

  /** Equal home and away odds on one platform: the home side, seen first, wins. */
  lemma HomeWinsTieWithinPlatform(name: string, o: real)
    requires o != 0.0
    ensures FindBestOdds([(name, PlatformOdds(true, Some(o), Some(o)))], "team_win")
      == Some(BestOdds(name, Home, o, PlatformOdds(true, Some(o), Some(o))))
  {
    var data := PlatformOdds(true, Some(o), Some(o));
    var ps := [(name, data)];
    assert ps[..0] == [];
    assert ScanPlatforms(ps) == Visit(None, (name, data));
    assert ConsiderSide(None, name, Home, Some(o), data) == Some(BestOdds(name, Home, o, data));
  }
}

=== FILE: parlay.dfy ===
/** The arithmetic of the parlay calculator endpoint: input validation, the
    combined probability and odds of independent legs, payout, expected value,
    a conservative Kelly stake, the recommendation tier and the (simplified)
    hit probabilities. */
module Parlay {
  import opened Wrappers
  import opened Num
  import opened Seqs
  import Betting

  datatype Leg = Leg(
    playerName: string,
    team: string,
    propType: string,
    propValue: real,
    selection: string,
    odds: real,
    winProbability: real)

  /** The HTTP 400 errors of the endpoint, carrying the offending leg's
      player name and value. */
  datatype ParlayError =
    | TooFewLegs
    | NonPositiveStake
    | InvalidProbability(playerName: string, probability: real)
    | InvalidOdds(playerName: string, odds: real)

  datatype ParlayTier = StrongParlay | ModerateParlay | SmallParlay | AvoidParlay

  datatype ParlayAnalysis = ParlayAnalysis(
    parlayOdds: real,
    combinedProbability: real,
    betAmount: real,
    potentialPayout: real,
    totalReturn: real,
    expectedValue: real,
    evPercentage: real,
    winRate: real,
    lossRate: real,
    riskRewardRatio: real,
    kellyPercentage: real,
    recommendedBetPercentage: real,
    recommendation: ParlayTier,
    legs: seq<Leg>,
    /** Entry `k` is the value reported under the key "{k}_legs". */
    hitProbabilities: seq<real>)

  /** Share of the full Kelly stake used for parlays. */
  const ParlayKellyFraction: real := 0.10

  /** Largest recommended stake, in percent of the bankroll. */
  const MaxRecommendedPercent: real := 5.0

  predicate ValidProbability(l: Leg) { 0.0 < l.winProbability < 1.0 }
  predicate ValidOdds(l: Leg) { l.odds > 1.0 }

  function Probabilities(legs: seq<Leg>): (r: seq<real>)
    ensures |r| == |legs| && forall i :: 0 <= i < |legs| ==> r[i] == legs[i].winProbability
  {
    seq(|legs|, i requires 0 <= i < |legs| => legs[i].winProbability)
  }

  function OddsOf(legs: seq<Leg>): (r: seq<real>)
    ensures |r| == |legs| && forall i :: 0 <= i < |legs| ==> r[i] == legs[i].odds
  {
    seq(|legs|, i requires 0 <= i < |legs| => legs[i].odds)
  }

  function MissProbabilities(legs: seq<Leg>): (r: seq<real>)
    ensures |r| == |legs| && forall i :: 0 <= i < |legs| ==> r[i] == 1.0 - legs[i].winProbability
  {
    seq(|legs|, i requires 0 <= i < |legs| => 1.0 - legs[i].winProbability)
  }

  function Tier(evPercentage: real): (t: ParlayTier)
    ensures t == StrongParlay <==> evPercentage > 15.0
    ensures t == ModerateParlay <==> 5.0 < evPercentage <= 15.0
    ensures t == SmallParlay <==> 0.0 < evPercentage <= 5.0
    ensures t == AvoidParlay <==> evPercentage <= 0.0
  {
    if evPercentage > 15.0 then StrongParlay
    else if evPercentage > 5.0 then ModerateParlay
    else if evPercentage > 0.0 then SmallParlay
    else AvoidParlay
  }

  function RecommendationText(t: ParlayTier): string
  {
    match t
    case StrongParlay => "Strong Parlay - High Expected Value"
    case ModerateParlay => "Moderate Parlay - Positive Expected Value"
    case SmallParlay => "Small Parlay - Slight Positive Edge"
    case AvoidParlay => "Avoid - Negative Expected Value"
  }

  /** Exactly-k hit probabilities as the endpoint reports them: the product of
      the leg probabilities for all legs, the product of the misses for none,
      and 0 for every count in between. */
  function HitProbabilities(legs: seq<Leg>): (r: seq<real>)
    requires |legs| >= 2
    ensures |r| == |legs| + 1
    ensures r[|legs|] == Product(Probabilities(legs))
    ensures r[0] == Product(MissProbabilities(legs))
    ensures forall k :: 0 < k < |legs| ==> r[k] == 0.0
  {
    var n := |legs|;
    seq(n + 1, k requires 0 <= k <= n =>
      if k == n then Product(Probabilities(legs))
      else if k == 0 then Product(MissProbabilities(legs))
      else 0.0)
  }

  /** The request passes every check of the endpoint. */
  predicate ValidRequest(legs: seq<Leg>, stake: real)
  {
    |legs| >= 2 && stake > 0.0
    && (forall j :: 0 <= j < |legs| ==> ValidProbability(legs[j]) && ValidOdds(legs[j]))
  }

  lemma ExpectedValueIdentity(p: real, o: real, stake: real)
    ensures p * (stake * (o - 1.0)) - (1.0 - p) * stake == stake * (p * o - 1.0)
  {
  }

  lemma PerUnitStake(v: real, x: real, stake: real)
    requires stake > 0.0 && v == stake * x
    ensures v / stake == x
    ensures v / stake * 100.0 == 100.0 * x
  {
  }

  /** The analysis of a request that passed validation. */
  function Analyze(legs: seq<Leg>, stake: real): (a: ParlayAnalysis)
    requires ValidRequest(legs, stake)
    ensures a.combinedProbability == Product(Probabilities(legs))
    ensures a.parlayOdds == Product(OddsOf(legs))
    ensures a.betAmount == stake && a.legs == legs
    ensures a.totalReturn == a.potentialPayout + stake
    ensures a.expectedValue == stake * (a.combinedProbability * a.parlayOdds - 1.0)
    ensures a.evPercentage == 100.0 * (a.combinedProbability * a.parlayOdds - 1.0)
    ensures a.winRate == a.combinedProbability && a.lossRate == 1.0 - a.combinedProbability
    ensures a.riskRewardRatio == a.parlayOdds - 1.0
    ensures a.kellyPercentage >= 0.0
    ensures 0.0 <= a.recommendedBetPercentage <= MaxRecommendedPercent
    ensures a.recommendedBetPercentage == Min(a.kellyPercentage * 0.10, MaxRecommendedPercent)
    ensures a.recommendation == Tier(a.evPercentage)
    ensures a.hitProbabilities == HitProbabilities(legs)
  {
    var p := Product(Probabilities(legs));
    var o := Product(OddsOf(legs));
    AllAboveOneIff(OddsOf(legs));
    ProductAboveOne(OddsOf(legs));
    var payout := stake * (o - 1.0);
    var total := stake * o;
    var ev := p * payout - (1.0 - p) * stake;
    ExpectedValueIdentity(p, o, stake);
    PerUnitStake(ev, p * o - 1.0, stake);
    PerUnitStake(payout, o - 1.0, stake);
    var evPct := ev / stake * 100.0;
    var kelly := Max(0.0, (p * (o - 1.0) - (1.0 - p)) / (o - 1.0));
    var recommended := Min(kelly * 0.10 * 100.0, 5.0);
    assert kelly * 0.10 * 100.0 == kelly * 100.0 * 0.10;
    ParlayAnalysis(o, p, stake, payout, total, ev, evPct, p, 1.0 - p,
                   payout / stake, kelly * 100.0, recommended, Tier(evPct),
                   legs, HitProbabilities(legs))
  }

  /** The parlay endpoint's computation: a failure for the first rule the
      request breaks, in the endpoint's order, otherwise the analysis. */
  function CalculateParlay(legs: seq<Leg>, stake: real): (r: Result<ParlayAnalysis, ParlayError>)
    ensures |legs| < 2 ==> r == Failure(TooFewLegs)
    ensures |legs| >= 2 && stake <= 0.0 ==> r == Failure(NonPositiveStake)
    ensures r.Failure? && r.error.InvalidProbability? ==>
      |legs| >= 2 && stake > 0.0
      && (exists i :: 0 <= i < |legs| && !ValidProbability(legs[i])
            && (forall j :: 0 <= j < i ==> ValidProbability(legs[j]))
            && r.error == InvalidProbability(legs[i].playerName, legs[i].winProbability))
    ensures r.Failure? && r.error.InvalidOdds? ==>
      |legs| >= 2 && stake > 0.0
      && (forall j :: 0 <= j < |legs| ==> ValidProbability(legs[j]))
      && (exists i :: 0 <= i < |legs| && !ValidOdds(legs[i])
            && (forall j :: 0 <= j < i ==> ValidOdds(legs[j]))
            && r.error == InvalidOdds(legs[i].playerName, legs[i].odds))
    ensures r.Success? <==> ValidRequest(legs, stake)
    ensures r.Success? ==> r.value == Analyze(legs, stake)
  {
    if |legs| < 2 then Failure(TooFewLegs)
    else if stake <= 0.0 then Failure(NonPositiveStake)
    else match FirstFailing(legs, ValidProbability)
      case Some(i) => Failure(InvalidProbability(legs[i].playerName, legs[i].winProbability))
      case None =>
        match FirstFailing(legs, ValidOdds)
        case Some(i) => Failure(InvalidOdds(legs[i].playerName, legs[i].odds))
        case None => Success(Analyze(legs, stake))
  }

  /** For a valid request the combined probability is strictly below every
      leg's probability and the parlay odds strictly above every leg's odds
      (hence above 1). */
  lemma CombinedBoundsEachLeg(legs: seq<Leg>, stake: real, i: int)
    requires ValidRequest(legs, stake)
    requires 0 <= i < |legs|
    ensures 0.0 < Analyze(legs, stake).combinedProbability < legs[i].winProbability
    ensures Analyze(legs, stake).parlayOdds > legs[i].odds > 1.0
  {
    AllFractionsIff(Probabilities(legs));
    AllAboveOneIff(OddsOf(legs));
    ProductOfFractions(Probabilities(legs));
    ProductOfFractionsBelowEach(Probabilities(legs), i);
    ProductAboveEach(OddsOf(legs), i);
  }

  /** A valid parlay is priced like one bet on the combined event at the
      combined odds: its expected-value percentage and its full Kelly stake
      are the single-bet ones. */
  lemma ParlayIsSingleBetOnCombinedEvent(legs: seq<Leg>, stake: real)
    requires ValidRequest(legs, stake)
    ensures var a := Analyze(legs, stake);
      a.parlayOdds > 1.0
      && a.evPercentage == 100.0 * Betting.ExpectedValue(a.combinedProbability, a.parlayOdds)
      && a.kellyPercentage
         == 100.0 * Max(0.0, Betting.ExpectedValue(a.combinedProbability, a.parlayOdds) / (a.parlayOdds - 1.0))
  {
    CombinedBoundsEachLeg(legs, stake, 0);
  }

  /** Two even-money coin flips staked at 100 have zero expected value and are
      rated "avoid", the tiers being strict. */
  lemma TwoFairLegsAreAvoided()
    ensures var legs := [Leg("A", "X", "yards", 50.5, "over", 2.0, 0.5),
                         Leg("B", "Y", "yards", 60.5, "over", 2.0, 0.5)];
      var r := CalculateParlay(legs, 100.0);
      r.Success? && r.value.expectedValue == 0.0 && r.value.recommendation == AvoidParlay
  {
    var legs := [Leg("A", "X", "yards", 50.5, "over", 2.0, 0.5),
                 Leg("B", "Y", "yards", 60.5, "over", 2.0, 0.5)];
    assert Probabilities(legs) == [0.5, 0.5];
    assert OddsOf(legs) == [2.0, 2.0];
    assert Product([0.5, 0.5]) == 0.25 by {
      assert [0.5, 0.5][1..] == [0.5];
      assert [0.5][1..] == [];
    }
    assert Product([2.0, 2.0]) == 4.0 by {
      assert [2.0, 2.0][1..] == [2.0];
      assert [2.0][1..] == [];
    }
  }
}

=== FILE: players.dfy ===
/** The NFL player directory: the per-team roster flattened into one list
    of player records, filtered by side of the ball, and searched by name or
    team. The roster itself is a parameter: a sequence of (team, players)
    pairs in the dict's order. */
module Players {
  import opened Seqs
  import opened Text

  /** A roster entry as listed under its team. */
  datatype Entry = Entry(name: string, position: string, kind: string, stats: seq<(string, real)>)

  /** A flattened record: the entry with its team attached. */
  datatype Player = Player(name: string, team: string, position: string, kind: string, stats: seq<(string, real)>)

  type Roster = seq<(string, seq<Entry>)>

  function WithTeam(team: string, e: Entry): Player
  {
    Player(e.name, team, e.position, e.kind, e.stats)
  }

  /** The records of one team, in listed order. */
  function TeamRecords(team: string, entries: seq<Entry>): (r: seq<Player>)
    ensures |r| == |entries| && forall j :: 0 <= j < |entries| ==> r[j] == WithTeam(team, entries[j])
  {
    seq(|entries|, j requires 0 <= j < |entries| => WithTeam(team, entries[j]))
  }

  /** How many players the first `k` teams list. */
  function Offset(roster: Roster, k: nat): nat
    requires k <= |roster|
    decreases k
  {
    if k == 0 then 0 else |roster[0].1| + Offset(roster[1..], k - 1)
  }

  /** Team `k`'s slice ends where team `k + 1`'s begins, so the slices
      tile the flattened list from 0 to its end. */
  lemma {:induction false} OffsetStep(roster: Roster, k: nat)
    requires k < |roster|
    ensures Offset(roster, k + 1) == Offset(roster, k) + |roster[k].1|
    decreases k
  {
    if k > 0 {
      OffsetStep(roster[1..], k - 1);
    }
  }

  /** Putting one team's records in front of the flattened rest of the
      roster keeps every team in its slice. */
  lemma PrependTeam(roster: Roster, head: seq<Player>, rest: seq<Player>)
    requires |roster| > 0 && head == TeamRecords(roster[0].0, roster[0].1)
    requires |rest| == Offset(roster[1..], |roster| - 1)
    requires forall k :: 0 <= k < |roster| - 1 ==>
      Offset(roster[1..], k) + |roster[1..][k].1| <= |rest|
      && rest[Offset(roster[1..], k)..Offset(roster[1..], k) + |roster[1..][k].1|] == TeamRecords(roster[1..][k].0, roster[1..][k].1)
    ensures |head + rest| == Offset(roster, |roster|)
    ensures forall k :: 0 <= k < |roster| ==>
      Offset(roster, k) + |roster[k].1| <= |head + rest|
      && (head + rest)[Offset(roster, k)..Offset(roster, k) + |roster[k].1|] == TeamRecords(roster[k].0, roster[k].1)
  {
    var r := head + rest;
    forall k | 0 <= k < |roster|
      ensures Offset(roster, k) + |roster[k].1| <= |r|
      && r[Offset(roster, k)..Offset(roster, k) + |roster[k].1|] == TeamRecords(roster[k].0, roster[k].1)
    {
      if k == 0 {
        assert r[0..|head|] == head;
      } else {
        var o := Offset(roster[1..], k - 1);
        assert roster[k] == roster[1..][k - 1];
        assert Offset(roster, k) == |head| + o;
        assert r[|head| + o..|head| + o + |roster[k].1|] == rest[o..o + |roster[k].1|];
      }
    }
  }

  /** `get_all_nfl_players`: team after team, each team's records in
      listed order, so team `k`'s records fill the slice that starts after
      the players of the teams before it. */
  function AllPlayers(roster: Roster): (r: seq<Player>)
    ensures |r| == Offset(roster, |roster|)
    ensures forall k :: 0 <= k < |roster| ==>
      Offset(roster, k) + |roster[k].1| <= |r|
      && r[Offset(roster, k)..Offset(roster, k) + |roster[k].1|] == TeamRecords(roster[k].0, roster[k].1)
    decreases |roster|
  {
    if |roster| == 0 then []
    else
      var head := TeamRecords(roster[0].0, roster[0].1);
      var rest := AllPlayers(roster[1..]);
      PrependTeam(roster, head, rest);
      head + rest
  }

  /** Record `j` of team `k` is entry `j` of that team with the team name
      attached. */
  lemma PlayerAt(roster: Roster, k: int, j: int)
    requires 0 <= k < |roster| && 0 <= j < |roster[k].1|
    ensures Offset(roster, k) + j < |AllPlayers(roster)|
    ensures AllPlayers(roster)[Offset(roster, k) + j] == WithTeam(roster[k].0, roster[k].1[j])
  {
    var r := AllPlayers(roster);
    var o := Offset(roster, k);
    assert r[o..o + |roster[k].1|][j] == r[o + j];
  }

  function HasKind(kind: string): Player -> bool
  {
    (p: Player) => p.kind == kind
  }

  /** `get_players_by_type`: "all" keeps everything, any other type keeps
      exactly the records of that type, in order. */
  function ByType(players: seq<Player>, kind: string): (r: seq<Player>)
    ensures kind == "all" ==> r == players
    ensures kind != "all" ==> forall i :: 0 <= i < |r| ==> r[i].kind == kind
    ensures kind != "all" ==> forall i :: 0 <= i < |players| && players[i].kind == kind ==> players[i] in r
    ensures kind != "all" ==> |r| == Count(players, HasKind(kind))
    ensures IsSubsequence(r, players)
  {
    if kind == "all" then
      IsSubsequenceRefl(players);
      players
    else
      FilterIsSubsequence(players, HasKind(kind));
      CountIsFilterLength(players, HasKind(kind));
      Filter(players, HasKind(kind))
  }

  /** A type no record has, other than "all", selects nothing. */
  lemma UnknownTypeSelectsNothing(players: seq<Player>, kind: string)
    requires kind != "all" && forall i :: 0 <= i < |players| ==> players[i].kind != kind
    ensures ByType(players, kind) == []
  {
    FilterRejectingAll(players, HasKind(kind));
  }

  /** The search test: the lower-cased query occurs in the lower-cased
      name or team. */
  function MatchesQuery(query: string): Player -> bool
  {
    (p: Player) => Contains(Lower(p.name), Lower(query)) || Contains(Lower(p.team), Lower(query))
  }

  /** `search_players`: the type filter, then for a non-empty query only
      the records whose name or team contains it, ignoring case. */
  function Search(players: seq<Player>, query: string, kind: string): (r: seq<Player>)
    ensures query == "" ==> r == ByType(players, kind)
    ensures query != "" ==> forall i :: 0 <= i < |r| ==> MatchesQuery(query)(r[i])
    ensures query != "" ==> forall i :: 0 <= i < |ByType(players, kind)| && MatchesQuery(query)(ByType(players, kind)[i]) ==>
      ByType(players, kind)[i] in r
    ensures query != "" ==> |r| == Count(ByType(players, kind), MatchesQuery(query))
    ensures IsSubsequence(r, ByType(players, kind))
  {
    var pool := ByType(players, kind);
    if query == "" then
      IsSubsequenceRefl(pool);
      pool
    else
      FilterIsSubsequence(pool, MatchesQuery(query));
      CountIsFilterLength(pool, MatchesQuery(query));
      Filter(pool, MatchesQuery(query))
  }

  /** Searching is blind to the case of the query. */
  lemma SearchIgnoresCase(players: seq<Player>, a: string, b: string, kind: string)
    requires a != "" && b != "" && Lower(a) == Lower(b)
    ensures Search(players, a, kind) == Search(players, b, kind)
  {
    assert MatchesQuery(a) == MatchesQuery(b);
  }

  /** A record of the selected type is found by its own name. */
  lemma SearchFindsByName(players: seq<Player>, kind: string, i: int)
    requires 0 <= i < |ByType(players, kind)| && ByType(players, kind)[i].name != ""
    ensures ByType(players, kind)[i] in Search(players, ByType(players, kind)[i].name, kind)
  {
    StartsWithSelf(Lower(ByType(players, kind)[i].name));
  }
}

=== FILE: prediction.dfy ===
/** The statistical game and player-prop predictors (`GamePredictor` and
    `PlayerPropPredictor`). Statistics dictionaries are records whose fields
    are `None` when the key is missing, so each `.get` default is visible at
    its use; player and opponent statistics keyed by derived names
    ("points_avg", "defense_vs_points") are maps. */
module Prediction {
  import opened Wrappers
  import opened Num

  // ---- Game prediction ----

  datatype TeamStats = TeamStats(
    winRate: Option<real>,
    pointsPerGame: Option<real>,
    pointsAllowedPerGame: Option<real>,
    recentForm: Option<real>)

  /** A non-empty weather dictionary (an empty one is falsy and is `None` at
      the call site). */
  datatype Weather = Weather(
    temp: Option<real>,
    windSpeed: Option<real>,
    precipitation: Option<real>,
    conditions: Option<string>)

  datatype WeatherImpact = WeatherImpact(
    originalHomeProb: real,
    originalAwayProb: real,
    adjustedHomeProb: real,
    adjustedAwayProb: real,
    temperature: real,
    windSpeed: real,
    precipitation: real,
    conditions: string,
    adjustmentFactor: real)

  datatype GamePrediction = GamePrediction(
    gameId: string,
    homeTeam: string,
    awayTeam: string,
    predictedWinner: string,
    homeWinProbability: real,
    awayWinProbability: real,
    confidence: real,
    weatherImpact: Option<WeatherImpact>,
    keyFactors: seq<string>)

  const HomeAdvantage: real := 0.03

  /** The weighted combination of record, scoring, defence and form, before
      clamping (the ML fallback uses it unclamped). */
  function WeightedStrength(s: TeamStats): real
  {
    s.winRate.GetOr(0.5) * 0.4
    + (s.pointsPerGame.GetOr(0.0) / 100.0) * 0.3
    + (1.0 - s.pointsAllowedPerGame.GetOr(0.0) / 100.0) * 0.2
    + s.recentForm.GetOr(0.5) * 0.1
  }

  function TeamStrength(s: TeamStats): (r: real)
    ensures 0.1 <= r <= 0.9
    ensures 0.1 <= WeightedStrength(s) <= 0.9 ==> r == WeightedStrength(s)
  {
    Max(0.1, Min(0.9, WeightedStrength(s)))
  }

  /** Strength share of the home side after the home advantage; the 0.5
      fallback for a non-positive total is kept although no clamped strengths
      reach it. */
  function BaseProbabilities(homeStrength: real, awayStrength: real): (r: (real, real))
    ensures r.0 + r.1 == 1.0
    ensures homeStrength + HomeAdvantage + awayStrength > 0.0 ==>
      r.0 * (homeStrength + HomeAdvantage + awayStrength) == homeStrength + HomeAdvantage
  {
    var h := homeStrength + HomeAdvantage;
    var total := h + awayStrength;
    var homeProb := if total > 0.0 then h / total else 0.5;
    (homeProb, 1.0 - homeProb)
  }

  /** Weather shifts the home probability by a single factor: cold sets -0.05,
      high wind overwrites it with -0.08, and precipitation subtracts 0.10. */
  function WeatherAdjustment(w: Weather): (adj: real)
    ensures adj <= 0.0
    ensures adj == 0.0 || adj == -0.05 || adj == -0.08 || adj == -0.10 || adj == -0.15 || adj == -0.18
    ensures adj == 0.0 <==> w.temp.GetOr(70.0) >= 32.0 && w.windSpeed.GetOr(0.0) <= 20.0 && w.precipitation.GetOr(0.0) <= 0.0
  {
    var a0 := 0.0;
    var a1 := if w.temp.GetOr(70.0) < 32.0 then -0.05 else a0;
    var a2 := if w.windSpeed.GetOr(0.0) > 20.0 then -0.08 else a1;
    if w.precipitation.GetOr(0.0) > 0.0 then a2 - 0.10 else a2
  }

  /** The adjusted probabilities; the "normalisation" divides by a total that
      is exactly 1, so the shift is applied unclamped. */
  function ApplyWeather(homeProb: real, awayProb: real, w: Weather): (r: WeatherImpact)
    ensures r.originalHomeProb == homeProb && r.originalAwayProb == awayProb
    ensures r.adjustmentFactor == WeatherAdjustment(w)
    ensures r.adjustedHomeProb == homeProb + r.adjustmentFactor
    ensures r.adjustedAwayProb == 1.0 - r.adjustedHomeProb
    ensures r.temperature == w.temp.GetOr(70.0) && r.windSpeed == w.windSpeed.GetOr(0.0)
    ensures r.precipitation == w.precipitation.GetOr(0.0) && r.conditions == w.conditions.GetOr("clear")
  {
    var adjustment := WeatherAdjustment(w);
    var adjustedHome := homeProb + adjustment;
    var adjustedAway := 1.0 - adjustedHome;
    var total := adjustedHome + adjustedAway;
    assert total == 1.0;
    WeatherImpact(homeProb, awayProb, adjustedHome / total, adjustedAway / total,
                  w.temp.GetOr(70.0), w.windSpeed.GetOr(0.0), w.precipitation.GetOr(0.0),
                  w.conditions.GetOr("clear"), adjustment)
  }

  const BetterRecordFactor: string := "Home team has significantly better record"
  const WindFactor: string := "High wind conditions may affect passing game"
  const PrecipitationFactor: string := "Precipitation expected - ground game advantage"

  /** Key factors; a missing win rate counts as 0 here (not 0.5 as in the
      strength). */
  function KeyFactors(home: TeamStats, away: TeamStats, weather: Option<Weather>): (r: seq<string>)
    ensures |r| <= 3
    ensures BetterRecordFactor in r <==> home.winRate.GetOr(0.0) > away.winRate.GetOr(0.0) + 0.2
    ensures WindFactor in r <==> weather.Some? && weather.value.windSpeed.GetOr(0.0) > 20.0
    ensures PrecipitationFactor in r <==> weather.Some? && weather.value.precipitation.GetOr(0.0) > 0.0
  {
    (if home.winRate.GetOr(0.0) > away.winRate.GetOr(0.0) + 0.2 then [BetterRecordFactor] else [])
    + (if weather.Some? && weather.value.windSpeed.GetOr(0.0) > 20.0 then [WindFactor] else [])
    + (if weather.Some? && weather.value.precipitation.GetOr(0.0) > 0.0 then [PrecipitationFactor] else [])
  }

  function PredictGame(homeTeam: string, awayTeam: string, homeStats: TeamStats, awayStats: TeamStats,
                       weather: Option<Weather>, gameId: string): (r: GamePrediction)
    ensures r.gameId == gameId && r.homeTeam == homeTeam && r.awayTeam == awayTeam
    ensures r.homeWinProbability + r.awayWinProbability == 1.0
    ensures r.predictedWinner == (if r.homeWinProbability > r.awayWinProbability then homeTeam else awayTeam)
    ensures r.confidence == Abs(r.homeWinProbability - r.awayWinProbability)
    ensures r.weatherImpact.Some? <==> weather.Some?
    ensures weather.None? ==> r.homeWinProbability == BaseProbabilities(TeamStrength(homeStats), TeamStrength(awayStats)).0
    ensures weather.Some? ==>
      r.homeWinProbability == BaseProbabilities(TeamStrength(homeStats), TeamStrength(awayStats)).0 + WeatherAdjustment(weather.value)
    ensures r.keyFactors == KeyFactors(homeStats, awayStats, weather)
  {
    var base := BaseProbabilities(TeamStrength(homeStats), TeamStrength(awayStats));
    var impact := if weather.Some? then Some(ApplyWeather(base.0, base.1, weather.value)) else None;
    var homeProb := if impact.Some? then impact.value.adjustedHomeProb else base.0;
    var awayProb := if impact.Some? then impact.value.adjustedAwayProb else base.1;
    GamePrediction(gameId, homeTeam, awayTeam,
                   if homeProb > awayProb then homeTeam else awayTeam,
                   homeProb, awayProb, Abs(homeProb - awayProb), impact,
                   KeyFactors(homeStats, awayStats, weather))
  }

  /** Both strengths are at least 0.1, so the total is positive and the
      base home probability lies strictly between 0 and 1. */
  lemma BaseProbabilityInUnitInterval(homeStats: TeamStats, awayStats: TeamStats)
    ensures var r := BaseProbabilities(TeamStrength(homeStats), TeamStrength(awayStats));
      0.0 < r.0 < 1.0 && 0.0 < r.1 < 1.0
  {
    ShareOfPositiveSum(TeamStrength(homeStats) + HomeAdvantage, TeamStrength(awayStats));
  }

  /** `h / (h + a)` for two positive parts lies strictly inside (0, 1). */
  lemma ShareOfPositiveSum(h: real, a: real)
    requires h > 0.0 && a > 0.0
    ensures 0.0 < h / (h + a) < 1.0
  {
  }

  /** Penalties overwrite instead of adding: a cold and windy dry day costs
      0.08, not 0.13, and adding rain gives 0.18. */
  lemma WeatherPenaltiesOverwrite()
    ensures WeatherAdjustment(Weather(Some(20.0), Some(25.0), Some(0.0), None)) == -0.08
    ensures WeatherAdjustment(Weather(Some(20.0), Some(25.0), Some(0.3), None)) == -0.18
    ensures WeatherAdjustment(Weather(None, None, None, None)) == 0.0
  {
  }

  /** The weather shift is unclamped: the weakest home side against the
      strongest away side in cold, windy, wet weather gets a negative "home
      win probability". */
  lemma WeatherCanPushProbabilityBelowZero()
    ensures var p := PredictGame("H", "A", TeamStats(Some(0.0), Some(0.0), Some(200.0), Some(0.0)),
                                TeamStats(Some(1.0), Some(100.0), Some(0.0), Some(1.0)),
                                Some(Weather(Some(10.0), Some(30.0), Some(1.0), None)), "g");
      p.homeWinProbability < 0.0 && p.awayWinProbability > 1.0
  {
    var hs := TeamStats(Some(0.0), Some(0.0), Some(200.0), Some(0.0));
    var as_ := TeamStats(Some(1.0), Some(100.0), Some(0.0), Some(1.0));
    assert TeamStrength(hs) == 0.1;
    assert TeamStrength(as_) == 0.9;
    var base := BaseProbabilities(0.1, 0.9);
    assert base.0 == 0.13 / 1.03;
  }

  /** An exact probability tie is called for the away team. */
  lemma ExactTieGoesToAway()
    ensures var p := PredictGame("H", "A", TeamStats(Some(0.5), Some(0.0), Some(100.0), Some(0.0)),
                                TeamStats(Some(0.5), Some(0.0), Some(100.0), Some(0.3)), None, "g");
      p.homeWinProbability == p.awayWinProbability && p.predictedWinner == "A"
  {
    var hs := TeamStats(Some(0.5), Some(0.0), Some(100.0), Some(0.0));
    var as_ := TeamStats(Some(0.5), Some(0.0), Some(100.0), Some(0.3));
    assert TeamStrength(hs) == 0.2;
    assert TeamStrength(as_) == 0.23;
    assert BaseProbabilities(0.2, 0.23).0 == 0.5;
  }

  // ---- Player-prop prediction ----

  datatype PropPrediction = PropPrediction(
    playerName: string,
    propType: string,
    predictedValue: real,
    overProbability: real,
    underProbability: real,
    confidence: real,
    historicalAvg: real,
    matchupFactor: real)

  function Lookup(m: map<string, real>, key: string, default: real): real
  {
    if key in m then m[key] else default
  }

  /** `1 + 0.3 * (0.5 - defence)` clamped to [0.7, 1.3]; neutral when the
      opponent has no rating for the prop. */
  function MatchupFactor(opponentStats: map<string, real>, propType: string): (f: real)
    ensures 0.7 <= f <= 1.3
    ensures "defense_vs_" + propType !in opponentStats ==> f == 1.0
    ensures "defense_vs_" + propType in opponentStats && 0.7 <= 1.0 + (0.5 - opponentStats["defense_vs_" + propType]) * 0.3 <= 1.3
      ==> f == 1.0 + (0.5 - opponentStats["defense_vs_" + propType]) * 0.3
  {
    var defense := Lookup(opponentStats, "defense_vs_" + propType, 0.5);
    Max(0.7, Min(1.3, 1.0 + (0.5 - defense) * 0.3))
  }

  /** The over probability for a z-score, by the step table. */
  function ZStep(z: real): (p: real)
    ensures p == 0.95 || p == 0.80 || p == 0.65 || p == 0.35 || p == 0.20 || p == 0.05
  {
    if z < -2.0 then 0.95
    else if z < -1.0 then 0.80
    else if z < 0.0 then 0.65
    else if z < 1.0 then 0.35
    else if z < 2.0 then 0.20
    else 0.05
  }

  lemma ZStepNonIncreasing(z1: real, z2: real)
    requires z1 <= z2
    ensures ZStep(z2) <= ZStep(z1)
  {
  }

  /** The over probability with a 15% standard deviation; 0.5 when it is 0. */
  function OverProbability(predictedValue: real, line: real): (p: real)
    ensures predictedValue == 0.0 ==> p == 0.5
    ensures predictedValue != 0.0 ==> p == ZStep((line - predictedValue) / (predictedValue * 0.15))
  {
    var stdDev := predictedValue * 0.15;
    if stdDev == 0.0 then 0.5 else ZStep((line - predictedValue) / stdDev)
  }

  /** For a positive prediction a higher line never makes the over likelier. */
  lemma OverProbabilityNonIncreasingInLine(predictedValue: real, line1: real, line2: real)
    requires predictedValue > 0.0 && line1 <= line2
    ensures OverProbability(predictedValue, line2) <= OverProbability(predictedValue, line1)
  {
    var sd := predictedValue * 0.15;
    DivMonotone(line1 - predictedValue, line2 - predictedValue, sd);
    ZStepNonIncreasing((line1 - predictedValue) / sd, (line2 - predictedValue) / sd);
  }

  /** A line equal to the prediction has z = 0, which falls in the [0, 1)
      bucket: the over is called at 0.35, not 0.5. */
  lemma LineAtPredictionIsNotEven(predictedValue: real)
    requires predictedValue != 0.0
    ensures OverProbability(predictedValue, predictedValue) == 0.35
  {
    assert (predictedValue - predictedValue) / (predictedValue * 0.15) == 0.0;
  }

  function PredictPlayerProp(playerName: string, propType: string, playerStats: map<string, real>,
                             opponentStats: map<string, real>, historicalAvg: real,
                             line: Option<real>): (r: PropPrediction)
    ensures r.playerName == playerName && r.propType == propType && r.historicalAvg == historicalAvg
    ensures r.matchupFactor == MatchupFactor(opponentStats, propType)
    ensures r.predictedValue == Lookup(playerStats, propType + "_avg", historicalAvg) * r.matchupFactor
    ensures r.underProbability == 1.0 - r.overProbability
    ensures !Truthy(line) ==> r.overProbability == 0.5 && r.underProbability == 0.5
    ensures Truthy(line) ==> r.overProbability == OverProbability(r.predictedValue, line.value)
    ensures r.confidence <= 0.95
    ensures r.confidence == Min(0.95, Lookup(playerStats, "consistency", 0.7) * 0.9)
  {
    var factor := MatchupFactor(opponentStats, propType);
    var predicted := Lookup(playerStats, propType + "_avg", historicalAvg) * factor;
    var over := if Truthy(line) then OverProbability(predicted, line.value) else 0.5;
    var consistency := Lookup(playerStats, "consistency", 0.7);
    PropPrediction(playerName, propType, predicted, over, 1.0 - over,
                   Min(0.95, consistency * 0.9), historicalAvg, factor)
  }
}

=== FILE: prediction_router.dfy ===
/** The player-prop step of the game-prediction endpoint: given the
    prediction and, when the player props could be fetched, their net
    adjustment, shift and clamp the home probability, recompute the
    confidence, add at most one key factor and assemble the response. The
    composed predictor call and the prop analysis that yields the net
    adjustment are inputs here. */
module PredictionRouter {
  import opened Wrappers
  import opened Num
  import Prediction

  /** What `analyze_player_props_for_game` reports; only the net
      adjustment (default 0.0) is read. */
  datatype PropAdjustment = PropAdjustment(netAdjustment: Option<real>)

  datatype GameResponse = GameResponse(
    gameId: string,
    homeTeam: string,
    awayTeam: string,
    predictedWinner: string,
    homeWinProbability: real,
    awayWinProbability: real,
    confidence: real,
    weatherImpact: Option<Prediction.WeatherImpact>,
    keyFactors: seq<string>,
    playerPropAdjustment: Option<PropAdjustment>)

  const HomeMatchupsFactor: string := "Home team key players have favorable historical matchups"
  const AwayMatchupsFactor: string := "Away team key players have favorable historical matchups"

  /** The key factor a net adjustment earns: only shifts beyond two points. */
  function MatchupFactorFor(net: real): (r: seq<string>)
    ensures |r| <= 1
    ensures r == [HomeMatchupsFactor] <==> net > 0.02
    ensures r == [AwayMatchupsFactor] <==> net < -0.02
    ensures r == [] <==> -0.02 <= net <= 0.02
  {
    if net > 0.02 then [HomeMatchupsFactor]
    else if net < -0.02 then [AwayMatchupsFactor]
    else []
  }

  /** The response as written: the probabilities and confidence are
      adjusted, the predicted winner is carried over untouched. `props` is
      present exactly when the prop data could be fetched, even with empty
      prop lists, and the response then carries the analysis: the source
      adds it whenever the analysis dict is truthy, and that dict, which
      `analyze_player_props_for_game` builds outside this model, is taken to
      be non-empty. */
  function AdjustedResponse(p: Prediction.GamePrediction, props: Option<PropAdjustment>): (r: GameResponse)
    ensures r.gameId == p.gameId && r.homeTeam == p.homeTeam && r.awayTeam == p.awayTeam
    ensures r.predictedWinner == p.predictedWinner
    ensures r.weatherImpact == p.weatherImpact && r.playerPropAdjustment == props
    ensures props.None? ==>
      r.homeWinProbability == p.homeWinProbability && r.awayWinProbability == p.awayWinProbability
      && r.confidence == p.confidence && r.keyFactors == p.keyFactors
    ensures props.Some? ==>
      var net := props.value.netAdjustment.GetOr(0.0);
      r.homeWinProbability == Clamp(p.homeWinProbability + net, 0.1, 0.9)
      && r.awayWinProbability == 1.0 - r.homeWinProbability
      && r.confidence == Abs(r.homeWinProbability - r.awayWinProbability)
      && r.keyFactors == p.keyFactors + MatchupFactorFor(net)
  {
    if props.None? then
      GameResponse(p.gameId, p.homeTeam, p.awayTeam, p.predictedWinner, p.homeWinProbability,
                   p.awayWinProbability, p.confidence, p.weatherImpact, p.keyFactors, None)
    else
      var net := props.value.netAdjustment.GetOr(0.0);
      var shifted := p.homeWinProbability + net;
      var home := Max(0.1, Min(0.9, shifted));
      var away := 1.0 - home;
      GameResponse(p.gameId, p.homeTeam, p.awayTeam, p.predictedWinner, home, away, Abs(home - away),
                   p.weatherImpact, p.keyFactors + MatchupFactorFor(net), props)
  }

  /** After an adjustment the probabilities are complementary, each within
      [0.1, 0.9], the confidence is at most 0.8, and at most one factor was
      added. */
  lemma AdjustmentKeepsProbabilitiesInRange(p: Prediction.GamePrediction, props: PropAdjustment)
    ensures var r := AdjustedResponse(p, Some(props));
      0.1 <= r.homeWinProbability <= 0.9 && 0.1 <= r.awayWinProbability <= 0.9
      && 0.0 <= r.confidence <= 0.8
      && |p.keyFactors| <= |r.keyFactors| <= |p.keyFactors| + 1
  {
  }

  /** As written, the response can name the side it now gives the lower
      probability: a 55% home favourite shifted by -10 points stays the
      predicted winner at 45%. */
  lemma WinnerCanContradictProbabilities()
    ensures var p := Prediction.GamePrediction("g", "H", "A", "H", 0.55, 0.45, 0.1, None, []);
      var r := AdjustedResponse(p, Some(PropAdjustment(Some(-0.1))));
      r.predictedWinner == "H" && r.homeWinProbability < r.awayWinProbability
  {
    var p := Prediction.GamePrediction("g", "H", "A", "H", 0.55, 0.45, 0.1, None, []);
    var r := AdjustedResponse(p, Some(PropAdjustment(Some(-0.1))));
    assert r.homeWinProbability == 0.45;
  }

  /** The evidently intended response: the winner is re-derived from the
      adjusted probabilities by the predictor's own rule. */
  function AdjustedResponseCorrected(p: Prediction.GamePrediction, props: Option<PropAdjustment>): (r: GameResponse)
    ensures props.Some? ==>
      r.predictedWinner == (if r.homeWinProbability > r.awayWinProbability then p.homeTeam else p.awayTeam)
    ensures props.None? ==> r == AdjustedResponse(p, None)
    ensures r.homeWinProbability == AdjustedResponse(p, props).homeWinProbability
    ensures r.awayWinProbability == AdjustedResponse(p, props).awayWinProbability
    ensures r.keyFactors == AdjustedResponse(p, props).keyFactors
  {
    var written := AdjustedResponse(p, props);
    if props.None? then written
    else
      written.(predictedWinner :=
        if written.homeWinProbability > written.awayWinProbability then p.homeTeam else p.awayTeam)
  }

  /** In the corrected response a predicted winner never trails: when it
      names a distinct home side, the home probability exceeds one half. */
  lemma CorrectedWinnerLeads(p: Prediction.GamePrediction, props: PropAdjustment)
    requires p.homeTeam != p.awayTeam
    ensures var r := AdjustedResponseCorrected(p, Some(props));
      (r.predictedWinner == p.homeTeam <==> r.homeWinProbability > 0.5)
      && (r.predictedWinner == p.awayTeam <==> r.homeWinProbability <= 0.5)
  {
  }
}

=== FILE: prop_router.dfy ===
/** `_generate_player_props`: which props a player gets for a sport and
    position, their starting line and value, the injury scaling, and the
    final overwrite by the prop predictor. The predictor is a parameter
    (its call has arguments the modelled predictor does not take); it sees
    the prop type, the season average and the line, and closes over the
    player's and opponent's data, which are the same for every prop. */
module PropRouter {
  import opened Wrappers
  import Prediction
  import Injury

  /** One row of the prop table: the statistic read and its default. */
  datatype PropSpec = PropSpec(propType: string, propName: string, statKey: string, default: real, unit: string)

  const PassingYards := PropSpec("passing_yards", "Passing Yards", "yards_avg", 250.0, "yards")
  const PassingTouchdowns := PropSpec("passing_touchdowns", "Passing TDs", "touchdowns_avg", 2.0, "TDs")
  const RushingYards := PropSpec("rushing_yards", "Rushing Yards", "yards_avg", 80.0, "yards")
  const RushingTouchdowns := PropSpec("rushing_touchdowns", "Rushing TDs", "touchdowns_avg", 0.8, "TDs")
  const ReceivingYards := PropSpec("receiving_yards", "Receiving Yards", "yards_avg", 60.0, "yards")
  const Receptions := PropSpec("receptions", "Receptions", "receptions_avg", 5.0, "rec")
  const NbaPoints := PropSpec("points", "Points", "points_avg", 20.0, "pts")
  const Assists := PropSpec("assists", "Assists", "assists_avg", 5.0, "ast")
  const Rebounds := PropSpec("rebounds", "Rebounds", "rebounds_avg", 7.0, "reb")
  const Strikeouts := PropSpec("strikeouts", "Strikeouts", "strikeouts_avg", 7.0, "SO")
  const Hits := PropSpec("hits", "Hits", "hits_avg", 1.2, "H")
  const HomeRuns := PropSpec("home_runs", "Home Runs", "home_runs_avg", 0.3, "HR")
  const Saves := PropSpec("saves", "Saves", "saves_avg", 28.0, "saves")
  const NhlPoints := PropSpec("points", "Points", "points_avg", 0.9, "pts")
  const Shots := PropSpec("shots", "Shots on Goal", "shots_avg", 3.5, "SOG")

  predicate IsNbaPosition(position: string)
  {
    position == "PG" || position == "SG" || position == "SF" || position == "PF" || position == "C"
  }

  /** The props offered for a sport and position, in the order listed. */
  function Catalogue(sport: string, position: string): (r: seq<PropSpec>)
    ensures sport == "nfl" && position == "QB" ==> r == [PassingYards, PassingTouchdowns]
    ensures sport == "nfl" && position == "RB" ==> r == [RushingYards, RushingTouchdowns]
    ensures sport == "nfl" && (position == "WR" || position == "TE") ==> r == [ReceivingYards, Receptions]
    ensures sport == "nfl" && position != "QB" && position != "RB" && position != "WR" && position != "TE" ==> r == []
    ensures sport == "nba" ==> (r != [] <==> IsNbaPosition(position))
    ensures sport == "nba" && IsNbaPosition(position) ==>
      r[0] == NbaPoints
      && (Assists in r <==> position == "PG" || position == "SG" || position == "SF")
      && (Rebounds in r <==> position == "PF" || position == "C" || position == "SF")
    ensures sport == "nba" && (position == "PG" || position == "SG") ==> r == [NbaPoints, Assists]
    ensures sport == "nba" && position == "SF" ==> r == [NbaPoints, Assists, Rebounds]
    ensures sport == "nba" && (position == "PF" || position == "C") ==> r == [NbaPoints, Rebounds]
    ensures sport == "mlb" ==> r == if position == "P" then [Strikeouts] else [Hits, HomeRuns]
    ensures sport == "nhl" ==> r == if position == "G" then [Saves] else [NhlPoints, Shots]
    ensures sport != "nfl" && sport != "nba" && sport != "mlb" && sport != "nhl" ==> r == []
    ensures |r| <= 3
  {
    if sport == "nfl" then
      if position == "QB" then [PassingYards, PassingTouchdowns]
      else if position == "RB" then [RushingYards, RushingTouchdowns]
      else if position == "WR" || position == "TE" then [ReceivingYards, Receptions]
      else []
    else if sport == "nba" then
      if IsNbaPosition(position) then
        [NbaPoints]
        + (if position == "PG" || position == "SG" || position == "SF" then [Assists] else [])
        + (if position == "PF" || position == "C" || position == "SF" then [Rebounds] else [])
      else []
    else if sport == "mlb" then
      if position == "P" then [Strikeouts] else [Hits, HomeRuns]
    else if sport == "nhl" then
      if position == "G" then [Saves] else [NhlPoints, Shots]
    else []
  }

  /** A small forward plays both ways: points, assists and rebounds. */
  lemma SmallForwardGetsThreeProps()
    ensures Catalogue("nba", "SF") == [NbaPoints, Assists, Rebounds]
  {
  }

  datatype PropInjury = PropInjury(status: Injury.InjuryStatus, injuryType: Injury.InjuryType)

  /** What the predictor reports for one prop. */
  datatype PredictorOutput = PredictorOutput(
    predictedValue: real,
    overProbability: real,
    underProbability: real,
    confidence: real,
    expectedValue: Option<real>)

  datatype Prop = Prop(
    playerName: string,
    position: string,
    propType: string,
    propName: string,
    line: real,
    predictedValue: real,
    unit: string,
    injury: Option<PropInjury>,
    overProbability: Option<real>,
    underProbability: Option<real>,
    confidence: Option<real>,
    ev: Option<real>)

  /** A fresh prop: line and predicted value are both the season average. */
  function StartProp(playerName: string, position: string, stats: map<string, real>, spec: PropSpec): (p: Prop)
    ensures p.line == p.predictedValue == Prediction.Lookup(stats, spec.statKey, spec.default)
    ensures p.propType == spec.propType && p.injury.None? && p.overProbability.None?
  {
    var avg := Prediction.Lookup(stats, spec.statKey, spec.default);
    Prop(playerName, position, spec.propType, spec.propName, avg, avg, spec.unit, None, None, None, None, None)
  }

  function StartProps(playerName: string, position: string, stats: map<string, real>, specs: seq<PropSpec>): (r: seq<Prop>)
    ensures |r| == |specs|
    ensures forall i :: 0 <= i < |r| ==> r[i] == StartProp(playerName, position, stats, specs[i])
  {
    seq(|specs|, i requires 0 <= i < |specs| => StartProp(playerName, position, stats, specs[i]))
  }

  /** The injury step: every value is scaled by `1 - m` for the status's
      multiplier and the injury is recorded; no injury leaves props as they
      are. */
  function ApplyInjury(props: seq<Prop>, injury: Option<PropInjury>): (r: seq<Prop>)
    ensures |r| == |props|
    ensures injury.None? ==> r == props
    ensures injury.Some? ==> forall i :: 0 <= i < |r| ==>
      r[i] == props[i].(predictedValue := props[i].predictedValue * (1.0 - Injury.StatusMultiplier(injury.value.status)),
                        injury := injury)
  {
    if injury.None? then props
    else
      var m := Injury.StatusMultiplier(injury.value.status);
      seq(|props|, i requires 0 <= i < |props| => props[i].(predictedValue := props[i].predictedValue * (1.0 - m), injury := injury))
  }

  /** An "out" player's props are scaled to zero. */
  lemma OutScalesToZero(props: seq<Prop>, injuryType: Injury.InjuryType)
    ensures var r := ApplyInjury(props, Some(PropInjury(Injury.Out, injuryType)));
      forall i :: 0 <= i < |r| ==> r[i].predictedValue == 0.0
  {
  }

  /** The predictor step: it is called with the line as the historical
      average and as the line, and its value replaces the scaled one. */
  function Predict(p: Prop, predict: (string, real, real) -> PredictorOutput): (r: Prop)
    ensures var o := predict(p.propType, p.line, p.line);
      r == p.(predictedValue := o.predictedValue, overProbability := Some(o.overProbability),
              underProbability := Some(o.underProbability), confidence := Some(o.confidence),
              ev := Some(o.expectedValue.GetOr(0.0)))
  {
    var o := predict(p.propType, p.line, p.line);
    p.(predictedValue := o.predictedValue, overProbability := Some(o.overProbability),
       underProbability := Some(o.underProbability), confidence := Some(o.confidence),
       ev := Some(o.expectedValue.GetOr(0.0)))
  }

  /** `_generate_player_props`. */
  function GeneratePlayerProps(playerName: string, position: string, stats: map<string, real>,
                               injury: Option<PropInjury>, sport: string,
                               predict: (string, real, real) -> PredictorOutput): (r: seq<Prop>)
    ensures |r| == |Catalogue(sport, position)|
    ensures forall i :: 0 <= i < |r| ==>
      var spec := Catalogue(sport, position)[i];
      var avg := Prediction.Lookup(stats, spec.statKey, spec.default);
      r[i].propType == spec.propType && r[i].line == avg && r[i].injury == injury
      && r[i].predictedValue == predict(spec.propType, avg, avg).predictedValue
  {
    var started := StartProps(playerName, position, stats, Catalogue(sport, position));
    var scaled := ApplyInjury(started, injury);
    seq(|scaled|, i requires 0 <= i < |scaled| => Predict(scaled[i], predict))
  }

  /** The injury scaling is lost: the final predicted values are the same
      whatever the injury, because the predictor is handed the unscaled
      line and its value overwrites the scaled one. */
  lemma FinalValueIgnoresInjury(playerName: string, position: string, stats: map<string, real>,
                                injury: Option<PropInjury>, sport: string,
                                predict: (string, real, real) -> PredictorOutput)
    ensures var withInjury := GeneratePlayerProps(playerName, position, stats, injury, sport, predict);
      var healthy := GeneratePlayerProps(playerName, position, stats, None, sport, predict);
      |withInjury| == |healthy|
      && forall i :: 0 <= i < |healthy| ==>
           withInjury[i].predictedValue == healthy[i].predictedValue
           && withInjury[i].line == healthy[i].line
           && withInjury[i].overProbability == healthy[i].overProbability
  {
  }
}

=== FILE: schedules.dfy ===
/** The four schedule tables and `get_*_games_for_period`: the rows whose
    calendar date falls in [start, end], in table order, each turned into a
    game with a running id, a venue, a week label and a location. Dates are
    proleptic Gregorian day ordinals as `date.toordinal()` gives them; the
    current date `now` and the local UTC offset behind `timestamp()` are
    parameters. The `%B %d` text of a "Week of" label is represented by the
    ordinal of the date it prints, and the ISO date string by its fields. */
module Schedules {
  import opened Wrappers
  import opened Seqs
  import opened Text
  import Cities
  import Normalizer

  // ---- Calendar ----

  predicate IsLeap(y: int)
  {
    y % 4 == 0 && (y % 100 != 0 || y % 400 == 0)
  }

  function DaysInMonth(y: int, m: int): int
    requires 1 <= m <= 12
  {
    if m == 2 then (if IsLeap(y) then 29 else 28)
    else if m == 4 || m == 6 || m == 9 || m == 11 then 30
    else 31
  }

  function DaysBeforeMonth(y: int, m: int): int
    requires 1 <= m <= 12
  {
    [0, 31, 59, 90, 120, 151, 181, 212, 243, 273, 304, 334][m - 1] + (if m > 2 && IsLeap(y) then 1 else 0)
  }

  /** `date(y, m, d).toordinal()`: 1 for 1 January of year 1. */
  function Ordinal(y: int, m: int, d: int): int
    requires 1 <= m <= 12
  {
    var p := y - 1;
    p * 365 + p / 4 - p / 100 + p / 400 + DaysBeforeMonth(y, m) + d
  }

  /** `weekday()` of an ordinal: Monday is 0, Sunday is 6. */
  function Weekday(ordinal: int): (w: int)
    ensures 0 <= w < 7
  {
    (ordinal + 6) % 7
  }

  /** The calendar agrees with the source's comments: 14 December 2025 is
      a Sunday. */
  lemma CalendarCheck()
    ensures Weekday(Ordinal(2025, 12, 14)) == 6
  {
  }

  // ---- Rows and games ----

  datatype Sport = Nfl | Nba | Nhl | Mlb

  function SportName(s: Sport): (r: string)
    ensures |r| == 3 && Normalizer.AllOf(r, Normalizer.IsLetter)
  {
    match s
    case Nfl => "nfl"
    case Nba => "nba"
    case Nhl => "nhl"
    case Mlb => "mlb"
  }

  /** A table row (away, home, date, time, city, state), with the date and
      time strings given by their numeric fields. */
  datatype Row = Row(away: string, home: string, year: int, month: int, day: int, hour: int, minute: int,
                     city: string, state: string)

  /** `strptime(..., "%Y-%m-%d %H:%M")` accepts the row; a row it rejects
      is skipped by the loop's `except` branch. */
  predicate ParsesAsDate(r: Row)
  {
    1 <= r.year <= 9999 && 1 <= r.month <= 12 && 1 <= r.day <= DaysInMonth(r.year, r.month)
    && 0 <= r.hour < 24 && 0 <= r.minute < 60
  }

  function RowOrdinal(r: Row): int
    requires ParsesAsDate(r)
  {
    Ordinal(r.year, r.month, r.day)
  }

  datatype DateTime = DateTime(year: int, month: int, day: int, hour: int, minute: int)

  datatype WeekLabel = Today | ThisWeek | NextWeek | WeekOf(ordinal: int)

  datatype Location = Location(city: string, state: string, country: string, coords: Option<Cities.Coords>)

  datatype Game = Game(gameId: string, sport: string, homeTeam: string, awayTeam: string, date: DateTime,
                       venue: string, week: WeekLabel, location: Location)

  /** `int(game_date.timestamp())` for a local time `utcOffset` seconds
      east of UTC. */
  function Timestamp(r: Row, utcOffset: int): int
    requires ParsesAsDate(r)
  {
    (RowOrdinal(r) - 719163) * 86400 + r.hour * 3600 + r.minute * 60 - utcOffset
  }

  /** `f"{sport}_{k}_{ts}"`. */
  function GameId(sport: Sport, k: nat, ts: int): string
  {
    SportName(sport) + "_" + NatToString(k) + "_" + IntToString(ts)
  }

  /** Reading the running number back out of an id: the digits between its
      first two underscores. */
  function GameNumber(id: string): Option<nat>
  {
    if |id| < 4 || id[3] != '_' then None
    else
      var rest := id[4..];
      var d := Normalizer.Run(rest, IsDigit);
      if d == 0 then None else Some(ParseDigits(rest[..d]))
  }

  /** A three-letter prefix puts the first underscore of an id at 3. */
  lemma IdParts(name: string, ks: string, tail: string)
    requires |name| == 3
    ensures var id := name + "_" + ks + "_" + tail;
      |id| >= 4 && id[3] == '_' && id[4..] == ks + "_" + tail
  {
    var id := name + "_" + ks + "_" + tail;
    assert id == name + "_" + (ks + "_" + tail);
    Normalizer.UnderscoreSplit(name, ks + "_" + tail);
  }

  /** The digit run of `ks_tail` is `ks`. */
  lemma DigitsBeforeUnderscore(ks: string, tail: string)
    requires forall i :: 0 <= i < |ks| ==> IsDigit(ks[i])
    ensures Normalizer.Run(ks + "_" + tail, IsDigit) == |ks|
    ensures (ks + "_" + tail)[..|ks|] == ks
  {
    var rest := ks + "_" + tail;
    Normalizer.UnderscoreSplit(ks, tail);
    assert forall i :: 0 <= i < |ks| ==> rest[i] == ks[i];
    Normalizer.RunIsFirstRejected(rest, IsDigit, |ks|);
  }

  /** The running number of an id is recovered from it. */
  lemma GameNumberRoundTrip(sport: Sport, k: nat, ts: int)
    ensures GameNumber(GameId(sport, k, ts)) == Some(k)
  {
    var ks := NatToString(k);
    IdParts(SportName(sport), ks, IntToString(ts));
    DigitsBeforeUnderscore(ks, IntToString(ts));
    ParseNatToString(k);
  }

  /** Games with different running numbers have different ids. */
  lemma GameIdsDiffer(sport: Sport, k1: nat, ts1: int, k2: nat, ts2: int)
    requires k1 != k2
    ensures GameId(sport, k1, ts1) != GameId(sport, k2, ts2)
  {
    GameNumberRoundTrip(sport, k1, ts1);
    GameNumberRoundTrip(sport, k2, ts2);
  }

  /** An id with a timestamp at or after the epoch passes
      `validate_game_id`. */
  lemma GameIdValidates(sport: Sport, k: nat, ts: int)
    requires ts >= 0
    ensures Normalizer.ValidateGameId(GameId(sport, k, ts))
  {
    Normalizer.ScheduleIdsValidate(SportName(sport), k, ts);
  }

  // ---- Week labels ----

  /** The NBA, NHL and MLB rule: today, within two days, within a week, or
      the date itself. */
  function DayLabel(day: int, now: int): WeekLabel
  {
    if day == now then Today
    else if day <= now + 2 then ThisWeek
    else if day <= now + 7 then NextWeek
    else WeekOf(day)
  }

  /** How far off a label places a game, for comparing labels. */
  function Rank(l: WeekLabel): int
  {
    match l
    case Today => 0
    case ThisWeek => 1
    case NextWeek => 2
    case WeekOf(_) => 3
  }

  /** Each label covers one band of days: "This Week" also covers every
      earlier day in the window, since only an upper bound is tested. */
  lemma DayLabelBands(day: int, now: int)
    ensures DayLabel(day, now) == Today <==> day == now
    ensures DayLabel(day, now) == ThisWeek <==> day != now && day <= now + 2
    ensures DayLabel(day, now) == NextWeek <==> now + 2 < day <= now + 7
    ensures DayLabel(day, now).WeekOf? <==> now + 7 < day
  {
  }

  /** From today on, a later game never gets a nearer label. */
  lemma DayLabelMonotone(d1: int, d2: int, now: int)
    requires now <= d1 <= d2
    ensures Rank(DayLabel(d1, now)) <= Rank(DayLabel(d2, now))
  {
  }

  /** The Sunday on or before `d`: `d - (weekday - 6) % 7`. */
  function SundayOnOrBefore(d: int): int
  {
    d - (Weekday(d) - 6) % 7
  }

  lemma SundayOnOrBeforeIsSunday(d: int)
    ensures Weekday(SundayOnOrBefore(d)) == 6
    ensures d - 6 <= SundayOnOrBefore(d) <= d
  {
    var w := Weekday(d);
    var q := (d + 6) / 7;
    assert d + 6 == 7 * q + w;
    if w == 6 {
      assert SundayOnOrBefore(d) == d;
    } else {
      assert (w - 6) % 7 == w + 1;
      assert SundayOnOrBefore(d) + 6 == 7 * (q - 1) + 6;
    }
  }

  /** The source's `this_week_sunday`: `now` plus the days to the next
      Sunday (7 on a Sunday), minus one. */
  function ThisWeekSunday(now: int): int
  {
    var untilSunday := (6 - Weekday(now)) % 7;
    now + (if untilSunday == 0 then 7 else untilSunday) - 1
  }

  /** That day is always a Saturday. */
  lemma ThisWeekSundayIsSaturday(now: int)
    ensures Weekday(ThisWeekSunday(now)) == 5
  {
    var w := Weekday(now);
    var q := (now + 6) / 7;
    assert now + 6 == 7 * q + w;
    if w == 6 {
      assert ThisWeekSunday(now) + 6 == 7 * (q + 1) + 5;
    } else {
      assert (6 - w) % 7 == 6 - w;
      assert ThisWeekSunday(now) + 6 == 7 * q + 5;
    }
  }

  /** The NFL rule as written: a game's week is named by the Sunday on or
      before it and compared with `this_week_sunday` and the day a week
      later. */
  function NflLabel(day: int, now: int): WeekLabel
  {
    if day == now then Today
    else
      var weekSunday := SundayOnOrBefore(day);
      if weekSunday == ThisWeekSunday(now) then ThisWeek
      else if weekSunday == ThisWeekSunday(now) + 7 then NextWeek
      else WeekOf(weekSunday)
  }

  /** As written, a Sunday is compared with a Saturday, so an NFL game is
      labelled either "Today" or "Week of" its Sunday, never "This Week"
      or "Next Week". */
  lemma NflWeekLabelsUnreachable(day: int, now: int)
    ensures NflLabel(day, now) == Today || NflLabel(day, now) == WeekOf(SundayOnOrBefore(day))
    ensures IsNflLabelAsWritten(day, now, NflLabel(day, now))
  {
    SundayOnOrBeforeIsSunday(day);
    ThisWeekSundayIsSaturday(now);
    SameWeekday(ThisWeekSunday(now));
  }

  lemma SameWeekday(d: int)
    ensures Weekday(d + 7) == Weekday(d)
  {
  }

  /** The evidently intended NFL rule: a game in the Sunday-to-Saturday
      week of today is "This Week", one in the following week "Next Week". */
  function NflLabelCorrected(day: int, now: int): WeekLabel
  {
    if day == now then Today
    else
      var weekSunday := SundayOnOrBefore(day);
      if weekSunday == SundayOnOrBefore(now) then ThisWeek
      else if weekSunday == SundayOnOrBefore(now) + 7 then NextWeek
      else WeekOf(weekSunday)
  }

  /** The Sunday on or before `d` is the Sunday `s` exactly when `d` lies
      in the seven days from `s`. */
  lemma SundayOnOrBeforeIff(d: int, s: int)
    requires Weekday(s) == 6
    ensures SundayOnOrBefore(d) == s <==> s <= d < s + 7
  {
    SundayOnOrBeforeIsSunday(d);
    var t := SundayOnOrBefore(d);
    if s <= d < s + 7 {
      var qs := (s + 6) / 7;
      var qt := (t + 6) / 7;
      assert s + 6 == 7 * qs + 6 && t + 6 == 7 * qt + 6;
      assert -7 < t - s < 7;
      assert t - s == 7 * (qt - qs);
    }
  }

  /** Under the correction both labels are reachable: "This Week" is a
      later or earlier day of the current Sunday-to-Saturday week, "Next
      Week" any day of the week after. */
  lemma CorrectedNflLabelsAreWeeks(day: int, now: int)
    ensures var s := SundayOnOrBefore(now);
      (NflLabelCorrected(day, now) == ThisWeek <==> day != now && s <= day < s + 7)
      && (NflLabelCorrected(day, now) == NextWeek <==> s + 7 <= day < s + 14)
  {
    var s := SundayOnOrBefore(now);
    SundayOnOrBeforeIsSunday(now);
    SundayOnOrBeforeIff(day, s);
    SameWeekday(s);
    SundayOnOrBeforeIff(day, s + 7);
    SundayOnOrBeforeIsSunday(day);
  }

  // ---- Building the game list ----

  function Label(sport: Sport, day: int, now: int): WeekLabel
  {
    if sport == Nfl then NflLabel(day, now) else DayLabel(day, now)
  }

  /** NBA and NHL venues are arenas, NFL and MLB venues stadiums. */
  function VenueSuffix(sport: Sport): string
  {
    if sport == Nba || sport == Nhl then " Arena" else " Stadium"
  }

  /** The row is parsed and its date lies in [start, end]. */
  function InWindow(start: int, end: int): Row -> bool
  {
    (r: Row) => ParsesAsDate(r) && start <= RowOrdinal(r) <= end
  }

  /** The `k`-th game appended to the list. */
  function MakeGame(sport: Sport, r: Row, k: nat, now: int, utcOffset: int): Game
    requires ParsesAsDate(r)
  {
    Game(GameId(sport, k, Timestamp(r, utcOffset)), SportName(sport), r.home, r.away,
         DateTime(r.year, r.month, r.day, r.hour, r.minute), r.home + VenueSuffix(sport),
         Label(sport, RowOrdinal(r), now), Location(r.city, r.state, "US",
                  if sport == Nfl then Cities.GetCityCoordinates(r.city) else None))
  }

  /** The row a game was made from. */
  function RowOf(g: Game): Row
  {
    Row(g.awayTeam, g.homeTeam, g.date.year, g.date.month, g.date.day, g.date.hour, g.date.minute,
        g.location.city, g.location.state)
  }

  function RowsOf(games: seq<Game>): (r: seq<Row>)
    ensures |r| == |games| && forall i :: 0 <= i < |games| ==> r[i] == RowOf(games[i])
  {
    seq(|games|, i requires 0 <= i < |games| => RowOf(games[i]))
  }

  /** The selected rows as games, numbered from 1. */
  function Numbered(sport: Sport, selected: seq<Row>, now: int, utcOffset: int): (r: seq<Game>)
    requires forall i :: 0 <= i < |selected| ==> ParsesAsDate(selected[i])
    ensures RowsOf(r) == selected
    ensures forall i :: 0 <= i < |r| ==> r[i] == MakeGame(sport, selected[i], i + 1, now, utcOffset)
  {
    var r := seq(|selected|, i requires 0 <= i < |selected| => MakeGame(sport, selected[i], i + 1, now, utcOffset));
    assert RowsOf(r) == selected;
    r
  }

  /** `get_*_games_for_period`: the games are exactly the in-window rows in
      table order, numbered 1, 2, … in their ids. */
  function GamesForPeriod(sport: Sport, rows: seq<Row>, start: int, end: int, now: int, utcOffset: int): (r: seq<Game>)
    ensures RowsOf(r) == Filter(rows, InWindow(start, end))
    ensures |r| == Count(rows, InWindow(start, end))
    ensures forall i :: 0 <= i < |r| ==> ParsesAsDate(RowOf(r[i])) && start <= RowOrdinal(RowOf(r[i])) <= end
    ensures forall i :: 0 <= i < |r| ==> GameNumber(r[i].gameId) == Some(i + 1)
    ensures forall i :: 0 <= i < |r| ==> r[i].gameId == GameId(sport, i + 1, Timestamp(RowOf(r[i]), utcOffset))
    ensures forall i :: 0 <= i < |r| ==> r[i].sport == SportName(sport) && r[i].venue == r[i].homeTeam + VenueSuffix(sport)
    ensures forall i :: 0 <= i < |r| ==> r[i].week == Label(sport, RowOrdinal(RowOf(r[i])), now)
    ensures forall i :: 0 <= i < |r| ==> r[i].location.country == "US"
    ensures sport == Nfl ==> forall i :: 0 <= i < |r| ==>
      r[i].location.coords == Cities.GetCityCoordinates(r[i].location.city)
    ensures sport != Nfl ==> forall i :: 0 <= i < |r| ==> r[i].location.coords == None
  {
    var selected := Filter(rows, InWindow(start, end));
    var r := Numbered(sport, selected, now, utcOffset);
    CountIsFilterLength(rows, InWindow(start, end));
    forall i | 0 <= i < |r| ensures GameNumber(r[i].gameId) == Some(i + 1) {
      GameNumberRoundTrip(sport, i + 1, Timestamp(selected[i], utcOffset));
    }
    r
  }

  /** No two games of one call share an id. */
  lemma GameIdsAreUnique(sport: Sport, rows: seq<Row>, start: int, end: int, now: int, utcOffset: int, i: int, j: int)
    requires var r := GamesForPeriod(sport, rows, start, end, now, utcOffset); 0 <= i < j < |r|
    ensures var r := GamesForPeriod(sport, rows, start, end, now, utcOffset); r[i].gameId != r[j].gameId
  {
  }

  // ---- The four tables ----

  const NflSchedule: seq<Row> := [
    Row("Philadelphia Eagles", "Los Angeles Chargers", 2025, 12, 8, 20, 20, "Inglewood", "CA"),
    Row("Atlanta Falcons", "Tampa Bay Buccaneers", 2025, 12, 11, 20, 20, "Tampa", "FL"),
    Row("Kansas City Chiefs", "Buffalo Bills", 2025, 12, 14, 13, 0, "Orchard Park", "NY"),
    Row("San Francisco 49ers", "Seattle Seahawks", 2025, 12, 14, 13, 0, "Seattle", "WA"),
    Row("Miami Dolphins", "New York Jets", 2025, 12, 14, 13, 0, "East Rutherford", "NJ"),
    Row("Baltimore Ravens", "Pittsburgh Steelers", 2025, 12, 14, 13, 0, "Pittsburgh", "PA"),
    Row("Green Bay Packers", "Chicago Bears", 2025, 12, 14, 13, 0, "Chicago", "IL"),
    Row("Detroit Lions", "Minnesota Vikings", 2025, 12, 14, 13, 0, "Minneapolis", "MN"),
    Row("Cleveland Browns", "Cincinnati Bengals", 2025, 12, 14, 13, 0, "Cincinnati", "OH"),
    Row("Dallas Cowboys", "Philadelphia Eagles", 2025, 12, 15, 20, 20, "Philadelphia", "PA"),
    Row("New York Giants", "New England Patriots", 2025, 12, 18, 20, 20, "Foxborough", "MA"),
    Row("Tampa Bay Buccaneers", "Atlanta Falcons", 2025, 12, 21, 13, 0, "Atlanta", "GA"),
    Row("Arizona Cardinals", "Los Angeles Rams", 2025, 12, 21, 13, 0, "Inglewood", "CA"),
    Row("Denver Broncos", "Las Vegas Raiders", 2025, 12, 21, 13, 0, "Las Vegas", "NV"),
    Row("Jacksonville Jaguars", "Tennessee Titans", 2025, 12, 21, 13, 0, "Nashville", "TN"),
    Row("Carolina Panthers", "New Orleans Saints", 2025, 12, 21, 13, 0, "New Orleans", "LA"),
    Row("Houston Texans", "Indianapolis Colts", 2025, 12, 21, 13, 0, "Indianapolis", "IN"),
    Row("New York Jets", "Washington Commanders", 2025, 12, 22, 20, 20, "Landover", "MD")]

  const NbaSchedule: seq<Row> := [
    Row("Los Angeles Lakers", "Boston Celtics", 2024, 12, 20, 19, 30, "Boston", "MA"),
    Row("Golden State Warriors", "Milwaukee Bucks", 2024, 12, 20, 20, 0, "Milwaukee", "WI"),
    Row("Miami Heat", "New York Knicks", 2024, 12, 20, 19, 30, "New York", "NY"),
    Row("Phoenix Suns", "Denver Nuggets", 2024, 12, 21, 21, 0, "Denver", "CO"),
    Row("Dallas Mavericks", "Chicago Bulls", 2024, 12, 21, 20, 0, "Chicago", "IL"),
    Row("Philadelphia 76ers", "Brooklyn Nets", 2024, 12, 21, 19, 30, "Brooklyn", "NY"),
    Row("Los Angeles Clippers", "Portland Trail Blazers", 2024, 12, 22, 22, 0, "Portland", "OR"),
    Row("Atlanta Hawks", "Orlando Magic", 2024, 12, 22, 19, 0, "Orlando", "FL"),
    Row("Toronto Raptors", "Detroit Pistons", 2024, 12, 22, 19, 0, "Detroit", "MI"),
    Row("Boston Celtics", "Miami Heat", 2024, 12, 23, 20, 0, "Miami", "FL"),
    Row("Milwaukee Bucks", "Cleveland Cavaliers", 2024, 12, 23, 19, 0, "Cleveland", "OH"),
    Row("Houston Rockets", "San Antonio Spurs", 2024, 12, 23, 20, 30, "San Antonio", "TX"),
    Row("New York Knicks", "Philadelphia 76ers", 2024, 12, 24, 19, 0, "Philadelphia", "PA"),
    Row("Denver Nuggets", "Utah Jazz", 2024, 12, 24, 21, 0, "Salt Lake City", "UT"),
    Row("Minnesota Timberwolves", "Sacramento Kings", 2024, 12, 24, 22, 0, "Sacramento", "CA"),
    Row("Chicago Bulls", "Indiana Pacers", 2024, 12, 25, 19, 0, "Indianapolis", "IN"),
    Row("Brooklyn Nets", "Washington Wizards", 2024, 12, 25, 19, 0, "Washington", "DC"),
    Row("Oklahoma City Thunder", "Memphis Grizzlies", 2024, 12, 25, 20, 0, "Memphis", "TN"),
    Row("Los Angeles Lakers", "Golden State Warriors", 2024, 12, 26, 22, 0, "San Francisco", "CA"),
    Row("Boston Celtics", "New York Knicks", 2024, 12, 26, 19, 30, "New York", "NY"),
    Row("Miami Heat", "Atlanta Hawks", 2024, 12, 26, 19, 30, "Atlanta", "GA"),
    Row("Milwaukee Bucks", "Chicago Bulls", 2024, 12, 27, 20, 0, "Chicago", "IL"),
    Row("Phoenix Suns", "Los Angeles Clippers", 2024, 12, 27, 22, 30, "Los Angeles", "CA"),
    Row("Dallas Mavericks", "Houston Rockets", 2024, 12, 27, 20, 0, "Houston", "TX")]

  const NhlSchedule: seq<Row> := [
    Row("Toronto Maple Leafs", "Boston Bruins", 2025, 12, 8, 19, 0, "Boston", "MA"),
    Row("Montreal Canadiens", "New York Rangers", 2025, 12, 8, 19, 0, "New York", "NY"),
    Row("Edmonton Oilers", "Vancouver Canucks", 2025, 12, 8, 22, 0, "Vancouver", "BC"),
    Row("Chicago Blackhawks", "Detroit Red Wings", 2025, 12, 9, 19, 30, "Detroit", "MI"),
    Row("Pittsburgh Penguins", "Washington Capitals", 2025, 12, 9, 19, 0, "Washington", "DC"),
    Row("Calgary Flames", "Seattle Kraken", 2025, 12, 9, 22, 0, "Seattle", "WA"),
    Row("New York Islanders", "Philadelphia Flyers", 2025, 12, 10, 19, 0, "Philadelphia", "PA"),
    Row("Tampa Bay Lightning", "Florida Panthers", 2025, 12, 10, 19, 0, "Sunrise", "FL"),
    Row("Winnipeg Jets", "Colorado Avalanche", 2025, 12, 10, 21, 0, "Denver", "CO"),
    Row("Boston Bruins", "Toronto Maple Leafs", 2025, 12, 11, 19, 0, "Toronto", "ON"),
    Row("New York Rangers", "New Jersey Devils", 2025, 12, 11, 19, 0, "Newark", "NJ"),
    Row("Vancouver Canucks", "Calgary Flames", 2025, 12, 11, 22, 0, "Calgary", "AB"),
    Row("Detroit Red Wings", "Chicago Blackhawks", 2025, 12, 12, 20, 0, "Chicago", "IL"),
    Row("Washington Capitals", "Pittsburgh Penguins", 2025, 12, 12, 19, 0, "Pittsburgh", "PA"),
    Row("Seattle Kraken", "San Jose Sharks", 2025, 12, 12, 22, 30, "San Jose", "CA"),
    Row("Philadelphia Flyers", "New York Islanders", 2025, 12, 13, 19, 0, "Elmont", "NY"),
    Row("Florida Panthers", "Tampa Bay Lightning", 2025, 12, 13, 19, 0, "Tampa", "FL"),
    Row("Colorado Avalanche", "Dallas Stars", 2025, 12, 13, 20, 0, "Dallas", "TX"),
    Row("Toronto Maple Leafs", "Montreal Canadiens", 2025, 12, 14, 19, 0, "Montreal", "QC"),
    Row("Boston Bruins", "Buffalo Sabres", 2025, 12, 14, 19, 0, "Buffalo", "NY"),
    Row("Edmonton Oilers", "Los Angeles Kings", 2025, 12, 14, 22, 30, "Los Angeles", "CA"),
    Row("New York Rangers", "Carolina Hurricanes", 2025, 12, 15, 19, 0, "Raleigh", "NC"),
    Row("Vancouver Canucks", "Anaheim Ducks", 2025, 12, 15, 22, 0, "Anaheim", "CA"),
    Row("Minnesota Wild", "Nashville Predators", 2025, 12, 15, 20, 0, "Nashville", "TN")]

  const MlbSchedule: seq<Row> := [
    Row("New York Yankees", "Boston Red Sox", 2025, 12, 8, 19, 10, "Boston", "MA"),
    Row("Los Angeles Dodgers", "San Francisco Giants", 2025, 12, 8, 22, 15, "San Francisco", "CA"),
    Row("Chicago Cubs", "St. Louis Cardinals", 2025, 12, 8, 20, 15, "St. Louis", "MO"),
    Row("Houston Astros", "Texas Rangers", 2025, 12, 9, 20, 5, "Arlington", "TX"),
    Row("Atlanta Braves", "Philadelphia Phillies", 2025, 12, 9, 19, 5, "Philadelphia", "PA"),
    Row("Tampa Bay Rays", "Miami Marlins", 2025, 12, 9, 19, 10, "Miami", "FL"),
    Row("Seattle Mariners", "Oakland Athletics", 2025, 12, 10, 22, 7, "Oakland", "CA"),
    Row("Minnesota Twins", "Chicago White Sox", 2025, 12, 10, 20, 10, "Chicago", "IL"),
    Row("Cleveland Guardians", "Detroit Tigers", 2025, 12, 10, 19, 10, "Detroit", "MI"),
    Row("Baltimore Orioles", "Toronto Blue Jays", 2025, 12, 11, 19, 7, "Toronto", "ON"),
    Row("Arizona Diamondbacks", "Colorado Rockies", 2025, 12, 11, 20, 40, "Denver", "CO"),
    Row("San Diego Padres", "Los Angeles Angels", 2025, 12, 11, 22, 7, "Anaheim", "CA"),
    Row("New York Mets", "Washington Nationals", 2025, 12, 12, 19, 5, "Washington", "DC"),
    Row("Milwaukee Brewers", "Cincinnati Reds", 2025, 12, 12, 19, 10, "Cincinnati", "OH"),
    Row("Kansas City Royals", "Pittsburgh Pirates", 2025, 12, 12, 19, 5, "Pittsburgh", "PA"),
    Row("Boston Red Sox", "New York Yankees", 2025, 12, 13, 19, 5, "New York", "NY"),
    Row("San Francisco Giants", "Los Angeles Dodgers", 2025, 12, 13, 22, 10, "Los Angeles", "CA"),
    Row("St. Louis Cardinals", "Chicago Cubs", 2025, 12, 13, 20, 5, "Chicago", "IL"),
    Row("Texas Rangers", "Houston Astros", 2025, 12, 14, 20, 10, "Houston", "TX"),
    Row("Philadelphia Phillies", "Atlanta Braves", 2025, 12, 14, 19, 20, "Atlanta", "GA"),
    Row("Miami Marlins", "Tampa Bay Rays", 2025, 12, 14, 19, 10, "St. Petersburg", "FL")]

  /** The NFL labels the code as written produces: "Today" for a game on
      the current day, otherwise "Week of" the Sunday on or before it. */
  predicate IsNflLabelAsWritten(day: int, now: int, week: WeekLabel)
  {
    week == if day == now then Today else WeekOf(SundayOnOrBefore(day))
  }

  /** Every NFL game of a period is labelled "Today" or "Week of" its
      Sunday: "This Week" and "Next Week" never appear. */
  lemma NflGamesAreTodayOrWeekOf(rows: seq<Row>, start: int, end: int, now: int, utcOffset: int)
    ensures var r := GamesForPeriod(Nfl, rows, start, end, now, utcOffset);
      forall i :: 0 <= i < |r| ==>
        ParsesAsDate(RowOf(r[i])) && IsNflLabelAsWritten(RowOrdinal(RowOf(r[i])), now, r[i].week)
  {
    var r := GamesForPeriod(Nfl, rows, start, end, now, utcOffset);
    forall i | 0 <= i < |r|
      ensures ParsesAsDate(RowOf(r[i])) && IsNflLabelAsWritten(RowOrdinal(RowOf(r[i])), now, r[i].week)
    {
      var g := r[i];
      assert ParsesAsDate(RowOf(g));
      var day := RowOrdinal(RowOf(g));
      assert g.week == Label(Nfl, day, now);
      NflWeekLabelsUnreachable(day, now);
    }
  }

  /** NFL games: stadium venues, the coordinates of their city when the
      lookup finds it, and the week labels as written. */
  predicate NflShapedGames(r: seq<Game>, now: int)
  {
    (forall i :: 0 <= i < |r| ==> r[i].venue == r[i].homeTeam + " Stadium")
    && (forall i :: 0 <= i < |r| ==> r[i].location.coords == Cities.GetCityCoordinates(r[i].location.city))
    && (forall i :: 0 <= i < |r| ==>
          ParsesAsDate(RowOf(r[i])) && IsNflLabelAsWritten(RowOrdinal(RowOf(r[i])), now, r[i].week))
  }

  lemma NflGamesShape(rows: seq<Row>, start: int, end: int, now: int, utcOffset: int)
    ensures NflShapedGames(GamesForPeriod(Nfl, rows, start, end, now, utcOffset), now)
  {
    assert VenueSuffix(Nfl) == " Stadium";
    NflGamesAreTodayOrWeekOf(rows, start, end, now, utcOffset);
  }

  /** `get_nfl_games_for_period`: stadium venues, coordinates when the
      city is known, and week labels as the code writes them ("Today" or
      "Week of" the game's Sunday). */
  function NflGamesForPeriod(start: int, end: int, now: int, utcOffset: int): (r: seq<Game>)
    ensures RowsOf(r) == Filter(NflSchedule, InWindow(start, end))
    ensures NflShapedGames(r, now)
  {
    var rows := NflSchedule;
    NflGamesShape(rows, start, end, now, utcOffset);
    GamesForPeriod(Nfl, rows, start, end, now, utcOffset)
  }

  /** Games whose venue is the home team's name plus `suffix`, located in
      "US" without coordinates, and labelled by their day. */
  predicate DayLabelledGames(r: seq<Game>, suffix: string, now: int)
  {
    (forall i :: 0 <= i < |r| ==> r[i].venue == r[i].homeTeam + suffix)
    && (forall i :: 0 <= i < |r| ==> r[i].location.country == "US" && r[i].location.coords == None)
    && (forall i :: 0 <= i < |r| ==> ParsesAsDate(RowOf(r[i])) && r[i].week == DayLabel(RowOrdinal(RowOf(r[i])), now))
  }

  /** Outside the NFL every game of a period has that shape. */
  lemma OtherSportGames(sport: Sport, suffix: string, rows: seq<Row>, start: int, end: int, now: int, utcOffset: int)
    requires sport != Nfl && suffix == VenueSuffix(sport)
    ensures DayLabelledGames(GamesForPeriod(sport, rows, start, end, now, utcOffset), suffix, now)
  {
  }

  /** `get_nba_games_for_period`: arena venues, no coordinates. */
  function NbaGamesForPeriod(start: int, end: int, now: int, utcOffset: int): (r: seq<Game>)
    ensures RowsOf(r) == Filter(NbaSchedule, InWindow(start, end))
    ensures DayLabelledGames(r, " Arena", now)
  {
    var rows := NbaSchedule;
    OtherSportGames(Nba, " Arena", rows, start, end, now, utcOffset);
    GamesForPeriod(Nba, rows, start, end, now, utcOffset)
  }

  /** `get_nhl_games_for_period`: arena venues and "US" as the country,
      Canadian cities included. */
  function NhlGamesForPeriod(start: int, end: int, now: int, utcOffset: int): (r: seq<Game>)
    ensures RowsOf(r) == Filter(NhlSchedule, InWindow(start, end))
    ensures DayLabelledGames(r, " Arena", now)
  {
    var rows := NhlSchedule;
    OtherSportGames(Nhl, " Arena", rows, start, end, now, utcOffset);
    GamesForPeriod(Nhl, rows, start, end, now, utcOffset)
  }

  /** `get_mlb_games_for_period`: stadium venues, no coordinates. */
  function MlbGamesForPeriod(start: int, end: int, now: int, utcOffset: int): (r: seq<Game>)
    ensures RowsOf(r) == Filter(MlbSchedule, InWindow(start, end))
    ensures DayLabelledGames(r, " Stadium", now)
  {
    var rows := MlbSchedule;
    OtherSportGames(Mlb, " Stadium", rows, start, end, now, utcOffset);
    GamesForPeriod(Mlb, rows, start, end, now, utcOffset)
  }
}

=== FILE: seqs.dfy ===
/** Sequence helpers shared by the model: left-to-right sums and products
    (Python `sum` and the running `*=` loops), Python's `s[:k]` slice, and the
    stable descending sort behind every `sorted(..., reverse=True)`. */
module Seqs {
  import opened Wrappers
  import opened Num

  function Sum(s: seq<real>): real
    decreases |s|
  {
    if |s| == 0 then 0.0 else s[0] + Sum(s[1..])
  }

  function Product(s: seq<real>): real
    decreases |s|
  {
    if |s| == 0 then 1.0 else s[0] * Product(s[1..])
  }

  lemma {:induction false} SumAppend(a: seq<real>, b: seq<real>)
    ensures Sum(a + b) == Sum(a) + Sum(b)
    decreases |a|
  {
    if |a| == 0 {
      assert a + b == b;
    } else {
      assert (a + b)[1..] == a[1..] + b;
      SumAppend(a[1..], b);
    }
  }

  lemma SumSnoc(a: seq<real>, x: real)
    ensures Sum(a + [x]) == Sum(a) + x
  {
    SumAppend(a, [x]);
    assert Sum([x]) == x + Sum([]);
  }

  /** Python's `s[:k]`: a negative `k` counts from the end. */
  function PyTake<T>(s: seq<T>, k: int): (r: seq<T>)
    ensures 0 <= k <= |s| ==> r == s[..k]
    ensures k >= |s| ==> r == s
    ensures k < 0 ==> r == s[..if |s| + k < 0 then 0 else |s| + k]
    ensures |r| <= |s| && r == s[..|r|]
  {
    if k >= 0 then (if k <= |s| then s[..k] else s)
    else if |s| + k < 0 then []
    else s[..|s| + k]
  }

  /** A prefix holds at most the elements of the whole, each at most as
      often. */
  lemma PrefixSubMultiset<T>(s: seq<T>, r: seq<T>)
    requires |r| <= |s| && r == s[..|r|]
    ensures multiset(r) <= multiset(s)
  {
    assert s == r + s[|r|..];
  }

  ghost predicate SortedDesc<T>(s: seq<T>, key: T -> real)
  {
    forall i, j :: 0 <= i < j < |s| ==> key(s[i]) >= key(s[j])
  }

  /** A prefix of a descending sequence is descending. */
  lemma PrefixSortedDesc<T>(s: seq<T>, r: seq<T>, key: T -> real)
    requires SortedDesc(s, key) && |r| <= |s| && r == s[..|r|]
    ensures SortedDesc(r, key)
  {
    assert forall i :: 0 <= i < |r| ==> r[i] == s[i];
  }

  /** An element whose key is at least that of the head of a descending
      sequence may go in front of it. */
  lemma ConsSortedDesc<T>(h: T, s: seq<T>, key: T -> real)
    requires SortedDesc(s, key) && (|s| > 0 ==> key(h) >= key(s[0]))
    ensures SortedDesc([h] + s, key)
  {
    var r := [h] + s;
    forall i, j | 0 <= i < j < |r| ensures key(r[i]) >= key(r[j]) {
      if i == 0 {
        assert r[j] == s[j - 1];
        assert key(s[0]) >= key(s[j - 1]) || j == 1;
      } else {
        assert r[i] == s[i - 1] && r[j] == s[j - 1];
      }
    }
  }

  /** The first `m` entries of a descending list are part of it, and every
      other entry ranks no higher than any of them. */
  lemma TakeOfSorted<T>(s: seq<T>, m: nat, key: T -> real)
    requires SortedDesc(s, key) && m <= |s|
    ensures multiset(s[..m]) <= multiset(s)
    ensures forall x :: x in multiset(s) - multiset(s[..m]) ==> forall i :: 0 <= i < m ==> key(x) <= key(s[i])
  {
    assert s == s[..m] + s[m..];
    assert multiset(s) == multiset(s[..m]) + multiset(s[m..]);
    assert multiset(s) - multiset(s[..m]) == multiset(s[m..]);
    forall x | x in multiset(s[m..]) ensures forall i :: 0 <= i < m ==> key(x) <= key(s[i]) {
      var j :| 0 <= j < |s[m..]| && s[m..][j] == x;
      assert s[m + j] == x;
    }
  }

  /** Places `x` in front of the first element whose key is not larger, so an
      element keeps its place before later elements of equal key. */
  function InsertDesc<T>(x: T, s: seq<T>, key: T -> real): (r: seq<T>)
    requires SortedDesc(s, key)
    ensures SortedDesc(r, key)
    ensures multiset(r) == multiset(s) + multiset{x}
    ensures |r| == |s| + 1
    ensures r[0] == x || (|s| > 0 && r[0] == s[0])
    decreases |s|
  {
    if |s| == 0 || key(x) >= key(s[0]) then
      ConsSortedDesc(x, s, key);
      [x] + s
    else
      assert SortedDesc(s[1..], key) by {
        forall i, j | 0 <= i < j < |s| - 1 ensures key(s[1..][i]) >= key(s[1..][j]) {
          assert s[1..][i] == s[i + 1] && s[1..][j] == s[j + 1];
        }
      }
      var rest := InsertDesc(x, s[1..], key);
      ConsSortedDesc(s[0], rest, key);
      assert s == [s[0]] + s[1..];
      [s[0]] + rest
  }

  /** Stable insertion sort, largest key first. */
  function SortDesc<T>(s: seq<T>, key: T -> real): (r: seq<T>)
    ensures SortedDesc(r, key)
    ensures multiset(r) == multiset(s)
    ensures |r| == |s|
    decreases |s|
  {
    if |s| == 0 then []
    else
      assert s == [s[0]] + s[1..];
      InsertDesc(s[0], SortDesc(s[1..], key), key)
  }

  /** Sorting input that is already in descending order leaves it unchanged:
      equal keys are never swapped. */
  lemma {:induction false} SortDescKeepsOrderedInput<T>(s: seq<T>, key: T -> real)
    requires SortedDesc(s, key)
    ensures SortDesc(s, key) == s
    decreases |s|
  {
    if |s| > 0 {
      assert SortedDesc(s[1..], key) by {
        forall i, j | 0 <= i < j < |s[1..]| ensures key(s[1..][i]) >= key(s[1..][j]) {
          assert s[1..][i] == s[i + 1] && s[1..][j] == s[j + 1];
        }
      }
      SortDescKeepsOrderedInput(s[1..], key);
      assert s == [s[0]] + s[1..];
    }
  }

  function Filter<T>(s: seq<T>, p: T -> bool): (r: seq<T>)
    ensures |r| <= |s|
    ensures forall i :: 0 <= i < |r| ==> p(r[i]) && r[i] in s
    ensures forall i :: 0 <= i < |s| && p(s[i]) ==> s[i] in r
    decreases |s|
  {
    if |s| == 0 then []
    else if p(s[0]) then [s[0]] + Filter(s[1..], p)
    else Filter(s[1..], p)
  }

  lemma {:induction false} FilterAppend<T>(a: seq<T>, b: seq<T>, p: T -> bool)
    ensures Filter(a + b, p) == Filter(a, p) + Filter(b, p)
    decreases |a|
  {
    if |a| == 0 {
      assert a + b == b;
    } else {
      assert (a + b)[1..] == a[1..] + b;
      FilterAppend(a[1..], b, p);
    }
  }

  /** Nothing survives a filter that rejects every element. */
  lemma {:induction false} FilterRejectingAll<T>(s: seq<T>, p: T -> bool)
    requires forall i :: 0 <= i < |s| ==> !p(s[i])
    ensures Filter(s, p) == []
    decreases |s|
  {
    if |s| > 0 {
      FilterRejectingAll(s[1..], p);
    }
  }

  function Count<T>(s: seq<T>, p: T -> bool): (n: nat)
    ensures n <= |s|
    decreases |s|
  {
    if |s| == 0 then 0 else (if p(s[0]) then 1 else 0) + Count(s[1..], p)
  }

  lemma {:induction false} CountIsFilterLength<T>(s: seq<T>, p: T -> bool)
    ensures Count(s, p) == |Filter(s, p)|
    decreases |s|
  {
    if |s| > 0 {
      CountIsFilterLength(s[1..], p);
    }
  }

  /** Counting the elements that pass `q` after keeping those that pass a
      weaker test `p` counts the same as counting them in the whole. */
  lemma {:induction false} CountFilterImplied<T>(s: seq<T>, p: T -> bool, q: T -> bool)
    requires forall x :: q(x) ==> p(x)
    ensures Count(Filter(s, p), q) == Count(s, q)
    decreases |s|
  {
    if |s| > 0 {
      CountFilterImplied(s[1..], p, q);
      if p(s[0]) {
        assert ([s[0]] + Filter(s[1..], p))[1..] == Filter(s[1..], p);
      }
    }
  }

  /** Replacing one element changes a count by what the old element
      contributed and what the new one contributes. */
  lemma {:induction false} CountUpdate<T>(s: seq<T>, i: int, x: T, p: T -> bool)
    requires 0 <= i < |s|
    ensures Count(s[i := x], p) == Count(s, p) - (if p(s[i]) then 1 else 0) + (if p(x) then 1 else 0)
    decreases |s|
  {
    if i == 0 {
      assert s[i := x][1..] == s[1..];
    } else {
      CountUpdate(s[1..], i - 1, x, p);
      assert s[i := x][1..] == s[1..][i - 1 := x];
    }
  }

  lemma {:induction false} CountAppend<T>(a: seq<T>, b: seq<T>, p: T -> bool)
    ensures Count(a + b, p) == Count(a, p) + Count(b, p)
    decreases |a|
  {
    if |a| == 0 {
      assert a + b == b;
    } else {
      assert (a + b)[1..] == a[1..] + b;
      CountAppend(a[1..], b, p);
    }
  }

  /** `t` is `s` with some elements dropped and the rest kept in order. */
  ghost predicate IsSubsequence<T>(t: seq<T>, s: seq<T>)
    decreases |s|
  {
    |t| == 0 || (|s| > 0 && ((t[0] == s[0] && IsSubsequence(t[1..], s[1..])) || IsSubsequence(t, s[1..])))
  }

  lemma {:induction false} IsSubsequenceRefl<T>(s: seq<T>)
    ensures IsSubsequence(s, s)
    decreases |s|
  {
    if |s| > 0 {
      IsSubsequenceRefl(s[1..]);
    }
  }

  lemma {:induction false} FilterIsSubsequence<T>(s: seq<T>, p: T -> bool)
    ensures IsSubsequence(Filter(s, p), s)
    decreases |s|
  {
    if |s| > 0 {
      FilterIsSubsequence(s[1..], p);
      if p(s[0]) {
        assert Filter(s, p)[1..] == Filter(s[1..], p);
      }
    }
  }

  /** Index of the first element that fails `ok`, if any. */
  function FirstFailing<T>(s: seq<T>, ok: T -> bool): (r: Option<nat>)
    ensures r.None? <==> forall i :: 0 <= i < |s| ==> ok(s[i])
    ensures r.Some? ==> r.value < |s| && !ok(s[r.value])
    ensures r.Some? ==> forall j :: 0 <= j < r.value ==> ok(s[j])
    decreases |s|
  {
    if |s| == 0 then None
    else if !ok(s[0]) then Some(0)
    else match FirstFailing(s[1..], ok)
      case None => None
      case Some(i) => Some(i + 1)
  }

  /** Every factor lies strictly between 0 and 1 (stated recursively so that
      the product lemmas below need no quantifier). */
  predicate AllFractions(s: seq<real>)
    decreases |s|
  {
    |s| == 0 || (0.0 < s[0] < 1.0 && AllFractions(s[1..]))
  }

  /** Every factor is above 1. */
  predicate AllAboveOne(s: seq<real>)
    decreases |s|
  {
    |s| == 0 || (s[0] > 1.0 && AllAboveOne(s[1..]))
  }

  lemma {:induction false} AllFractionsIff(s: seq<real>)
    ensures AllFractions(s) <==> forall i :: 0 <= i < |s| ==> 0.0 < s[i] < 1.0
    decreases |s|
  {
    if |s| > 0 {
      AllFractionsIff(s[1..]);
      assert forall i :: 1 <= i < |s| ==> s[i] == s[1..][i - 1];
    }
  }

  lemma {:induction false} AllAboveOneIff(s: seq<real>)
    ensures AllAboveOne(s) <==> forall i :: 0 <= i < |s| ==> s[i] > 1.0
    decreases |s|
  {
    if |s| > 0 {
      AllAboveOneIff(s[1..]);
      assert forall i :: 1 <= i < |s| ==> s[i] == s[1..][i - 1];
    }
  }

  lemma Shrink(a: real, x: real)
    requires 0.0 < a < 1.0 && x > 0.0
    ensures 0.0 < a * x < x
  {
  }

  lemma Grow(a: real, x: real)
    requires a > 1.0 && x > 0.0
    ensures a * x > x
  {
  }

  /** `p = a * x` with `a` in (0, 1) and `0 < x <= bound` gives `p < bound`. */
  lemma ShrinkBelow(a: real, x: real, p: real, bound: real)
    requires p == a * x && 0.0 < a < 1.0 && 0.0 < x <= bound
    ensures p < bound
  {
    MulStrict(x, a, 1.0);
    assert x * a == a * x;
  }

  /** `p = a * x` with `a > 1` and `x >= bound > 0` gives `p > bound`. */
  lemma GrowAbove(a: real, x: real, p: real, bound: real)
    requires p == a * x && a > 1.0 && x >= bound > 0.0
    ensures p > bound
  {
    MulStrict(x, 1.0, a);
    assert x * a == a * x;
  }

  /** A product of factors in (0, 1) lies in (0, 1], and below 1 when there is
      at least one factor. */
  lemma {:induction false} ProductOfFractions(s: seq<real>)
    requires AllFractions(s)
    ensures 0.0 < Product(s) <= 1.0
    ensures |s| > 0 ==> Product(s) < 1.0
    decreases |s|
  {
    if |s| > 0 {
      ProductOfFractions(s[1..]);
      Shrink(s[0], Product(s[1..]));
    }
  }

  /** With two or more factors in (0, 1) the product is below every factor. */
  lemma {:induction false} ProductOfFractionsBelowEach(s: seq<real>, i: int)
    requires AllFractions(s)
    requires |s| >= 2 && 0 <= i < |s|
    ensures Product(s) < s[i]
    decreases |s|
  {
    ProductOfFractions(s[1..]);
    var rest := Product(s[1..]);
    if i == 0 {
      ShrinkBelow(rest, s[0], Product(s), s[0]);
    } else {
      if |s| == 2 {
        assert rest == s[1] * Product(s[2..]);
        assert Product(s[2..]) == 1.0;
      } else {
        ProductOfFractionsBelowEach(s[1..], i - 1);
      }
      assert s[1..][i - 1] == s[i];
      ShrinkBelow(s[0], rest, Product(s), s[i]);
    }
  }

  /** A product of factors above 1 is at least 1, and above 1 once there is a
      factor. */
  lemma {:induction false} ProductAboveOne(s: seq<real>)
    requires AllAboveOne(s)
    ensures Product(s) >= 1.0
    ensures |s| > 0 ==> Product(s) > 1.0
    decreases |s|
  {
    if |s| > 0 {
      ProductAboveOne(s[1..]);
      Grow(s[0], Product(s[1..]));
    }
  }

  /** With two or more factors above 1 the product exceeds every factor. */
  lemma {:induction false} ProductAboveEach(s: seq<real>, i: int)
    requires AllAboveOne(s)
    requires |s| >= 2 && 0 <= i < |s|
    ensures Product(s) > s[i]
    decreases |s|
  {
    ProductAboveOne(s[1..]);
    AllAboveOneIff(s);
    var rest := Product(s[1..]);
    if i == 0 {
      GrowAbove(rest, s[0], Product(s), s[0]);
    } else {
      if |s| == 2 {
        assert rest == s[1] * Product(s[2..]);
        assert Product(s[2..]) == 1.0;
      } else {
        ProductAboveEach(s[1..], i - 1);
      }
      assert s[1..][i - 1] == s[i];
      GrowAbove(s[0], rest, Product(s), s[i]);
    }
  }
}

=== FILE: statistics.dfy ===
/** The rational part of `StatisticalUtils`: weighted win rate, robust
    means, linear normalisation, the Beta posterior mean, regression to the
    mean, Kish's effective sample size, and the early returns of the helpers
    whose main branch needs exp or log. */
module Statistics {
  import opened Wrappers
  import opened Num
  import opened Seqs
  import Assoc

  // ---- Shared arithmetic ----

  /** `sum(a * b for a, b in zip(xs, ys))`; `zip` stops at the shorter list. */
  function Dot(xs: seq<real>, ys: seq<real>): real
    decreases |xs|
  {
    if |xs| == 0 || |ys| == 0 then 0.0 else xs[0] * ys[0] + Dot(xs[1..], ys[1..])
  }

  function Ones(n: nat): (r: seq<real>)
    ensures |r| == n && forall i :: 0 <= i < n ==> r[i] == 1.0
  {
    seq(n, i => 1.0)
  }

  /** Element-wise `w + l`, as far as both lists go. */
  function Totals(wins: seq<real>, losses: seq<real>): (r: seq<real>)
    ensures |r| == if |wins| < |losses| then |wins| else |losses|
    ensures forall i :: 0 <= i < |r| ==> r[i] == wins[i] + losses[i]
  {
    var n := if |wins| < |losses| then |wins| else |losses|;
    seq(n, i requires 0 <= i < n => wins[i] + losses[i])
  }

  function Mean(xs: seq<real>): real
    requires |xs| > 0
  {
    Sum(xs) / |xs| as real
  }

  lemma {:induction false} SumBetween(xs: seq<real>, lo: real, hi: real)
    requires forall i :: 0 <= i < |xs| ==> lo <= xs[i] <= hi
    ensures lo * |xs| as real <= Sum(xs) <= hi * |xs| as real
    decreases |xs|
  {
    if |xs| > 0 {
      SumBetween(xs[1..], lo, hi);
    }
  }

  /** A mean lies between any bounds of its values. */
  lemma MeanBetween(xs: seq<real>, lo: real, hi: real)
    requires |xs| > 0
    requires forall i :: 0 <= i < |xs| ==> lo <= xs[i] <= hi
    ensures lo <= Mean(xs) <= hi
  {
    SumBetween(xs, lo, hi);
    var n := |xs| as real;
    var m := Mean(xs);
    assert m * n == Sum(xs);
    if m < lo {
      MulStrict(n, m, lo);
      assert false;
    }
    if m > hi {
      MulStrict(n, hi, m);
      assert false;
    }
  }

  // ---- Weighted win rate ----

  /** `weighted_win_rate`; `None` weights stand for the default of ones. */
  function WeightedWinRate(wins: seq<real>, losses: seq<real>, weights: Option<seq<real>>): (r: real)
    ensures |wins| == 0 || |wins| != |losses| ==> r == 0.5
    ensures |wins| > 0 && |wins| == |losses| ==>
      var w := weights.GetOr(Ones(|wins|));
      r == if Dot(Totals(wins, losses), w) == 0.0 then 0.5 else Dot(wins, w) / Dot(Totals(wins, losses), w)
  {
    if |wins| == 0 || |wins| != |losses| then 0.5
    else
      var w := weights.GetOr(Ones(|wins|));
      var games := Dot(Totals(wins, losses), w);
      if games == 0.0 then 0.5 else Dot(wins, w) / games
  }

  lemma {:induction false} DotOnes(xs: seq<real>, n: nat)
    requires |xs| <= n
    ensures Dot(xs, Ones(n)) == Sum(xs)
    decreases |xs|
  {
    if |xs| > 0 {
      assert Ones(n)[1..] == Ones(n - 1);
      DotOnes(xs[1..], n - 1);
    }
  }

  lemma {:induction false} SumTotals(wins: seq<real>, losses: seq<real>)
    requires |wins| == |losses|
    ensures Sum(Totals(wins, losses)) == Sum(wins) + Sum(losses)
    decreases |wins|
  {
    if |wins| > 0 {
      assert Totals(wins, losses)[1..] == Totals(wins[1..], losses[1..]);
      SumTotals(wins[1..], losses[1..]);
    }
  }

  /** With the default weights the rate is total wins over total games. */
  lemma UnitWeightsGiveRawRate(wins: seq<real>, losses: seq<real>)
    requires |wins| > 0 && |wins| == |losses|
    requires Sum(wins) + Sum(losses) != 0.0
    ensures WeightedWinRate(wins, losses, None) == Sum(wins) / (Sum(wins) + Sum(losses))
  {
    DotOnes(wins, |wins|);
    DotOnes(Totals(wins, losses), |wins|);
    SumTotals(wins, losses);
  }

  lemma {:induction false} DotSplit(wins: seq<real>, losses: seq<real>, w: seq<real>)
    requires |wins| == |losses|
    ensures Dot(Totals(wins, losses), w) == Dot(wins, w) + Dot(losses, w)
    decreases |wins|
  {
    if |wins| > 0 && |w| > 0 {
      assert Totals(wins, losses)[1..] == Totals(wins[1..], losses[1..]);
      DotSplit(wins[1..], losses[1..], w[1..]);
    }
  }

  lemma {:induction false} DotNonNegative(xs: seq<real>, w: seq<real>)
    requires forall i :: 0 <= i < |xs| ==> xs[i] >= 0.0
    requires forall i :: 0 <= i < |w| ==> w[i] >= 0.0
    ensures Dot(xs, w) >= 0.0
    decreases |xs|
  {
    if |xs| > 0 && |w| > 0 {
      DotNonNegative(xs[1..], w[1..]);
    }
  }

  /** Non-negative counts and weights give a rate in [0, 1]. */
  lemma WeightedWinRateIsFraction(wins: seq<real>, losses: seq<real>, weights: Option<seq<real>>)
    requires forall i :: 0 <= i < |wins| ==> wins[i] >= 0.0
    requires forall i :: 0 <= i < |losses| ==> losses[i] >= 0.0
    requires weights.Some? ==> forall i :: 0 <= i < |weights.value| ==> weights.value[i] >= 0.0
    ensures 0.0 <= WeightedWinRate(wins, losses, weights) <= 1.0
  {
    if |wins| > 0 && |wins| == |losses| {
      var w := weights.GetOr(Ones(|wins|));
      DotSplit(wins, losses, w);
      DotNonNegative(wins, w);
      DotNonNegative(losses, w);
      var a := Dot(wins, w);
      var g := Dot(Totals(wins, losses), w);
      if g != 0.0 {
        assert 0.0 <= a <= g;
        DivMonotone(a, g, g);
        DivMonotone(0.0, a, g);
        DivideBySelf(g);
        assert WeightedWinRate(wins, losses, weights) == a / g;
      }
    }
  }

  // ---- Robust averages ----

  function Negate(x: real): real { -x }

  /** `np.sort`: ascending order, same elements. */
  function NpSort(s: seq<real>): (r: seq<real>)
    ensures |r| == |s| && multiset(r) == multiset(s)
    ensures forall i, j :: 0 <= i < j < |r| ==> r[i] <= r[j]
  {
    var r := SortDesc(s, Negate);
    assert forall i, j :: 0 <= i < j < |r| ==> Negate(r[i]) >= Negate(r[j]);
    r
  }

  /** The average `robust_average` reports. NumPy's mean of an empty slice
      (NaN) and an out-of-range index are the two ways it goes wrong. */
  datatype RobustMean = Average(value: real) | NotANumber | IndexOutOfRange

  /** `np.median`: the middle value, or the mean of the two middle values. */
  function Median(values: seq<real>): real
    requires |values| > 0
  {
    var s := NpSort(values);
    var n := |s|;
    if n % 2 == 1 then s[n / 2] else (s[n / 2 - 1] + s[n / 2]) / 2.0
  }

  /** `np.clip(v, lo, hi)`, i.e. `min(max(v, lo), hi)`. */
  function NpClip(v: real, lo: real, hi: real): real { Min(Max(v, lo), hi) }

  function ClipAll(values: seq<real>, lo: real, hi: real): (r: seq<real>)
    ensures |r| == |values| && forall i :: 0 <= i < |r| ==> r[i] == NpClip(values[i], lo, hi)
  {
    seq(|values|, i requires 0 <= i < |values| => NpClip(values[i], lo, hi))
  }

  function TrimmedMean(values: seq<real>, k: int): (r: RobustMean)
    requires |values| > 0
    ensures k <= 0 ==> r == Average(Mean(values))
    ensures k > 0 ==> (r == NotANumber <==> 2 * k >= |values|)
    ensures k > 0 && 2 * k < |values| ==> r == Average(Mean(NpSort(values)[k..|values| - k]))
    ensures r != IndexOutOfRange
  {
    if k <= 0 then Average(Mean(values))
    else if 2 * k >= |values| then NotANumber
    else Average(Mean(NpSort(values)[k..|values| - k]))
  }

  function WinsorizedMean(values: seq<real>, k: int): (r: RobustMean)
    requires |values| > 0
    ensures k <= 0 ==> r == Average(Mean(values))
    ensures k > 0 ==> (r == IndexOutOfRange <==> k >= |values|)
    ensures 0 < k < |values| ==>
      var s := NpSort(values);
      r == Average(Mean(ClipAll(values, s[k], s[|values| - k])))
    ensures r != NotANumber
  {
    if k <= 0 then Average(Mean(values))
    else if k >= |values| then IndexOutOfRange
    else
      var s := NpSort(values);
      Average(Mean(ClipAll(values, s[k], s[|values| - k])))
  }

  /** `robust_average` without its standard deviation. */
  function RobustAverage(values: seq<real>, averaging: string, trimPercent: real): (r: RobustMean)
    ensures |values| == 0 ==> r == Average(0.0)
    ensures |values| > 0 && averaging == "median" ==> r == Average(Median(values))
    ensures |values| > 0 && averaging == "trimmed" ==> r == TrimmedMean(values, TruncateToInt(|values| as real * trimPercent))
    ensures |values| > 0 && averaging == "winsorized" ==>
      r == WinsorizedMean(values, TruncateToInt(|values| as real * trimPercent))
    ensures |values| > 0 && averaging !in ["median", "trimmed", "winsorized"] ==> r == Average(Mean(values))
  {
    if |values| == 0 then Average(0.0)
    else
      var k := TruncateToInt(|values| as real * trimPercent);
      if averaging == "median" then Average(Median(values))
      else if averaging == "trimmed" then TrimmedMean(values, k)
      else if averaging == "winsorized" then WinsorizedMean(values, k)
      else Average(Mean(values))
  }

  lemma SortedBounds(values: seq<real>, i: int)
    requires 0 <= i < |values|
    ensures NpSort(values)[0] <= values[i] <= NpSort(values)[|values| - 1]
  {
    var s := NpSort(values);
    assert values[i] in multiset(values);
    assert values[i] in multiset(s);
    var j :| 0 <= j < |s| && s[j] == values[i];
    if j > 0 { assert s[0] <= s[j]; }
    if j < |s| - 1 { assert s[j] <= s[|s| - 1]; }
  }

  lemma AllWithinSortedRange(values: seq<real>)
    requires |values| > 0
    ensures forall i :: 0 <= i < |values| ==> NpSort(values)[0] <= values[i] <= NpSort(values)[|values| - 1]
  {
    forall i | 0 <= i < |values| ensures NpSort(values)[0] <= values[i] <= NpSort(values)[|values| - 1] {
      SortedBounds(values, i);
    }
  }

  lemma TrimmedWithinRange(values: seq<real>, k: int)
    requires |values| > 0
    ensures var r := TrimmedMean(values, k);
      r.Average? ==> NpSort(values)[0] <= r.value <= NpSort(values)[|values| - 1]
  {
    var s := NpSort(values);
    var n := |values|;
    if k <= 0 {
      AllWithinSortedRange(values);
      MeanBetween(values, s[0], s[n - 1]);
    } else if 2 * k < n {
      var t := s[k..n - k];
      assert forall i :: 0 <= i < |t| ==> t[i] == s[k + i];
      MeanBetween(t, s[0], s[n - 1]);
    }
  }

  lemma WinsorizedWithinRange(values: seq<real>, k: int)
    requires |values| > 0
    ensures var r := WinsorizedMean(values, k);
      r.Average? ==> NpSort(values)[0] <= r.value <= NpSort(values)[|values| - 1]
  {
    var s := NpSort(values);
    var n := |values|;
    if k <= 0 {
      AllWithinSortedRange(values);
      MeanBetween(values, s[0], s[n - 1]);
    } else if k < n {
      var c := ClipAll(values, s[k], s[n - k]);
      assert s[0] <= s[k] && s[n - k] <= s[n - 1];
      MeanBetween(c, s[0], s[n - 1]);
    }
  }

  /** Every robust average lies between the smallest and the largest value. */
  lemma RobustAverageWithinRange(values: seq<real>, averaging: string, trimPercent: real)
    requires |values| > 0
    ensures var r := RobustAverage(values, averaging, trimPercent);
      r.Average? ==> NpSort(values)[0] <= r.value <= NpSort(values)[|values| - 1]
  {
    var k := TruncateToInt(|values| as real * trimPercent);
    if averaging == "trimmed" {
      TrimmedWithinRange(values, k);
    } else if averaging == "winsorized" {
      WinsorizedWithinRange(values, k);
    } else if averaging != "median" {
      AllWithinSortedRange(values);
      MeanBetween(values, NpSort(values)[0], NpSort(values)[|values| - 1]);
    }
  }

  /** The winsorised clip is lopsided: with one value to cap at each end
      the upper bound is the maximum itself, so no value is lowered, while
      every value below the second smallest is raised to it. */
  lemma WinsorizingIsAsymmetric(values: seq<real>)
    requires |values| >= 2
    ensures var s := NpSort(values);
            var c := ClipAll(values, s[1], s[|values| - 1]);
      (forall i :: 0 <= i < |values| && values[i] >= s[1] ==> c[i] == values[i])
      && (forall i :: 0 <= i < |values| && values[i] < s[1] ==> c[i] == s[1])
  {
    AllWithinSortedRange(values);
  }

  // ---- Linear normalisation ----

  type Distribution = seq<(string, real)>

  /** `normalize_probabilities(probs, "linear")`. */
  function NormalizeLinear(probs: Distribution): (r: Distribution)
    ensures |r| == |probs| && forall i :: 0 <= i < |r| ==> r[i].0 == probs[i].0
    ensures Sum(Assoc.Values(probs)) == 0.0 ==> forall i :: 0 <= i < |r| ==> r[i].1 == 1.0 / |probs| as real
    ensures Sum(Assoc.Values(probs)) != 0.0 ==> forall i :: 0 <= i < |r| ==> r[i].1 == probs[i].1 / Sum(Assoc.Values(probs))
  {
    var total := Sum(Assoc.Values(probs));
    if |probs| == 0 then []
    else if total == 0.0 then seq(|probs|, i requires 0 <= i < |probs| => (probs[i].0, 1.0 / |probs| as real))
    else seq(|probs|, i requires 0 <= i < |probs| => (probs[i].0, probs[i].1 / total))
  }

  lemma {:induction false} SumScaled(xs: seq<real>, ys: seq<real>, c: real)
    requires c != 0.0 && |xs| == |ys|
    requires forall i :: 0 <= i < |xs| ==> ys[i] == xs[i] / c
    ensures Sum(ys) == Sum(xs) / c
    decreases |xs|
  {
    if |xs| > 0 {
      SumScaled(xs[1..], ys[1..], c);
      assert xs[0] / c + Sum(xs[1..]) / c == (xs[0] + Sum(xs[1..])) / c;
    }
  }

  lemma {:induction false} SumConstant(ys: seq<real>, c: real)
    requires forall i :: 0 <= i < |ys| ==> ys[i] == c
    ensures Sum(ys) == c * |ys| as real
    decreases |ys|
  {
    if |ys| > 0 {
      SumConstant(ys[1..], c);
    }
  }

  lemma UniformSumsToOne(r: Distribution)
    requires |r| > 0 && forall i :: 0 <= i < |r| ==> r[i].1 == 1.0 / |r| as real
    ensures Sum(Assoc.Values(r)) == 1.0
  {
    var n := |r| as real;
    var c := 1.0 / n;
    assert forall i :: 0 <= i < |Assoc.Values(r)| ==> Assoc.Values(r)[i] == c;
    SumConstant(Assoc.Values(r), c);
    assert c * n == 1.0;
  }

  lemma ScaledSumsToOne(probs: Distribution, r: Distribution)
    requires Sum(Assoc.Values(probs)) != 0.0 && |r| == |probs|
    requires forall i :: 0 <= i < |r| ==> r[i].1 == probs[i].1 / Sum(Assoc.Values(probs))
    ensures Sum(Assoc.Values(r)) == 1.0
  {
    var total := Sum(Assoc.Values(probs));
    assert forall i :: 0 <= i < |Assoc.Values(r)| ==> Assoc.Values(r)[i] == Assoc.Values(probs)[i] / total;
    SumScaled(Assoc.Values(probs), Assoc.Values(r), total);
    assert total / total == 1.0;
  }

  /** A non-empty distribution normalises to values summing to 1. */
  lemma NormalizedSumsToOne(probs: Distribution)
    requires |probs| > 0
    ensures Sum(Assoc.Values(NormalizeLinear(probs))) == 1.0
  {
    if Sum(Assoc.Values(probs)) == 0.0 {
      UniformSumsToOne(NormalizeLinear(probs));
    } else {
      ScaledSumsToOne(probs, NormalizeLinear(probs));
    }
  }

  // ---- Beta posterior mean ----

  function PosteriorMean(wins: real, losses: real, priorWins: real, priorLosses: real, priorStrength: real): (r: real)
    ensures var a := priorWins * priorStrength + wins;
            var b := priorLosses * priorStrength + losses;
      (a + b > 0.0 ==> r * (a + b) == a) && (a + b <= 0.0 ==> r == 0.5)
  {
    var alpha := priorWins * priorStrength + wins;
    var beta := priorLosses * priorStrength + losses;
    if alpha + beta > 0.0 then alpha / (alpha + beta) else 0.5
  }

  /** `bayesian_win_rate`'s defaults: one win and no loss estimate 0.6. */
  lemma OneWinWithDefaultPrior()
    ensures PosteriorMean(1.0, 0.0, 1.0, 1.0, 2.0) == 0.6
  {
  }

  /** A ratio `e = p / q` inherits bounds stated on `p` in multiples of `q`. */
  lemma RatioBounds(e: real, q: real, p: real, lo: real, hi: real)
    requires q > 0.0 && e * q == p && lo * q <= p <= hi * q
    ensures lo <= e <= hi
  {
    if e < lo {
      MulStrict(q, e, lo);
      assert false;
    }
    if e > hi {
      MulStrict(q, hi, e);
      assert false;
    }
  }

  lemma MulNonNegative(a: real, b: real)
    requires a >= 0.0 && b >= 0.0
    ensures a * b >= 0.0
  {
  }

  /** The mediant of two fractions lies between them. */
  lemma Mediant(a: real, b: real, c: real, d: real)
    requires b > 0.0 && d > 0.0 && a * d <= c * b
    ensures a / b <= (a + c) / (b + d) <= c / d
  {
    var x := a / b;
    var y := c / d;
    var m := (a + c) / (b + d);
    assert a == x * b && c == y * d;
    assert m * (b + d) == a + c;
    // a + c lies between x·(b + d) and y·(b + d)
    assert x * d <= c by {
      assert a * d == x * (b * d) && c * b == y * (d * b);
      RatioBounds(x, b * d, a * d, x, y);
      assert x <= y;
      assert (y - x) * d >= 0.0 by { MulNonNegative(y - x, d); }
    }
    assert a <= y * b by {
      RatioBounds(x, b * d, a * d, x, x);
      assert a * d <= c * b;
      assert x <= y by {
        if x > y {
          MulStrict(b * d, y, x);
          assert false;
        }
      }
      assert (y - x) * b >= 0.0 by { MulNonNegative(y - x, b); }
    }
    assert x * (b + d) == a + x * d;
    assert y * (b + d) == y * b + c;
    RatioBounds(m, b + d, a + c, x, y);
  }

  lemma ScaleFraction(a: real, b: real, k: real)
    requires b != 0.0 && k != 0.0
    ensures (a * k) / (b * k) == a / b
  {
    var x := a / b;
    assert x * b == a;
    assert x * (b * k) == a * k;
  }

  /** The mediant lies between the smaller and the larger of two fractions. */
  lemma MediantBetween(a: real, b: real, c: real, d: real)
    requires b > 0.0 && d > 0.0
    ensures Min(a / b, c / d) <= (a + c) / (b + d) <= Max(a / b, c / d)
  {
    if a * d <= c * b {
      Mediant(a, b, c, d);
    } else {
      Mediant(c, d, a, b);
      assert (c + a) / (d + b) == (a + c) / (b + d);
    }
  }

  /** The posterior mean sits between the prior mean and the observed rate. */
  lemma PosteriorBetweenPriorAndObserved(wins: real, losses: real, priorWins: real, priorLosses: real, priorStrength: real)
    requires wins >= 0.0 && losses >= 0.0 && wins + losses > 0.0
    requires priorWins >= 0.0 && priorLosses >= 0.0 && priorWins + priorLosses > 0.0 && priorStrength > 0.0
    ensures var prior := priorWins / (priorWins + priorLosses);
            var observed := wins / (wins + losses);
            var post := PosteriorMean(wins, losses, priorWins, priorLosses, priorStrength);
      Min(prior, observed) <= post <= Max(prior, observed)
  {
    var pa := priorWins * priorStrength;
    var pb := priorLosses * priorStrength;
    var ps := pa + pb;
    var g := wins + losses;
    assert ps == (priorWins + priorLosses) * priorStrength;
    MulStrict(priorStrength, 0.0, priorWins + priorLosses);
    assert pa >= 0.0 && pb >= 0.0 by {
      MulNonNegative(priorWins, priorStrength);
      MulNonNegative(priorLosses, priorStrength);
    }
    ScaleFraction(priorWins, priorWins + priorLosses, priorStrength);
    var post := PosteriorMean(wins, losses, priorWins, priorLosses, priorStrength);
    assert (pa + wins) + (pb + losses) == ps + g;
    QuotientOfProduct(post, ps + g, pa + wins);
    MediantBetween(pa, ps, wins, g);
  }

  // ---- Regression to the mean ----

  /** The weight `regression_to_mean` puts on the population mean. Python
      raises on a zero denominator. */
  function ShrinkageFactor(sampleSize: int, populationVariance: real, sampleVariance: real): (r: Option<real>)
    requires sampleSize != 0
    ensures sampleSize > 0 && populationVariance > 0.0 && sampleVariance >= 0.0 ==>
      r.Some? && 0.0 < r.value <= 1.0
  {
    var d := populationVariance + sampleVariance / sampleSize as real;
    if d == 0.0 then None
    else
      if sampleSize > 0 && populationVariance > 0.0 && sampleVariance >= 0.0 then
        assert sampleVariance / sampleSize as real >= 0.0;
        DivMonotone(populationVariance, d, d);
        DivMonotone(0.0, populationVariance, d);
        assert d / d == 1.0;
        assert populationVariance / d != 0.0 by {
          assert populationVariance / d * d == populationVariance;
        }
        Some(populationVariance / d)
      else
        Some(populationVariance / d)
  }

  /** `f·a + (1 − f)·b` for a weight `f` that may be missing. */
  function Blend(f: Option<real>, a: real, b: real): (r: Option<real>)
    ensures r.None? <==> f.None?
  {
    if f.None? then None else Some(f.value * a + (1.0 - f.value) * b)
  }

  /** `regression_to_mean` as written: `None` stands for the division by
      zero. */
  function RegressionToMean(observed: real, sampleSize: int, populationMean: real, populationVariance: real,
                            sampleVariance: Option<real>): (r: Option<real>)
    ensures sampleSize == 0 ==> r == Some(populationMean)
    ensures sampleSize != 0 ==>
      var f := ShrinkageFactor(sampleSize, populationVariance, sampleVariance.GetOr(populationVariance));
      (f.None? ==> r.None?) && (f.Some? ==> r == Some(f.value * populationMean + (1.0 - f.value) * observed))
  {
    if sampleSize == 0 then Some(populationMean)
    else
      Blend(ShrinkageFactor(sampleSize, populationVariance, sampleVariance.GetOr(populationVariance)), populationMean, observed)
  }

  /** With non-negative variances and a positive sample size the estimate is
      a convex combination of the observation and the population mean. */
  lemma RegressionIsConvex(observed: real, sampleSize: int, populationMean: real, populationVariance: real,
                           sampleVariance: real)
    requires sampleSize > 0 && populationVariance > 0.0 && sampleVariance >= 0.0
    ensures var r := RegressionToMean(observed, sampleSize, populationMean, populationVariance, Some(sampleVariance));
      r.Some? && Min(observed, populationMean) <= r.value <= Max(observed, populationMean)
  {
    var f := ShrinkageFactor(sampleSize, populationVariance, sampleVariance).value;
    var r := f * populationMean + (1.0 - f) * observed;
    if observed <= populationMean {
      MulNonNegative(f, populationMean - observed);
      MulNonNegative(1.0 - f, populationMean - observed);
      assert r - observed == f * (populationMean - observed);
      assert populationMean - r == (1.0 - f) * (populationMean - observed);
    } else {
      MulNonNegative(f, observed - populationMean);
      MulNonNegative(1.0 - f, observed - populationMean);
      assert r - populationMean == (1.0 - f) * (observed - populationMean);
      assert observed - r == f * (observed - populationMean);
    }
  }

  /** Dividing a positive number by a larger positive number gives less. */
  lemma DivDecreasing(p: real, larger: real, smaller: real)
    requires p > 0.0 && 0.0 < smaller < larger
    ensures p / larger < p / smaller
  {
    var x := p / larger;
    var y := p / smaller;
    assert x * larger == p && y * smaller == p;
    PositiveProduct(p, 1.0 / larger);
    assert x > 0.0;
    if x >= y {
      MulStrict(x, smaller, larger);
      MulNonNegative(x - y, smaller);
      assert false;
    }
  }

  /** As written, the weight on the population mean grows with the sample
      size: a larger sample is pulled harder toward the population, the
      opposite of the "more shrinkage when the sample is small" intent. */
  lemma ShrinkageGrowsWithSampleSize(n1: int, n2: int, populationVariance: real, sampleVariance: real)
    requires 0 < n1 < n2 && populationVariance > 0.0 && sampleVariance > 0.0
    ensures ShrinkageFactor(n1, populationVariance, sampleVariance).value
          < ShrinkageFactor(n2, populationVariance, sampleVariance).value
  {
    DivDecreasing(sampleVariance, n2 as real, n1 as real);
    var d1 := populationVariance + sampleVariance / n1 as real;
    var d2 := populationVariance + sampleVariance / n2 as real;
    DivDecreasing(populationVariance, d1, d2);
  }

  /** The intended shrinkage estimator: the population mean's weight is the
      share of the sampling variance, `(sv/n) / (pv + sv/n)`, i.e. one minus
      the factor above. */
  function RegressionToMeanCorrected(observed: real, sampleSize: int, populationMean: real, populationVariance: real,
                                     sampleVariance: Option<real>): (r: Option<real>)
    ensures sampleSize == 0 ==> r == Some(populationMean)
    ensures sampleSize != 0 ==>
      var f := ShrinkageFactor(sampleSize, populationVariance, sampleVariance.GetOr(populationVariance));
      (f.None? ==> r.None?) && (f.Some? ==> r == Some((1.0 - f.value) * populationMean + f.value * observed))
  {
    if sampleSize == 0 then Some(populationMean)
    else
      Blend(ShrinkageFactor(sampleSize, populationVariance, sampleVariance.GetOr(populationVariance)), observed, populationMean)
  }

  /** In the corrected estimator a larger sample moves the estimate toward
      the observation: the population mean's weight falls as `n` grows. */
  lemma CorrectedShrinksLessForLargerSamples(observed: real, n1: int, n2: int, populationMean: real,
                                             populationVariance: real, sampleVariance: real)
    requires 0 < n1 < n2 && populationVariance > 0.0 && sampleVariance > 0.0
    ensures 1.0 - ShrinkageFactor(n2, populationVariance, sampleVariance).value
          < 1.0 - ShrinkageFactor(n1, populationVariance, sampleVariance).value
    ensures var f1 := ShrinkageFactor(n1, populationVariance, sampleVariance).value;
      RegressionToMeanCorrected(observed, n1, populationMean, populationVariance, Some(sampleVariance))
      == Some((1.0 - f1) * populationMean + f1 * observed)
    ensures var f2 := ShrinkageFactor(n2, populationVariance, sampleVariance).value;
      RegressionToMeanCorrected(observed, n2, populationMean, populationVariance, Some(sampleVariance))
      == Some((1.0 - f2) * populationMean + f2 * observed)
  {
    ShrinkageGrowsWithSampleSize(n1, n2, populationVariance, sampleVariance);
    CorrectedUsesFactor(observed, n1, populationMean, populationVariance, sampleVariance);
    CorrectedUsesFactor(observed, n2, populationMean, populationVariance, sampleVariance);
  }

  /** With a known positive sample variance the corrected estimate is the
      blend weighted by the shrinkage factor. */
  lemma CorrectedUsesFactor(observed: real, n: int, populationMean: real, populationVariance: real,
                            sampleVariance: real)
    requires n > 0 && populationVariance > 0.0 && sampleVariance > 0.0
    ensures var f := ShrinkageFactor(n, populationVariance, sampleVariance).value;
      RegressionToMeanCorrected(observed, n, populationMean, populationVariance, Some(sampleVariance))
      == Some((1.0 - f) * populationMean + f * observed)
  {
    assert Some(sampleVariance).GetOr(populationVariance) == sampleVariance;
    var f := ShrinkageFactor(n, populationVariance, sampleVariance);
    assert f.Some?;
    assert RegressionToMeanCorrected(observed, n, populationMean, populationVariance, Some(sampleVariance))
        == Blend(f, observed, populationMean);
  }

  // ---- Effective sample size ----

  function SumSquares(ws: seq<real>): (r: real)
    ensures r >= 0.0
    decreases |ws|
  {
    if |ws| == 0 then 0.0 else ws[0] * ws[0] + SumSquares(ws[1..])
  }

  /** Kish's `(Σw)² / Σw²`, 0 for no weights or all-zero weights. */
  function EffectiveSampleSize(weights: seq<real>): (r: real)
    ensures |weights| == 0 || SumSquares(weights) == 0.0 ==> r == 0.0
    ensures SumSquares(weights) > 0.0 ==> r * SumSquares(weights) == Sum(weights) * Sum(weights)
  {
    if |weights| == 0 then 0.0
    else
      var q := SumSquares(weights);
      if q == 0.0 then 0.0 else Sum(weights) * Sum(weights) / q
  }

  /** One step of Cauchy-Schwarz: from `s² <= n·q` to the list with one more
      element `x`. */
  lemma CauchyStep(x: real, s: real, q: real, n: real)
    requires n >= 0.0 && q >= 0.0 && s * s <= n * q
    requires n == 0.0 ==> s == 0.0
    ensures (x + s) * (x + s) <= (n + 1.0) * (x * x + q)
  {
    var gap := q + n * x * x - 2.0 * s * x;
    assert gap >= 0.0 by {
      if n > 0.0 {
        var d := s - n * x;
        assert d * d >= 0.0 by { if d < 0.0 { MulNonNegative(-d, -d); } else { MulNonNegative(d, d); } }
        assert d * d == s * s - 2.0 * n * s * x + n * n * x * x;
        assert n * gap == n * q + n * n * x * x - 2.0 * n * s * x;
        assert n * gap >= d * d;
        if gap < 0.0 {
          MulStrict(n, gap, 0.0);
          assert false;
        }
      } else {
        assert gap == q;
      }
    }
    assert (x + s) * (x + s) == s * s + 2.0 * s * x + x * x;
    assert (n + 1.0) * (x * x + q) == n * q + q + n * x * x + x * x;
  }

  /** Cauchy-Schwarz: `(Σw)² <= n·Σw²`. */
  lemma {:induction false} SquareOfSumBound(ws: seq<real>)
    ensures Sum(ws) * Sum(ws) <= |ws| as real * SumSquares(ws)
    decreases |ws|
  {
    if |ws| > 0 {
      var t := ws[1..];
      SquareOfSumBound(t);
      assert |t| == 0 ==> Sum(t) == 0.0;
      CauchyStep(ws[0], Sum(t), SumSquares(t), |t| as real);
    }
  }

  /** For non-negative weights, `(Σw)² >= Σw²`. */
  lemma {:induction false} SumSquaresBelowSquareOfSum(ws: seq<real>)
    requires forall i :: 0 <= i < |ws| ==> ws[i] >= 0.0
    ensures SumSquares(ws) <= Sum(ws) * Sum(ws) && Sum(ws) >= 0.0
    decreases |ws|
  {
    if |ws| > 0 {
      SumSquaresBelowSquareOfSum(ws[1..]);
      var x := ws[0];
      var s := Sum(ws[1..]);
      assert (x + s) * (x + s) == x * x + 2.0 * x * s + s * s;
      MulNonNegative(x, s);
    }
  }

  /** Non-negative weights, not all zero, represent between 1 and n samples. */
  lemma EffectiveSampleSizeBounds(weights: seq<real>)
    requires forall i :: 0 <= i < |weights| ==> weights[i] >= 0.0
    requires SumSquares(weights) > 0.0
    ensures 1.0 <= EffectiveSampleSize(weights) <= |weights| as real
  {
    var q := SumSquares(weights);
    var p := Sum(weights) * Sum(weights);
    var n := |weights| as real;
    SquareOfSumBound(weights);
    SumSquaresBelowSquareOfSum(weights);
    assert 1.0 * q <= p <= n * q;
    RatioBounds(EffectiveSampleSize(weights), q, p, 1.0, n);
  }

  lemma {:induction false} SumSquaresConstant(ws: seq<real>, c: real)
    requires forall i :: 0 <= i < |ws| ==> ws[i] == c
    ensures SumSquares(ws) == c * (c * |ws| as real)
    decreases |ws|
  {
    if |ws| > 0 {
      SumSquaresConstant(ws[1..], c);
    }
  }

  /** A positive factor cancels from both sides of an equation. */
  lemma CancelPositive(x: real, y: real, k: real)
    requires k > 0.0 && x * k == y * k
    ensures x == y
  {
    if x < y {
      MulStrict(k, x, y);
      assert false;
    } else if y < x {
      MulStrict(k, y, x);
      assert false;
    }
  }

  /** With a sum of `cn` and a sum of squares of `c·(cn)`, the effective
      sample size relation `e·q == s²` forces `e == n`. */
  lemma SquareRatio(e: real, s: real, q: real, c: real, n: real)
    requires c > 0.0 && n > 0.0 && s == c * n && q == c * (c * n)
    requires q > 0.0 ==> e * q == s * s
    ensures e == n
  {
    PositiveProduct(c, n);
    PositiveProduct(c, c * n);
    assert (e * c) * s == s * s;
    CancelPositive(e * c, s, s);
    assert e * c == n * c;
    CancelPositive(e, n, c);
  }

  /** Equal positive weights count every sample once. */
  lemma EqualWeightsGiveCount(weights: seq<real>, c: real)
    requires |weights| > 0 && c > 0.0
    requires forall i :: 0 <= i < |weights| ==> weights[i] == c
    ensures EffectiveSampleSize(weights) == |weights| as real
  {
    SumConstant(weights, c);
    SumSquaresConstant(weights, c);
    SquareRatio(EffectiveSampleSize(weights), Sum(weights), SumSquares(weights), c, |weights| as real);
  }

  // ---- Early returns of the transcendental helpers ----

  /** The 0.5 `combine_probabilities` returns before any log-odds or
      geometric combination: no estimates, or weights that sum to zero.
      `None` means the transcendental branch runs. */
  function CombineProbabilitiesDegenerate(probs: seq<real>, weights: Option<seq<real>>): (r: Option<real>)
    ensures r.Some? ==> r.value == 0.5
    ensures r.Some? <==> |probs| == 0 || (weights.Some? && Sum(weights.value) == 0.0)
  {
    if |probs| == 0 then Some(0.5)
    else
      var w := weights.GetOr(Ones(|probs|));
      if weights.None? then
        SumConstant(w, 1.0);
        None
      else if Sum(w) == 0.0 then Some(0.5)
      else None
  }

  /** The (0, 0) `time_weighted_average` returns for no values or a date
      list of a different length. */
  function TimeWeightedDegenerate(values: seq<real>, dateCount: nat): (r: Option<(real, real)>)
    ensures r.Some? <==> |values| == 0 || |values| != dateCount
    ensures r.Some? ==> r.value == (0.0, 0.0)
  {
    if |values| == 0 || |values| != dateCount then Some((0.0, 0.0)) else None
  }
}

=== FILE: text.dfy ===
/** String helpers with Python's `str` semantics restricted to ASCII:
    `lower`, `upper`, `strip`, the `in` substring test and `str(n)` for a
    natural number. */
module Text {

  predicate IsAsciiLower(c: char) { 'a' <= c <= 'z' }
  predicate IsAsciiUpper(c: char) { 'A' <= c <= 'Z' }
  predicate IsDigit(c: char) { '0' <= c <= '9' }

  /** The characters `str.strip()` removes that lie in the ASCII range. */
  predicate IsSpace(c: char)
  {
    c == ' ' || c == '\t' || c == '\n' || c == '\r' || c == '\U{B}' || c == '\U{C}'
    || c == '\U{1C}' || c == '\U{1D}' || c == '\U{1E}' || c == '\U{1F}'
  }

  function LowerChar(c: char): (r: char)
    ensures !IsAsciiUpper(r)
    ensures !IsAsciiUpper(c) ==> r == c
  {
    if IsAsciiUpper(c) then (c as int + 32) as char else c
  }

  function UpperChar(c: char): (r: char)
    ensures !IsAsciiLower(r)
    ensures !IsAsciiLower(c) ==> r == c
  {
    if IsAsciiLower(c) then (c as int - 32) as char else c
  }

  function Lower(s: string): (r: string)
    ensures |r| == |s|
    ensures forall i :: 0 <= i < |s| ==> r[i] == LowerChar(s[i])
    decreases |s|
  {
    if |s| == 0 then "" else [LowerChar(s[0])] + Lower(s[1..])
  }

  function Upper(s: string): (r: string)
    ensures |r| == |s|
    ensures forall i :: 0 <= i < |s| ==> r[i] == UpperChar(s[i])
    decreases |s|
  {
    if |s| == 0 then "" else [UpperChar(s[0])] + Upper(s[1..])
  }

  function StripLeft(s: string): (r: string)
    ensures |r| <= |s| && r == s[|s| - |r|..]
    ensures forall i :: 0 <= i < |s| - |r| ==> IsSpace(s[i])
    ensures |r| > 0 ==> !IsSpace(r[0])
    decreases |s|
  {
    if |s| > 0 && IsSpace(s[0]) then StripLeft(s[1..]) else s
  }

  function StripRight(s: string): (r: string)
    ensures |r| <= |s| && r == s[..|r|]
    ensures forall i :: |r| <= i < |s| ==> IsSpace(s[i])
    ensures |r| > 0 ==> !IsSpace(r[|r| - 1])
    decreases |s|
  {
    if |s| > 0 && IsSpace(s[|s| - 1]) then StripRight(s[..|s| - 1]) else s
  }

  /** `r` is the slice of `s` starting at `i` and everything around it is
      whitespace. */
  ghost predicate TrimmedAt(s: string, r: string, i: int)
  {
    0 <= i <= |s| - |r| && r == s[i..i + |r|]
    && (forall k :: 0 <= k < i ==> IsSpace(s[k]))
    && (forall k :: i + |r| <= k < |s| ==> IsSpace(s[k]))
  }

  /** Cutting a leading whitespace run off `s` and then a trailing one off
      the rest leaves the slice between the two runs. */
  lemma TrimmedOfParts(s: string, l: string, r: string)
    requires |l| <= |s| && l == s[|s| - |l|..] && forall k :: 0 <= k < |s| - |l| ==> IsSpace(s[k])
    requires |r| <= |l| && r == l[..|r|] && forall k :: |r| <= k < |l| ==> IsSpace(l[k])
    ensures TrimmedAt(s, r, |s| - |l|)
  {
    var i := |s| - |l|;
    assert r == s[i..i + |r|];
    forall k | i + |r| <= k < |s| ensures IsSpace(s[k]) {
      assert s[k] == l[k - i];
    }
  }

  /** Python `s.strip()`: `s` without its leading and trailing whitespace. */
  function Strip(s: string): (r: string)
    ensures exists i :: TrimmedAt(s, r, i)
    ensures |r| > 0 ==> !IsSpace(r[0]) && !IsSpace(r[|r| - 1])
  {
    var l := StripLeft(s);
    var r := StripRight(l);
    TrimmedOfParts(s, l, r);
    assert |r| > 0 ==> r[0] == l[0];
    r
  }

  predicate StartsWith(s: string, t: string)
    decreases |t|
  {
    |t| == 0 || (|s| > 0 && s[0] == t[0] && StartsWith(s[1..], t[1..]))
  }

  /** Python's `t in s` for strings. */
  predicate Contains(s: string, t: string)
    decreases |s|
  {
    StartsWith(s, t) || (|s| > 0 && Contains(s[1..], t))
  }

  lemma {:induction false} StartsWithIsPrefix(s: string, t: string)
    ensures StartsWith(s, t) <==> |t| <= |s| && s[..|t|] == t
    decreases |t|
  {
    if |t| > 0 && |s| > 0 {
      StartsWithIsPrefix(s[1..], t[1..]);
      if s[0] == t[0] && |t| <= |s| && s[1..][..|t| - 1] == t[1..] {
        assert s[..|t|] == [s[0]] + s[1..][..|t| - 1];
        assert t == [t[0]] + t[1..];
      }
      if |t| <= |s| && s[..|t|] == t {
        assert s[1..][..|t| - 1] == s[..|t|][1..];
      }
    }
  }

  ghost predicate OccursAt(s: string, t: string, i: int)
  {
    0 <= i <= |s| - |t| && s[i..i + |t|] == t
  }

  /** `Contains` is the usual "occurs at some offset" relation. */
  lemma {:induction false} ContainsAtOffset(s: string, t: string)
    ensures Contains(s, t) <==> exists i :: OccursAt(s, t, i)
    decreases |s|
  {
    StartsWithIsPrefix(s, t);
    if |s| > 0 {
      ContainsAtOffset(s[1..], t);
      if Contains(s[1..], t) {
        var i :| OccursAt(s[1..], t, i);
        assert s[i + 1..i + 1 + |t|] == s[1..][i..i + |t|];
        assert OccursAt(s, t, i + 1);
      }
      if StartsWith(s, t) {
        assert OccursAt(s, t, 0);
      }
      if exists i :: OccursAt(s, t, i) {
        var i :| OccursAt(s, t, i);
        if i > 0 {
          assert s[1..][i - 1..i - 1 + |t|] == s[i..i + |t|];
          assert OccursAt(s[1..], t, i - 1);
        } else {
          assert s[..|t|] == t;
        }
      }
    } else {
      if exists i :: OccursAt(s, t, i) {
        var i :| OccursAt(s, t, i);
        assert |t| == 0;
      }
      if |t| == 0 {
        assert OccursAt(s, t, 0);
      }
    }
  }

  /** Every string starts with itself. */
  lemma {:induction false} StartsWithSelf(s: string)
    ensures StartsWith(s, s)
    decreases |s|
  {
    if |s| > 0 {
      StartsWithSelf(s[1..]);
    }
  }

  lemma EmptyIsContained(s: string)
    ensures Contains(s, "")
  {
  }

  function DigitChar(d: nat): (c: char)
    requires d < 10
    ensures IsDigit(c)
  {
    ('0' as int + d) as char
  }

  /** Python `str(n)` for a natural number: decimal digits, no leading zero. */
  function NatToString(n: nat): (r: string)
    ensures |r| > 0
    ensures forall i :: 0 <= i < |r| ==> IsDigit(r[i])
    ensures |r| > 1 ==> r[0] != '0'
    decreases n
  {
    if n < 10 then [DigitChar(n)] else NatToString(n / 10) + [DigitChar(n % 10)]
  }

  /** Python `str(n)` for any integer. */
  function IntToString(n: int): (r: string)
    ensures n >= 0 ==> r == NatToString(n)
    ensures n < 0 ==> r == "-" + NatToString(-n)
  {
    if n >= 0 then NatToString(n) else "-" + NatToString(-n)
  }

  function DigitValue(c: char): nat
    requires IsDigit(c)
  {
    c as int - '0' as int
  }

  /** The decimal value of a string of digits. */
  function ParseDigits(s: string): nat
    requires forall i :: 0 <= i < |s| ==> IsDigit(s[i])
    decreases |s|
  {
    if |s| == 0 then 0 else ParseDigits(s[..|s| - 1]) * 10 + DigitValue(s[|s| - 1])
  }

  /** Reading back what `NatToString` printed gives the number. */
  lemma {:induction false} ParseNatToString(n: nat)
    ensures ParseDigits(NatToString(n)) == n
    decreases n
  {
    var s := NatToString(n);
    if n >= 10 {
      ParseNatToString(n / 10);
      assert s[..|s| - 1] == NatToString(n / 10);
    }
  }

  /** A string with no whitespace at either end is its own strip. */
  lemma StripOfTrimmed(s: string)
    requires |s| == 0 || (!IsSpace(s[0]) && !IsSpace(s[|s| - 1]))
    ensures Strip(s) == s
  {
  }

  /** Stripping twice is stripping once. */
  lemma StripIdempotent(s: string)
    ensures Strip(Strip(s)) == Strip(s)
  {
    StripOfTrimmed(Strip(s));
  }

  lemma UpperIdempotent(s: string)
    ensures Upper(Upper(s)) == Upper(s)
  {
  }

  lemma LowerIdempotent(s: string)
    ensures Lower(Lower(s)) == Lower(s)
  {
  }

  /** A string containing a character that `s` lacks is not in `s`. */
  lemma NotContainedMissingChar(s: string, t: string, j: int)
    requires 0 <= j < |t| && t[j] !in s
    ensures !Contains(s, t)
  {
    ContainsAtOffset(s, t);
    forall i | 0 <= i <= |s| - |t| ensures !OccursAt(s, t, i) {
      assert s[i..i + |t|][j] == s[i + j];
    }
  }

  /** A string whose first character does not occur early enough in `s`
      to fit is not in `s`. */
  lemma NotContainedNoStart(s: string, t: string)
    requires 0 < |t| <= |s| && t[0] !in s[..|s| - |t| + 1]
    ensures !Contains(s, t)
  {
    ContainsAtOffset(s, t);
    forall i | 0 <= i <= |s| - |t| ensures !OccursAt(s, t, i) {
      assert s[i..i + |t|][0] == s[i] == s[..|s| - |t| + 1][i];
    }
  }
}

=== FILE: tracker.dfy ===
/** `PredictionTracker`, in memory: predictions keyed by id in insertion
    order (a Python dict), stored PENDING, resolved by `record_outcome`,
    and summarised by game, by recency and by accuracy. Loading and saving
    the JSON file are not modelled; the clock is a parameter. */
module Tracker {
  import opened Wrappers
  import opened Seqs
  import opened Num
  import Assoc

  datatype Outcome = Correct | Incorrect | Pending

  /** The factor dictionaries the learning analyzer reads. A dictionary that
      is missing or empty (falsy) is `None`; a missing number inside one is
      `None` too. */
  datatype WeatherFactors = WeatherFactors(adjustment: Option<real>)
  datatype InjuryFactors = InjuryFactors(homeInjuryImpact: Option<real>, awayInjuryImpact: Option<real>)
  datatype CoachingFactors = CoachingFactors(adjustmentFactor: Option<real>)
  datatype MentalHealthFactors = MentalHealthFactors(adjustment: Option<real>)

  datatype Factors = Factors(
    weatherImpact: Option<WeatherFactors>,
    injuryImpact: Option<InjuryFactors>,
    coachingImpact: Option<CoachingFactors>,
    mentalHealthImpact: Option<MentalHealthFactors>)

  /** Dates are timestamps (an ordinal at whatever resolution the clock
      gives); the score is an opaque dictionary. */
  datatype StoredPrediction = StoredPrediction(
    predictionId: string,
    gameId: string,
    sport: string,
    homeTeam: string,
    awayTeam: string,
    predictedWinner: string,
    actualWinner: Option<string>,
    homeWinProbability: real,
    awayWinProbability: real,
    confidence: real,
    gameDate: Option<int>,
    predictionDate: int,
    outcome: Outcome,
    factors: Factors,
    score: Option<map<string, int>>)

  type Store = seq<(string, StoredPrediction)>

  /** The id: the game id, an underscore and the clock formatted to the
      second (`stamp`, e.g. "20240101_120000"). */
  function PredictionId(gameId: string, stamp: string): string
  {
    gameId + "_" + stamp
  }

  /** `store_prediction`: a PENDING record under a fresh or reused id; an
      id already present (same game, same second) is overwritten in place. */
  function StorePrediction(store: Store, gameId: string, sport: string, homeTeam: string, awayTeam: string,
                           predictedWinner: string, homeWinProbability: real, awayWinProbability: real,
                           confidence: real, factors: Factors, gameDate: Option<int>,
                           stamp: string, now: int): (r: (Store, string))
    ensures r.1 == PredictionId(gameId, stamp)
    ensures Assoc.Find(r.0, r.1) == Some(StoredPrediction(r.1, gameId, sport, homeTeam, awayTeam, predictedWinner,
                                                         None, homeWinProbability, awayWinProbability, confidence,
                                                         gameDate, now, Pending, factors, None))
    ensures forall id :: id != r.1 ==> Assoc.Find(r.0, id) == Assoc.Find(store, id)
    ensures Assoc.Find(store, r.1).Some? ==> Assoc.Keys(r.0) == Assoc.Keys(store)
    ensures Assoc.Find(store, r.1).None? ==> Assoc.Keys(r.0) == Assoc.Keys(store) + [r.1]
  {
    var id := PredictionId(gameId, stamp);
    var p := StoredPrediction(id, gameId, sport, homeTeam, awayTeam, predictedWinner, None,
                              homeWinProbability, awayWinProbability, confidence, gameDate, now,
                              Pending, factors, None);
    var next := Assoc.Put(store, id, p);
    Assoc.FindPutSame(store, id, p);
    forall other | other != id
      ensures Assoc.Find(next, other) == Assoc.Find(store, other)
    {
      Assoc.FindPutOther(store, id, p, other);
    }
    (next, id)
  }

  /** The outcome a result earns: correct exactly when the named winner
      is the predicted one. */
  function Resolve(p: StoredPrediction, actualWinner: string, score: Option<map<string, int>>): (r: StoredPrediction)
    ensures r.outcome == Correct <==> actualWinner == p.predictedWinner
    ensures r.outcome != Pending
    ensures r.actualWinner == Some(actualWinner) && r.score == score
    ensures r.(actualWinner := p.actualWinner, score := p.score, outcome := p.outcome) == p
  {
    p.(actualWinner := Some(actualWinner), score := score,
       outcome := if actualWinner == p.predictedWinner then Correct else Incorrect)
  }

  /** `record_outcome`: an unknown id is an error and changes nothing;
      otherwise only that record is resolved, and a second call overwrites
      the first. */
  function RecordOutcome(store: Store, predictionId: string, actualWinner: string,
                         score: Option<map<string, int>>): (r: Result<(Store, StoredPrediction), string>)
    ensures r.Failure? <==> Assoc.Find(store, predictionId).None?
    ensures r.Success? ==>
      var before := Assoc.Find(store, predictionId).value;
      r.value.1 == Resolve(before, actualWinner, score)
      && Assoc.Find(r.value.0, predictionId) == Some(r.value.1)
      && Assoc.Keys(r.value.0) == Assoc.Keys(store)
      && forall id :: id != predictionId ==> Assoc.Find(r.value.0, id) == Assoc.Find(store, id)
  {
    match Assoc.Find(store, predictionId)
    case None => Failure("Prediction " + predictionId + " not found")
    case Some(p) =>
      var resolved := Resolve(p, actualWinner, score);
      var next := Assoc.Put(store, predictionId, resolved);
      Assoc.FindPutSame(store, predictionId, resolved);
      forall other | other != predictionId
        ensures Assoc.Find(next, other) == Assoc.Find(store, other)
      {
        Assoc.FindPutOther(store, predictionId, resolved, other);
      }
      Success((next, resolved))
  }

  /** Recording twice keeps only the second result. */
  lemma LastOutcomeWins(store: Store, predictionId: string, first: string, second: string,
                        score1: Option<map<string, int>>, score2: Option<map<string, int>>)
    requires Assoc.Find(store, predictionId).Some?
    ensures var once := RecordOutcome(store, predictionId, first, score1);
      once.Success? &&
      var twice := RecordOutcome(once.value.0, predictionId, second, score2);
      twice.Success? && twice.value.1 == RecordOutcome(store, predictionId, second, score2).value.1
  {
    var p := Assoc.Find(store, predictionId).value;
    var once := RecordOutcome(store, predictionId, first, score1);
    assert Resolve(once.value.1, second, score2) == Resolve(p, second, score2);
  }

  /** `get_predictions_by_game`: the records for one game, in store order. */
  function PredictionsByGame(store: Store, gameId: string): (r: seq<StoredPrediction>)
    ensures forall i :: 0 <= i < |r| ==> r[i].gameId == gameId
    ensures forall i :: 0 <= i < |store| && store[i].1.gameId == gameId ==> store[i].1 in r
    ensures IsSubsequence(r, Assoc.Values(store))
  {
    FilterIsSubsequence(Assoc.Values(store), (p: StoredPrediction) => p.gameId == gameId);
    Filter(Assoc.Values(store), (p: StoredPrediction) => p.gameId == gameId)
  }

  function PredictionDate(p: StoredPrediction): real { p.predictionDate as real }

  /** `get_recent_predictions`: newest first (a stable sort), at most
      `limit` of them. */
  function RecentPredictions(store: Store, limit: int): (r: seq<StoredPrediction>)
    ensures SortedDesc(r, PredictionDate)
    ensures limit >= 0 ==> |r| == if limit <= |store| then limit else |store|
    ensures limit < 0 ==> |r| == if |store| + limit < 0 then 0 else |store| + limit
    ensures |r| <= |store|
    ensures multiset(r) <= multiset(Assoc.Values(store))
    ensures limit >= |store| ==> multiset(r) == multiset(Assoc.Values(store))
  {
    var sorted := SortDesc(Assoc.Values(store), PredictionDate);
    var r := PyTake(sorted, limit);
    PrefixSubMultiset(sorted, r);
    PrefixSortedDesc(sorted, r, PredictionDate);
    r
  }

  /** Every record the slice leaves out is no newer than any it keeps. */
  lemma RecentPredictionsAreNewest(store: Store, limit: int)
    ensures var r := RecentPredictions(store, limit);
      forall x :: x in multiset(Assoc.Values(store)) - multiset(r) ==>
        forall i :: 0 <= i < |r| ==> PredictionDate(x) <= PredictionDate(r[i])
  {
    var sorted := SortDesc(Assoc.Values(store), PredictionDate);
    var r := RecentPredictions(store, limit);
    assert r == PyTake(sorted, limit);
    assert r == sorted[..|r|];
    TakeOfSorted(sorted, |r|, PredictionDate);
  }

  datatype AccuracyStats = AccuracyStats(total: nat, correct: nat, incorrect: nat, accuracy: real, pending: Option<nat>)

  predicate IsResolved(p: StoredPrediction) { p.outcome != Pending }
  predicate IsCorrect(p: StoredPrediction) { p.outcome == Correct }
  predicate IsIncorrect(p: StoredPrediction) { p.outcome == Incorrect }
  predicate IsPending(p: StoredPrediction) { p.outcome == Pending }

  /** A truthy sport filter: present and non-empty. */
  predicate FiltersSport(sport: Option<string>) { sport.Some? && sport.value != "" }

  /** The resolved predictions the statistics count. */
  function Counted(store: Store, sport: Option<string>): (r: seq<StoredPrediction>)
    ensures forall i :: 0 <= i < |r| ==> r[i].outcome != Pending
    ensures FiltersSport(sport) ==> forall i :: 0 <= i < |r| ==> r[i].sport == sport.value
  {
    var resolved := Filter(Assoc.Values(store), IsResolved);
    if FiltersSport(sport) then Filter(resolved, (p: StoredPrediction) => p.sport == sport.value) else resolved
  }

  /** Among resolved records every one is either correct or incorrect. */
  lemma {:induction false} ResolvedSplit(s: seq<StoredPrediction>)
    requires forall i :: 0 <= i < |s| ==> s[i].outcome != Pending
    ensures Count(s, IsCorrect) + Count(s, IsIncorrect) == |s|
    decreases |s|
  {
    if |s| > 0 {
      ResolvedSplit(s[1..]);
    }
  }

  lemma FractionOfCount(part: nat, whole: nat)
    requires 0 < whole && part <= whole
    ensures 0.0 <= part as real / whole as real <= 1.0
  {
    DivMonotone(part as real, whole as real, whole as real);
    DivMonotone(0.0, part as real, whole as real);
  }

  /** `get_accuracy_stats`: pending predictions are left out of the totals,
      and the pending count, present only when something was counted,
      ignores the sport filter. */
  function AccuracyStatsOf(store: Store, sport: Option<string>): (r: AccuracyStats)
    ensures r.total == |Counted(store, sport)|
    ensures r.total == r.correct + r.incorrect
    ensures 0.0 <= r.accuracy <= 1.0
    ensures r.total == 0 ==> r == AccuracyStats(0, 0, 0, 0.0, None)
    ensures r.total > 0 ==> r.accuracy == r.correct as real / r.total as real && r.pending.Some?
    ensures r.total > 0 ==>
      r.correct == Count(Counted(store, sport), IsCorrect)
      && r.incorrect == Count(Counted(store, sport), IsIncorrect)
      && r.pending == Some(Count(Assoc.Values(store), IsPending))
  {
    var counted := Counted(store, sport);
    if |counted| == 0 then AccuracyStats(0, 0, 0, 0.0, None)
    else
      var correct := Count(counted, IsCorrect);
      var incorrect := Count(counted, IsIncorrect);
      ResolvedSplit(counted);
      var total := |counted|;
      var accuracy := correct as real / total as real;
      FractionOfCount(correct, total);
      AccuracyStats(total, correct, incorrect, accuracy, Some(Count(Assoc.Values(store), IsPending)))
  }

  /** The pending count is the same whichever sport is asked about. */
  lemma PendingIgnoresSport(store: Store, sport1: Option<string>, sport2: Option<string>)
    requires |Counted(store, sport1)| > 0 && |Counted(store, sport2)| > 0
    ensures AccuracyStatsOf(store, sport1).pending == AccuracyStatsOf(store, sport2).pending
  {
  }

  /** Without a sport filter the statistics count the whole store: the
      resolved, the correct and the incorrect records. */
  lemma UnfilteredCounts(store: Store)
    ensures var r := AccuracyStatsOf(store, None); var v := Assoc.Values(store);
      r.total == Count(v, IsResolved) && r.correct == Count(v, IsCorrect) && r.incorrect == Count(v, IsIncorrect)
  {
    var v := Assoc.Values(store);
    assert Counted(store, None) == Filter(v, IsResolved);
    CountIsFilterLength(v, IsResolved);
    CountFilterImplied(v, IsResolved, IsCorrect);
    CountFilterImplied(v, IsResolved, IsIncorrect);
  }

  /** Recording the result of a pending prediction adds one to the total,
      and one to the correct count exactly when the predicted winner won,
      otherwise one to the incorrect count. */
  lemma RecordingAnOutcomeCountsIt(store: Store, predictionId: string, actualWinner: string,
                                   score: Option<map<string, int>>)
    requires Assoc.Find(store, predictionId).Some? && Assoc.Find(store, predictionId).value.outcome == Pending
    ensures var p := Assoc.Find(store, predictionId).value;
      var before := AccuracyStatsOf(store, None);
      var after := AccuracyStatsOf(RecordOutcome(store, predictionId, actualWinner, score).value.0, None);
      after.total == before.total + 1
      && after.correct == before.correct + (if actualWinner == p.predictedWinner then 1 else 0)
      && after.incorrect == before.incorrect + (if actualWinner == p.predictedWinner then 0 else 1)
  {
    var p := Assoc.Find(store, predictionId).value;
    var i :| Assoc.FirstKeyAt(store, predictionId, i) && store[i].1 == p;
    var resolved := Resolve(p, actualWinner, score);
    var next := RecordOutcome(store, predictionId, actualWinner, score).value.0;
    assert next == Assoc.Put(store, predictionId, resolved);
    var v := Assoc.Values(store);
    Assoc.PutAt(store, predictionId, resolved, i);
    Assoc.ValuesUpdate(store, i, (predictionId, resolved));
    assert Assoc.Values(next) == v[i := resolved];
    assert v[i] == p;
    CountUpdate(v, i, resolved, IsResolved);
    CountUpdate(v, i, resolved, IsCorrect);
    CountUpdate(v, i, resolved, IsIncorrect);
    UnfilteredCounts(store);
    UnfilteredCounts(next);
  }
}

=== FILE: weather.dfy ===
/** The rule-based part of `WeatherAnalyzer`: `analyze_weather_impact`
    classifies wind, precipitation and temperature in that order. Each rule
    appends at most one factor and overwrites the severity, so the severity
    is that of the last rule that fired, not the worst one. The weather
    dictionary is the game predictor's record; a missing key takes the
    analyzer's default (wind 0, precipitation 0, temperature 70). */
module WeatherAnalysis {
  import opened Wrappers
  import Prediction

  datatype Overall = Neutral | NegativePassing

  datatype Severity = Low | Moderate | High

  datatype WeatherFactor =
    | VeryHighWind
    | HighWind
    | HeavyPrecipitation
    | LightPrecipitation
    | Freezing
    | ExtremeHeat

  function FactorText(f: WeatherFactor): string
  {
    match f
    case VeryHighWind => "Very high wind - major impact on passing"
    case HighWind => "High wind - moderate impact on passing"
    case HeavyPrecipitation => "Heavy precipitation - favors ground game"
    case LightPrecipitation => "Light precipitation - slight impact"
    case Freezing => "Freezing temperatures - ball handling issues"
    case ExtremeHeat => "Extreme heat - player fatigue factor"
  }

  datatype Category = WindRule | PrecipitationRule | TemperatureRule

  function CategoryOf(f: WeatherFactor): Category
  {
    match f
    case VeryHighWind | HighWind => WindRule
    case HeavyPrecipitation | LightPrecipitation => PrecipitationRule
    case Freezing | ExtremeHeat => TemperatureRule
  }

  /** The order in which the analyzer looks at the categories. */
  function Rank(c: Category): nat
  {
    match c
    case WindRule => 0
    case PrecipitationRule => 1
    case TemperatureRule => 2
  }

  datatype Analysis = Analysis(overall: Overall, factors: seq<WeatherFactor>, severity: Severity)

  function WindSpeed(w: Prediction.Weather): real { w.windSpeed.GetOr(0.0) }
  function PrecipitationOf(w: Prediction.Weather): real { w.precipitation.GetOr(0.0) }
  function Temperature(w: Prediction.Weather): real { w.temp.GetOr(70.0) }

  /** The factor each category contributes on its own, if any. */
  function WindClass(wind: real): (r: Option<WeatherFactor>)
    ensures r.Some? <==> wind > 15.0
    ensures r.Some? ==> CategoryOf(r.value) == WindRule
  {
    if wind > 25.0 then Some(VeryHighWind) else if wind > 15.0 then Some(HighWind) else None
  }

  function PrecipitationClass(p: real): (r: Option<WeatherFactor>)
    ensures r.Some? <==> p > 0.0
    ensures r.Some? ==> CategoryOf(r.value) == PrecipitationRule
  {
    if p > 0.5 then Some(HeavyPrecipitation) else if p > 0.0 then Some(LightPrecipitation) else None
  }

  function TemperatureClass(t: real): (r: Option<WeatherFactor>)
    ensures r.Some? <==> t < 32.0 || t > 90.0
    ensures r.Some? ==> CategoryOf(r.value) == TemperatureRule
  {
    if t < 32.0 then Some(Freezing) else if t > 90.0 then Some(ExtremeHeat) else None
  }

  function AsSeq(o: Option<WeatherFactor>): (r: seq<WeatherFactor>)
    ensures |r| <= 1
    ensures forall x :: x in r <==> o == Some(x)
  {
    if o.Some? then [o.value] else []
  }

  /** The severity a single factor sets when its rule fires. */
  function SeverityOf(f: WeatherFactor): Severity
  {
    match f
    case VeryHighWind | HeavyPrecipitation => High
    case _ => Moderate
  }

  /** The severity tracks the factor list: "low" while it is empty, and
      otherwise whatever the most recent factor's rule set. */
  predicate SeverityTracksLastFactor(a: Analysis)
  {
    (a.factors == [] <==> a.severity == Low)
    && (a.factors != [] ==> a.severity == SeverityOf(a.factors[|a.factors| - 1]))
  }

  /** The wind rule, applied to the initial analysis. */
  function WindStep(wind: real): (r: Analysis)
    ensures r.factors == AsSeq(WindClass(wind))
    ensures r.overall == NegativePassing <==> wind > 25.0
    ensures SeverityTracksLastFactor(r)
  {
    var impact := Analysis(Neutral, [], Low);
    if wind > 25.0 then Analysis(NegativePassing, impact.factors + [VeryHighWind], High)
    else if wind > 15.0 then impact.(factors := impact.factors + [HighWind], severity := Moderate)
    else impact
  }

  /** The precipitation rule: heavy rain turns a neutral outlook negative
      and never turns a negative one back. */
  function PrecipitationStep(impact: Analysis, precipitation: real): (r: Analysis)
    ensures r.factors == impact.factors + AsSeq(PrecipitationClass(precipitation))
    ensures r.overall == NegativePassing <==> impact.overall == NegativePassing || precipitation > 0.5
    ensures SeverityTracksLastFactor(impact) ==> SeverityTracksLastFactor(r)
  {
    if precipitation > 0.5 then
      Analysis(if impact.overall == Neutral then NegativePassing else impact.overall,
               impact.factors + [HeavyPrecipitation], High)
    else if precipitation > 0.0 then
      impact.(factors := impact.factors + [LightPrecipitation], severity := Moderate)
    else impact
  }

  /** The temperature rule; it never touches the outlook. */
  function TemperatureStep(impact: Analysis, temp: real): (r: Analysis)
    ensures r.factors == impact.factors + AsSeq(TemperatureClass(temp))
    ensures r.overall == impact.overall
    ensures SeverityTracksLastFactor(impact) ==> SeverityTracksLastFactor(r)
  {
    if temp < 32.0 then impact.(factors := impact.factors + [Freezing], severity := Moderate)
    else if temp > 90.0 then impact.(factors := impact.factors + [ExtremeHeat], severity := Moderate)
    else impact
  }

  /** `analyze_weather_impact`: the three rules in source order. */
  function AnalyzeWeatherImpact(w: Prediction.Weather): (r: Analysis)
    ensures r.overall == NegativePassing <==> WindSpeed(w) > 25.0 || PrecipitationOf(w) > 0.5
    ensures r.factors == AsSeq(WindClass(WindSpeed(w))) + AsSeq(PrecipitationClass(PrecipitationOf(w)))
                         + AsSeq(TemperatureClass(Temperature(w)))
    ensures |r.factors| <= 3
    ensures SeverityTracksLastFactor(r)
  {
    TemperatureStep(PrecipitationStep(WindStep(WindSpeed(w)), PrecipitationOf(w)), Temperature(w))
  }

  /** Three lists of at most one factor each, of ranks 0, 1 and 2, joined
      in that order, are strictly ordered by rank. */
  lemma RankedSegments(a: seq<WeatherFactor>, b: seq<WeatherFactor>, c: seq<WeatherFactor>)
    requires |a| <= 1 && |b| <= 1 && |c| <= 1
    requires forall x :: x in a ==> Rank(CategoryOf(x)) == 0
    requires forall x :: x in b ==> Rank(CategoryOf(x)) == 1
    requires forall x :: x in c ==> Rank(CategoryOf(x)) == 2
    ensures var fs := a + b + c;
      forall i, j :: 0 <= i < j < |fs| ==> Rank(CategoryOf(fs[i])) < Rank(CategoryOf(fs[j]))
  {
    var fs := a + b + c;
    forall i | 0 <= i < |fs|
      ensures Rank(CategoryOf(fs[i])) == if i < |a| then 0 else if i < |a| + |b| then 1 else 2
    {
      if i < |a| {
        assert fs[i] == a[i];
      } else if i < |a| + |b| {
        assert fs[i] == b[i - |a|];
      } else {
        assert fs[i] == c[i - |a| - |b|];
      }
    }
  }

  /** At most one factor per category, listed in the order the rules run. */
  lemma FactorsFollowRuleOrder(w: Prediction.Weather)
    ensures var fs := AnalyzeWeatherImpact(w).factors;
      forall i, j :: 0 <= i < j < |fs| ==> Rank(CategoryOf(fs[i])) < Rank(CategoryOf(fs[j]))
  {
    RankedSegments(AsSeq(WindClass(WindSpeed(w))), AsSeq(PrecipitationClass(PrecipitationOf(w))),
                   AsSeq(TemperatureClass(Temperature(w))));
  }

  /** No rule fires exactly when the result is the initial "neutral, no
      factors, low" analysis. */
  lemma CalmIffNeutral(w: Prediction.Weather)
    ensures AnalyzeWeatherImpact(w) == Analysis(Neutral, [], Low)
        <==> WindSpeed(w) <= 15.0 && PrecipitationOf(w) <= 0.0 && 32.0 <= Temperature(w) <= 90.0
  {
  }

  /** A missing key never triggers anything: the defaults are calm. */
  lemma EmptyWeatherIsNeutral()
    ensures AnalyzeWeatherImpact(Prediction.Weather(None, None, None, None)) == Analysis(Neutral, [], Low)
  {
  }

  /** Severity is last-writer-wins, not the maximum: a gale on a freezing
      day is only "moderate", although the wind alone is "high". */
  lemma SeverityIsNotMaximum()
    ensures var r := AnalyzeWeatherImpact(Prediction.Weather(Some(20.0), Some(30.0), None, None));
      r.severity == Moderate && r.overall == NegativePassing && r.factors == [VeryHighWind, Freezing]
    ensures AnalyzeWeatherImpact(Prediction.Weather(None, Some(30.0), None, None)).severity == High
  {
  }

  /** Every threshold is strict. */
  lemma ThresholdsAreStrict()
    ensures AnalyzeWeatherImpact(Prediction.Weather(None, Some(25.0), None, None)) == Analysis(Neutral, [HighWind], Moderate)
    ensures AnalyzeWeatherImpact(Prediction.Weather(None, Some(15.0), None, None)) == Analysis(Neutral, [], Low)
    ensures AnalyzeWeatherImpact(Prediction.Weather(Some(32.0), None, None, None)).factors == []
    ensures AnalyzeWeatherImpact(Prediction.Weather(Some(90.0), None, None, None)).factors == []
    ensures AnalyzeWeatherImpact(Prediction.Weather(None, None, Some(0.5), None)).overall == Neutral
  {
  }
}

=== FILE: wrappers.dfy ===
/** Option and Result, the two failure-carrying shapes the model uses for
    Python's `None` returns and raised exceptions. */
module Wrappers {

  datatype Option<+T> = None | Some(value: T) {

    /** The wrapped value, or `default` when there is none (Python's `x or d`
        for a value that is either present or missing). */
    function GetOr(default: T): T {
      match this
      case Some(v) => v
      case None => default
    }
  }

  datatype Result<+T, +E> = Success(value: T) | Failure(error: E)

  /** Python truthiness of an optional number: present and non-zero. */
  predicate Truthy(o: Option<real>) { o.Some? && o.value != 0.0 }
}
